=== FILE: README.md ===
# KnightGaming core, modelled in Dafny

KnightGaming is a gaming web platform: a catalogue of games with live Steam
player counts, user reviews with votes and flags, per-game leaderboards
with an anti-cheat heuristic and moderation, a news feed with premium
articles, Stripe subscriptions, and JWT-based accounts. This project models
the decision logic under its Express handlers, Mongoose models and
background workers. Each request or worker run is a pure function from a
store, the request and the current time `now` (milliseconds) to the new
store and the response.

Modules follow the source:

- `Common`: options and results, sequence helpers (filter, count, first
  match, descending insertion sort), `Math.round` of a quotient as
  `(2a+b) div 2b`, decimal rendering of integers, and JavaScript `trim`.
- `Validators`: the request-body validator chains and `validate`.
- `UserModel`, `ReviewModel`, `LeaderboardEntry`, `GameModel`: the
  records, their schema bounds and defaults, `isPremium`, `toJSON`,
  `helpfulRatio`, the anti-cheat check, and the player-count series.
- `Leaderboards`, `Reviews`, `Admin`, `Games`, `News`, `Auth`: the
  controllers, one function per handler.
- `AuthMiddleware`, `ErrorHandler`, `Jwt`: `authenticate`, `optionalAuth`,
  `authorize`, `requirePremium`, the error-to-response mapping and bearer
  extraction.
- `Stripe`: the subscription record transitions driven by webhook events.
- `Slugs`, `GamesWorker`, `NewsWorker`, `ReviewsWorker`,
  `PlayerCountsWorker`: the two `slugify` variants and the four background
  workers, with what they fetch from RAWG, NewsAPI and Steam as inputs.
- `Format`: the front end's `formatNumber` and `formatDate` bucketing.

A malformed id in a query or a lookup makes Mongoose throw a cast error,
which the error handler turns into its response. Handlers that look up by
id therefore answer with `ErrorHandler.CastFailure()` whenever the id is
not an ObjectId, before anything else is looked up.

Stores are sequences in insertion order, so a Mongo `findOne` is the first
match. Unique indexes are invariants that the operations are proved to
preserve. A write the index would refuse is modelled as the thrown error
the handler or worker turns into its response. Averages and ratios are
exact rationals (`real`). Hashing, signing and verification are parameters
or pre-decided inputs.

Some behaviour of the code as written is pinned down by lemmas:

- A higher re-submission to a leaderboard passes the anti-cheat check but
  stays `pending`. It therefore drops out of the public listing and the
  rank query (`Leaderboards.ResubmissionNeverVerified`).
- The error handler fixes the final status before its type-specific
  branches, so a validation or duplicate-key error still answers 500
  (`ErrorHandler.StatusIgnoresErrorKind`). A malformed id likewise answers
  500 with code `INVALID_ID` (`ErrorHandler.CastFailureAnswers500`).
- The Steam review importer files every review under one system account.
  The (game, user) unique index of reviews therefore admits at most one
  imported review per game, and later ones fail
  (`ReviewsWorker.OneImportPerGame`).

## Model

| member | source | states |
|---|---|---|
| LeaderboardEntry.NewEntry | knightgaming/backend/models/LeaderboardEntry.js:55-101 | a fresh entry is pending and active, with no anti-cheat flags and no verdict fields |
| LeaderboardEntry.FlagIf | knightgaming/backend/models/LeaderboardEntry.js:130-155 | each heuristic adds its one flag, with its kind's severity and the check time, exactly when its condition holds |
| LeaderboardEntry.KindsForShape | knightgaming/backend/models/LeaderboardEntry.js:128-156 | of the three conditions, each raises its kind of flag exactly when it holds; there are at most three flags, in the check's order, and some flag exactly when a condition holds |
| LeaderboardEntry.BuildFlags | knightgaming/backend/models/LeaderboardEntry.js:128-156 | the built list holds the kinds of the holding conditions in the check's order, each with its severity and the check time |
| LeaderboardEntry.RunAntiCheatCheck | knightgaming/backend/models/LeaderboardEntry.js:127-159 | only `antiCheatFlags` changes; the result is true iff the new list is non-empty; suspicious_score iff score > 1,000,000, score_time_mismatch iff timePlayed is truthy and < 60 with score > 10,000, suspicious_accuracy iff accuracy is truthy and > 98 |
| LeaderboardEntry.AntiCheatFlagShape | knightgaming/backend/models/LeaderboardEntry.js:128-156 | at most three flags, strictly in the order suspicious_score, score_time_mismatch, suspicious_accuracy, each with its severity and timestamp |
| LeaderboardEntry.AntiCheatReplacesFlags | knightgaming/backend/models/LeaderboardEntry.js:157 | the list is replaced and never appended to: running the check on its own output changes nothing |
| LeaderboardEntry.AntiCheatReadsScoreAndMetadata | knightgaming/backend/models/LeaderboardEntry.js:127-158 | two entries with the same score and metadata receive the same flags, whatever else differs |
| LeaderboardEntry.AntiCheatBoundaries | knightgaming/backend/models/LeaderboardEntry.js:131-146 | a timePlayed of 0 never raises score_time_mismatch, and a score of exactly 1,000,000 is not suspicious |
| Leaderboards.SubmitStatus | knightgaming/backend/controllers/leaderboardsController.js:114-199 | an unknown game answers 404, a score that is not higher 400, a submission 201, and a thrown save error 500 |
| Leaderboards.SubmitMessage | knightgaming/backend/controllers/leaderboardsController.js:192-194 | the success message says "flagged for review" exactly when the entry ends flagged |
| Leaderboards.Improve | knightgaming/backend/controllers/leaderboardsController.js:135-149 | a higher score overwrites score, metadata, proof and achievedAt (default now); player name, category, season and verdict fields stay; the entry ends pending or flagged, flagged iff the check raised a flag |
| Leaderboards.Create | knightgaming/backend/controllers/leaderboardsController.js:158-180 | a first entry records the request's key, the display name or else username, score, metadata, proof and achievedAt; it ends verified, or flagged iff the check raised a flag |
| Leaderboards.Submit | knightgaming/backend/controllers/leaderboardsController.js:100-199 | an unknown game (active or not) answers not-found with nothing changed; a submitted entry carries the request's game, user, category and score, and its season when one was sent (without one, the lookup drops the season and any season's entry may be the one improved); every non-submitted outcome leaves entries and user untouched |
| Leaderboards.SubmitExisting | knightgaming/backend/controllers/leaderboardsController.js:124-155 | for the first entry the `findOne` filter matches (any season when the request has none): a score that does not beat it is refused with nothing changed; a higher one replaces only that entry and leaves the user's counter alone |
| Leaderboards.SubmitFirst | knightgaming/backend/controllers/leaderboardsController.js:124-186 | when the filter matches no entry (for a season-less request: no entry of that game and category in any season), the submission appends exactly one entry under the request's key and raises stats.leaderboardEntries by exactly one; an empty player name fails the required-field validator with nothing changed |
| Leaderboards.SeasonlessResubmissionMeetsSeasonedEntry | knightgaming/backend/controllers/leaderboardsController.js:124-155 | a user whose only entry is a 100 in season "s1" and who submits 50 without a season is refused (400) against that entry instead of being given a second entry |
| Leaderboards.ReplaceKeepsUniqueKeys | knightgaming/backend/models/LeaderboardEntry.js:121-124 | replacing an entry by one with the same (game, user, category, season) key keeps the keys unique |
| Leaderboards.AppendKeepsUniqueKeys | knightgaming/backend/models/LeaderboardEntry.js:121-124 | appending an entry whose key is absent keeps the keys unique |
| Leaderboards.SubmitKeepsUniqueKeys | knightgaming/backend/controllers/leaderboardsController.js:123-186 | every submission keeps at most one entry per (game, user, category, season): an improvement keeps the matched entry's key, and a creation happens only when nothing matches |
| Leaderboards.UniqueKeyLookup | knightgaming/backend/controllers/leaderboardsController.js:124-129 | with a season the lookup filter is exactly the unique key, so under the index it finds the only entry with that key |
| Leaderboards.ResubmissionNeverVerified | knightgaming/backend/controllers/leaderboardsController.js:140-149 | an improved resubmission is never verified, so it is outside every public listing scope until a moderator acts |
| Leaderboards.UserRank | knightgaming/backend/controllers/leaderboardsController.js:205-239 | a game id that is not an ObjectId is answered as the cast error, and only then; otherwise there is no entry exactly when the caller has no verified active entry in scope, and a rank is for the first such entry and is one more than the number of in-scope entries scoring strictly higher |
| Leaderboards.RankAt | knightgaming/backend/controllers/leaderboardsController.js:219-251 | when the caller's first in-scope entry sits at position k, the answer is that entry, its score and rank 1 + the number of in-scope entries scoring strictly above it |
| Leaderboards.TiesShareRank | knightgaming/backend/controllers/leaderboardsController.js:236-239 | two callers whose entries score the same get the same rank |
| Leaderboards.HigherScoreBetterRank | knightgaming/backend/controllers/leaderboardsController.js:236-239 | a strictly higher score gets a strictly smaller rank |
| Leaderboards.SortByScore | knightgaming/backend/controllers/leaderboardsController.js:33 | the sort yields the same entries, ordered by descending score |
| Leaderboards.Ranks | knightgaming/backend/controllers/leaderboardsController.js:41-44 | the entry at position i of the page gets rank startRank + i |
| Leaderboards.LeaderboardPage | knightgaming/backend/controllers/leaderboardsController.js:14-57 | the page holds the in-scope entries after skipping (page-1)·limit, at most limit of them, ranked skip+1 onward; pagination reports the in-scope total and ceil(total/limit) pages |
| Leaderboards.GetLeaderboard | knightgaming/backend/controllers/leaderboardsController.js:14-57 | a game id that is not an ObjectId is thrown as the cast error, and only such an id is; any other query is answered with that page and its in-scope total |
| Leaderboards.ListingInScope | knightgaming/backend/controllers/leaderboardsController.js:19-26 | every listed entry is a stored entry that is verified, active, of the game and category, and of the season when one is given |
| Leaderboards.ListingSorted | knightgaming/backend/controllers/leaderboardsController.js:33 | listed scores never increase down the page |
| Leaderboards.AboveBeforePosition | knightgaming/backend/controllers/leaderboardsController.js:33-44 | in a list sorted by descending score, at most k entries score strictly above the one at position k |
| Leaderboards.ListingRankAtLeastTieRank | knightgaming/backend/controllers/leaderboardsController.js:41-44 | an entry's listing rank is never smaller than the tie-sharing rank of its score |
| Leaderboards.BoardAllInScope | knightgaming/backend/controllers/leaderboardsController.js:19-24 | the sample board's entries are all in scope |
| Leaderboards.BoardAlreadySorted | knightgaming/backend/controllers/leaderboardsController.js:33 | the sample board is already in descending order |
| Leaderboards.BoardGameWellFormed | knightgaming/backend/controllers/leaderboardsController.js:19-20 | the sample board's game id is a well-formed ObjectId, so its queries are cast without error |
| Leaderboards.TiedScoresListingExample | knightgaming/backend/controllers/leaderboardsController.js:41-44 | on scores 100, 90, 90, 50 the listing ranks the two 90s as 2 and 3 |
| Leaderboards.BoardCounts | knightgaming/backend/controllers/leaderboardsController.js:236-239 | on the sample board one entry scores above 90 and three above 50 |
| Leaderboards.TiedScoresRankExample | knightgaming/backend/controllers/leaderboardsController.js:236-239 | on the same board both 90s have rank 2 and the 50 has rank 4 |
| Leaderboards.DeleteEntry | knightgaming/backend/controllers/leaderboardsController.js:279-307 | a malformed id is the cast error with nothing changed; a missing id answers not-found; for the first entry with the id, its owner or an admin removes exactly that entry and anyone else is refused with nothing changed; an admin is never refused |
| Leaderboards.DeleteStatus | knightgaming/backend/controllers/leaderboardsController.js:286-310 | a missing entry answers 404, a refusal 403, a deletion 200 and a thrown error 500, each exactly |
| Leaderboards.ModeratorCannotDeleteOthers | knightgaming/backend/controllers/leaderboardsController.js:293-298 | a moderator is refused on another user's entry with a well-formed id, and nothing changes whatever the id |
| Admin.AdminStatus | knightgaming/backend/controllers/adminController.js:118-144 | an invalid value answers 400, a missing record 404, a change 200 and a thrown error (the cast error) 500, and nothing else maps to those codes |
| Admin.Verdict | knightgaming/backend/controllers/adminController.js:290-296 | a verdict sets status, verifiedBy and verifiedAt; the reason is written only on rejection and kept otherwise; nothing else changes |
| Admin.VerifyLeaderboardEntry | knightgaming/backend/controllers/adminController.js:269-304 | any status other than verified or rejected answers 400 unchanged; then a malformed id is the cast error and a missing entry 404, both unchanged; otherwise exactly the first entry with the id receives the verdict |
| Admin.ReverifyKeepsReason | knightgaming/backend/controllers/adminController.js:290-293 | verifying a previously rejected entry keeps its old rejection reason |
| Admin.VerdictIdempotent | knightgaming/backend/controllers/adminController.js:290-296 | the verdict applies whatever the prior status, and repeating it changes nothing more |
| Admin.VerdictDecidesListing | knightgaming/backend/controllers/adminController.js:290 | a verified active entry joins the listing of its own game, category and season; a rejected one leaves every listing |
| Admin.ModerateReview | knightgaming/backend/controllers/adminController.js:188-221 | a status other than approved or rejected answers 400 unchanged; then a malformed id is the cast error and a missing review 404, both unchanged; otherwise the first review with the id gets the verdict, notes, moderatedBy and moderatedAt and nothing else changes |
| Admin.ReviewVerdict | knightgaming/backend/controllers/adminController.js:195-212 | the moderation status named approved or rejected is stored as that review status, in both directions |
| Admin.ModerationKeepsOtherGames | knightgaming/backend/controllers/adminController.js:209-213 | moderating a review leaves the approved reviews of every other game as they were |
| Admin.RoleNamed | knightgaming/backend/controllers/adminController.js:118 | exactly the names user, admin and moderator are roles |
| Admin.UpdateUserRole | knightgaming/backend/controllers/adminController.js:113-144 | an unknown role name answers 400 before any lookup; then a malformed id is the cast error and a missing user 404, both unchanged; otherwise only the first matching user's role changes, to the named one |
| Admin.PendingLeaderboard | knightgaming/backend/controllers/adminController.js:230-260 | the queue counts entries that are pending or flagged, with ceil(total/limit) pages; the page holds exactly min(limit, total − skip) of them (none past the end), newest submission first, the i-th ranking at skip + i among the queue up to ties |
| Admin.QueueCountsFlaggedToo | knightgaming/backend/controllers/adminController.js:236-245 | the queue total is the number of pending entries plus the number of flagged ones |
| Admin.PendingReviews | knightgaming/backend/controllers/adminController.js:153-179 | the review queue counts pending reviews only, with ceil(total/limit) pages; the page holds exactly min(limit, total − skip) of them (none past the end), newest first, the i-th ranking at skip + i among the queue up to ties |
| Admin.Moderation | knightgaming/backend/controllers/adminController.js:26-37 | the dashboard's pendingReviews equals the review queue's total, flaggedReviews is the number of reviews whose status is flagged, and pendingLeaderboard falls short of the leaderboard queue's total by exactly the flagged entries |
| Admin.ThirdFlagMovesReviewToFlagged | knightgaming/backend/controllers/adminController.js:35-36 | the report that brings a pending review to three flags raises the dashboard's flaggedReviews by one and lowers pendingReviews by one |
| Reviews.OutcomeStatus | knightgaming/backend/controllers/reviewsController.js:123-382 | unknown game or review answers 404, a second review or second flag 409, a non-author 403, a thrown save error 500, success 201 on creation and 200 otherwise |
| Reviews.ReviewErrors | knightgaming/backend/models/Review.js:21-47 | a review has no schema error message iff it satisfies every schema bound; each failed bound contributes its message: the schema's own text for title and content, Mongoose's default wording with the path and the rejected value for rating, hoursPlayed, a missing title and each bad tag |
| Reviews.TagErrors | knightgaming/backend/models/Review.js:40-43 | the tags produce no message exactly when all are in the fixed list, and every tag outside it produces the enum message naming its value and array path |
| Reviews.ZeroRatingMessage | knightgaming/backend/models/Review.js:21-26 | a rating of 0 is reported as below the minimum of 1, with the value 0 in the message |
| Reviews.NewReview | knightgaming/backend/controllers/reviewsController.js:144-154 | the new review records the request's game, rating and trimmed text under the author, is approved and unedited, with no votes or flags, and recommends the game unless told otherwise |
| Reviews.CreateReview | knightgaming/backend/controllers/reviewsController.js:117-180 | an unknown game answers 404 and a second review by the same user 409, both unchanged; otherwise the review is stored unless the schema refuses it, the game's statistics are recomputed from its approved reviews, and the author's reviewsWritten rises by one |
| Reviews.CreateKeepsUniqueAuthors | knightgaming/backend/models/Review.js:128 | creating keeps at most one review per (game, user) |
| Reviews.CreateCountsNewReview | knightgaming/backend/controllers/reviewsController.js:157-163 | after a creation the game's reviewCount is its former number of approved reviews plus one |
| Reviews.ValidatedBodyPassesSchema | knightgaming/backend/utils/validators.js:75-85 | a body the route validators accept is stored without a schema error, since their bounds lie inside the schema's |
| Reviews.ApplyPatch | knightgaming/backend/controllers/reviewsController.js:212-221 | each supplied field replaces the stored one, absent fields stay; the review becomes edited at now and pending; id, game, author, votes, flags and moderation fields stay |
| Reviews.UpdateReview | knightgaming/backend/controllers/reviewsController.js:189-231 | a malformed id is the cast error and an unknown id answers 404, both unchanged; for the first review with the id, a non-author is refused unchanged, and the author's patched review either replaces exactly it or, when the schema refuses it, fails with its messages and nothing changed |
| Reviews.OnlyAuthorEdits | knightgaming/backend/controllers/reviewsController.js:203-209 | an edit succeeds only for the review's author, and the requester's role makes no difference |
| Reviews.EditLeavesApproval | knightgaming/backend/controllers/reviewsController.js:221 | an edited review is pending and so no longer counts among its game's approved reviews |
| Reviews.DeleteReview | knightgaming/backend/controllers/reviewsController.js:240-279 | a malformed id is the cast error and an unknown id answers 404, both unchanged; for the first review with the id, its owner or an admin removes exactly it and its game's statistics are recomputed from what remains; anyone else is refused unchanged |
| Reviews.CastVote | knightgaming/backend/controllers/reviewsController.js:302-316 | an earlier vote by the voter is overwritten in place and other votes stay; otherwise one vote is appended; afterwards the voter holds exactly the cast vote |
| Reviews.CastVoteKeepsUniqueVoters | knightgaming/backend/controllers/reviewsController.js:302-316 | voting keeps at most one vote per user |
| Reviews.CastVoteIdempotent | knightgaming/backend/controllers/reviewsController.js:307-310 | casting the same vote twice equals casting it once |
| Reviews.VoteCountsPartition | knightgaming/backend/controllers/reviewsController.js:319-320 | the helpful and not-helpful counts together equal the number of votes |
| Reviews.WithVote | knightgaming/backend/controllers/reviewsController.js:302-320 | after a vote, helpfulCount and notHelpfulCount count the votes of each value and sum to the number of votes; nothing else changes |
| Reviews.VoteReview | knightgaming/backend/controllers/reviewsController.js:288-331 | a malformed id is the cast error and an unknown id answers 404, both unchanged; otherwise exactly the first review with the id receives the vote |
| Reviews.WithFlag | knightgaming/backend/controllers/reviewsController.js:366-375 | a report adds exactly one flag, and from the third flag on the review is flagged; below three its status stays; nothing else changes |
| Reviews.FlagReview | knightgaming/backend/controllers/reviewsController.js:340-382 | a malformed id is the cast error and an unknown id answers 404, both unchanged; for the first review with the id, a repeat reporter gets 409 unchanged and anyone else adds exactly one flag to it |
| Reviews.SecondFlagRefused | knightgaming/backend/controllers/reviewsController.js:354-364 | reporting the same review twice is refused the second time |
| ReviewModel.HelpfulRatio | knightgaming/backend/models/Review.js:131-134 | the ratio is 0 without votes and otherwise times the number of votes gives the helpful count; it lies in [0, 1] and is 1 exactly when every vote is helpful |
| ReviewModel.RecomputeStats | knightgaming/backend/controllers/reviewsController.js:264-272 | reviewCount is the number of the game's approved reviews and the average is their mean rating, or 0 when there are none |
| ReviewModel.RatingSumBounds | knightgaming/backend/models/Review.js:21-26 | the sum of n ratings each within 1..5 lies between n and 5n |
| ReviewModel.AverageIsARating | knightgaming/backend/models/Review.js:21-26 | when every stored review satisfies the schema, the recomputed average is itself within 1..5 |
| UserModel.PremiumEarlier | knightgaming/backend/models/User.js:153-157 | a user premium now was premium at every earlier time (the period end only cuts off the future) |
| UserModel.PremiumEndsAtPeriodEnd | knightgaming/backend/models/User.js:156 | at the instant currentPeriodEnd is reached the user is no longer premium (the comparison is strict) |
| UserModel.NewUser | knightgaming/backend/models/User.js:32-116 | a fresh user has the given id, username, email and verification token; role user, unverified; subscription status none and tier free with no Stripe ids; theme dark, email notifications on, news alerts off, polling every 60000 ms; no refresh tokens, zero counters, no last login, created now; and it is never premium |
| UserModel.ToJson | knightgaming/backend/models/User.js:160-168 | the JSON form keeps exactly the document's fields other than password, refreshTokens, verificationToken, resetPasswordToken and resetPasswordExpires, with their values |
| UserModel.ToJsonHidesSecrets | knightgaming/backend/models/User.js:160-168 | no sensitive field of a user survives into the JSON, while the username does and the stored document holds the password |
| UserModel.ToJsonIdempotent | knightgaming/backend/models/User.js:160-168 | stripping twice is stripping once |
| Stripe.SubStatusNamed | knightgaming/backend/models/User.js:41-45 | a status name is accepted exactly when it is one of none, active, cancelled, expired |
| Stripe.CheckoutCompleted | knightgaming/backend/services/stripeService.js:162-178 | checkout records the customer and subscription ids and sets status active and tier premium, leaving the period end, the cancellation flag and every other account field as they were |
| Stripe.CheckoutMakesPremium | knightgaming/backend/services/stripeService.js:170-173 | after checkout the account is premium at any time before a left-over period end (or always when there is none) |
| Stripe.SubscriptionUpdated | knightgaming/backend/services/stripeService.js:183-200 | an update records status, period end (seconds scaled to milliseconds) and cancellation flag; tier becomes premium only for an active status and is otherwise kept |
| Stripe.UpdateDecidesPremium | knightgaming/backend/services/stripeService.js:189-195 | after an update the account is premium exactly when the status is active and the time is before the new period end |
| Stripe.SubscriptionDeleted | knightgaming/backend/services/stripeService.js:205-217 | deletion sets status cancelled and tier free and changes nothing else |
| Stripe.DeletedIsNeverPremium | knightgaming/backend/services/stripeService.js:211-212 | after deletion the account is not premium at any time |
| Stripe.UpdateFirst | knightgaming/backend/services/stripeService.js:186 | only the first account matching the lookup may change; with no match nothing changes |
| Stripe.Dispatch | knightgaming/backend/services/stripeService.js:121-145 | the event types other than checkout and subscription created/updated/deleted leave every account unchanged |
| Stripe.UnknownCustomerChangesNothing | knightgaming/backend/services/stripeService.js:183-245 | a subscription or payment event whose customer no account carries changes nothing |
| Stripe.DeletionEventEndsPremium | knightgaming/backend/services/stripeService.js:131-133 | a deletion event removes premium access from the first account carrying its customer |
| Stripe.UpdateEventRecords | knightgaming/backend/services/stripeService.js:126-129 | a created or updated event is recorded on the first account carrying the customer, and every other account is unchanged |
| Stripe.StripeCanceledSpellingFails | knightgaming/backend/services/stripeService.js:189 | the status "canceled" is outside the account schema's enum, so the save fails for an account that exists |
| Stripe.HandleWebhook | knightgaming/backend/services/stripeService.js:102-157 | a bad signature and an event id already logged are errors that change nothing; for a new event with a valid signature, a successful dispatch is applied and logged as processed with no error, and a failed dispatch returns its error, logs the event unprocessed and leaves accounts unchanged |
| Stripe.ReplayIsRejected | knightgaming/backend/models/StripeWebhookEvent.js:9-14 | delivering a handled event again is rejected and changes neither accounts nor log |
| Stripe.PaymentEventsChangeNoAccount | knightgaming/backend/services/stripeService.js:222-245 | payment events succeed and change no account |
| Stripe.CheckoutCustomer | knightgaming/backend/services/stripeService.js:16-39 | an unknown account is an error; for the first account with the id a stored customer id is reused with nothing changed; otherwise a failing customer creation passes its error on with nothing changed, and a successful one stores the new customer id on exactly that account |
| Stripe.CheckoutReusesCustomer | knightgaming/backend/services/stripeService.js:25-39 | a second checkout by the same account reuses the customer created by the first, changes nothing and cannot fail, whatever Stripe would answer |
| Stripe.PortalCustomer | knightgaming/backend/services/stripeService.js:79-97 | the portal opens for the account's customer, and fails exactly when the account is missing or has no customer |
| Stripe.CancelSubscription | knightgaming/backend/services/stripeService.js:250-272 | a missing account, or a first matching account without a subscription id, is an error that changes nothing; with one, Stripe's error is passed on unchanged, and without an error only that account's cancellation flag is set |
| Stripe.CancelKeepsPremium | knightgaming/backend/services/stripeService.js:258-262 | scheduling the cancellation keeps a premium account premium |
| Auth.DropExpired | knightgaming/backend/controllers/authController.js:112 | a token is kept exactly when it was held and its expiry lies after now |
| Auth.Revoke | knightgaming/backend/controllers/authController.js:207-209 | a token is kept exactly when it was held and carries a different token string |
| Auth.Rotate | knightgaming/backend/controllers/authController.js:182-186 | rotation removes every copy of the presented token and appends the new one as the last entry |
| Auth.LoginTokenSurvives | knightgaming/backend/controllers/authController.js:106-112 | the token pushed at login survives the clean-up and is live |
| Auth.RotationShape | knightgaming/backend/controllers/authController.js:167-186 | rotation keeps every other stored token, expired ones included; the presented token is no longer accepted unless reissued, and the new one is |
| Auth.RevokedTokenRefused | knightgaming/backend/controllers/authController.js:205-209 | after logout the presented token is not held live |
| Auth.AccountErrors | knightgaming/backend/models/User.js:10-31 | a new account passes the schema exactly when its username has 3..30 characters and its password at least 8 |
| Auth.Register | knightgaming/backend/controllers/authController.js:15-73 | a clash by email or username answers 409 naming the email when the matched account has it; otherwise a schema failure of the trimmed username or the password is thrown as the validation error and a trimmed username already held as the duplicate-key error; the answer is 201 exactly when none of these happens, and then one new account (trimmed username, hashed password, one refresh token) is appended with the issued pair; anything else changes nothing |
| Auth.RegisterConflictPrefersEmail | knightgaming/backend/controllers/authController.js:24-30 | the first clashing account having the email gives "Email already registered", even when the username matched too |
| Auth.Login | knightgaming/backend/controllers/authController.js:78-138 | login succeeds exactly when the email is found and the password matches; success stores the new token after dropping expired ones and sets lastLogin; failure is 401 with one message and no change |
| Auth.LoginHidesAccountExistence | knightgaming/backend/controllers/authController.js:85-100 | an unknown email gets the same answer as a wrong password |
| Auth.LoginHoldsNewToken | knightgaming/backend/controllers/authController.js:106-115 | after a login the account holds the issued refresh token live |
| Auth.Refresh | knightgaming/backend/controllers/authController.js:143-196 | a missing token is 400; a token failing verification is 500; for a verified token, a missing account is 401 "User not found", an account not holding it live is 401 "Invalid or expired refresh token", and the answer is 200 exactly when the account holds it live, in which case it is rotated for a new pair |
| Auth.Logout | knightgaming/backend/controllers/authController.js:201-219 | logout always answers success; with a token and an existing account it revokes that token, otherwise nothing changes |
| Auth.PatchProfile | knightgaming/backend/controllers/authController.js:245-249 | each profile field takes the given value when present and keeps its old value otherwise |
| Auth.UpdateProfile | knightgaming/backend/controllers/authController.js:241-265 | a favoriteGames element that is not an ObjectId throws the cast error (500) before any validator runs; a bio over 500 characters is refused with no change; it succeeds exactly when neither happens, and success patches the caller's profile with the favourite games stored as the ids they cast to, or changes nothing for a missing account |
| Validators.CanonicalId | knightgaming/backend/models/User.js:60-63 | an ObjectId text casts to a well-formed id with no upper-case letter, and an already lower-case text to itself |
| Validators.CanonicalIdSameObject | knightgaming/backend/models/User.js:60-63 | casting is idempotent, and two spellings cast to the same id exactly when they agree up to letter case |
| Auth.EmptyPatchChangesNothing | knightgaming/backend/controllers/authController.js:245-249 | a patch with no fields leaves the profile equal |
| Auth.PreferenceErrors | knightgaming/backend/models/User.js:65-84 | a preferences patch passes exactly when its theme, if given, is dark or light and its polling interval, if given, lies within 30000..300000; a bad theme gives the enum message and an out-of-range interval the min or max message, in Mongoose's default wording with the path and value |
| Auth.UpdatePreferences | knightgaming/backend/controllers/authController.js:270-294 | success happens exactly when the patch passes and the account exists, and patches only that account's preferences; failure changes nothing |
| Auth.PreferencesStayInBounds | knightgaming/backend/models/User.js:79-84 | if every stored polling interval is within bounds, it stays so after an update |
| Auth.RequestPasswordReset | knightgaming/backend/controllers/authController.js:299-329 | the answer is the same success whether or not the email exists; for a known email only the token hash and an expiry one hour ahead are stored |
| Auth.ResetPassword | knightgaming/backend/controllers/authController.js:334-367 | with no account holding the token's hash unexpired the answer is 400; success needs such an account and a password of at least 8 characters, stores its hash and clears both reset fields |
| Auth.ResetTokenWorksOnce | knightgaming/backend/controllers/authController.js:353-355 | when stored reset hashes are distinct, presenting the same token again is refused |
| Auth.DeleteAccount | knightgaming/backend/controllers/authController.js:372-407 | a missing account is 404; deletion happens exactly when the password matches and removes only that account |
| AuthMiddleware.FindUser | knightgaming/backend/middleware/auth.js:27 | the lookup fails exactly when no stored account has the id, and otherwise yields a stored account with that id |
| AuthMiddleware.Authenticate | knightgaming/backend/middleware/auth.js:13-58 | a request without a bearer token is refused with 401; every refusal is 401, coded TOKEN_EXPIRED exactly for an expired token; it proceeds exactly when the token verifies and names a stored account, which it attaches |
| AuthMiddleware.RoleComesFromStore | knightgaming/backend/middleware/auth.js:27-39 | the attached account, and so the role, is the stored one with the token's user id |
| AuthMiddleware.OptionalAuth | knightgaming/backend/middleware/auth.js:63-83 | the request always proceeds, with an account attached exactly when authentication would have succeeded, and then the same one |
| AuthMiddleware.Authorize | knightgaming/backend/middleware/auth.js:88-106 | no account is 401, a role outside the list is 403, and the request proceeds exactly when the account's role is listed |
| AuthMiddleware.AdminChainAdmitsOnlyAdmins | knightgaming/backend/routes/admin.js:14-30 | the moderator-or-admin gate followed by the admin gate admits exactly admins and answers moderators with 403 |
| AuthMiddleware.RequirePremium | knightgaming/backend/middleware/auth.js:111-128 | no account is 401, a non-premium account is 403 coded PREMIUM_REQUIRED, and the request proceeds exactly for a premium account |
| AuthMiddleware.PremiumBehindOptionalAuth | knightgaming/backend/middleware/auth.js:63-128 | behind optional authentication the premium gate admits exactly requests that authenticate to a premium account |
| Jwt.ExtractToken | knightgaming/backend/utils/jwt.js:72-78 | a token is found exactly when the header starts with "Bearer ", and the header is then that prefix followed by the token |
| Jwt.ExtractTokenRoundTrip | knightgaming/backend/utils/jwt.js:74-75 | the header built from a token yields that token |
| Jwt.ExtractTokenEdges | knightgaming/backend/utils/jwt.js:72-78 | a bare "Bearer " yields the empty token, a lower-case "bearer" and a missing header yield none |
| Jwt.Verify | knightgaming/backend/utils/jwt.js:40-67 | a token is valid exactly when it decodes under the given secret and the current whole second is before its `exp`, with its payload; it is expired exactly when it decodes under that secret and the current whole second has reached its `exp` |
| Jwt.TokenPairPayloads | knightgaming/backend/utils/jwt.js:12-35 | both tokens of a pair carry the payload of user id and role; each is valid under its own secret exactly while the current whole second is before the issuing second plus its lifetime (900 s or 7 days), and never under the other |
| Jwt.Seconds | knightgaming/backend/utils/jwt.js:14-16 | the clock jsonwebtoken stamps and checks with is the millisecond time rounded down to whole seconds |
| Jwt.ExpiryInWholeSeconds | knightgaming/backend/utils/jwt.js:40-50 | an access token issued at 1,999 ms is expired at 901,500 ms, before 15 minutes of milliseconds have passed, because its `exp` is the whole second 901 |
| ErrorHandler.HandleError | knightgaming/backend/middleware/errorHandler.js:20-87 | the status is 500 when the response still says 200 and otherwise the status already set; each recognised error kind fixes the message and code, later branches winning; unrecognised errors keep their own message and code or INTERNAL_ERROR; the stack is sent exactly in development |
| ErrorHandler.StatusIgnoresErrorKind | knightgaming/backend/middleware/errorHandler.js:32-81 | two different errors on the same response get the same status |
| ErrorHandler.ValidationErrorAnswers500 | knightgaming/backend/middleware/errorHandler.js:38-43 | a validation failure thrown from a controller is answered with 500 and code VALIDATION_ERROR |
| ErrorHandler.DuplicateKeyAnswers500 | knightgaming/backend/middleware/errorHandler.js:46-51 | a duplicate-key error thrown from a controller is answered with 500 and names its field |
| ErrorHandler.CastFailureAnswers500 | knightgaming/backend/middleware/errorHandler.js:32-57 | a cast failure of a malformed id is answered with 500, code INVALID_ID and "Invalid ID format" |
| ErrorHandler.NotFound | knightgaming/backend/middleware/errorHandler.js:11-15 | an unknown route is answered 404 with "Not Found - " and the URL, code INTERNAL_ERROR |
| Validators.Check | knightgaming/backend/utils/validators.js:26-180 | a single validator reports nothing exactly when its condition holds |
| Validators.Validate | knightgaming/backend/utils/validators.js:9-21 | the request passes exactly when no validator failed; otherwise it is answered 400 with every failure listed |
| Validators.FirstLine | knightgaming/backend/utils/validators.js:40 | the part a lookahead can scan is the prefix before the first line terminator: it contains none, and the character after it is one |
| Validators.UsernameErrors | knightgaming/backend/utils/validators.js:26-31 | a username passes exactly when its trimmed form has 3..30 characters, all letters, digits or underscores; at most two messages are reported |
| Validators.PasswordErrors | knightgaming/backend/utils/validators.js:37-41 | a password passes exactly when it has at least 8 characters and a lower-case letter, an upper-case letter and a digit before its first line break |
| Validators.PasswordClassesMustPrecedeNewline | knightgaming/backend/utils/validators.js:40 | a password starting with a line break is refused whatever follows |
| Validators.StrongPasswordAccepted | knightgaming/backend/utils/validators.js:37-41 | "Passw0rd" passes |
| Validators.RegisterErrors | knightgaming/backend/utils/validators.js:25-42 | a registration passes exactly when the username and password pass and the email is valid |
| Validators.LoginErrors | knightgaming/backend/utils/validators.js:43-52 | a login passes exactly when the email is valid and the password non-empty |
| Validators.ProfileErrors | knightgaming/backend/utils/validators.js:53-64 | a profile update passes exactly when a given display name trims to at most 50 characters and a given bio to at most 500 |
| Validators.ReviewBodyErrors | knightgaming/backend/utils/validators.js:69-94 | a review passes exactly when it has a 24-hex-digit game id, an integer rating 1..5, a trimmed title of 5..100 and trimmed content of 50..5000 characters, tags absent or an array, hours absent or non-negative |
| Validators.SubmitBodyErrors | knightgaming/backend/utils/validators.js:99-117 | a score submission passes exactly when it has a game id, a numeric score, a category absent or trimming to at most 50 characters, and metadata absent or an object |
| Validators.NewsBodyErrors | knightgaming/backend/utils/validators.js:122-142 | an article passes exactly when title, summary and content have their trimmed lengths, the category is one of the seven and the image is a URL |
| Validators.SummarizeErrors | knightgaming/backend/utils/validators.js:147-156 | a summary request passes exactly when the trimmed text has 50..10000 characters and maxWords is absent or an integer 20..200 |
| Validators.TrendErrors | knightgaming/backend/utils/validators.js:157-167 | a trend request passes exactly when it has a game id and the time range is absent or one of 24h, 48h, 7d, 30d |
| Validators.PaginationErrors | knightgaming/backend/utils/validators.js:172-181 | pagination passes exactly when page is absent or an integer at least 1 and limit absent or an integer 1..100 |
| Validators.ResolvePage | knightgaming/backend/utils/validators.js:172-181 | parsed pagination has page at least 1 and limit within 1..100: page 1 and the default limit for absent ones, and otherwise the numbers the texts spell |
| Validators.CanonicalPageAccepted | knightgaming/backend/utils/validators.js:175 | the decimal digits of a positive number pass as integer text with that value |
| Validators.CanonicalQueryResolves | knightgaming/backend/utils/validators.js:172-181 | a query spelling page and limit canonically passes the validators and resolves to exactly those two numbers |
| Validators.SearchErrors | knightgaming/backend/utils/validators.js:182-188 | a search passes exactly when the query is absent or trims to 2..100 characters |
| GameModel.SamplesSince | knightgaming/backend/controllers/gamesController.js:273-276 | a sample is selected exactly when it belongs to the game and was taken at or after the start time |
| GameModel.Peak | knightgaming/backend/controllers/gamesController.js:280 | the peak is at least every sampled count and is either 0 or one of them |
| GameModel.PeakIsLargest | knightgaming/backend/controllers/gamesController.js:280 | the same bound stated over the samples themselves |
| GameModel.RoundedMean | knightgaming/backend/controllers/gamesController.js:281-283 | the average is 0 without samples and otherwise the mean count rounded half up |
| GameModel.TotalAtMostPeak | knightgaming/backend/controllers/gamesController.js:280-282 | the summed counts never exceed the number of samples times the peak |
| GameModel.RoundedMeanAtMostPeak | knightgaming/backend/controllers/gamesController.js:280-283 | the rounded average never exceeds the peak |
| GameModel.ConstantSamplesAverage | knightgaming/backend/workers/updatePlayerCounts.js:62-67 | samples that all count c sum to c per sample and average exactly c |
| Common.Limit | knightgaming/backend/controllers/gamesController.js:44 | the result is a leading part of the query result: all of it for a limit of 0, otherwise at most the limit |
| Common.SortedPage | knightgaming/backend/controllers/gamesController.js:38-46 | a sorted page has exactly min(limit, count − skip) items (none past the end), each a stored item the filter selects, keys non-increasing, and the i-th ranks at skip + i among the selection up to ties |
| Common.TopN | knightgaming/backend/controllers/gamesController.js:205-224 | a top-N list holds only stored items the filter selects, all of them for n = 0 and otherwise min(n, their number), keys non-increasing, and no selected item left out has a larger key than one kept |
| Common.SortedPosition | knightgaming/backend/controllers/gamesController.js:42 | in a list sorted by descending key, at most k items have a key strictly above the one at position k, and at least k+1 have one at least as large |
| Common.SortedSelectionRank | knightgaming/backend/controllers/gamesController.js:40-44 | the k-th item of the sorted selection has at most k selected items strictly above it and at least k+1 at or above it |
| Common.WindowRank | knightgaming/backend/controllers/gamesController.js:38-44 | the i-th item of a page window ranks at skip + i among the selection, up to ties |
| Common.PrefixDominates | knightgaming/backend/controllers/gamesController.js:212-213 | in a list sorted by descending key, an item outside its leading part never has a larger key than one inside |
| Common.TopDominates | knightgaming/backend/controllers/gamesController.js:208-213 | no selected item left out of a top-n list has a larger key than a listed one |
| Common.NumberText | knightgaming/backend/models/Review.js:21-26 | a whole number is written as its plain integer digits, with a minus sign when negative; any other number carries a decimal point |
| Common.FractionTextExamples | knightgaming/backend/models/Review.js:21-26 | 0.5, -1.25 and -3 are written 0.5, -1.25 and -3, as JavaScript writes them |
| Games.GetGames | knightgaming/backend/controllers/gamesController.js:14-64 | total counts every game the filters select (active; genre, platform; featured and trending only for the literal "true"; a non-empty `search` keeps what the text index matches) and pages is its ceiling over the limit; the page holds exactly min(limit, total − skip) games (none past the end), each a selected stored game, in descending current-player order, the i-th ranking at skip + i among the selection up to ties |
| Games.InactiveNeverListed | knightgaming/backend/controllers/gamesController.js:27 | an inactive game is never listed |
| Games.SearchNarrowsListing | knightgaming/backend/controllers/gamesController.js:34-36 | the `$text` search only removes games from the listing and its count, and an empty search string removes none |
| Games.OnlyLiteralTrueFilters | knightgaming/backend/controllers/gamesController.js:32-33 | featured and trending values other than the literal "true" select exactly what no value selects |
| Games.FeaturedFilterSelectsFeatured | knightgaming/backend/controllers/gamesController.js:32 | the featured filter removes exactly the non-featured games from the selection |
| Games.FindGame | knightgaming/backend/controllers/gamesController.js:74-79 | a lookup returns a stored game the parameter names, and fails exactly when no game is named by it |
| Games.NonHexParameterIsSlug | knightgaming/backend/controllers/gamesController.js:76-77 | a parameter that is not 24 hexadecimal characters finds a game exactly when some slug equals it, and the game found has that slug |
| Games.HexParameterFindsId | knightgaming/backend/controllers/gamesController.js:76 | a 24-hex parameter finds the game with that id when no earlier game has it as id or slug |
| Games.LookupStatus | knightgaming/backend/controllers/gamesController.js:81-91 | the answer is 404 exactly when no game is found and 200 exactly when one is |
| Games.HistoryHours | knightgaming/backend/controllers/gamesController.js:160-175 | the window is 24, 48, 168 or 720 hours, and an unknown range falls back to 24 |
| Games.HistoryRangesNested | knightgaming/backend/controllers/gamesController.js:160-172 | 24h, 48h, 7d and 30d map to 24, 48, 168 and 720 hours, strictly increasing |
| Games.PlayerCountHistory | knightgaming/backend/controllers/gamesController.js:178-183 | the history holds exactly the game's samples inside the window, oldest first |
| Games.HourlyFromCovers | knightgaming/backend/controllers/gamesController.js:289-302 | the breakdown from an hour on lists exactly the sampled hours from there on |
| Games.HourlyAverage | knightgaming/backend/controllers/gamesController.js:299-302 | the hourly breakdown is in strictly ascending hour order and each entry is the rounded mean of that hour's samples |
| Games.HourlyListsSampledHours | knightgaming/backend/controllers/gamesController.js:288-302 | the breakdown has an entry for an hour exactly when that hour was sampled |
| Games.GetGameStats | knightgaming/backend/controllers/gamesController.js:253-312 | an unknown game is 404; otherwise current and all-time peak come from the game, and the hourly breakdown is present exactly for a premium account |
| Games.StatsSummarizeLastDay | knightgaming/backend/controllers/gamesController.js:272-302 | the 24-hour peak bounds every count of the last day and is one of them or 0; the average is 0 without samples and otherwise the rounded mean; the breakdown is that of the same samples |
| Games.StatsAverageAtMostPeak | knightgaming/backend/controllers/gamesController.js:280-283 | the 24-hour average never exceeds the 24-hour peak |
| Games.StatsWindowIsDayHistory | knightgaming/backend/controllers/gamesController.js:161-162 | the statistics cover the same samples as the default 24-hour history |
| Games.TrendingGames | knightgaming/backend/controllers/gamesController.js:205-224 | active trending stored games, most current players first: all of them for a limit of 0 and otherwise min(|limit|, their number); no trending game left out has more current players than one listed |
| Games.FeaturedGames | knightgaming/backend/controllers/gamesController.js:229-248 | active featured stored games, best rated first: all of them for a limit of 0 and otherwise min(|limit|, their number); no featured game left out is rated above one listed |
| Games.SearchStatus | knightgaming/backend/controllers/gamesController.js:321-345 | a search is answered 400 exactly when the query was refused, 500 exactly when the database threw on the pattern, and 200 otherwise |
| Games.SearchGames | knightgaming/backend/controllers/gamesController.js:317-345 | a missing query or one under 2 characters is refused; a longer one that is not a valid regular expression throws the database's error, and only such a query does; results are active matching stored games, a leading part of them in store order: all for a limit of 0 and otherwise min(|limit|, their number) |
| Games.SearchGuardBehindValidator | knightgaming/backend/utils/validators.js:182-188 | behind the search validator the controller's guard refuses exactly the requests with no query |
| News.TierFor | knightgaming/backend/controllers/newsController.js:36-40 | a reader who is not premium is held to free articles; a premium reader gets premium-only articles for the literal "true" and both tiers otherwise |
| News.NewsPage | knightgaming/backend/controllers/newsController.js:20-70 | total counts every published article the filters (category, tag, game, and a non-empty `search` through the text index) and tier select, pages is its ceiling over the limit; the page holds exactly min(limit, total − skip) selected stored articles (none past the end), newest first, the i-th ranking at skip + i among the selection up to ties |
| News.NewsSearchNarrowsListing | knightgaming/backend/controllers/newsController.js:31-33 | the `$text` search only removes articles from the listing and its count, and an empty search string removes none |
| News.GetNews | knightgaming/backend/controllers/newsController.js:13-70 | a truthy gameId that is not an ObjectId is thrown as the cast error, and only such a query is; any other is answered with that page |
| News.ListingHidesPremiumFromOthers | knightgaming/backend/controllers/newsController.js:25-40 | every listed article is published, and a reader who is not premium never sees a premium one |
| News.PremiumReaderChoosesTier | knightgaming/backend/controllers/newsController.js:36-40 | a premium reader asking for premium gets only premium articles, and without asking is counted every selected article of either tier |
| News.ArticleStatusCode | knightgaming/backend/controllers/newsController.js:89-113 | the answer is 404 for a missing article, 403 for a premium refusal and 200 for a shown one, and nothing else |
| News.GetArticle | knightgaming/backend/controllers/newsController.js:75-117 | not found exactly when no published article is named by the parameter; a shown article is a stored published one it names |
| News.PremiumArticleNeedsPremiumReader | knightgaming/backend/controllers/newsController.js:97-103 | the first named premium article is shown to a premium reader and refused with 403 to anyone else |
| News.FreeArticleShownToAll | knightgaming/backend/controllers/newsController.js:97-113 | the first named free article is shown to every reader, signed in or not |
| News.UnpublishedNeverShown | knightgaming/backend/controllers/newsController.js:84 | with no published article nothing is ever found |
| News.Headlines | knightgaming/backend/controllers/newsController.js:122-153 | free published stored articles, newest first: all of them for a limit of 0 and otherwise min(|limit|, their number); no article left out is newer than one listed |
| News.ShareFractionMonotone | knightgaming/backend/controllers/newsController.js:169 | the shares' part of the trending key lies in [0, 1) and orders as the shares do |
| News.PopularityIsLexicographic | knightgaming/backend/controllers/newsController.js:169 | ordering by the single key is ordering by views, then by shares |
| News.TrendingNews | knightgaming/backend/controllers/newsController.js:158-180 | free published stored articles of the last 7 days by views then shares descending: all of them for a limit of 0 and otherwise min(|limit|, their number); none left out beats a listed one on views, then shares |
| News.GameNews | knightgaming/backend/controllers/newsController.js:185-206 | a game id that is not an ObjectId is thrown as the cast error, and only such an id is; otherwise free published stored articles about the game, newest first: all of them for a limit of 0 and otherwise min(|limit|, their number), none left out newer than one listed |
| News.CategoriesMatchValidator | knightgaming/backend/controllers/newsController.js:211-230 | the endpoint lists seven distinct categories, exactly those the article validator accepts |
| News.BumpArticle | knightgaming/backend/controllers/newsController.js:253-306 | a malformed id reaches the error handler with 500 and no change; an unknown id is 404 with no change; for a well-formed id the first article with it (any status) gets exactly its like or share counter raised by one, and the new count is returned |
| News.LikeTouchesOnlyLikes | knightgaming/backend/controllers/newsController.js:257-261 | a like changes only the liked article's like count |
| News.ShareTouchesOnlyShares | knightgaming/backend/controllers/newsController.js:286-302 | a share changes only the shared article's share count and answers the new count |
| News.TwoLikesAddTwo | knightgaming/backend/controllers/newsController.js:257-261 | liking twice adds two likes |
| Slugs.Lower | knightgaming/backend/workers/updateGames.js:18 | lower-casing keeps the length and maps each character on its own |
| Slugs.DropWhile | knightgaming/backend/workers/updateGames.js:20 | dropping a leading run leaves a suffix that starts outside the run, after a prefix entirely inside it |
| Slugs.Squeeze | knightgaming/backend/workers/updateGames.js:20-22 | collapsing runs never lengthens the text, keeps it empty exactly when it was, and turns a leading run into one '-' |
| Slugs.SqueezeChars | knightgaming/backend/workers/updateGames.js:20-22 | every non-dash character of a collapsed text came from the text and lies outside the run |
| Slugs.Slugify | knightgaming/backend/workers/updateGames.js:15-23 | a slug is never longer than its text, and its characters other than '-' are word characters |
| Slugs.SlugifyCapped | knightgaming/backend/workers/updateNews.js:13-22 | the news slug body is a prefix of the games worker's slug of at most 100 characters |
| Slugs.SqueezeDashesNoDoubleDash | knightgaming/backend/workers/updateGames.js:22 | after collapsing dash runs no two dashes are adjacent |
| Slugs.SlugCharOrigin | knightgaming/backend/workers/updateGames.js:16-22 | every character of a slug other than '-' is a lower-case letter, a digit or '_' |
| Slugs.SlugifyShape | knightgaming/backend/workers/updateGames.js:15-23 | a slug contains only lower-case letters, digits, '_' and '-', and never two dashes in a row |
| Slugs.SlugifyCappedShape | knightgaming/backend/workers/updateNews.js:13-22 | the news slug body has that shape, at most 100 characters, and is a prefix of the uncut slug |
| Slugs.NewsSlugParts | knightgaming/backend/workers/updateNews.js:55 | a stored news slug is a slug body of at most 100 characters, a '-' and the creation time's digits |
| Slugs.SlugifyFixesSlugs | knightgaming/backend/workers/updateGames.js:15-23 | a text already shaped as a slug is its own slug |
| Slugs.SlugifyIdempotent | knightgaming/backend/workers/updateGames.js:15-23 | slugifying a slug changes nothing |
| Slugs.SlugifyCappedIdempotent | knightgaming/backend/workers/updateNews.js:13-22 | the same holds for the news worker's cut slug |
| Slugs.SpaceRunBecomesDash | knightgaming/backend/workers/updateGames.js:20 | a run of whitespace between other characters becomes exactly one '-' |
| Slugs.SurroundingWhitespaceIgnored | knightgaming/backend/workers/updateGames.js:19 | whitespace around a title does not change its slug |
| Slugs.BlankTitle | knightgaming/backend/workers/updateGames.js:16-22 | an all-whitespace title has the empty slug |
| Slugs.WordsJoinedByDash | knightgaming/backend/workers/updateGames.js:15-23 | two words of slug characters separated by whitespace become the lower-cased words joined by one '-' |
| GamesWorker.OrNone | knightgaming/backend/workers/updateGames.js:60 | the first value is taken when it is truthy and the fallback otherwise |
| GamesWorker.GameDataOf | knightgaming/backend/workers/updateGames.js:48-72 | the record carries the RAWG id and the slug of the name (slug-shaped), a description prefix of at most 300 characters or '', at most ten leading tags, the fallback background image, rating 0 when RAWG gives none, and the run's time |
| GamesWorker.Refresh | knightgaming/backend/workers/updateGames.js:74-77 | an update overwrites the RAWG fields and sets trending, keeping id, Steam app id, featured, activity, player counts and review figures |
| GamesWorker.Fresh | knightgaming/backend/workers/updateGames.js:78-81 | a new game is active, trending, not featured, with zero counts and the run's time |
| GamesWorker.UpdateAt | knightgaming/backend/models/Game.js:31-33 | the update fails exactly when another game holds its slug, and then changes nothing; otherwise only that game is refreshed; unique slugs stay unique |
| GamesWorker.CreateWith | knightgaming/backend/models/Game.js:25-59 | a creation the validators or the slug index refuse fails and changes nothing; otherwise one new game is appended; unique slugs stay unique |
| GamesWorker.ProcessOne | knightgaming/backend/workers/updateGames.js:39-90 | a missing result or an error fails with no change; a creation appends one game, an update keeps the count; unique slugs stay unique |
| GamesWorker.KnownGameRefreshed | knightgaming/backend/workers/updateGames.js:51-77 | a game stored under the RAWG id is refreshed in place (the first such); the step fails exactly when another game holds the slug of the fetched name; it is never duplicated |
| GamesWorker.UnknownGameCreated | knightgaming/backend/workers/updateGames.js:78-81 | an unknown game is appended with the schema defaults, and the step fails exactly when the validators or the slug index refuse it |
| GamesWorker.RunFetches | knightgaming/backend/workers/updateGames.js:38-91 | each fetched game adds exactly one to created, updated or failed, the counters never fall, the collection grows by the creations, and unique slugs stay unique |
| GamesWorker.Unflag | knightgaming/backend/workers/updateGames.js:94-102 | a game stays trending exactly when it was trending and its metadata is at most a day old; nothing else changes |
| GamesWorker.ExpireTrending | knightgaming/backend/workers/updateGames.js:94-102 | the expiry applies that rule to every game and keeps the count |
| GamesWorker.EveryGameCountedOnce | knightgaming/backend/workers/updateGames.js:34-104 | after a run the three counters add up to the number of trending games fetched, and the collection grows by the creations |
| GamesWorker.ExpiryKeepsSlugs | knightgaming/backend/models/Game.js:31-33 | expiring the flag keeps slugs unique |
| GamesWorker.NoStaleTrendingAfterRun | knightgaming/backend/workers/updateGames.js:93-102 | after a run no game is trending on metadata older than a day, and slugs are still unique |
| GamesWorker.ExpireTrendingIdempotent | knightgaming/backend/workers/updateGames.js:94-102 | expiring twice is expiring once |
| GamesWorker.RefreshedGameStaysTrending | knightgaming/backend/workers/updateGames.js:70-71 | a game refreshed by the run keeps its trending flag through the expiry |
| NewsWorker.NewArticle | knightgaming/backend/workers/updateNews.js:55-73 | an imported article has the trimmed title, the description as summary, the content or else the description, the author or else the source, the timestamped slug, category news with tags gaming and news, published and free, zero counters, and records its source URL |
| NewsWorker.ImportOne | knightgaming/backend/workers/updateNews.js:37-79 | an article without image, title or description, or one whose URL was already imported, is skipped; a complete new article errors exactly when the save validators refuse it or its slug is taken; only a creation changes the store, appending exactly the new article; imports and slugs stay unique |
| NewsWorker.ImportAll | knightgaming/backend/workers/updateNews.js:36-80 | each fetched article lands in exactly one of created, skipped, errored; the counters never fall; the store only grows, by the creations; imports and slugs stay unique |
| NewsWorker.UpdateNews | knightgaming/backend/workers/updateNews.js:33-82 | every fetched article is counted once as created, skipped or errored, so the two reported counters never exceed the articles fetched; the store grows by the creations only, keeping its prefix, and imports and slugs stay unique |
| NewsWorker.CoveredStays | knightgaming/backend/workers/updateNews.js:44-53 | an article covered by the store stays covered as the store grows |
| NewsWorker.StepCovers | knightgaming/backend/workers/updateNews.js:39-75 | after a step that did not error the article is incomplete or imported |
| NewsWorker.CleanRunCoversAll | knightgaming/backend/workers/updateNews.js:36-80 | after a run without save errors every fetched article is incomplete or imported |
| NewsWorker.CoveredRunIsNoOp | knightgaming/backend/workers/updateNews.js:39-53 | a run over covered articles changes nothing and skips them all |
| NewsWorker.RerunCreatesNothing | knightgaming/backend/workers/updateNews.js:44-53 | running the import again after a clean run creates nothing and skips every article |
| ReviewsWorker.DerivedRating | knightgaming/backend/workers/updateReviews.js:63-68 | a review that does not recommend rates 2; one that recommends rates 5 exactly when the playtime exceeds 1000 minutes and 4 otherwise |
| ReviewsWorker.DerivedRatingValues | knightgaming/backend/workers/updateReviews.js:63-68 | derived ratings are 2, 4 or 5, inside the schema's 1..5 |
| ReviewsWorker.HoursPlayed | knightgaming/backend/workers/updateReviews.js:77 | the hours are the playtime in minutes divided by 60, rounded half up |
| ReviewsWorker.WholeHoursExact | knightgaming/backend/workers/updateReviews.js:77 | a playtime of whole hours is reported exactly |
| ReviewsWorker.SteamToReview | knightgaming/backend/workers/updateReviews.js:71-82 | the stored review belongs to the game and the system account, records the Steam author, has the derived rating and hours, the title Recommended or Not Recommended, the trimmed text, and is approved with no votes or flags |
| ReviewsWorker.ImportOne | knightgaming/backend/workers/updateReviews.js:50-88 | a review whose author is already imported for the game is skipped; otherwise it fails exactly when the schema or the one-review-per-user index refuses it; only an import changes the store, appending the converted review; both uniqueness rules are kept |
| ReviewsWorker.ImportAll | knightgaming/backend/workers/updateReviews.js:49-89 | the counters never fall and rise by at most the reviews fetched; the store grows by the imports only, keeping its prefix and both uniqueness rules |
| ReviewsWorker.OneImportPerGame | knightgaming/backend/models/Review.js:128 | once the system account has a review of a game, no further Steam review of that game is imported |
| ReviewsWorker.StoreStats | knightgaming/backend/workers/updateReviews.js:91-109 | only the visited game changes, and only its review count and average, which become those recomputed from the reviews |
| ReviewsWorker.Candidates | knightgaming/backend/workers/updateReviews.js:20-26 | at most 20 stored games are visited, each active with a Steam app id and fewer than 10 reviews, all of them when they fit |
| ReviewsWorker.ProcessGame | knightgaming/backend/workers/updateReviews.js:45-116 | a game whose Steam call threw is left alone; otherwise its reviews are imported and its statistics recomputed from the grown store |
| ReviewsWorker.ProcessGames | knightgaming/backend/workers/updateReviews.js:45-117 | the outer loop keeps the game count and both uniqueness rules; the import counter never falls, and the reviews grow by exactly the imports, keeping their prefix |
| ReviewsWorker.SystemAccount | knightgaming/backend/workers/updateReviews.js:34-43 | an account with the system email is reused; otherwise a verified user-role account with the system name and email is appended, and the run stops exactly when the name is taken or the password is under 8 characters; the account returned is stored and has the system email |
| ReviewsWorker.SystemAccountCreatedOnce | knightgaming/backend/workers/updateReviews.js:34-35 | a second run reuses the account the first one found or created |
| ReviewsWorker.UpdateReviews | knightgaming/backend/workers/updateReviews.js:15-123 | the run stops exactly when the system account cannot be created; otherwise a system-email account is stored, the games keep their number, the reviews grow by exactly the imports keeping their prefix, and both uniqueness rules are kept |
| ReviewsWorker.StoredStatsMatchReviews | knightgaming/backend/workers/updateReviews.js:92-109 | after a game's turn its review count is the number of its approved reviews and its average their mean rating, or 0 without any |
| PlayerCountsWorker.Record | knightgaming/backend/workers/updatePlayerCounts.js:45-67 | a successful reading sets the current count and the update time, raises the peak only when the reading exceeds it, and changes nothing else but the average |
| PlayerCountsWorker.UpdateOne | knightgaming/backend/workers/updatePlayerCounts.js:33-75 | a null or failed reading only adds one to the failed tally; a count appends one time-series sample for the game and records it, adding one to the updated tally |
| PlayerCountsWorker.UpdateFrom | knightgaming/backend/workers/updatePlayerCounts.js:31-84 | the loop keeps the games already visited and the list length, only appends samples, one per game counted as updated, and never lowers a tally |
| PlayerCountsWorker.UpdatePlayerCounts | knightgaming/backend/workers/updatePlayerCounts.js:15-92 | a run keeps every game in place and only appends to the time series |
| PlayerCountsWorker.TrackedKept | knightgaming/backend/workers/updatePlayerCounts.js:20-23 | recording a count keeps a game's id and whether it is active with a Steam app id |
| PlayerCountsWorker.EveryTrackedGameCounted | knightgaming/backend/workers/updatePlayerCounts.js:27-84 | from any position on, each active game with a Steam app id adds exactly one to updated or failed |
| PlayerCountsWorker.RunCountsTrackedGames | knightgaming/backend/workers/updatePlayerCounts.js:25-86 | the reported updated and failed counts add up to the number of games selected |
| PlayerCountsWorker.AverageOverWindow | knightgaming/backend/workers/updatePlayerCounts.js:56-67 | the sample just stored lies in the 24-hour window, so the average is always the rounded mean of that window and never above its largest count |
| PlayerCountsWorker.SteadyCountAverage | knightgaming/backend/workers/updatePlayerCounts.js:62-67 | a game read at one count throughout averages exactly that count |
| PlayerCountsWorker.UntrackedUntouched | knightgaming/backend/workers/updatePlayerCounts.js:20-23 | inactive games and games without a Steam app id come out of a run unchanged |
| PlayerCountsWorker.UpdateOneKeepsIds | knightgaming/backend/workers/updatePlayerCounts.js:69 | updating one game by id keeps every game's id, so ids stay distinct |
| PlayerCountsWorker.FailedReadingUntouched | knightgaming/backend/workers/updatePlayerCounts.js:72-83 | a game whose reading was null or threw comes out of the run unchanged |
| PlayerCountsWorker.PeaksNeverFall | knightgaming/backend/workers/updatePlayerCounts.js:51-53 | over a run no game's peak falls and every game keeps its id |
| Format.InsertCommas | knightgaming/frontend/public/js/app.js:8 | inserting the regular expression's commas never shortens the text from the scan position on |
| Format.FormatNumber | knightgaming/frontend/public/js/app.js:7-9 | the formatted number is at least as long as the number's plain decimal text |
| Format.RemoveInsertedCommas | knightgaming/frontend/public/js/app.js:8 | deleting the commas from the insertion's output gives back the scanned text exactly |
| Format.FormatNumberRoundTrip | knightgaming/frontend/public/js/app.js:7-9 | removing the commas from a formatted integer gives its plain decimal text |
| Format.CommaPositions | knightgaming/frontend/public/js/app.js:8 | in a run of digits a comma goes before a position exactly when it is not the first and a multiple of three digits follows it |
| Format.InsertCommasSuffix | knightgaming/frontend/public/js/app.js:8 | on digits, the lookahead-based insertion equals the insertion by position |
| Format.ConcatGroupsIsGrouped | knightgaming/frontend/public/js/app.js:8 | the positional insertion is a first group of one to three digits followed by comma-led groups of three |
| Format.NoCommasInShort | knightgaming/frontend/public/js/app.js:8 | fewer than four remaining digits get no comma |
| Format.NonNegativeGrouped | knightgaming/frontend/public/js/app.js:7-9 | a non-negative integer is formatted as its digits grouped in threes from the right |
| Format.NegativeFormatted | knightgaming/frontend/public/js/app.js:7-9 | a negative integer is its magnitude's formatting behind a minus sign, with no comma right after the sign |
| Format.SmallUnchanged | knightgaming/frontend/public/js/app.js:7-9 | integers of magnitude below 1000 come back as their plain decimal text |
| Format.Bucket | knightgaming/frontend/public/js/app.js:15-28 | the minute, hour or day count reported is the floor of the difference in that unit |
| Format.BucketThresholds | knightgaming/frontend/public/js/app.js:20-28 | under an hour gives minutes, under a day hours, under seven days days, and older a calendar date, each in both directions |
| Format.FormatDate | knightgaming/frontend/public/js/app.js:12-28 | the text is the floored count followed by " minutes ago", " hours ago" or " days ago" for under an hour, a day or a week, and the locale date for a week or more |

## Left out

- I/O and infrastructure: MongoDB and Redis connections, caching and cache flushes, logging, the rate-limit sleeps of the workers, and the HTTP calls to Steam, RAWG, NewsAPI and Stripe. What those calls return is an input to the model.
- Cryptography: bcrypt hashing and comparison, JWT signing and signature checks, and the reset-token hash. Each is a parameter or an input that is already decided. The bcrypt hash of the system account's random password is taken as given.
- Library validators: `isEmail`, `normalizeEmail` and `isURL` are predicates passed as parameters, and `sanitizeHtml` is taken as already applied. `isMongoId` is modelled only as 24 hexadecimal digits.
- Character lengths: these count the code points of the model's strings, not JavaScript's UTF-16 code units. Lower-casing covers ASCII letters only.
- Floating point: numeric request fields are integers or exact rationals. NaN dates and non-integer `formatNumber` inputs are not modelled.
- Leaderboard seasons: season values are stored and compared as given, with no season rollover. A submission without a season follows Mongoose's dropping of undefined filter keys (it matches every season); no other Mongoose query option is modelled. Ties in a ranking keep the store's order.
- Submitting to a leaderboard does not check `isActive` of the board, as in the handlers. Cached statistics may go stale between recomputations, and this is not modelled either.
- Stripe.CheckoutCustomer: models the customer part of `createCheckoutSession` only. The session creation (price, URLs, metadata) and a failure of it after the customer has been saved are not modelled.
- Admin operations not modelled: `getUsers`, the news create/update/delete handlers, the webhook-log listing and `flushCache`. They are store reads and writes with no decision logic of their own. The dashboard models only the moderation counts.
- Games.GetGames and News.NewsPage: which documents a `$text` search matches (Mongo's tokenising, stemming and stop words) is an input of the query, `TextSearch.hits`. The text score is not used, because both listings sort by their own key.
- Games.SearchGames: the case-insensitive `$regex` match and whether the database compiles the pattern are inputs (`matches`, `regexError`).
- Game lookups: the `sort` query parameter, `incrementViews`, `getTags`, `getGenres`, `getPlatforms` and the response shaping of `getPlayerCount` are not modelled.
- Listings that only shape data: `getProfile`'s population of related documents, `getUserEntries`, `getCategories`, `getGameReviews`, `getUserReviews` and `getReview`. They filter and page with the same helpers as the modelled listings.
- The hour of a sample is the local hour, given as an input. `formatDate`'s `toLocaleDateString` is a string parameter.
- The top-N routes (`getTrendingGames`, `getFeaturedGames`, `searchGames`, `getHeadlines`, `getTrendingNews`, `getGameNews`) run no validator on `limit`. The model takes a limit of 0 as no limit and a negative one as its magnitude, as Mongo's `limit` does. A `limit` that `parseInt` turns into NaN is not modelled.
- Id casts: an id is cast exactly when it is 24 hexadecimal digits. A 12-character string, which the driver would also accept, is modelled as malformed. Stored ids are compared with a path or query id as written: the cast would lower an upper-case spelling such as `ABC…` to the stored `abc…`, but the model's lookups (games, news, reviews, leaderboard entries, users) answer it as not found; only `updateProfile`'s favourite games are stored in their cast, lower-case form. The casts in `getUserEntries` and `getCategories` are not modelled, because those listings are not.
- Common.NumberText: renders at most 20 fractional digits and never the exponent form. It writes the exact decimal of a rational, not the shortest digits of the nearest double.
- Format.FormatNumber: takes an unbounded integer. JavaScript's `toString` writes a magnitude of 10^21 or more in exponent form ("1e+21"), where the regular expression finds no run of three digits to split, and loses integer precision above 2^53; the model groups the exact decimal digits instead.
- Jwt.TokenPairPayloads: the lifetimes are the defaults '15m' and '7d'. `JWT_EXPIRES_IN` and `JWT_REFRESH_EXPIRES_IN` from the environment, which override them, are not modelled.
- Reviews.VoteReview: takes `isHelpful` as a boolean. The route runs no validator on it. A missing value is stored as undefined and counts as not helpful; values such as "yes" or 1 are cast to true by the schema's Boolean type, and a value the cast refuses makes the save throw (500). None of these casts are modelled.
- Auth.UpdatePreferences: takes `emailNotifications` and `newsAlerts` as booleans when present. Mongoose's Boolean cast of other JSON values ("yes" to true, a refused value to a thrown cast error and 500) is not modelled.
- Reviews.ReviewErrors: lists the messages in the schema's path order, which is the order Mongoose reports them in for a fresh document. Array elements are named `tags.<index>`.
- Auth.PreferenceErrors: lists the theme message before the interval message, in schema path order.
- GamesWorker.UpdateGames: carries no contract of its own. Its properties are stated about the run by `GamesWorker.EveryGameCountedOnce`, `GamesWorker.NoStaleTrendingAfterRun` and `GamesWorker.RefreshedGameStaysTrending`.
- Games worker: one clock value serves a whole run. RAWG fields absent from a response become `None`. Invalid release dates and undefined URLs are not modelled. Object ids are the strings given.
- News worker: a slug collision on insert is counted as an error, as the worker's catch does.
- Reviews worker: the `importedFromSteam` marker is not modelled. Steam's fetch limit of five reviews is an input.
- Player counts worker: a sample save that throws is modelled like a null reading, because both add one to the failed count and leave the game unchanged.

=== FILE: admin.dfy ===
/** The moderation side of the admin controller: the verdict on a
    leaderboard entry, the verdict on a review, role changes, the two
    moderation queues with their pagination, and the moderation counts of
    the dashboard. Only admins and moderators reach these operations. The
    requested value is checked before the record is looked up; an id that
    is not an ObjectId then makes the lookup throw a cast error. */
module Admin {
  import opened Common
  import opened UserModel
  import opened LeaderboardEntry
  import opened ReviewModel
  import ErrorHandler
  import Validators
  import Leaderboards
  import Reviews

  /** The answer of an admin operation on one stored record. */
  datatype AdminOutcome<T> = InvalidValue | Failed(err: ErrorHandler.JsError) | RecordNotFound | Changed(record: T)

  /** The HTTP status of each outcome; a thrown error reaches the error
      handler with the response status still 200. */
  function AdminStatus<T>(o: AdminOutcome<T>, nodeEnv: string): (status: int)
    ensures o.InvalidValue? <==> status == 400
    ensures o.Failed? <==> status == 500
    ensures o.RecordNotFound? <==> status == 404
    ensures o.Changed? <==> status == 200
  {
    match o
    case InvalidValue => 400
    case Failed(err) => ErrorHandler.HandleError(err, 200, nodeEnv).status
    case RecordNotFound => 404
    case Changed(_) => 200
  }

  predicate Verifiable(status: string) {
    status == "verified" || status == "rejected"
  }

  predicate Moderatable(status: string) {
    status == "approved" || status == "rejected"
  }

  function EntryWithId(id: EntryId): Entry -> bool {
    (e: Entry) => e.id == id
  }

  // ---------------------------------------------------------------------
  // verifyLeaderboardEntry

  /** The entry after a moderator's verdict: status, verifier and time are
      always written; the reason only on a rejection. */
  function Verdict(e: Entry, rejected: bool, reason: Option<string>, moderator: UserId, now: int): (v: Entry)
    ensures v.status == (if rejected then Rejected else Verified)
    ensures v.verifiedBy == Some(moderator) && v.verifiedAt == Some(now)
    ensures v.rejectionReason == (if rejected then reason else e.rejectionReason)
    ensures v == e.(status := v.status, verifiedBy := v.verifiedBy, verifiedAt := v.verifiedAt,
                    rejectionReason := v.rejectionReason)
  {
    e.(status := if rejected then Rejected else Verified,
       rejectionReason := if rejected then reason else e.rejectionReason,
       verifiedBy := Some(moderator), verifiedAt := Some(now))
  }

  /** `verifyLeaderboardEntry` with the requested status as sent. */
  function VerifyLeaderboardEntry(entries: seq<Entry>, id: EntryId, status: string, reason: Option<string>,
                                  moderator: UserId, now: int): (r: (seq<Entry>, AdminOutcome<Entry>))
    ensures !Verifiable(status) ==> r == (entries, InvalidValue)
    ensures Verifiable(status) && !Validators.IsObjectId(id) ==> r == (entries, Failed(ErrorHandler.CastFailure()))
    ensures Verifiable(status) && Validators.IsObjectId(id) ==>
              ((forall i :: 0 <= i < |entries| ==> entries[i].id != id) <==> r.1.RecordNotFound?)
    ensures !r.1.Changed? ==> r.0 == entries
    ensures forall i :: Verifiable(status) && Validators.IsObjectId(id) && FirstAt(entries, EntryWithId(id), i) ==>
              var v := Verdict(entries[i], status == "rejected", reason, moderator, now);
              r == (entries[i := v], Changed(v))
    ensures r.1.Changed? ==>
              exists i :: && 0 <= i < |entries| && entries[i].id == id
                          && r.1.record == Verdict(entries[i], status == "rejected", reason, moderator, now)
                          && r.0 == entries[i := r.1.record]
  {
    if !Verifiable(status) then (entries, InvalidValue)
    else if !Validators.IsObjectId(id) then (entries, Failed(ErrorHandler.CastFailure()))
    else match FirstIndex(entries, EntryWithId(id))
      case None => (entries, RecordNotFound)
      case Some(i) =>
        assert forall k :: FirstAt(entries, EntryWithId(id), k) ==> k == i;
        var v := Verdict(entries[i], status == "rejected", reason, moderator, now);
        (entries[i := v], Changed(v))
  }

  /** Re-verifying a rejected entry keeps the old rejection reason. */
  lemma ReverifyKeepsReason(e: Entry, reason: Option<string>, moderator: UserId, now: int)
    requires e.status == Rejected
    ensures Verdict(e, false, reason, moderator, now).status == Verified
    ensures Verdict(e, false, reason, moderator, now).rejectionReason == e.rejectionReason
  {
  }

  /** The verdict applies whatever the entry's prior status, and giving the
      same verdict again at the same time changes nothing more. */
  lemma VerdictIdempotent(e: Entry, rejected: bool, reason: Option<string>, moderator: UserId, now: int)
    ensures var v := Verdict(e, rejected, reason, moderator, now);
            Verdict(v, rejected, reason, moderator, now) == v
  {
  }

  /** A verified, active entry joins the public listing of its own game,
      category and season; a rejected one leaves every listing. */
  lemma VerdictDecidesListing(e: Entry, rejected: bool, reason: Option<string>, moderator: UserId, now: int,
                              q: Leaderboards.Scope)
    ensures !rejected && e.isActive ==>
              Leaderboards.InScope(Verdict(e, false, reason, moderator, now), Leaderboards.Scope(e.game, e.category, e.season))
    ensures rejected ==> !Leaderboards.InScope(Verdict(e, true, reason, moderator, now), q)
  {
  }

  // ---------------------------------------------------------------------
  // moderateReview

  function ReviewWithId(id: ReviewId): Review -> bool {
    (r: Review) => r.id == id
  }

  /** The stored status a moderator's verdict names. */
  function ReviewVerdict(status: string): (s: ReviewStatus)
    requires Moderatable(status)
    ensures s == Approved <==> status == "approved"
    ensures s == ReviewRejected <==> status == "rejected"
  {
    if status == "approved" then Approved else ReviewRejected
  }

  /** `moderateReview`: approve or reject with notes; the game's statistics
      are not recomputed here. */
  function ModerateReview(reviews: seq<Review>, id: ReviewId, status: string, notes: Option<string>,
                          moderator: UserId, now: int): (r: (seq<Review>, AdminOutcome<Review>))
    ensures !Moderatable(status) ==> r == (reviews, InvalidValue)
    ensures Moderatable(status) && !Validators.IsObjectId(id) ==> r == (reviews, Failed(ErrorHandler.CastFailure()))
    ensures Moderatable(status) && Validators.IsObjectId(id) ==>
              ((forall i :: 0 <= i < |reviews| ==> reviews[i].id != id) <==> r.1.RecordNotFound?)
    ensures !r.1.Changed? ==> r.0 == reviews
    ensures forall i :: Moderatable(status) && Validators.IsObjectId(id) && FirstAt(reviews, ReviewWithId(id), i) ==>
              r.1.Changed? && r.0 == reviews[i := r.1.record] && r.1.record.status == ReviewVerdict(status)
              && r.1.record == reviews[i].(status := r.1.record.status, moderationNotes := notes,
                                           moderatedBy := Some(moderator), moderatedAt := Some(now))
    ensures r.1.Changed? ==>
              exists i :: && 0 <= i < |reviews| && reviews[i].id == id
                          && r.1.record == reviews[i].(status := ReviewVerdict(status),
                                                       moderationNotes := notes, moderatedBy := Some(moderator),
                                                       moderatedAt := Some(now))
                          && r.0 == reviews[i := r.1.record]
  {
    if !Moderatable(status) then (reviews, InvalidValue)
    else if !Validators.IsObjectId(id) then (reviews, Failed(ErrorHandler.CastFailure()))
    else match FirstIndex(reviews, ReviewWithId(id))
      case None => (reviews, RecordNotFound)
      case Some(i) =>
        assert forall k :: FirstAt(reviews, ReviewWithId(id), k) ==> k == i;
        var m := reviews[i].(status := ReviewVerdict(status),
                             moderationNotes := notes, moderatedBy := Some(moderator), moderatedAt := Some(now));
        (reviews[i := m], Changed(m))
  }

  /** Moderation touches one review and no vote, flag or text: the approved
      reviews of every game other than the moderated one are the same before
      and after, so their statistics need no recomputation. */
  lemma ModerationKeepsOtherGames(reviews: seq<Review>, id: ReviewId, status: string, notes: Option<string>,
                                  moderator: UserId, now: int, game: string)
    requires ModerateReview(reviews, id, status, notes, moderator, now).1.Changed?
    requires ModerateReview(reviews, id, status, notes, moderator, now).1.record.game != game
    ensures Filter(ModerateReview(reviews, id, status, notes, moderator, now).0, ApprovedFor(game))
            == Filter(reviews, ApprovedFor(game))
  {
    var r := ModerateReview(reviews, id, status, notes, moderator, now);
    var i :| 0 <= i < |reviews| && reviews[i].id == id && r.0 == reviews[i := r.1.record]
             && r.1.record.game == reviews[i].game;
    FilterUpdateOther(reviews, i, r.1.record, ApprovedFor(game));
  }

  /** Replacing an element that satisfies p neither before nor after leaves
      the filtered sequence unchanged. */
  lemma {:induction false} FilterUpdateOther<T(!new)>(s: seq<T>, i: nat, x: T, p: T -> bool)
    requires i < |s| && !p(s[i]) && !p(x)
    ensures Filter(s[i := x], p) == Filter(s, p)
  {
    if i > 0 {
      assert s[i := x] == [s[0]] + s[1..][i - 1 := x];
      assert s == [s[0]] + s[1..];
      FilterUpdateOther(s[1..], i - 1, x, p);
      FilterAppend([s[0]], s[1..][i - 1 := x], p);
      FilterAppend([s[0]], s[1..], p);
    } else {
      assert s[i := x] == [x] + s[1..];
      assert s == [s[0]] + s[1..];
      FilterAppend([x], s[1..], p);
      FilterAppend([s[0]], s[1..], p);
    }
  }

  // ---------------------------------------------------------------------
  // updateUserRole

  function RoleNamed(name: string): (r: Option<Role>)
    ensures r.Some? <==> name == "user" || name == "admin" || name == "moderator"
    ensures r.Some? ==> RoleName(r.value) == name
  {
    if name == "user" then Some(UserRole)
    else if name == "admin" then Some(AdminRole)
    else if name == "moderator" then Some(ModeratorRole)
    else None
  }

  function UserWithId(id: UserId): User -> bool {
    (u: User) => u.id == id
  }

  /** `updateUserRole`: the role name is checked before the user is looked
      up; only the role changes. */
  function UpdateUserRole(users: seq<User>, id: UserId, roleName: string): (r: (seq<User>, AdminOutcome<User>))
    ensures RoleNamed(roleName).None? ==> r == (users, InvalidValue)
    ensures RoleNamed(roleName).Some? && !Validators.IsObjectId(id) ==> r == (users, Failed(ErrorHandler.CastFailure()))
    ensures RoleNamed(roleName).Some? && Validators.IsObjectId(id) ==>
              ((forall i :: 0 <= i < |users| ==> users[i].id != id) <==> r.1.RecordNotFound?)
    ensures !r.1.Changed? ==> r.0 == users
    ensures forall i :: RoleNamed(roleName).Some? && Validators.IsObjectId(id) && FirstAt(users, UserWithId(id), i) ==>
              r == (users[i := users[i].(role := RoleNamed(roleName).value)], Changed(users[i].(role := RoleNamed(roleName).value)))
    ensures r.1.Changed? ==>
              exists i :: && 0 <= i < |users| && users[i].id == id
                          && RoleName(r.1.record.role) == roleName
                          && r.1.record == users[i].(role := r.1.record.role)
                          && r.0 == users[i := r.1.record]
  {
    match RoleNamed(roleName)
    case None => (users, InvalidValue)
    case Some(role) =>
      if !Validators.IsObjectId(id) then (users, Failed(ErrorHandler.CastFailure()))
      else match FirstIndex(users, UserWithId(id))
      case None => (users, RecordNotFound)
      case Some(i) =>
        assert forall k :: FirstAt(users, UserWithId(id), k) ==> k == i;
        var u := users[i].(role := role);
        (users[i := u], Changed(u))
  }

  // ---------------------------------------------------------------------
  // The moderation queues and the dashboard

  datatype Page<T> = Page(items: seq<T>, page: nat, limit: nat, total: nat, pages: nat)

  function AwaitsVerdict(e: Entry): bool {
    e.status == Pending || e.status == Flagged
  }

  function IsPendingEntry(e: Entry): bool { e.status == Pending }

  function IsFlaggedEntry(e: Entry): bool { e.status == Flagged }

  function SubmittedAt(e: Entry): real { e.submittedAt as real }

  /** `getPendingLeaderboard`: pending and flagged entries, newest
      submission first, one page of them. */
  function PendingLeaderboard(entries: seq<Entry>, page: nat, limit: nat): (r: Page<Entry>)
    requires page >= 1 && limit >= 1
    ensures r.total == Count(entries, AwaitsVerdict)
    ensures r.pages == CeilDiv(r.total, limit) && r.page == page && r.limit == limit
    ensures |r.items| == if Skip(page, limit) >= r.total then 0 else Min(limit, r.total - Skip(page, limit))
    ensures forall i :: 0 <= i < |r.items| ==> RanksAt(entries, AwaitsVerdict, SubmittedAt, r.items[i], Skip(page, limit) + i)
    ensures forall i :: 0 <= i < |r.items| ==> AwaitsVerdict(r.items[i]) && r.items[i] in entries
    ensures forall i, j :: 0 <= i < j < |r.items| ==> r.items[i].submittedAt >= r.items[j].submittedAt
  {
    var total := Count(entries, AwaitsVerdict);
    Page(SortedPage(entries, AwaitsVerdict, SubmittedAt, page, limit), page, limit, total, CeilDiv(total, limit))
  }

  /** The queue's total counts flagged entries too, so it is the dashboard's
      pending count plus the number of flagged entries. */
  lemma QueueCountsFlaggedToo(entries: seq<Entry>)
    ensures Count(entries, AwaitsVerdict) == Count(entries, IsPendingEntry) + Count(entries, IsFlaggedEntry)
  {
    CountDisjoint(entries, IsPendingEntry, IsFlaggedEntry, AwaitsVerdict);
  }

  function IsPendingReview(r: Review): bool { r.status == ReviewPending }

  function IsFlaggedReview(r: Review): bool { r.status == ReviewFlagged }

  function ReviewCreatedAt(r: Review): real { r.createdAt as real }

  /** `getPendingReviews`: pending reviews only (flagged ones are not in
      this queue), newest first, one page of them. */
  function PendingReviews(reviews: seq<Review>, page: nat, limit: nat): (r: Page<Review>)
    requires page >= 1 && limit >= 1
    ensures r.total == Count(reviews, IsPendingReview)
    ensures r.pages == CeilDiv(r.total, limit) && r.page == page && r.limit == limit
    ensures |r.items| == if Skip(page, limit) >= r.total then 0 else Min(limit, r.total - Skip(page, limit))
    ensures forall i :: 0 <= i < |r.items| ==> RanksAt(reviews, IsPendingReview, ReviewCreatedAt, r.items[i], Skip(page, limit) + i)
    ensures forall i :: 0 <= i < |r.items| ==> r.items[i].status == ReviewPending && r.items[i] in reviews
    ensures forall i, j :: 0 <= i < j < |r.items| ==> r.items[i].createdAt >= r.items[j].createdAt
  {
    var total := Count(reviews, IsPendingReview);
    Page(SortedPage(reviews, IsPendingReview, ReviewCreatedAt, page, limit), page, limit, total, CeilDiv(total, limit))
  }

  /** The moderation block of `getDashboardStats`. */
  datatype ModerationCounts = ModerationCounts(pendingReviews: nat, flaggedReviews: nat, pendingLeaderboard: nat)

  function Moderation(reviews: seq<Review>, entries: seq<Entry>): (m: ModerationCounts)
    ensures m.pendingReviews == PendingReviews(reviews, 1, 1).total
    ensures m.flaggedReviews == Count(reviews, IsFlaggedReview)
    ensures m.pendingLeaderboard + Count(entries, IsFlaggedEntry) == PendingLeaderboard(entries, 1, 1).total
  {
    QueueCountsFlaggedToo(entries);
    ModerationCounts(Count(reviews, IsPendingReview), Count(reviews, IsFlaggedReview), Count(entries, IsPendingEntry))
  }

  /** The dashboard follows the third-report rule: the report that brings a
      pending review to three flags moves it from the pending count to the
      flagged count. */
  lemma ThirdFlagMovesReviewToFlagged(reviews: seq<Review>, entries: seq<Entry>, id: ReviewId, reporter: UserId,
                                      reason: Option<string>, now: int, i: nat)
    requires Validators.IsObjectId(id) && FirstAt(reviews, Reviews.HasId(id), i)
    requires reviews[i].status == ReviewPending && |reviews[i].flags| == Reviews.AutoFlagThreshold - 1
    requires forall j :: 0 <= j < |reviews[i].flags| ==> reviews[i].flags[j].user != reporter
    ensures var after := Reviews.FlagReview(reviews, id, reporter, reason, now).0;
            && Moderation(after, entries).flaggedReviews == Moderation(reviews, entries).flaggedReviews + 1
            && Moderation(after, entries).pendingReviews + 1 == Moderation(reviews, entries).pendingReviews
  {
    var flagged := Reviews.WithFlag(reviews[i], reporter, reason, now);
    assert Reviews.FlagReview(reviews, id, reporter, reason, now).0 == reviews[i := flagged];
    assert flagged.status == ReviewFlagged;
    CountUpdate(reviews, i, flagged, IsFlaggedReview);
    CountUpdate(reviews, i, flagged, IsPendingReview);
  }
}

=== FILE: auth_controller.dfy ===
/** The authentication controller: registration, login, refresh-token
    rotation, logout, profile and preference updates, the password-reset
    pair and account deletion, over the account store. Hashing (bcrypt for
    passwords, SHA-256 for reset tokens), password comparison and JWT
    signing enter as parameters. */
module Auth {
  import opened Common
  import opened UserModel
  import opened ErrorHandler
  import opened Jwt
  import Validators

  const RefreshTokenTtl := 7 * 24 * 60 * 60 * 1000
  const ResetTokenTtl := 3600000
  const MinPasswordLength := 8

  /** The answer to a request and the store after it. */
  datatype AuthResult = AuthResult(users: seq<User>, status: int, message: string, tokens: Option<TokenPair>)

  function Unchanged(users: seq<User>, status: int, message: string): AuthResult {
    AuthResult(users, status, message, None)
  }

  /** An error thrown inside a controller, answered by the error middleware. */
  function Thrown(users: seq<User>, err: JsError): AuthResult {
    AuthResult(users, HandleError(err, 200, "production").status, HandleError(err, 200, "production").message, None)
  }

  function UserWithId(id: UserId): User -> bool {
    (u: User) => u.id == id
  }

  // ---------------------------------------------------------------------
  // Refresh-token list bookkeeping

  function NewRefreshToken(token: string, now: int): RefreshToken {
    RefreshToken(token, now, now + RefreshTokenTtl)
  }

  predicate Live(t: RefreshToken, now: int) {
    t.expiresAt > now
  }

  /** The stored list holds an equal token that has not expired. */
  predicate HoldsLive(ts: seq<RefreshToken>, token: string, now: int) {
    exists i :: 0 <= i < |ts| && ts[i].token == token && Live(ts[i], now)
  }

  /** Login's clean-up: keep only tokens that have not expired. */
  function DropExpired(ts: seq<RefreshToken>, now: int): (r: seq<RefreshToken>)
    ensures forall t :: t in r <==> t in ts && Live(t, now)
  {
    Filter(ts, (t: RefreshToken) => Live(t, now))
  }

  /** `$pull` of a token: every stored copy goes, nothing else. */
  function Revoke(ts: seq<RefreshToken>, token: string): (r: seq<RefreshToken>)
    ensures forall t :: t in r <==> t in ts && t.token != token
  {
    Filter(ts, (t: RefreshToken) => t.token != token)
  }

  /** Rotation: drop every copy of the presented token, append the new one. */
  function Rotate(ts: seq<RefreshToken>, presented: string, issued: string, now: int): (r: seq<RefreshToken>)
    ensures |r| > 0 && r[|r| - 1] == NewRefreshToken(issued, now)
    ensures r[..|r| - 1] == Revoke(ts, presented)
  {
    Revoke(ts, presented) + [NewRefreshToken(issued, now)]
  }

  /** The new token survives login's clean-up. */
  lemma LoginTokenSurvives(ts: seq<RefreshToken>, token: string, now: int)
    ensures NewRefreshToken(token, now) in DropExpired(ts + [NewRefreshToken(token, now)], now)
    ensures HoldsLive(DropExpired(ts + [NewRefreshToken(token, now)], now), token, now)
  {
    var x := NewRefreshToken(token, now);
    var r := DropExpired(ts + [x], now);
    assert (ts + [x])[|ts|] == x;
    assert x in r;
    var k :| 0 <= k < |r| && r[k] == x;
  }

  /** Rotation keeps every other token, expired ones included, and the
      presented token is no longer accepted unless it was reissued. */
  lemma RotationShape(ts: seq<RefreshToken>, presented: string, issued: string, now: int, t: RefreshToken)
    ensures t.token != presented && t != NewRefreshToken(issued, now) ==> (t in Rotate(ts, presented, issued, now) <==> t in ts)
    ensures issued != presented ==> !HoldsLive(Rotate(ts, presented, issued, now), presented, now)
    ensures HoldsLive(Rotate(ts, presented, issued, now), issued, now)
  {
    var r := Rotate(ts, presented, issued, now);
    var rest := Revoke(ts, presented);
    assert r == rest + [NewRefreshToken(issued, now)];
    assert r[|rest|] == NewRefreshToken(issued, now);
    if issued != presented {
      forall i | 0 <= i < |r| ensures r[i].token != presented {
        if i < |rest| { assert r[i] == rest[i] && rest[i] in rest; }
      }
    }
  }

  /** After logout the presented token is refused. */
  lemma RevokedTokenRefused(ts: seq<RefreshToken>, token: string, now: int)
    ensures !HoldsLive(Revoke(ts, token), token, now)
  {
    var r := Revoke(ts, token);
    forall i | 0 <= i < |r| ensures r[i].token != token {
      assert r[i] in r;
    }
  }

  // ---------------------------------------------------------------------
  // register

  datatype Registration = Registration(username: string, email: string, password: string)

  function ClashesWith(req: Registration): User -> bool {
    (u: User) => u.email == req.email || u.username == req.username
  }

  function UsernameIs(username: string): User -> bool {
    (u: User) => u.username == username
  }

  /** The schema checks run on a new account, on its trimmed username and the
      password before hashing. */
  function AccountErrors(username: string, password: string): (msgs: seq<string>)
    ensures |msgs| == 0 <==> 3 <= |username| <= 30 && |password| >= MinPasswordLength
  {
    (if |username| < 3 then ["Username must be at least 3 characters"] else [])
    + (if |username| > 30 then ["Username must be less than 30 characters"] else [])
    + (if |password| < MinPasswordLength then ["Password must be at least 8 characters"] else [])
  }

  /** `register`, given the id and verification token of the new account. */
  function Register(users: seq<User>, req: Registration, freshId: UserId, verificationToken: string, now: int,
                    hash: string -> string, sign: Claims -> string): (r: AuthResult)
    ensures r.status == 201 || r.users == users
    ensures FirstIndex(users, ClashesWith(req)).Some? ==>
              var u := users[FirstIndex(users, ClashesWith(req)).value];
              r == Unchanged(users, 409, if u.email == req.email then "Email already registered" else "Username already taken")
    ensures r.status == 201 ==>
              && (forall i :: 0 <= i < |users| ==> users[i].email != req.email && users[i].username != req.username)
              && r.tokens == Some(GenerateTokenPair(freshId, UserRole, now, sign))
              && r.users == users + [NewUser(freshId, Trim(req.username), req.email, hash(req.password),
                                              Some(verificationToken), now)
                                     .(refreshTokens := [NewRefreshToken(r.tokens.value.refreshToken, now)])]
    ensures r.status == 201 <==>
              && FirstIndex(users, ClashesWith(req)).None?
              && |AccountErrors(Trim(req.username), req.password)| == 0
              && FirstIndex(users, UsernameIs(Trim(req.username))).None?
    ensures FirstIndex(users, ClashesWith(req)).None? && |AccountErrors(Trim(req.username), req.password)| > 0 ==>
              r == Thrown(users, ValidationFailure(AccountErrors(Trim(req.username), req.password)))
    ensures FirstIndex(users, ClashesWith(req)).None? && |AccountErrors(Trim(req.username), req.password)| == 0
            && FirstIndex(users, UsernameIs(Trim(req.username))).Some? ==>
              r == Thrown(users, DuplicateKey("username"))
  {
    match FirstIndex(users, ClashesWith(req))
    case Some(i) =>
      Unchanged(users, 409, if users[i].email == req.email then "Email already registered" else "Username already taken")
    case None =>
      var username := Trim(req.username);
      var errors := AccountErrors(username, req.password);
      if |errors| > 0 then Thrown(users, ValidationFailure(errors))
      else if FirstIndex(users, UsernameIs(username)).Some? then Thrown(users, DuplicateKey("username"))
      else
        var tokens := GenerateTokenPair(freshId, UserRole, now, sign);
        var u := NewUser(freshId, username, req.email, hash(req.password), Some(verificationToken), now)
                   .(refreshTokens := [NewRefreshToken(tokens.refreshToken, now)]);
        AuthResult(users + [u], 201, "Registration successful", Some(tokens))
  }

  /** The conflict message names the email whenever the account found has
      that email, even if the username matched too. */
  lemma RegisterConflictPrefersEmail(users: seq<User>, req: Registration, freshId: UserId, token: string, now: int,
                                     hash: string -> string, sign: Claims -> string, i: nat)
    requires i < |users| && users[i].email == req.email
    requires forall j :: 0 <= j < i ==> !ClashesWith(req)(users[j])
    ensures Register(users, req, freshId, token, now, hash, sign) == Unchanged(users, 409, "Email already registered")
  {
    FirstIndexIs(users, ClashesWith(req), i);
  }

  // ---------------------------------------------------------------------
  // login

  function EmailIs(email: string): User -> bool {
    (u: User) => u.email == email
  }

  const BadCredentials := "Invalid email or password"

  /** `login`; `matches(candidate, stored)` is bcrypt's comparison. */
  function Login(users: seq<User>, email: string, password: string, now: int,
                 matches: (string, string) -> bool, sign: Claims -> string): (r: AuthResult)
    ensures r.status == 200 || r == Unchanged(users, 401, BadCredentials)
    ensures r.status == 200 <==>
              FirstIndex(users, EmailIs(email)).Some? && matches(password, users[FirstIndex(users, EmailIs(email)).value].password)
    ensures r.status == 200 ==>
              var i := FirstIndex(users, EmailIs(email)).value;
              && r.tokens == Some(GenerateTokenPair(users[i].id, users[i].role, now, sign))
              && r.users == users[i := users[i].(refreshTokens := DropExpired(users[i].refreshTokens + [NewRefreshToken(r.tokens.value.refreshToken, now)], now),
                                                 lastLogin := Some(now))]
  {
    match FirstIndex(users, EmailIs(email))
    case None => Unchanged(users, 401, BadCredentials)
    case Some(i) =>
      var u := users[i];
      if !matches(password, u.password) then Unchanged(users, 401, BadCredentials)
      else
        var tokens := GenerateTokenPair(u.id, u.role, now, sign);
        var ts := DropExpired(u.refreshTokens + [NewRefreshToken(tokens.refreshToken, now)], now);
        AuthResult(users[i := u.(refreshTokens := ts, lastLogin := Some(now))], 200, "Login successful", Some(tokens))
  }

  /** An unknown email and a wrong password get the same answer, so a
      response never reveals whether an account exists. */
  lemma LoginHidesAccountExistence(users: seq<User>, email: string, password: string, now: int,
                                   matches: (string, string) -> bool, sign: Claims -> string)
    requires forall i :: 0 <= i < |users| ==> users[i].email != email
    ensures Login(users, email, password, now, matches, sign) == Unchanged(users, 401, BadCredentials)
  {
  }

  /** After a login the refresh token just issued is held and live. */
  lemma LoginHoldsNewToken(users: seq<User>, email: string, password: string, now: int,
                           matches: (string, string) -> bool, sign: Claims -> string)
    requires Login(users, email, password, now, matches, sign).status == 200
    ensures var r := Login(users, email, password, now, matches, sign);
            var i := FirstIndex(users, EmailIs(email)).value;
            HoldsLive(r.users[i].refreshTokens, r.tokens.value.refreshToken, now)
  {
    var r := Login(users, email, password, now, matches, sign);
    var i := FirstIndex(users, EmailIs(email)).value;
    LoginTokenSurvives(users[i].refreshTokens, r.tokens.value.refreshToken, now);
  }

  // ---------------------------------------------------------------------
  // refreshToken

  /** `refreshToken`: verification errors are thrown as plain errors and
      reach the error middleware. */
  function Refresh(users: seq<User>, presented: Option<string>, now: int, decode: string -> Option<Claims>,
                   sign: Claims -> string): (r: AuthResult)
    ensures !Truthy(presented) ==> r == Unchanged(users, 400, "Refresh token required")
    ensures r.status != 200 ==> r.users == users && r.tokens.None?
    ensures Truthy(presented) && !Verify(presented.value, RefreshSecret, now, decode).Valid? ==> r.status == 500
    ensures Truthy(presented) && Verify(presented.value, RefreshSecret, now, decode).Valid? ==>
              var owner := FirstIndex(users, UserWithId(Verify(presented.value, RefreshSecret, now, decode).payload.userId));
              && (owner.None? ==> r == Unchanged(users, 401, "User not found"))
              && (owner.Some? && !HoldsLive(users[owner.value].refreshTokens, presented.value, now) ==>
                    r == Unchanged(users, 401, "Invalid or expired refresh token"))
              && (r.status == 200 <==> owner.Some? && HoldsLive(users[owner.value].refreshTokens, presented.value, now))
    ensures r.status == 200 ==>
              && Verify(presented.value, RefreshSecret, now, decode).Valid?
              && exists i :: && 0 <= i < |users|
                             && users[i].id == Verify(presented.value, RefreshSecret, now, decode).payload.userId
                             && HoldsLive(users[i].refreshTokens, presented.value, now)
                             && r.tokens == Some(GenerateTokenPair(users[i].id, users[i].role, now, sign))
                             && r.users == users[i := users[i].(refreshTokens :=
                                              Rotate(users[i].refreshTokens, presented.value, r.tokens.value.refreshToken, now))]
  {
    if !Truthy(presented) then Unchanged(users, 400, "Refresh token required")
    else match Verify(presented.value, RefreshSecret, now, decode)
      case TokenExpired => Thrown(users, PlainError("Refresh token expired"))
      case Invalid => Thrown(users, PlainError("Invalid refresh token"))
      case Valid(payload) =>
        match FirstIndex(users, UserWithId(payload.userId))
        case None => Unchanged(users, 401, "User not found")
        case Some(i) =>
          var u := users[i];
          if !HoldsLive(u.refreshTokens, presented.value, now) then
            Unchanged(users, 401, "Invalid or expired refresh token")
          else
            var tokens := GenerateTokenPair(u.id, u.role, now, sign);
            var ts := Rotate(u.refreshTokens, presented.value, tokens.refreshToken, now);
            AuthResult(users[i := u.(refreshTokens := ts)], 200, "Token refreshed", Some(tokens))
  }

  // ---------------------------------------------------------------------
  // logout

  /** `logout`: pulls the presented token from the caller's list when one is
      given; always reports success. */
  function Logout(users: seq<User>, id: UserId, presented: Option<string>): (r: AuthResult)
    ensures r.status == 200 && r.message == "Logged out successfully"
    ensures !Truthy(presented) || FirstIndex(users, UserWithId(id)).None? ==> r.users == users
    ensures Truthy(presented) && FirstIndex(users, UserWithId(id)).Some? ==>
              var i := FirstIndex(users, UserWithId(id)).value;
              r.users == users[i := users[i].(refreshTokens := Revoke(users[i].refreshTokens, presented.value))]
  {
    if !Truthy(presented) then Unchanged(users, 200, "Logged out successfully")
    else match FirstIndex(users, UserWithId(id))
      case None => Unchanged(users, 200, "Logged out successfully")
      case Some(i) =>
        Unchanged(users[i := users[i].(refreshTokens := Revoke(users[i].refreshTokens, presented.value))],
                  200, "Logged out successfully")
  }

  // ---------------------------------------------------------------------
  // updateProfile and updatePreferences

  /** The supplied (not undefined) fields of a profile update. */
  datatype ProfilePatch = ProfilePatch(displayName: Option<string>, bio: Option<string>, avatar: Option<string>,
                                       favoriteGames: Option<seq<string>>)

  function PatchProfile(p: Profile, patch: ProfilePatch): (q: Profile)
    ensures q.displayName == (if patch.displayName.Some? then patch.displayName else p.displayName)
    ensures q.bio == (if patch.bio.Some? then patch.bio else p.bio)
    ensures q.avatar == (if patch.avatar.Some? then patch.avatar else p.avatar)
    ensures q.favoriteGames == (if patch.favoriteGames.Some? then patch.favoriteGames.value else p.favoriteGames)
  {
    Profile(if patch.displayName.Some? then patch.displayName else p.displayName,
            if patch.avatar.Some? then patch.avatar else p.avatar,
            if patch.bio.Some? then patch.bio else p.bio,
            if patch.favoriteGames.Some? then patch.favoriteGames.value else p.favoriteGames)
  }

  /** Mongoose casts the `$set` before it validates: every `favoriteGames`
      element must be an ObjectId, and is stored as the id it casts to. */
  predicate CastsCleanly(patch: ProfilePatch) {
    patch.favoriteGames.Some? ==> Validators.AllObjectIds(patch.favoriteGames.value)
  }

  function CastPatch(patch: ProfilePatch): (c: ProfilePatch)
    requires CastsCleanly(patch)
    ensures c.displayName == patch.displayName && c.bio == patch.bio && c.avatar == patch.avatar
    ensures c.favoriteGames.Some? <==> patch.favoriteGames.Some?
    ensures patch.favoriteGames.Some? ==>
              c.favoriteGames.value == Validators.CanonicalIds(patch.favoriteGames.value)
  {
    match patch.favoriteGames
    case None => patch
    case Some(ids) => patch.(favoriteGames := Some(Validators.CanonicalIds(ids)))
  }

  /** `updateProfile`: the update is cast first (a malformed favourite game
      id throws the cast error), then the validators run on the updated
      paths only (the bio length); a missing account answers success with
      no account. */
  function UpdateProfile(users: seq<User>, id: UserId, patch: ProfilePatch): (r: AuthResult)
    ensures !CastsCleanly(patch) ==> r == Thrown(users, CastFailure())
    ensures patch.bio.Some? && |patch.bio.value| > MaxBioLength ==> r.status == 500 && r.users == users
    ensures r.status == 200 <==>
              CastsCleanly(patch) && !(patch.bio.Some? && |patch.bio.value| > MaxBioLength)
    ensures r.status == 200 ==>
              r.users == (match FirstIndex(users, UserWithId(id))
                          case None => users
                          case Some(i) => users[i := users[i].(profile := PatchProfile(users[i].profile, CastPatch(patch)))])
    ensures r.status == 200 || r.status == 500
  {
    if !CastsCleanly(patch) then Thrown(users, CastFailure())
    else if patch.bio.Some? && |patch.bio.value| > MaxBioLength then
      Thrown(users, ValidationFailure(["Bio must be less than 500 characters"]))
    else match FirstIndex(users, UserWithId(id))
      case None => Unchanged(users, 200, "Profile updated successfully")
      case Some(i) =>
        Unchanged(users[i := users[i].(profile := PatchProfile(users[i].profile, CastPatch(patch)))],
                  200, "Profile updated successfully")
  }

  /** Fields left undefined keep their value. */
  lemma EmptyPatchChangesNothing(p: Profile)
    ensures PatchProfile(p, ProfilePatch(None, None, None, None)) == p
  {
  }

  datatype PreferencesPatch = PreferencesPatch(theme: Option<string>, emailNotifications: Option<bool>,
                                               newsAlerts: Option<bool>, pollingInterval: Option<int>)

  /** The update validators `findByIdAndUpdate` runs on the patched paths,
      with Mongoose's default messages. */
  function PreferenceErrors(patch: PreferencesPatch): (msgs: seq<string>)
    ensures |msgs| == 0 <==>
              (patch.theme.None? || patch.theme.value in {"dark", "light"})
              && (patch.pollingInterval.None? || PollingIntervalInBounds(patch.pollingInterval.value))
    ensures patch.theme.Some? && patch.theme.value !in {"dark", "light"} ==>
              EnumMessage(patch.theme.value, "preferences.theme") in msgs
    ensures patch.pollingInterval.Some? && patch.pollingInterval.value < MinPollingInterval ==>
              msgs[|msgs| - 1] == MinMessage("preferences.pollingInterval", IntToString(patch.pollingInterval.value), "30000")
    ensures patch.pollingInterval.Some? && patch.pollingInterval.value > MaxPollingInterval ==>
              msgs[|msgs| - 1] == MaxMessage("preferences.pollingInterval", IntToString(patch.pollingInterval.value), "300000")
  {
    (if patch.theme.Some? && patch.theme.value !in {"dark", "light"}
     then [EnumMessage(patch.theme.value, "preferences.theme")] else [])
    + (if patch.pollingInterval.Some? && patch.pollingInterval.value < MinPollingInterval
       then [MinMessage("preferences.pollingInterval", IntToString(patch.pollingInterval.value), "30000")] else [])
    + (if patch.pollingInterval.Some? && patch.pollingInterval.value > MaxPollingInterval
       then [MaxMessage("preferences.pollingInterval", IntToString(patch.pollingInterval.value), "300000")] else [])
  }

  function PatchPreferences(p: Preferences, patch: PreferencesPatch): Preferences {
    Preferences(if patch.theme.Some? then (if patch.theme.value == "light" then Light else Dark) else p.theme,
                if patch.emailNotifications.Some? then patch.emailNotifications.value else p.emailNotifications,
                if patch.newsAlerts.Some? then patch.newsAlerts.value else p.newsAlerts,
                if patch.pollingInterval.Some? then patch.pollingInterval.value else p.pollingInterval)
  }

  /** `updatePreferences`: an out-of-range polling interval or unknown theme
      is refused by the validators; a missing account fails when its
      preferences are read. */
  function UpdatePreferences(users: seq<User>, id: UserId, patch: PreferencesPatch): (r: AuthResult)
    ensures r.status != 200 ==> r.users == users
    ensures r.status == 200 <==> |PreferenceErrors(patch)| == 0 && FirstIndex(users, UserWithId(id)).Some?
    ensures r.status == 200 ==>
              var i := FirstIndex(users, UserWithId(id)).value;
              r.users == users[i := users[i].(preferences := PatchPreferences(users[i].preferences, patch))]
  {
    var errors := PreferenceErrors(patch);
    if |errors| > 0 then Thrown(users, ValidationFailure(errors))
    else match FirstIndex(users, UserWithId(id))
      case None => Thrown(users, PlainError("Cannot read properties of null (reading 'preferences')"))
      case Some(i) =>
        Unchanged(users[i := users[i].(preferences := PatchPreferences(users[i].preferences, patch))], 200,
                  "Preferences updated successfully")
  }

  /** Accepted preferences keep the polling interval within its bounds. */
  lemma PreferencesStayInBounds(users: seq<User>, id: UserId, patch: PreferencesPatch)
    requires forall i :: 0 <= i < |users| ==> PollingIntervalInBounds(users[i].preferences.pollingInterval)
    ensures forall i :: 0 <= i < |UpdatePreferences(users, id, patch).users| ==>
              PollingIntervalInBounds(UpdatePreferences(users, id, patch).users[i].preferences.pollingInterval)
  {
  }

  // ---------------------------------------------------------------------
  // Password reset

  const ResetMessage := "If the email exists, a reset link will be sent"

  /** `requestPasswordReset` with the random token drawn; only its hash is
      stored. The answer is the same whether or not the account exists. */
  function RequestPasswordReset(users: seq<User>, email: string, resetToken: string, now: int,
                                sha: string -> string): (r: AuthResult)
    ensures r.status == 200 && r.message == ResetMessage
    ensures FirstIndex(users, EmailIs(email)).None? ==> r.users == users
    ensures FirstIndex(users, EmailIs(email)).Some? ==>
              var i := FirstIndex(users, EmailIs(email)).value;
              r.users == users[i := users[i].(resetPasswordToken := Some(sha(resetToken)),
                                              resetPasswordExpires := Some(now + ResetTokenTtl))]
  {
    match FirstIndex(users, EmailIs(email))
    case None => Unchanged(users, 200, ResetMessage)
    case Some(i) =>
      Unchanged(users[i := users[i].(resetPasswordToken := Some(sha(resetToken)),
                                     resetPasswordExpires := Some(now + ResetTokenTtl))], 200, ResetMessage)
  }

  function HoldsReset(hashed: string, now: int): User -> bool {
    (u: User) => u.resetPasswordToken == Some(hashed) && u.resetPasswordExpires.Some? && u.resetPasswordExpires.value > now
  }

  /** `resetPassword`: the hash must match and the expiry lie in the future;
      the new password is hashed and both token fields cleared. */
  function ResetPassword(users: seq<User>, token: string, newPassword: string, now: int,
                         sha: string -> string, hash: string -> string): (r: AuthResult)
    ensures r.status != 200 ==> r.users == users
    ensures (forall i :: 0 <= i < |users| ==> !HoldsReset(sha(token), now)(users[i])) ==>
              r == Unchanged(users, 400, "Invalid or expired reset token")
    ensures r.status == 200 ==>
              exists i :: && 0 <= i < |users| && HoldsReset(sha(token), now)(users[i])
                          && |newPassword| >= MinPasswordLength
                          && r.users == users[i := users[i].(password := hash(newPassword), resetPasswordToken := None,
                                                             resetPasswordExpires := None)]
  {
    match FirstIndex(users, HoldsReset(sha(token), now))
    case None => Unchanged(users, 400, "Invalid or expired reset token")
    case Some(i) =>
      if |newPassword| < MinPasswordLength then Thrown(users, ValidationFailure(["Password must be at least 8 characters"]))
      else
        Unchanged(users[i := users[i].(password := hash(newPassword), resetPasswordToken := None,
                                       resetPasswordExpires := None)], 200, "Password reset successful")
  }

  /** A reset token works once: presenting it again is refused. */
  lemma ResetTokenWorksOnce(users: seq<User>, token: string, p1: string, p2: string, now: int, later: int,
                            sha: string -> string, hash: string -> string)
    requires ResetPassword(users, token, p1, now, sha, hash).status == 200
    requires forall i, j :: 0 <= i < j < |users| && users[i].resetPasswordToken.Some? ==>
               users[i].resetPasswordToken != users[j].resetPasswordToken
    ensures ResetPassword(ResetPassword(users, token, p1, now, sha, hash).users, token, p2, later, sha, hash).status == 400
  {
    var r := ResetPassword(users, token, p1, now, sha, hash);
    var i :| && 0 <= i < |users| && HoldsReset(sha(token), now)(users[i])
             && r.users == users[i := users[i].(password := hash(p1), resetPasswordToken := None, resetPasswordExpires := None)];
    forall j | 0 <= j < |r.users| ensures !HoldsReset(sha(token), later)(r.users[j]) {
      if j != i {
        assert users[j].resetPasswordToken != users[i].resetPasswordToken;
      }
    }
  }

  // ---------------------------------------------------------------------
  // deleteAccount

  /** `deleteAccount`: the caller's password must match. */
  function DeleteAccount(users: seq<User>, id: UserId, password: string, matches: (string, string) -> bool):
    (r: AuthResult)
    ensures FirstIndex(users, UserWithId(id)).None? ==> r == Unchanged(users, 404, "User not found")
    ensures r.status != 200 ==> r.users == users
    ensures r.status == 200 <==>
              FirstIndex(users, UserWithId(id)).Some? && matches(password, users[FirstIndex(users, UserWithId(id)).value].password)
    ensures r.status == 200 ==>
              var i := FirstIndex(users, UserWithId(id)).value;
              r.users == users[..i] + users[i + 1..]
  {
    match FirstIndex(users, UserWithId(id))
    case None => Unchanged(users, 404, "User not found")
    case Some(i) =>
      if !matches(password, users[i].password) then Unchanged(users, 401, "Invalid password")
      else Unchanged(users[..i] + users[i + 1..], 200, "Account deleted successfully")
  }
}

=== FILE: auth_middleware.dfy ===
/** The authentication middleware: `authenticate`, `optionalAuth`,
    `authorize(...roles)` and `requirePremium`, each as a decision that either
    lets the request through (with the account it attaches) or answers it. */
module AuthMiddleware {
  import opened Common
  import opened UserModel
  import opened Jwt

  /** What a middleware does with a request: pass it on with the account
      attached to it (if any), or answer with an error. */
  datatype Gate =
    | Proceed(user: Option<User>)
    | Deny(status: int, message: string, code: Option<string>)

  function UserWithId(id: UserId): User -> bool {
    (u: User) => u.id == id
  }

  /** The stored account with the given id. */
  function FindUser(users: seq<User>, id: UserId): (r: Option<User>)
    ensures r.None? <==> forall i :: 0 <= i < |users| ==> users[i].id != id
    ensures r.Some? ==> r.value.id == id && r.value in users
  {
    match FirstIndex(users, UserWithId(id))
    case None => None
    case Some(i) => Some(users[i])
  }

  /** `authenticate`. */
  function Authenticate(header: Option<string>, users: seq<User>, now: int, decode: string -> Option<Claims>): (g: Gate)
    ensures !Truthy(ExtractToken(header)) ==> g == Deny(401, "Access token required", None)
    ensures g.Deny? ==> g.status == 401
    ensures g.Deny? && g.code == Some("TOKEN_EXPIRED") <==>
              Truthy(ExtractToken(header)) && Verify(ExtractToken(header).value, AccessSecret, now, decode).TokenExpired?
    ensures g.Proceed? <==>
              && Truthy(ExtractToken(header))
              && Verify(ExtractToken(header).value, AccessSecret, now, decode).Valid?
              && FindUser(users, Verify(ExtractToken(header).value, AccessSecret, now, decode).payload.userId).Some?
    ensures g.Proceed? ==>
              g.user == FindUser(users, Verify(ExtractToken(header).value, AccessSecret, now, decode).payload.userId)
  {
    var token := ExtractToken(header);
    if !Truthy(token) then Deny(401, "Access token required", None)
    else match Verify(token.value, AccessSecret, now, decode)
      case TokenExpired => Deny(401, "Access token expired", Some("TOKEN_EXPIRED"))
      case Invalid => Deny(401, "Invalid or expired token", None)
      case Valid(payload) =>
        match FindUser(users, payload.userId)
        case None => Deny(401, "User not found", None)
        case Some(u) => Proceed(Some(u))
  }

  /** The attached account, and so its role, comes from the store and not
      from the token: a token still naming an old role authenticates with the
      stored one. */
  lemma RoleComesFromStore(header: Option<string>, users: seq<User>, now: int, decode: string -> Option<Claims>)
    requires Authenticate(header, users, now, decode).Proceed?
    ensures var g := Authenticate(header, users, now, decode);
            var payload := Verify(ExtractToken(header).value, AccessSecret, now, decode).payload;
            g.user.Some? && g.user.value in users && g.user.value.id == payload.userId
  {
  }

  /** `optionalAuth`: never answers the request; attaches the account only
      when authentication would have succeeded. */
  function OptionalAuth(header: Option<string>, users: seq<User>, now: int, decode: string -> Option<Claims>): (g: Gate)
    ensures g.Proceed?
    ensures g.user.Some? <==> Authenticate(header, users, now, decode).Proceed?
    ensures g.user.Some? ==> g == Authenticate(header, users, now, decode)
  {
    var token := ExtractToken(header);
    if !Truthy(token) then Proceed(None)
    else match Verify(token.value, AccessSecret, now, decode)
      case Valid(payload) => Proceed(FindUser(users, payload.userId))
      case _ => Proceed(None)
  }

  /** `authorize(...roles)` on the account attached so far. */
  function Authorize(user: Option<User>, roles: set<Role>): (g: Gate)
    ensures user.None? ==> g == Deny(401, "Authentication required", None)
    ensures user.Some? && user.value.role !in roles ==> g == Deny(403, "Insufficient permissions", None)
    ensures g.Proceed? <==> user.Some? && user.value.role in roles
    ensures g.Proceed? ==> g.user == user
  {
    if user.None? then Deny(401, "Authentication required", None)
    else if user.value.role !in roles then Deny(403, "Insufficient permissions", None)
    else Proceed(user)
  }

  /** Two gates in a row: the second runs only when the first lets through. */
  function Then(first: Gate, next: Option<User> -> Gate): Gate {
    if first.Deny? then first else next(first.user)
  }

  /** The admin routes chain `authorize('admin', 'moderator')` with
      `authorize('admin')`: only admins get through, moderators are refused
      with 403. */
  lemma AdminChainAdmitsOnlyAdmins(user: Option<User>)
    ensures Then(Authorize(user, {AdminRole, ModeratorRole}), (u: Option<User>) => Authorize(u, {AdminRole})).Proceed?
            <==> user.Some? && user.value.role == AdminRole
    ensures user.Some? && user.value.role == ModeratorRole ==>
              Then(Authorize(user, {AdminRole, ModeratorRole}), (u: Option<User>) => Authorize(u, {AdminRole})).status == 403
  {
  }

  /** `requirePremium` at time `now`. */
  function RequirePremium(user: Option<User>, now: int): (g: Gate)
    ensures user.None? ==> g == Deny(401, "Authentication required", None)
    ensures user.Some? && !IsPremium(user.value, now) ==>
              g == Deny(403, "Premium subscription required", Some("PREMIUM_REQUIRED"))
    ensures g.Proceed? <==> user.Some? && IsPremium(user.value, now)
    ensures g.Proceed? ==> g.user == user
  {
    if user.None? then Deny(401, "Authentication required", None)
    else if !IsPremium(user.value, now) then Deny(403, "Premium subscription required", Some("PREMIUM_REQUIRED"))
    else Proceed(user)
  }

  /** Behind `optionalAuth`, `requirePremium` admits a request exactly when
      it carries a valid token of a stored premium account. */
  lemma PremiumBehindOptionalAuth(header: Option<string>, users: seq<User>, now: int, decode: string -> Option<Claims>)
    ensures RequirePremium(OptionalAuth(header, users, now, decode).user, now).Proceed?
            <==> Authenticate(header, users, now, decode).Proceed?
                 && IsPremium(Authenticate(header, users, now, decode).user.value, now)
  {
  }
}

=== FILE: common.dfy ===
/** Shared vocabulary of the model: optional values, JavaScript truthiness of
    strings, sequence filtering and counting, the integer forms of
    `Math.round`/`Math.ceil` used by the controllers, decimal rendering of
    integers, and `String.prototype.trim`. */
module Common {

  datatype Option<T> = None | Some(value: T)

  /** JavaScript truthiness of an optional string: present and not "". */
  predicate Truthy(o: Option<string>) {
    o.Some? && o.value != ""
  }

  /** A `$text` filter: the search string as sent, and the text index's
      verdict on each document for it, which is an input (tokenising,
      stemming and stop words belong to the database). */
  datatype TextSearch<!T> = TextSearch(terms: string, hits: T -> bool)

  /** `if (search) query.$text = …`: only a non-empty search string
      filters. */
  predicate TextAdmits<T>(search: Option<TextSearch<T>>, x: T) {
    search.Some? && search.value.terms != "" ==> search.value.hits(x)
  }

  /** `a || b` on optional strings. */
  function OrElse(a: Option<string>, b: string): (r: string)
    ensures Truthy(a) ==> r == a.value
    ensures !Truthy(a) ==> r == b
  {
    if Truthy(a) then a.value else b
  }

  /** `s.startsWith(prefix)`. */
  predicate StartsWith(s: string, prefix: string) {
    |prefix| <= |s| && s[..|prefix|] == prefix
  }

  function Min(a: int, b: int): int { if a <= b then a else b }
  function Max(a: int, b: int): int { if a >= b then a else b }
  function Abs(n: int): nat { if n < 0 then -n else n }

  /** `s.substring(0, n)` / `s.slice(0, n)` for n >= 0. */
  function Prefix<T>(s: seq<T>, n: nat): (r: seq<T>)
    ensures |r| == Min(|s|, n)
    ensures r <= s
  {
    if |s| <= n then s else s[..n]
  }

  /** A query's `.limit(n)`: Mongo treats a limit of 0 as no limit, and a
      positive limit keeps at most that many leading documents. */
  function Limit<T>(s: seq<T>, n: nat): (r: seq<T>)
    ensures r <= s
    ensures |r| == if n == 0 then |s| else Min(|s|, n)
  {
    if n == 0 then s else Prefix(s, n)
  }

  // ---------------------------------------------------------------------
  // Filtering, counting and summing

  /** `s.filter(p)`: keeps the order, keeps exactly the elements satisfying p. */
  function Filter<T(!new)>(s: seq<T>, p: T -> bool): (r: seq<T>)
    ensures |r| <= |s|
    ensures forall x :: x in r <==> x in s && p(x)
    ensures forall i :: 0 <= i < |r| ==> p(r[i])
  {
    if |s| == 0 then []
    else (if p(s[0]) then [s[0]] else []) + Filter(s[1..], p)
  }

  lemma {:induction false} FilterAppend<T(!new)>(a: seq<T>, b: seq<T>, p: T -> bool)
    ensures Filter(a + b, p) == Filter(a, p) + Filter(b, p)
  {
    if |a| == 0 {
      assert a + b == b;
    } else {
      assert (a + b)[1..] == a[1..] + b;
      FilterAppend(a[1..], b, p);
    }
  }

  /** Number of elements satisfying p. */
  function Count<T(!new)>(s: seq<T>, p: T -> bool): nat {
    |Filter(s, p)|
  }

  /** Filtering by a condition every element meets keeps the sequence. */
  lemma {:induction false} FilterAll<T(!new)>(s: seq<T>, p: T -> bool)
    requires forall i :: 0 <= i < |s| ==> p(s[i])
    ensures Filter(s, p) == s
  {
    if |s| > 0 {
      FilterAll(s[1..], p);
    }
  }

  /** Every element is counted when all satisfy p. */
  lemma {:induction false} CountAll<T(!new)>(s: seq<T>, p: T -> bool)
    requires forall i :: 0 <= i < |s| ==> p(s[i])
    ensures Count(s, p) == |s|
  {
    if |s| > 0 {
      CountAll(s[1..], p);
    }
  }

  lemma CountAppendOne<T(!new)>(s: seq<T>, x: T, p: T -> bool)
    ensures Count(s + [x], p) == Count(s, p) + (if p(x) then 1 else 0)
  {
    FilterAppend(s, [x], p);
  }

  /** Overwriting one element changes the count by what leaves and what
      arrives. */
  lemma CountUpdate<T(!new)>(s: seq<T>, i: nat, x: T, p: T -> bool)
    requires i < |s|
    ensures Count(s[i := x], p) + (if p(s[i]) then 1 else 0) == Count(s, p) + (if p(x) then 1 else 0)
  {
    assert s == s[..i] + [s[i]] + s[i + 1..];
    assert s[i := x] == s[..i] + [x] + s[i + 1..];
    FilterAppend(s[..i] + [s[i]], s[i + 1..], p);
    FilterAppend(s[..i], [s[i]], p);
    FilterAppend(s[..i] + [x], s[i + 1..], p);
    FilterAppend(s[..i], [x], p);
  }

  /** Two complementary predicates split every sequence. */
  lemma {:induction false} CountComplement<T(!new)>(s: seq<T>, p: T -> bool, q: T -> bool)
    requires forall x :: q(x) == !p(x)
    ensures Count(s, p) + Count(s, q) == |s|
  {
    if |s| > 0 {
      CountComplement(s[1..], p, q);
    }
  }

  /** Counting under a weaker predicate never counts fewer elements. */
  lemma {:induction false} CountMono<T(!new)>(s: seq<T>, p: T -> bool, q: T -> bool)
    requires forall x :: p(x) ==> q(x)
    ensures Count(s, p) <= Count(s, q)
  {
    if |s| > 0 {
      CountMono(s[1..], p, q);
    }
  }

  /** ... and strictly more when some element satisfies only the weaker one. */
  lemma {:induction false} CountStrict<T(!new)>(s: seq<T>, p: T -> bool, q: T -> bool, k: nat)
    requires forall x :: p(x) ==> q(x)
    requires k < |s| && q(s[k]) && !p(s[k])
    ensures Count(s, p) < Count(s, q)
  {
    if k == 0 {
      CountMono(s[1..], p, q);
    } else {
      CountStrict(s[1..], p, q, k - 1);
    }
  }

  /** Nothing is counted when no element satisfies p. */
  lemma {:induction false} CountNone<T(!new)>(s: seq<T>, p: T -> bool)
    requires forall i :: 0 <= i < |s| ==> !p(s[i])
    ensures Count(s, p) == 0
  {
    if |s| > 0 {
      CountNone(s[1..], p);
    }
  }

  /** An element satisfying p is counted. */
  lemma {:induction false} CountPositive<T(!new)>(s: seq<T>, p: T -> bool, k: nat)
    requires k < |s| && p(s[k])
    ensures Count(s, p) >= 1
  {
    assert s[k] in Filter(s, p);
  }

  /** Counting within a filtered sequence counts the conjunction. */
  lemma {:induction false} CountFilter<T(!new)>(s: seq<T>, p: T -> bool, q: T -> bool, pq: T -> bool)
    requires forall x :: pq(x) == (p(x) && q(x))
    ensures Count(Filter(s, p), q) == Count(s, pq)
  {
    if |s| > 0 {
      CountFilter(s[1..], p, q, pq);
      if p(s[0]) {
        assert Filter(s, p) == [s[0]] + Filter(s[1..], p);
        FilterAppend([s[0]], Filter(s[1..], p), q);
      } else {
        assert Filter(s, p) == Filter(s[1..], p);
      }
    }
  }

  /** Elements satisfying exactly one of two disjoint predicates are counted
      by the sum of their counts. */
  lemma {:induction false} CountDisjoint<T(!new)>(s: seq<T>, p: T -> bool, q: T -> bool, pq: T -> bool)
    requires forall x :: !(p(x) && q(x))
    requires forall x :: pq(x) == (p(x) || q(x))
    ensures Count(s, pq) == Count(s, p) + Count(s, q)
  {
    if |s| > 0 {
      CountDisjoint(s[1..], p, q, pq);
    }
  }

  /** The sum of f over s, from 0, as an array reduction computes it. */
  function SumBy<T>(s: seq<T>, f: T -> int): int {
    if |s| == 0 then 0 else f(s[0]) + SumBy(s[1..], f)
  }

  lemma {:induction false} SumByAppend<T>(a: seq<T>, b: seq<T>, f: T -> int)
    ensures SumBy(a + b, f) == SumBy(a, f) + SumBy(b, f)
  {
    if |a| == 0 {
      assert a + b == b;
    } else {
      assert (a + b)[1..] == a[1..] + b;
      SumByAppend(a[1..], b, f);
    }
  }

  lemma {:induction false} SumByBounds<T>(s: seq<T>, f: T -> int, lo: int, hi: int)
    requires forall x :: x in s ==> lo <= f(x) <= hi
    ensures lo * |s| <= SumBy(s, f) <= hi * |s|
  {
    if |s| > 0 {
      SumByBounds(s[1..], f, lo, hi);
      assert lo * |s| == lo + lo * (|s| - 1);
      assert hi * |s| == hi + hi * (|s| - 1);
    }
  }

  /** Index of the first element satisfying p: Mongo's `findOne` over a
      collection in natural order, or JavaScript's `Array.prototype.find`. */
  function FirstIndex<T>(s: seq<T>, p: T -> bool): (r: Option<nat>)
    ensures r.Some? ==> r.value < |s| && p(s[r.value])
    ensures r.Some? ==> forall j :: 0 <= j < r.value ==> !p(s[j])
    ensures r.None? <==> forall j :: 0 <= j < |s| ==> !p(s[j])
  {
    if |s| == 0 then None
    else if p(s[0]) then Some(0)
    else match FirstIndex(s[1..], p)
      case None => None
      case Some(i) => Some(i + 1)
  }

  /** i is the position a first-match lookup (`findOne`, `findById`)
      settles on: p holds there and nowhere before. */
  predicate FirstAt<T>(s: seq<T>, p: T -> bool, i: int) {
    0 <= i < |s| && p(s[i]) && forall j :: 0 <= j < i ==> !p(s[j])
  }

  /** The first index is the one where p first holds. */
  lemma FirstIndexIs<T>(s: seq<T>, p: T -> bool, i: nat)
    requires i < |s| && p(s[i])
    requires forall j :: 0 <= j < i ==> !p(s[j])
    ensures FirstIndex(s, p) == Some(i)
  {
  }

  // ---------------------------------------------------------------------
  // Sorting by a descending key (`.sort('-field')`)

  predicate SortedDesc<T>(s: seq<T>, key: T -> real) {
    forall i, j :: 0 <= i < j < |s| ==> key(s[i]) >= key(s[j])
  }

  /** Inserts x before the first element whose key it is not below. */
  function InsertDesc<T(!new)>(x: T, s: seq<T>, key: T -> real): (r: seq<T>)
    requires SortedDesc(s, key)
    ensures SortedDesc(r, key)
    ensures forall y :: y in r <==> y in s || y == x
    ensures |r| == |s| + 1
  {
    if |s| == 0 then [x]
    else if key(x) >= key(s[0]) then [x] + s
    else
      assert forall y :: y in s <==> y == s[0] || y in s[1..] by { assert s == [s[0]] + s[1..]; }
      var t := InsertDesc(x, s[1..], key);
      assert forall i :: 0 <= i < |t| ==> key(t[i]) <= key(s[0]) by {
        forall i | 0 <= i < |t| ensures key(t[i]) <= key(s[0]) {
          assert t[i] in t;
        }
      }
      [s[0]] + t
  }

  /** Descending by key; equal keys keep their original order. */
  function SortDesc<T(!new)>(s: seq<T>, key: T -> real): (r: seq<T>)
    ensures SortedDesc(r, key)
    ensures forall y :: y in r <==> y in s
    ensures |r| == |s|
  {
    if |s| == 0 then []
    else
      assert forall y :: y in s <==> y == s[0] || y in s[1..] by { assert s == [s[0]] + s[1..]; }
      InsertDesc(s[0], SortDesc(s[1..], key), key)
  }

  lemma {:induction false} CountInsertDesc<T(!new)>(x: T, s: seq<T>, key: T -> real, p: T -> bool)
    requires SortedDesc(s, key)
    ensures Count(InsertDesc(x, s, key), p) == Count(s, p) + (if p(x) then 1 else 0)
  {
    if |s| > 0 && key(x) < key(s[0]) {
      CountInsertDesc(x, s[1..], key, p);
      assert InsertDesc(x, s, key) == [s[0]] + InsertDesc(x, s[1..], key);
    }
  }

  /** Sorting keeps every count, so it loses and invents nothing. */
  lemma {:induction false} CountSortDesc<T(!new)>(s: seq<T>, key: T -> real, p: T -> bool)
    ensures Count(SortDesc(s, key), p) == Count(s, p)
  {
    if |s| > 0 {
      CountSortDesc(s[1..], key, p);
      CountInsertDesc(s[0], SortDesc(s[1..], key), key, p);
    }
  }

  function KeyAbove<T>(key: T -> real, v: real): T -> bool {
    (x: T) => key(x) > v
  }

  function KeyAtLeast<T>(key: T -> real, v: real): T -> bool {
    (x: T) => key(x) >= v
  }

  /** Selected by p, with a key strictly above v. */
  function AboveIn<T>(p: T -> bool, key: T -> real, v: real): T -> bool {
    (x: T) => p(x) && key(x) > v
  }

  /** Selected by p, with a key of at least v. */
  function AtLeastIn<T>(p: T -> bool, key: T -> real, v: real): T -> bool {
    (x: T) => p(x) && key(x) >= v
  }

  /** Position k of a descending list is its rank up to ties: at most k
      elements have a strictly larger key, and at least k + 1 (itself and
      all before it) a key at least as large. */
  lemma SortedPosition<T(!new)>(s: seq<T>, key: T -> real, k: nat)
    requires SortedDesc(s, key) && k < |s|
    ensures Count(s, KeyAbove(key, key(s[k]))) <= k
    ensures Count(s, KeyAtLeast(key, key(s[k]))) >= k + 1
  {
    var v := key(s[k]);
    assert s == s[..k] + s[k..];
    FilterAppend(s[..k], s[k..], KeyAbove(key, v));
    CountNone(s[k..], KeyAbove(key, v));
    assert s == s[..k + 1] + s[k + 1..];
    FilterAppend(s[..k + 1], s[k + 1..], KeyAtLeast(key, v));
    CountAll(s[..k + 1], KeyAtLeast(key, v));
  }

  /** The element at position k of the p-selected elements of s, sorted by
      descending key, has rank k + 1 up to ties among the selected elements
      of s itself. */
  lemma SortedSelectionRank<T(!new)>(s: seq<T>, p: T -> bool, key: T -> real, k: nat)
    requires k < Count(s, p)
    ensures Count(s, AboveIn(p, key, key(SortDesc(Filter(s, p), key)[k]))) <= k
    ensures Count(s, AtLeastIn(p, key, key(SortDesc(Filter(s, p), key)[k]))) >= k + 1
  {
    var sorted := SortDesc(Filter(s, p), key);
    var v := key(sorted[k]);
    SortedPosition(sorted, key, k);
    CountSortDesc(Filter(s, p), key, KeyAbove(key, v));
    CountFilter(s, p, KeyAbove(key, v), AboveIn(p, key, v));
    CountSortDesc(Filter(s, p), key, KeyAtLeast(key, v));
    CountFilter(s, p, KeyAtLeast(key, v), AtLeastIn(p, key, v));
  }

  /** x sits at 0-based position pos of the p-selected elements of s in
      descending key order, up to ties: at most pos of them have a strictly
      larger key, and more than pos a key at least as large. */
  predicate RanksAt<T(!new)>(s: seq<T>, p: T -> bool, key: T -> real, x: T, pos: nat) {
    Count(s, AboveIn(p, key, key(x))) <= pos < Count(s, AtLeastIn(p, key, key(x)))
  }

  /** One page of the p-selected elements of s sorted by descending key:
      the element at position i of the page sits at position skip + i of the
      whole selection, up to ties. */
  lemma WindowRank<T(!new)>(s: seq<T>, p: T -> bool, key: T -> real, page: nat, limit: nat, i: nat)
    requires page >= 1
    ensures i < |Window(SortDesc(Filter(s, p), key), page, limit)| ==>
              RanksAt(s, p, key, Window(SortDesc(Filter(s, p), key), page, limit)[i], Skip(page, limit) + i)
  {
    var sorted := SortDesc(Filter(s, p), key);
    var w := Window(sorted, page, limit);
    if i < |w| {
      var k := Skip(page, limit) + i;
      assert w[i] == sorted[k];
      SortedSelectionRank(s, p, key, k);
      assert RanksAt(s, p, key, sorted[k], k);
    }
  }

  /** `find(filter).sort('-key').skip(skip).limit(limit)`: one page of the
      p-selected elements of s in descending key order (ties in store
      order), with every element at its rank up to ties. */
  function SortedPage<T(!new)>(s: seq<T>, p: T -> bool, key: T -> real, page: nat, limit: nat): (r: seq<T>)
    requires page >= 1
    ensures |r| == if Skip(page, limit) >= Count(s, p) then 0 else Min(limit, Count(s, p) - Skip(page, limit))
    ensures forall i :: 0 <= i < |r| ==> r[i] in s && p(r[i])
    ensures forall i, j :: 0 <= i < j < |r| ==> key(r[i]) >= key(r[j])
    ensures forall i :: 0 <= i < |r| ==> RanksAt(s, p, key, r[i], Skip(page, limit) + i)
  {
    var ordered := SortDesc(Filter(s, p), key);
    var r := Window(ordered, page, limit);
    forall i | 0 <= i < |r|
      ensures RanksAt(s, p, key, r[i], Skip(page, limit) + i)
    {
      WindowRank(s, p, key, page, limit, i);
    }
    assert forall i :: 0 <= i < |r| ==> r[i] in ordered;
    r
  }

  /** Cutting a descending list leaves nothing out that ranks above
      anything kept. */
  lemma PrefixDominates<T>(s: seq<T>, key: T -> real, n: nat)
    requires SortedDesc(s, key)
    ensures forall x, y :: x in s && x !in Limit(s, n) && y in Limit(s, n) ==> key(y) >= key(x)
  {
    var t := Limit(s, n);
    forall x, y | x in s && x !in t && y in t
      ensures key(y) >= key(x)
    {
      var j :| 0 <= j < |s| && s[j] == x;
      var k :| 0 <= k < |t| && t[k] == y;
      if j < |t| {
        assert false;
      }
      assert s[k] == y;
    }
  }

  /** The selected elements of s the first n of its descending selection
      leaves out rank no higher than any it keeps. */
  lemma TopDominates<T(!new)>(s: seq<T>, p: T -> bool, key: T -> real, n: nat)
    ensures forall x, y ::
              (x in s && p(x) && x !in Limit(SortDesc(Filter(s, p), key), n) && y in Limit(SortDesc(Filter(s, p), key), n))
              ==> key(y) >= key(x)
  {
    PrefixDominates(SortDesc(Filter(s, p), key), key, n);
  }

  /** `find(filter).sort('-key').limit(n)`: the p-selected elements of s in
      descending key order (ties in store order), cut to n when n > 0, so
      that nothing left out ranks above anything kept. */
  function TopN<T(!new)>(s: seq<T>, p: T -> bool, key: T -> real, n: nat): (r: seq<T>)
    ensures |r| == if n == 0 then Count(s, p) else Min(n, Count(s, p))
    ensures forall x :: x in r ==> x in s && p(x)
    ensures forall i, j :: 0 <= i < j < |r| ==> key(r[i]) >= key(r[j])
    ensures forall x, y :: x in s && p(x) && x !in r && y in r ==> key(y) >= key(x)
  {
    var ordered := SortDesc(Filter(s, p), key);
    var r := Limit(ordered, n);
    assert forall x :: x in r ==> x in ordered;
    TopDominates(s, p, key, n);
    r
  }

  // ---------------------------------------------------------------------
  // Integer forms of Math.round and Math.ceil

  /** `Math.round(a / b)` for a >= 0, b > 0: the nearest integer, halves up. */
  function RoundDiv(a: nat, b: nat): (r: nat)
    requires b > 0
    ensures 2 * b * r <= 2 * a + b < 2 * b * (r + 1)
  {
    (2 * a + b) / (2 * b)
  }

  lemma MulMono(k: nat, a: int, b: int)
    requires a <= b
    ensures k * a <= k * b
  {
  }

  /** One more term bounded by p extends a bound of n terms by q <= p. */
  lemma AddBound(x: nat, t: nat, n: nat, q: nat, p: nat)
    requires x <= p && t <= n * q && q <= p
    ensures x + t <= (n + 1) * p
  {
    MulMono(n, q, p);
    assert (n + 1) * p == p + n * p;
  }

  /** Rounding a quotient bounded by p gives at most p. */
  lemma RoundDivAtMost(a: nat, b: nat, p: nat)
    requires b > 0 && a <= b * p
    ensures RoundDiv(a, b) <= p
  {
    var r := RoundDiv(a, b);
    if r > p {
      MulMono(2 * b, p + 1, r);
    }
  }

  /** Rounding a quotient bounded below by p gives at least p. */
  lemma RoundDivAtLeast(a: nat, b: nat, p: nat)
    requires b > 0 && b * p <= a
    ensures p <= RoundDiv(a, b)
  {
    var r := RoundDiv(a, b);
    if r < p {
      MulMono(2 * b, r + 1, p);
    }
  }

  /** The exact mean of n values summing to `sum`. */
  function Mean(sum: real, n: nat): (m: real)
    requires n > 0
    ensures m * n as real == sum
  {
    sum / n as real
  }

  lemma MeanBounds(sum: real, n: nat, lo: real, hi: real)
    requires n > 0 && lo * n as real <= sum <= hi * n as real
    ensures lo <= Mean(sum, n) <= hi
  {
  }

  /** `Math.ceil(a / b)` for a >= 0, b > 0. */
  function CeilDiv(a: nat, b: nat): (r: nat)
    requires b > 0
    ensures b * r >= a
    ensures r > 0 ==> b * (r - 1) < a
  {
    (a + b - 1) / b
  }

  /** `(page - 1) * limit`, the number of documents skipped by a page. */
  function Skip(page: nat, limit: nat): (r: nat)
    requires page >= 1
    ensures page == 1 ==> r == 0
    ensures r + limit == page * limit
  {
    (page - 1) * limit
  }

  /** The page `page` of `limit` elements of s: `skip(...).limit(...)`. */
  function Window<T>(s: seq<T>, page: nat, limit: nat): (r: seq<T>)
    requires page >= 1
    ensures |r| == if Skip(page, limit) >= |s| then 0 else Min(limit, |s| - Skip(page, limit))
    ensures forall i :: 0 <= i < |r| ==> Skip(page, limit) + i < |s| && r[i] == s[Skip(page, limit) + i]
  {
    var skip := Skip(page, limit);
    if skip >= |s| then [] else s[skip..skip + Min(limit, |s| - skip)]
  }

  // ---------------------------------------------------------------------
  // Decimal rendering (`Number.prototype.toString` on integers)

  predicate IsDigit(c: char) { '0' <= c <= '9' }

  function DigitChar(d: nat): (c: char)
    requires d < 10
    ensures IsDigit(c)
  {
    "0123456789"[d]
  }

  function DigitValue(c: char): nat
    requires IsDigit(c)
  {
    (c as int - '0' as int) as nat
  }

  /** The value of a string of decimal digits. */
  function DigitsValue(s: string): nat
    requires forall i :: 0 <= i < |s| ==> IsDigit(s[i])
  {
    if |s| == 0 then 0 else DigitsValue(s[..|s| - 1]) * 10 + DigitValue(s[|s| - 1])
  }

  /** Canonical decimal digits of n: no leading zero except for 0 itself. */
  function NatToString(n: nat): (r: string)
    ensures |r| >= 1
    ensures forall i :: 0 <= i < |r| ==> IsDigit(r[i])
    ensures r[0] == '0' ==> n == 0
    ensures n < 10 <==> |r| == 1
    decreases n
  {
    if n < 10 then [DigitChar(n)] else NatToString(n / 10) + [DigitChar(n % 10)]
  }

  /** Reading the digits back gives the number: decimal rendering round-trips. */
  lemma {:induction false} NatToStringRoundTrip(n: nat)
    ensures DigitsValue(NatToString(n)) == n
    decreases n
  {
    var s := NatToString(n);
    if n >= 10 {
      NatToStringRoundTrip(n / 10);
      assert s[..|s| - 1] == NatToString(n / 10);
    }
  }

  /** `String(n)` for an integer n. */
  function IntToString(n: int): (r: string)
    ensures n >= 0 ==> r == NatToString(n)
    ensures n < 0 ==> r == "-" + NatToString(-n)
  {
    if n >= 0 then NatToString(n) else "-" + NatToString(-n)
  }

  /** `String(x)` for a number in plain (not exponent) notation: the sign,
      the whole part, and the fractional digits up to the last non-zero one,
      at most `MaxFractionDigits` of them. */
  function NumberText(x: real): (r: string)
    ensures x == x.Floor as real ==> r == IntToString(x.Floor)
    ensures x != x.Floor as real ==> '.' in r
  {
    if x < 0.0 then
      assert x == x.Floor as real ==> (-x).Floor == -x.Floor;
      "-" + UnsignedNumberText(-x)
    else UnsignedNumberText(x)
  }

  const MaxFractionDigits := 20

  /** Fractions with a short decimal expansion print as JavaScript prints them. */
  lemma FractionTextExamples()
    ensures NumberText(0.5) == "0.5"
    ensures NumberText(-1.25) == "-1.25"
    ensures NumberText(-3.0) == "-3"
  {
    HalfDigits(MaxFractionDigits);
    QuarterDigits(MaxFractionDigits);
    assert (1.25).Floor == 1;
    assert (0.5).Floor == 0;
  }

  /** One half has the single fractional digit 5. */
  lemma HalfDigits(budget: nat)
    requires budget >= 1
    ensures FractionDigits(0.5, budget) == "5"
  {
    assert (0.5 * 10.0).Floor == 5;
    assert FractionDigits(0.0, budget - 1) == "";
  }

  /** One quarter has the fractional digits 25. */
  lemma QuarterDigits(budget: nat)
    requires budget >= 2
    ensures FractionDigits(0.25, budget) == "25"
  {
    assert (0.25 * 10.0).Floor == 2;
    HalfDigits(budget - 1);
  }

  function UnsignedNumberText(x: real): (r: string)
    requires x >= 0.0
    ensures x == x.Floor as real ==> r == NatToString(x.Floor)
    ensures x != x.Floor as real ==> r == NatToString(x.Floor) + "." + FractionDigits(x - x.Floor as real, MaxFractionDigits)
  {
    var frac := x - x.Floor as real;
    NatToString(x.Floor) + (if frac == 0.0 then "" else "." + FractionDigits(frac, MaxFractionDigits))
  }

  /** The decimal digits of a fraction in [0, 1), stopping once nothing is
      left or the digit budget is spent. */
  function FractionDigits(f: real, budget: nat): (r: string)
    requires 0.0 <= f < 1.0
    ensures |r| <= budget
    ensures forall i :: 0 <= i < |r| ==> IsDigit(r[i])
    decreases budget
  {
    if f == 0.0 || budget == 0 then ""
    else
      var d := (f * 10.0).Floor;
      [DigitChar(d)] + FractionDigits(f * 10.0 - d as real, budget - 1)
  }

  // ---------------------------------------------------------------------
  // Whitespace and trim

  /** JavaScript's WhiteSpace and LineTerminator characters (the `\s` class
      and the characters `String.prototype.trim` removes). */
  predicate IsSpace(c: char) {
    c == '\t' || c == '\n' || c == '\U{000B}' || c == '\U{000C}' || c == '\r' || c == ' '
    || c == '\U{00A0}' || c == '\U{1680}' || ('\U{2000}' <= c <= '\U{200A}')
    || c == '\U{2028}' || c == '\U{2029}' || c == '\U{202F}' || c == '\U{205F}'
    || c == '\U{3000}' || c == '\U{FEFF}'
  }

  /** Every character of w is whitespace. */
  predicate AllSpace(w: string) {
    forall i :: 0 <= i < |w| ==> IsSpace(w[i])
  }

  /** Neither end of r is whitespace. */
  predicate Tight(r: string) {
    |r| > 0 ==> !IsSpace(r[0]) && !IsSpace(r[|r| - 1])
  }

  lemma AllSpaceAppend(a: string, b: string)
    requires AllSpace(a) && AllSpace(b)
    ensures AllSpace(a + b)
  {
    forall i | 0 <= i < |a + b| ensures IsSpace((a + b)[i]) {
      if i < |a| {
        assert (a + b)[i] == a[i];
      } else {
        assert (a + b)[i] == b[i - |a|];
      }
    }
  }

  /** Number of leading whitespace characters of s. */
  function LeadingSpaces(s: string): (n: nat)
    decreases |s|
    ensures n <= |s| && AllSpace(s[..n])
    ensures n < |s| ==> !IsSpace(s[n])
  {
    if |s| > 0 && IsSpace(s[0]) then
      var m := LeadingSpaces(s[1..]);
      assert s[..m + 1] == [s[0]] + s[1..][..m];
      AllSpaceAppend([s[0]], s[1..][..m]);
      m + 1
    else 0
  }

  /** Number of trailing whitespace characters of s. */
  function TrailingSpaces(s: string): (n: nat)
    decreases |s|
    ensures n <= |s| && AllSpace(s[|s| - n..])
    ensures n < |s| ==> !IsSpace(s[|s| - n - 1])
  {
    if |s| > 0 && IsSpace(s[|s| - 1]) then
      var t := s[..|s| - 1];
      var m := TrailingSpaces(t);
      SuffixSplit(s, m);
      AllSpaceAppend(t[|t| - m..], [s[|s| - 1]]);
      m + 1
    else 0
  }

  /** The last m + 1 characters of s are the last m of its prefix, then its last. */
  lemma SuffixSplit(s: string, m: nat)
    requires m < |s|
    ensures s[|s| - (m + 1)..] == s[..|s| - 1][|s| - 1 - m..] + [s[|s| - 1]]
  {
    var t := s[..|s| - 1];
    assert s[|s| - (m + 1)..] == s[|s| - (m + 1)..|s| - 1] + [s[|s| - 1]];
    assert t[|s| - 1 - m..] == s[|s| - (m + 1)..|s| - 1];
  }

  /** `s.trim()`: the piece of s between its leading and trailing whitespace. */
  function Trim(s: string): (r: string)
    ensures LeadingSpaces(s) + |r| <= |s|
    ensures r == s[LeadingSpaces(s)..LeadingSpaces(s) + |r|]
    ensures Tight(r)
    ensures AllSpace(s[LeadingSpaces(s) + |r|..])
  {
    var lead := LeadingSpaces(s);
    var rest := s[lead..];
    var trail := TrailingSpaces(rest);
    var r := rest[..|rest| - trail];
    assert r == s[lead..lead + |r|];
    assert s[lead + |r|..] == rest[|rest| - trail..];
    assert |r| > 0 ==> r[0] == s[lead] && r[|r| - 1] == rest[|rest| - trail - 1];
    r
  }

  lemma {:induction false} LeadingSpacesOf(u: string, w: string)
    requires AllSpace(u) && (|w| > 0 ==> !IsSpace(w[0]))
    ensures LeadingSpaces(u + w) == |u|
    decreases |u|
  {
    if |u| == 0 {
      assert u + w == w;
    } else {
      assert (u + w)[0] == u[0];
      assert (u + w)[1..] == u[1..] + w;
      LeadingSpacesOf(u[1..], w);
    }
  }

  lemma {:induction false} TrailingSpacesOf(w: string, v: string)
    requires AllSpace(v) && (|w| > 0 ==> !IsSpace(w[|w| - 1]))
    ensures TrailingSpaces(w + v) == |v|
    decreases |v|
  {
    if |v| == 0 {
      assert w + v == w;
    } else {
      var s := w + v;
      assert s[|s| - 1] == v[|v| - 1];
      assert s[..|s| - 1] == w + v[..|v| - 1];
      TrailingSpacesOf(w, v[..|v| - 1]);
    }
  }

  /** Trimming a string padded with whitespace on both sides gives back the
      unpadded string, when that has no whitespace at either end. */
  lemma TrimOfPadded(u: string, r: string, v: string)
    requires AllSpace(u) && AllSpace(v) && Tight(r)
    ensures Trim(u + r + v) == r
  {
    var s := u + r + v;
    if |r| > 0 {
      assert s == u + (r + v);
      assert (r + v)[0] == r[0];
      LeadingSpacesOf(u, r + v);
      assert s[|u|..] == r + v;
      TrailingSpacesOf(r, v);
      assert (r + v)[..|r|] == r;
    } else {
      assert s == u + v;
      AllSpaceAppend(u, v);
      assert LeadingSpaces(s) == |s|;
    }
  }

  /** Trimming a string with no surrounding whitespace changes nothing. */
  lemma TrimNoSpace(s: string)
    requires Tight(s)
    ensures Trim(s) == s
  {
    assert "" + s + "" == s;
    TrimOfPadded("", s, "");
  }

  /** Any string is its trimmed part between two whitespace runs. */
  lemma TrimSplits(l: string) returns (pre: string, post: string)
    ensures l == pre + Trim(l) + post
    ensures AllSpace(pre) && AllSpace(post)
  {
    var r := Trim(l);
    var lead := LeadingSpaces(l);
    pre := l[..lead];
    post := l[lead + |r|..];
    assert l == pre + r + post by {
      assert l == l[..lead] + l[lead..lead + |r|] + l[lead + |r|..];
    }
  }

  /** Whitespace around a string does not change its trimmed form. */
  lemma TrimPadded(u: string, l: string, v: string)
    requires AllSpace(u) && AllSpace(v)
    ensures Trim(u + l + v) == Trim(l)
  {
    var pre, post := TrimSplits(l);
    var r := Trim(l);
    AllSpaceAppend(u, pre);
    AllSpaceAppend(post, v);
    Regroup(u, pre, r, post, v);
    TrimOfPadded(u + pre, r, post + v);
  }

  lemma Regroup(u: string, pre: string, r: string, post: string, v: string)
    ensures u + (pre + r + post) + v == (u + pre) + r + (post + v)
  {
  }

  /** Trimming twice is trimming once. */
  lemma TrimIdempotent(s: string)
    ensures Trim(Trim(s)) == Trim(s)
  {
    TrimNoSpace(Trim(s));
  }
}

=== FILE: error_handler.dfy ===
/** The centralized Express error middleware: how a thrown error becomes the
    HTTP status, message and machine-readable code sent to the client, and
    the `notFound` fallback route. */
module ErrorHandler {
  import opened Common

  /** `err.code`: absent, a string, or a number (Mongo's 11000). */
  datatype ErrCode = NoCode | StrCode(s: string) | NumCode(n: int)

  predicate CodeTruthy(c: ErrCode) {
    (c.StrCode? && c.s != "") || (c.NumCode? && c.n != 0)
  }

  /** The fields of a thrown error the handler reads. `fieldMessages` are the
      messages of a Mongoose ValidationError's `errors`, in key order;
      `keyPattern` lists the keys of a duplicate-key error's `keyPattern`. */
  datatype JsError = JsError(
    name: string,
    message: string,
    code: ErrCode,
    fieldMessages: seq<string>,
    keyPattern: seq<string>,
    errType: Option<string>,
    stack: string)

  datatype ErrorResponse = ErrorResponse(status: int, message: string, code: ErrCode, stack: Option<string>)

  const DuplicateKeyCode := 11000

  /** An error thrown by Mongoose when a document fails schema validation. */
  function ValidationFailure(fieldMessages: seq<string>): JsError {
    JsError("ValidationError", "Validation failed", NoCode, fieldMessages, [], None, "")
  }

  /** Mongoose's default validator messages, for a path and the rejected
      value (rendered as `String(value)` by the caller). */
  function RequiredMessage(path: string): string {
    "Path `" + path + "` is required."
  }

  function MinMessage(path: string, value: string, min: string): string {
    "Path `" + path + "` (" + value + ") is less than minimum allowed value (" + min + ")."
  }

  function MaxMessage(path: string, value: string, max: string): string {
    "Path `" + path + "` (" + value + ") is more than maximum allowed value (" + max + ")."
  }

  function EnumMessage(value: string, path: string): string {
    "`" + value + "` is not a valid enum value for path `" + path + "`."
  }

  /** An error thrown by the store when a unique index is violated. */
  function DuplicateKey(field: string): JsError {
    JsError("MongoServerError", "E11000 duplicate key error", NumCode(DuplicateKeyCode), [], [field], None, "")
  }

  /** An error thrown by Mongoose when an id that is not an ObjectId is cast
      for a lookup or a query filter. */
  function CastFailure(): JsError {
    JsError("CastError", "Cast to ObjectId failed", NoCode, [], [], None, "")
  }

  /** What a handler that may throw produces: the error passed on to the
      error handler, or its answer. */
  datatype Answer<T> = Thrown(err: JsError) | Answered(value: T)

  /** A plain `new Error(message)`. */
  function PlainError(message: string): JsError {
    JsError("Error", message, NoCode, [], [], None, "")
  }

  function Join(parts: seq<string>, sep: string): string {
    if |parts| == 0 then ""
    else if |parts| == 1 then parts[0]
    else parts[0] + sep + Join(parts[1..], sep)
  }

  lemma JoinSingle(s: string, sep: string)
    ensures Join([s], sep) == s
  {
  }

  predicate IsStripe(err: JsError) {
    err.errType.Some? && StartsWith(err.errType.value, "Stripe")
  }

  predicate IsDuplicate(err: JsError) {
    err.code == NumCode(DuplicateKeyCode)
  }

  /** True when none of the type-specific branches applies to err. */
  predicate Unrecognised(err: JsError) {
    && err.name != "ValidationError" && !IsDuplicate(err) && err.name != "CastError"
    && err.name != "JsonWebTokenError" && err.name != "TokenExpiredError" && !IsStripe(err)
  }

  function DuplicateField(err: JsError): string {
    if |err.keyPattern| > 0 then err.keyPattern[0] else "undefined"
  }

  /** `errorHandler(err, req, res)`, given the status already on the response
      and `NODE_ENV`. The status is fixed first; each branch's own
      `res.status(...)` is overwritten by the final `res.status(statusCode)`,
      so only the message and the code depend on the error. Later branches
      override earlier ones. */
  function HandleError(err: JsError, incomingStatus: int, nodeEnv: string): (r: ErrorResponse)
    ensures incomingStatus == 200 ==> r.status == 500
    ensures incomingStatus != 200 ==> r.status == incomingStatus
    ensures r.stack.Some? <==> nodeEnv == "development"
    ensures Unrecognised(err) ==> r.message == err.message
    ensures Unrecognised(err) && CodeTruthy(err.code) ==> r.code == err.code
    ensures Unrecognised(err) && !CodeTruthy(err.code) ==> r.code == StrCode("INTERNAL_ERROR")
    ensures IsStripe(err) ==> r.code == StrCode("PAYMENT_ERROR") && r.message == "Payment processing error"
    ensures !IsStripe(err) && err.name == "TokenExpiredError" ==> r.code == StrCode("TOKEN_EXPIRED")
    ensures !IsStripe(err) && err.name == "JsonWebTokenError" ==> r.code == StrCode("INVALID_TOKEN")
    ensures !IsStripe(err) && err.name == "CastError" ==> r.code == StrCode("INVALID_ID") && r.message == "Invalid ID format"
    ensures !IsStripe(err) && !IsDuplicate(err) && err.name == "ValidationError" ==>
              r.code == StrCode("VALIDATION_ERROR") && r.message == Join(err.fieldMessages, ", ")
    ensures !IsStripe(err) && err.name == "MongoServerError" && IsDuplicate(err) ==>
              r.code == StrCode("DUPLICATE_ERROR") && r.message == DuplicateField(err) + " already exists"
  {
    var statusCode := if incomingStatus == 200 then 500 else incomingStatus;
    var message0 := err.message;
    var code0 := if CodeTruthy(err.code) then err.code else StrCode("INTERNAL_ERROR");
    var (message1, code1) :=
      if err.name == "ValidationError" then (Join(err.fieldMessages, ", "), StrCode("VALIDATION_ERROR"))
      else (message0, code0);
    var (message2, code2) :=
      if IsDuplicate(err) then (DuplicateField(err) + " already exists", StrCode("DUPLICATE_ERROR"))
      else (message1, code1);
    var (message3, code3) :=
      if err.name == "CastError" then ("Invalid ID format", StrCode("INVALID_ID")) else (message2, code2);
    var (message4, code4) :=
      if err.name == "JsonWebTokenError" then ("Invalid token", StrCode("INVALID_TOKEN")) else (message3, code3);
    var (message5, code5) :=
      if err.name == "TokenExpiredError" then ("Token expired", StrCode("TOKEN_EXPIRED")) else (message4, code4);
    var (message6, code6) :=
      if IsStripe(err) then ("Payment processing error", StrCode("PAYMENT_ERROR")) else (message5, code5);
    ErrorResponse(statusCode, message6, code6, if nodeEnv == "development" then Some(err.stack) else None)
  }

  /** The status sent never depends on the error: two different errors
      reaching the handler on the same response get the same status. */
  lemma StatusIgnoresErrorKind(e1: JsError, e2: JsError, incomingStatus: int, env: string)
    ensures HandleError(e1, incomingStatus, env).status == HandleError(e2, incomingStatus, env).status
  {
  }

  /** A schema validation failure thrown from a controller (status still 200)
      is answered with 500, not the 400 its branch asks for. */
  lemma ValidationErrorAnswers500(msgs: seq<string>, env: string)
    ensures HandleError(ValidationFailure(msgs), 200, env).status == 500
    ensures HandleError(ValidationFailure(msgs), 200, env).code == StrCode("VALIDATION_ERROR")
  {
  }

  /** A duplicate-key error thrown from a controller is answered with 500,
      not 409, naming the first indexed field. */
  lemma DuplicateKeyAnswers500(field: string, env: string)
    ensures HandleError(DuplicateKey(field), 200, env).status == 500
    ensures HandleError(DuplicateKey(field), 200, env).message == field + " already exists"
  {
  }

  /** A malformed id reaching a lookup is answered with 500, not 400, with
      the INVALID_ID code and its fixed message. */
  lemma CastFailureAnswers500(env: string)
    ensures HandleError(CastFailure(), 200, env).status == 500
    ensures HandleError(CastFailure(), 200, env).code == StrCode("INVALID_ID")
    ensures HandleError(CastFailure(), 200, env).message == "Invalid ID format"
  {
  }

  /** `notFound`: sets 404, then forwards a "Not Found - <url>" error. */
  function NotFound(originalUrl: string, nodeEnv: string): (r: ErrorResponse)
    ensures r.status == 404
    ensures r.message == "Not Found - " + originalUrl
    ensures r.code == StrCode("INTERNAL_ERROR")
  {
    HandleError(PlainError("Not Found - " + originalUrl), 404, nodeEnv)
  }
}

=== FILE: format.dfy ===
/** The front end's two display helpers: `formatNumber`, which inserts
    thousands separators into the decimal rendering of a number by a
    regular-expression replacement, and the bucketing of `formatDate` into
    minutes, hours, days or a calendar date. */
module Format {
  import opened Common

  // ---------------------------------------------------------------------
  // formatNumber

  /** A character of the regular-expression class `\w`. */
  predicate IsWordChar(c: char) {
    ('a' <= c <= 'z') || ('A' <= c <= 'Z') || IsDigit(c) || c == '_'
  }

  /** The length of the run of digits starting at position i. */
  function DigitRun(s: string, i: nat): (n: nat)
    requires i <= |s|
    decreases |s| - i
    ensures i + n <= |s|
  {
    if i < |s| && IsDigit(s[i]) then 1 + DigitRun(s, i + 1) else 0
  }

  /** Whether the grouping pattern of `formatNumber` matches at position i:
      i is not a word boundary and is followed by a positive multiple of
      three digits and then no further digit. Positions 0 and |s| never
      qualify for the strings rendered here, since the lookahead needs a
      digit at i and a boundary at 0 needs a word character there. */
  predicate CommaBefore(s: string, i: nat)
    requires i <= |s|
  {
    && 0 < i < |s|
    && IsWordChar(s[i - 1]) == IsWordChar(s[i])
    && DigitRun(s, i) > 0 && DigitRun(s, i) % 3 == 0
  }

  /** The global replacement: a comma inserted at every matching position
      of s from position i on. */
  function InsertCommas(s: string, i: nat): (r: string)
    requires i <= |s|
    decreases |s| - i
    ensures |r| >= |s| - i
  {
    if i == |s| then []
    else (if CommaBefore(s, i) then [','] else []) + [s[i]] + InsertCommas(s, i + 1)
  }

  /** `formatNumber` for an integer: its decimal text with a comma at every
      non-boundary position followed by a multiple of three digits. */
  function FormatNumber(n: int): (r: string)
    ensures |r| >= |IntToString(n)|
  {
    InsertCommas(IntToString(n), 0)
  }

  /** The string with its commas removed. */
  function RemoveCommas(s: string): (r: string)
    ensures |r| <= |s|
  {
    if |s| == 0 then []
    else (if s[0] == ',' then [] else [s[0]]) + RemoveCommas(s[1..])
  }

  lemma RemoveCommasAppend(a: string, b: string)
    ensures RemoveCommas(a + b) == RemoveCommas(a) + RemoveCommas(b)
  {
    if |a| > 0 {
      assert (a + b)[1..] == a[1..] + b;
    } else {
      assert a + b == b;
    }
  }

  /** Removing the inserted commas gives back the suffix of a string that
      had none. */
  lemma {:induction false} RemoveInsertedCommas(s: string, i: nat)
    requires i <= |s|
    requires forall k :: 0 <= k < |s| ==> s[k] != ','
    decreases |s| - i
    ensures RemoveCommas(InsertCommas(s, i)) == s[i..]
  {
    if i < |s| {
      RemoveInsertedCommas(s, i + 1);
      var c: string := if CommaBefore(s, i) then [','] else [];
      RemoveCommasAppend(c + [s[i]], InsertCommas(s, i + 1));
      RemoveCommasAppend(c, [s[i]]);
      assert RemoveCommas(c) == [];
      assert RemoveCommas([s[i]]) == [s[i]];
      assert s[i..] == [s[i]] + s[i + 1..];
    }
  }

  /** Deleting the commas of `formatNumber(n)` gives back `n.toString()`. */
  lemma FormatNumberRoundTrip(n: int)
    ensures RemoveCommas(FormatNumber(n)) == IntToString(n)
  {
    var s := IntToString(n);
    RemoveInsertedCommas(s, 0);
    assert s[0..] == s;
  }

  /** The digits of a number rendered without sign. */
  predicate AllDigits(d: string) {
    forall k :: 0 <= k < |d| ==> IsDigit(d[k])
  }

  /** In a string of digits the run from i reaches the end. */
  lemma {:induction false} DigitRunToEnd(d: string, i: nat)
    requires i <= |d| && AllDigits(d)
    decreases |d| - i
    ensures DigitRun(d, i) == |d| - i
  {
    if i < |d| {
      DigitRunToEnd(d, i + 1);
    }
  }

  /** In a string of digits a comma goes before position i exactly when i
      is not the first position and a multiple of three digits follows:
      every group but the first has three digits, the first one to three. */
  lemma CommaPositions(d: string, i: nat)
    requires i <= |d| && AllDigits(d)
    ensures CommaBefore(d, i) <==> 0 < i < |d| && (|d| - i) % 3 == 0
  {
    DigitRunToEnd(d, i);
  }

  /** The result of grouping a digit string: a first group of one to three
      digits, then groups of exactly three, each after a comma. */
  function Grouped(d: string): (r: string)
    requires AllDigits(d)
    decreases |d|
  {
    if |d| <= 3 then d else Grouped(d[..|d| - 3]) + "," + d[|d| - 3..]
  }

  /** In a digit string the regular-expression insertion is the
      positional one. */
  lemma {:induction false} InsertCommasSuffix(d: string, i: nat)
    requires i <= |d| && AllDigits(d)
    decreases |d| - i
    ensures InsertCommas(d, i) == ConcatGroups(d, i)
  {
    if i < |d| {
      InsertCommasSuffix(d, i + 1);
      CommaPositions(d, i);
    }
  }

  /** The separator before position i of n digits. */
  function Sep(n: nat, i: nat): string {
    if 0 < i && (n - i) % 3 == 0 then [','] else []
  }

  /** The same insertion, stated by position in the digits. */
  function ConcatGroups(d: string, i: nat): string
    requires i <= |d|
    decreases |d| - i
  {
    if i == |d| then []
    else Sep(|d|, i) + [d[i]] + ConcatGroups(d, i + 1)
  }

  /** The last group: a comma and the final three digits. */
  lemma LastGroup(p: string, t: string)
    requires |p| > 0 && |t| == 3
    ensures ConcatGroups(p + t, |p|) == "," + t
  {
    var d := p + t;
    var k := |p|;
    assert ConcatGroups(d, |d|) == [];
    assert ConcatGroups(d, k + 2) == [d[k + 2]];
    assert ConcatGroups(d, k + 1) == [d[k + 1], d[k + 2]];
    assert t == [d[k], d[k + 1], d[k + 2]];
  }

  /** Splitting off the last three digits. */
  lemma {:induction false} ConcatGroupsSplit(p: string, t: string, i: nat)
    requires |p| > 0 && |t| == 3 && i <= |p|
    decreases |p| - i
    ensures ConcatGroups(p + t, i) == ConcatGroups(p, i) + ("," + t)
  {
    if i == |p| {
      LastGroup(p, t);
      assert ConcatGroups(p, i) == [];
    } else {
      ConcatGroupsSplit(p, t, i + 1);
      SplitStep(p, t, i);
    }
  }

  /** One step of the split: position i contributes the same to both
      sides. */
  lemma SplitStep(p: string, t: string, i: nat)
    requires |t| == 3 && i < |p|
    requires ConcatGroups(p + t, i + 1) == ConcatGroups(p, i + 1) + ("," + t)
    ensures ConcatGroups(p + t, i) == ConcatGroups(p, i) + ("," + t)
  {
    var a := ConcatGroups(p, i + 1);
    var c := Sep(|p|, i);
    assert Sep(|p + t|, i) == c by {
      ThreeMore(|p| - i);
    }
    assert (p + t)[i] == p[i];
    assert ConcatGroups(p + t, i) == (c + [p[i]]) + (a + ("," + t));
  }

  lemma ThreeMore(x: nat)
    ensures (x + 3) % 3 == x % 3
  {
  }

  /** Commas at those positions build exactly the grouped form. */
  lemma {:induction false} ConcatGroupsIsGrouped(d: string)
    requires AllDigits(d)
    decreases |d|
    ensures ConcatGroups(d, 0) == Grouped(d)
  {
    if |d| <= 3 {
      NoCommasInShort(d, 0);
    } else {
      var p := d[..|d| - 3];
      var t := d[|d| - 3..];
      assert d == p + t;
      assert AllDigits(p);
      ConcatGroupsSplit(p, t, 0);
      ConcatGroupsIsGrouped(p);
      assert Grouped(d) == Grouped(p) + "," + t;
      assert Grouped(p) + "," + t == Grouped(p) + ("," + t);
    }
  }

  lemma {:induction false} NoCommasInShort(d: string, i: nat)
    requires |d| <= 3 && i <= |d|
    decreases |d| - i
    ensures ConcatGroups(d, i) == d[i..]
  {
    if i < |d| {
      NoCommasInShort(d, i + 1);
      assert d[i..] == [d[i]] + d[i + 1..];
    }
  }

  /** For a non-negative integer `formatNumber` gives the grouped digits. */
  lemma NonNegativeGrouped(n: nat)
    ensures FormatNumber(n) == Grouped(NatToString(n))
  {
    InsertCommasSuffix(NatToString(n), 0);
    ConcatGroupsIsGrouped(NatToString(n));
  }

  /** Numbers below 1000 have at most three digits. */
  lemma ShortNumber(n: nat)
    requires n < 1000
    ensures |NatToString(n)| <= 3
  {
    if n >= 10 {
      assert NatToString(n) == NatToString(n / 10) + [DigitChar(n % 10)];
      if n / 10 >= 10 {
        assert NatToString(n / 10) == NatToString(n / 100) + [DigitChar((n / 10) % 10)];
      }
    }
  }

  /** Under the sign, commas fall where they fall for the digits alone. */
  lemma {:induction false} SignedInsert(d: string, i: nat)
    requires AllDigits(d) && |d| > 0 && 1 <= i <= |d|
    decreases |d| - i
    ensures InsertCommas("-" + d, i + 1) == InsertCommas(d, i)
  {
    var s := "-" + d;
    if i < |d| {
      SignedInsert(d, i + 1);
      DigitRunToEnd(d, i);
      SignedRun(d, i + 1);
      assert s[i] == d[i - 1] && s[i + 1] == d[i];
    }
  }

  lemma {:induction false} SignedRun(d: string, i: nat)
    requires AllDigits(d) && 1 <= i <= |d| + 1
    decreases |d| + 1 - i
    ensures DigitRun("-" + d, i) == |d| + 1 - i
  {
    var s := "-" + d;
    if i < |d| + 1 {
      assert s[i] == d[i - 1];
      SignedRun(d, i + 1);
    }
  }

  /** A negative number is its magnitude's formatting behind a minus sign;
      in particular no comma ever follows the '-'. */
  lemma NegativeFormatted(n: int)
    requires n < 0
    ensures FormatNumber(n) == "-" + FormatNumber(-n)
    ensures FormatNumber(n)[1] != ','
  {
    var d := NatToString(-n);
    var s := "-" + d;
    assert s == IntToString(n);
    assert !IsWordChar(s[0]) && IsWordChar(s[1]);
    assert InsertCommas(s, 0) == [s[0]] + InsertCommas(s, 1);
    assert InsertCommas(s, 1) == [s[1]] + InsertCommas(s, 2);
    SignedInsert(d, 1);
    assert InsertCommas(d, 0) == [d[0]] + InsertCommas(d, 1);
    assert FormatNumber(-n) == InsertCommas(d, 0);
    assert FormatNumber(n) == [s[0]] + ([s[1]] + InsertCommas(s, 2));
    assert FormatNumber(n)[1] == s[1];
  }

  /** Integers of magnitude below 1000 are returned unchanged. */
  lemma SmallUnchanged(n: int)
    requires -1000 < n < 1000
    ensures FormatNumber(n) == IntToString(n)
  {
    var m: nat := if n < 0 then -n else n;
    ShortNumber(m);
    NonNegativeGrouped(m);
    if n < 0 {
      NegativeFormatted(n);
    }
  }

  // ---------------------------------------------------------------------
  // formatDate

  const MinuteMs := 60000
  const HourMs := 3600000
  const DayMs := 86400000

  /** How long ago a date lies: minutes, hours or days with the count
      floored, or old enough to be shown as a calendar date. */
  datatype Ago = MinutesAgo(minutes: int) | HoursAgo(hours: int) | DaysAgo(days: int) | OnDate

  /** The bucketing of `formatDate` for a difference of `diff`
      milliseconds between now and the date. */
  function Bucket(diff: int): (a: Ago)
    ensures a.MinutesAgo? ==> MinuteMs * a.minutes <= diff < MinuteMs * (a.minutes + 1)
    ensures a.HoursAgo? ==> HourMs * a.hours <= diff < HourMs * (a.hours + 1)
    ensures a.DaysAgo? ==> DayMs * a.days <= diff < DayMs * (a.days + 1)
  {
    var minutes := diff / MinuteMs;
    var hours := diff / HourMs;
    var days := diff / DayMs;
    if minutes < 60 then MinutesAgo(minutes)
    else if hours < 24 then HoursAgo(hours)
    else if days < 7 then DaysAgo(days)
    else OnDate
  }

  /** The displayed text; `localeDate` is the browser's rendering of the
      date, which the model takes as given. */
  function FormatDate(diff: int, localeDate: string): (r: string)
    ensures diff < HourMs ==> r == IntToString(diff / MinuteMs) + " minutes ago"
    ensures HourMs <= diff < DayMs ==> r == IntToString(diff / HourMs) + " hours ago"
    ensures DayMs <= diff < 7 * DayMs ==> r == IntToString(diff / DayMs) + " days ago"
    ensures 7 * DayMs <= diff ==> r == localeDate
  {
    BucketThresholds(diff);
    match Bucket(diff)
    case MinutesAgo(m) => IntToString(m) + " minutes ago"
    case HoursAgo(h) => IntToString(h) + " hours ago"
    case DaysAgo(d) => IntToString(d) + " days ago"
    case OnDate => localeDate
  }

  /** The buckets by the difference itself: under an hour in minutes,
      under a day in hours, under a week in days, and otherwise a date. */
  lemma BucketThresholds(diff: int)
    ensures Bucket(diff).MinutesAgo? <==> diff < HourMs
    ensures Bucket(diff).HoursAgo? <==> HourMs <= diff < DayMs
    ensures Bucket(diff).DaysAgo? <==> DayMs <= diff < 7 * DayMs
    ensures Bucket(diff).OnDate? <==> 7 * DayMs <= diff
  {
  }
}

=== FILE: game_model.dfy ===
/** A tracked game and the Steam player-count time series kept for it: the
    records the games controller reads and the metadata and player-count
    workers write. Averages of samples are `Math.round` of the exact mean. */
module GameModel {
  import opened Common

  type GameId = string

  datatype Game = Game(
    id: GameId,
    rawgId: Option<int>,
    steamAppId: Option<int>,
    name: string,
    slug: string,
    description: Option<string>,
    shortDescription: string,
    headerImage: Option<string>,
    backgroundImage: Option<string>,
    screenshots: seq<string>,
    releaseDate: Option<string>,
    genres: seq<string>,
    tags: seq<string>,
    platforms: seq<string>,
    developers: seq<string>,
    publishers: seq<string>,
    rating: real,
    metacriticScore: Option<int>,
    featured: bool,
    trending: bool,
    isActive: bool,
    currentPlayers: nat,
    peakPlayers: nat,
    averagePlayers: nat,
    reviewCount: nat,
    averageReviewScore: real,
    lastPlayerCountUpdate: Option<int>,
    lastMetadataUpdate: Option<int>)

  /** An hour of the day, as the sample's save hook records it. */
  type Hour = h: nat | h < 24

  /** One stored player count of a game at `timestamp` (milliseconds). */
  datatype Sample = Sample(game: GameId, playerCount: nat, timestamp: int, hour: Hour)

  const HourMs := 60 * 60 * 1000
  const DayMs := 24 * HourMs

  function SampleOf(game: GameId, since: int): Sample -> bool {
    (s: Sample) => s.game == game && s.timestamp >= since
  }

  /** The game's samples taken at or after `since`. */
  function SamplesSince(samples: seq<Sample>, game: GameId, since: int): (r: seq<Sample>)
    ensures forall s :: s in r <==> s in samples && s.game == game && s.timestamp >= since
  {
    Filter(samples, SampleOf(game, since))
  }

  /** The sum of the sampled counts. */
  function Total(ss: seq<Sample>): nat {
    if |ss| == 0 then 0 else ss[0].playerCount + Total(ss[1..])
  }

  /** `Math.max(...counts, 0)`. */
  function Peak(ss: seq<Sample>): (p: nat)
    ensures forall i :: 0 <= i < |ss| ==> ss[i].playerCount <= p
    ensures p == 0 || exists i :: 0 <= i < |ss| && ss[i].playerCount == p
  {
    if |ss| == 0 then 0
    else
      var rest := Peak(ss[1..]);
      if ss[0].playerCount >= rest then ss[0].playerCount
      else
        assert rest != 0;
        assert exists i :: 1 <= i < |ss| && ss[i].playerCount == rest by {
          var j :| 0 <= j < |ss[1..]| && ss[1..][j].playerCount == rest;
          assert ss[j + 1].playerCount == rest;
        }
        rest
  }

  /** The peak, stated over the samples rather than their positions. */
  lemma PeakIsLargest(ss: seq<Sample>)
    ensures forall s :: s in ss ==> s.playerCount <= Peak(ss)
    ensures Peak(ss) == 0 || exists s :: s in ss && s.playerCount == Peak(ss)
  {
    var peak := Peak(ss);
    forall s | s in ss ensures s.playerCount <= peak {
      var i :| 0 <= i < |ss| && ss[i] == s;
    }
    if peak != 0 {
      var i :| 0 <= i < |ss| && ss[i].playerCount == peak;
      assert ss[i] in ss;
    }
  }

  /** m is the mean count rounded to the nearest integer, halves up:
      m <= Total/n + 1/2 < m + 1, scaled by 2n. */
  predicate NearestMean(ss: seq<Sample>, m: int) {
    |ss| > 0 ==> 2 * |ss| * m <= 2 * Total(ss) + |ss| < 2 * |ss| * (m + 1)
  }

  /** `Math.round` of the mean count, and 0 without samples. */
  function RoundedMean(ss: seq<Sample>): (m: nat)
    ensures |ss| == 0 ==> m == 0
    ensures NearestMean(ss, m)
  {
    if |ss| == 0 then 0 else RoundDiv(Total(ss), |ss|)
  }

  lemma {:induction false} TotalAtMostPeak(ss: seq<Sample>)
    ensures Total(ss) <= |ss| * Peak(ss)
  {
    if |ss| > 0 {
      var rest := ss[1..];
      TotalAtMostPeak(rest);
      var p := Peak(ss);
      assert Peak(rest) <= p by {
        if Peak(rest) > 0 {
          var j :| 0 <= j < |rest| && rest[j].playerCount == Peak(rest);
          assert ss[j + 1].playerCount <= p;
        }
      }
      AddBound(ss[0].playerCount, Total(rest), |rest|, Peak(rest), p);
    }
  }

  /** The rounded average never exceeds the peak. */
  lemma RoundedMeanAtMostPeak(ss: seq<Sample>)
    ensures RoundedMean(ss) <= Peak(ss)
  {
    if |ss| > 0 {
      TotalAtMostPeak(ss);
      RoundDivAtMost(Total(ss), |ss|, Peak(ss));
    }
  }

  /** Samples that all count c average exactly c. */
  lemma {:induction false} ConstantSamplesAverage(ss: seq<Sample>, c: nat)
    requires |ss| > 0
    requires forall i :: 0 <= i < |ss| ==> ss[i].playerCount == c
    ensures Total(ss) == |ss| * c
    ensures RoundedMean(ss) == c
  {
    var n := |ss| - 1;
    assert Total(ss) == c + Total(ss[1..]);
    if n > 0 {
      ConstantSamplesAverage(ss[1..], c);
      assert Total(ss[1..]) == n * c;
    } else {
      assert Total(ss[1..]) == 0;
    }
    assert |ss| * c == c + n * c;
    assert Total(ss) == |ss| * c;
    RoundDivAtMost(Total(ss), |ss|, c);
    RoundDivAtLeast(Total(ss), |ss|, c);
  }
}

=== FILE: games.dfy ===
/** The games controller: the game list with its filters, lookup by id or
    slug, the player-count history window, the 24-hour statistics with the
    premium hourly breakdown, the trending and featured lists, and search
    with its length guard. The store is the game collection in natural
    order; samples are the Steam player-count time series. */
module Games {
  import opened Common
  import opened UserModel
  import opened GameModel
  import Validators
  import opened ErrorHandler

  function CurrentPlayers(g: Game): real { g.currentPlayers as real }
  function Rating(g: Game): real { g.rating }

  // ---------------------------------------------------------------------
  // getGames

  /** The list's query parameters that select games; `search` is the
      `$text` filter over the name and description index. */
  datatype GameQuery = GameQuery(genre: Option<string>, platform: Option<string>,
                                 featured: Option<string>, trending: Option<string>,
                                 search: Option<TextSearch<Game>>)

  /** Whether a game is selected: always active; a given genre or platform
      must be among the game's; featured and trending restrict only when the
      parameter is exactly "true"; a non-empty search keeps the games the
      text index matches. */
  predicate Listed(q: GameQuery, g: Game) {
    && g.isActive
    && (Truthy(q.genre) ==> q.genre.value in g.genres)
    && (Truthy(q.platform) ==> q.platform.value in g.platforms)
    && (q.featured == Some("true") ==> g.featured)
    && (q.trending == Some("true") ==> g.trending)
    && TextAdmits(q.search, g)
  }

  function ListedBy(q: GameQuery): Game -> bool {
    (g: Game) => Listed(q, g)
  }

  datatype GameList = GameList(games: seq<Game>, page: nat, limit: nat, total: nat, pages: nat)

  /** `getGames` with the default order, most current players first. */
  function GetGames(games: seq<Game>, q: GameQuery, page: nat, limit: nat): (r: GameList)
    requires page >= 1 && limit >= 1
    ensures r.total == Count(games, ListedBy(q))
    ensures r.pages == CeilDiv(r.total, limit) && r.page == page && r.limit == limit
    ensures |r.games| == if Skip(page, limit) >= r.total then 0 else Min(limit, r.total - Skip(page, limit))
    ensures forall i :: 0 <= i < |r.games| ==> r.games[i] in games && Listed(q, r.games[i])
    ensures forall i, j :: 0 <= i < j < |r.games| ==> r.games[i].currentPlayers >= r.games[j].currentPlayers
    ensures forall i :: 0 <= i < |r.games| ==> RanksAt(games, ListedBy(q), CurrentPlayers, r.games[i], Skip(page, limit) + i)
  {
    var total := Count(games, ListedBy(q));
    GameList(SortedPage(games, ListedBy(q), CurrentPlayers, page, limit), page, limit, total, CeilDiv(total, limit))
  }

  /** An inactive game is never listed, whatever the filters. */
  lemma InactiveNeverListed(games: seq<Game>, q: GameQuery, page: nat, limit: nat, g: Game)
    requires page >= 1 && limit >= 1
    requires !g.isActive
    ensures g !in GetGames(games, q, page, limit).games
  {
  }

  /** A search only narrows the listing: every game it lists is listed
      without it, and an empty search string filters nothing. */
  lemma SearchNarrowsListing(games: seq<Game>, q: GameQuery)
    ensures forall g :: Listed(q, g) ==> Listed(q.(search := None), g)
    ensures Count(games, ListedBy(q)) <= Count(games, ListedBy(q.(search := None)))
    ensures q.search.Some? && q.search.value.terms == "" ==>
              forall g :: Listed(q, g) <==> Listed(q.(search := None), g)
  {
    CountMono(games, ListedBy(q), ListedBy(q.(search := None)));
  }

  /** A featured or trending parameter other than the literal "true" (such
      as "1" or "TRUE") selects exactly what no parameter selects. */
  lemma OnlyLiteralTrueFilters(q: GameQuery, g: Game)
    requires q.featured != Some("true") && q.trending != Some("true")
    ensures Listed(q, g) <==> Listed(GameQuery(q.genre, q.platform, None, None, q.search), g)
  {
  }

  /** With the featured filter on, every listed game is featured, and no
      featured active game of the requested genre and platform is missed. */
  lemma FeaturedFilterSelectsFeatured(games: seq<Game>, q: GameQuery)
    requires q.featured == Some("true")
    ensures Count(games, ListedBy(q))
            == Count(games, ListedBy(GameQuery(q.genre, q.platform, None, q.trending, q.search)))
               - Count(games, (g: Game) => Listed(GameQuery(q.genre, q.platform, None, q.trending, q.search), g) && !g.featured)
  {
    var wide := ListedBy(GameQuery(q.genre, q.platform, None, q.trending, q.search));
    var notFeatured := (g: Game) => Listed(GameQuery(q.genre, q.platform, None, q.trending, q.search), g) && !g.featured;
    CountDisjoint(games, ListedBy(q), notFeatured, wide);
  }

  // ---------------------------------------------------------------------
  // getGame, getPlayerCount, getPlayerCountHistory, getGameStats: lookup

  /** The game a route parameter names: by id when the parameter is exactly
      24 hexadecimal characters, and by slug in every case. */
  predicate Names(id: string, g: Game) {
    (Validators.IsObjectId(id) && g.id == id) || g.slug == id
  }

  function NamedBy(id: string): Game -> bool {
    (g: Game) => Names(id, g)
  }

  /** `findOne` with the id-or-slug condition. */
  function FindGame(games: seq<Game>, id: string): (r: Option<Game>)
    ensures r.Some? ==> r.value in games && Names(id, r.value)
    ensures r.None? <==> forall i :: 0 <= i < |games| ==> !Names(id, games[i])
  {
    match FirstIndex(games, NamedBy(id))
    case None => None
    case Some(i) => Some(games[i])
  }

  /** A parameter that is not 24 hexadecimal characters is only ever looked
      up as a slug: it finds a game exactly when some game has that slug,
      and the game found has it. */
  lemma NonHexParameterIsSlug(games: seq<Game>, id: string)
    requires !Validators.IsObjectId(id)
    ensures FindGame(games, id).Some? <==> exists i :: 0 <= i < |games| && games[i].slug == id
    ensures FindGame(games, id).Some? ==> FindGame(games, id).value.slug == id
  {
    if exists i :: 0 <= i < |games| && games[i].slug == id {
      var i :| 0 <= i < |games| && games[i].slug == id;
      assert Names(id, games[i]);
    }
  }

  /** A 24-hex parameter finds the game with that id when no game before it
      has the parameter as id or slug. */
  lemma HexParameterFindsId(games: seq<Game>, id: string, k: nat)
    requires Validators.IsObjectId(id)
    requires k < |games| && games[k].id == id
    requires forall j :: 0 <= j < k ==> games[j].id != id && games[j].slug != id
    ensures FindGame(games, id) == Some(games[k])
  {
    FirstIndexIs(games, NamedBy(id), k);
  }

  /** The answer to a lookup: 404 "Game not found", or the game. */
  function LookupStatus(found: Option<Game>): (status: int)
    ensures status == 404 <==> found.None?
    ensures status == 200 <==> found.Some?
  {
    if found.None? then 404 else 200
  }

  // ---------------------------------------------------------------------
  // getPlayerCountHistory

  /** Hours of history for each time range; an unknown range is a day. */
  function HistoryHours(timeRange: string): (h: nat)
    ensures timeRange !in Validators.TimeRanges ==> h == 24
    ensures h in {24, 48, 168, 720}
  {
    match timeRange
    case "24h" => 24
    case "48h" => 48
    case "7d" => 7 * 24
    case "30d" => 30 * 24
    case _ => 24
  }

  /** Each known range covers the span its name says, and the four ranges
      are strictly nested. */
  lemma HistoryRangesNested()
    ensures HistoryHours("24h") == 24 && HistoryHours("48h") == 2 * 24
    ensures HistoryHours("7d") == 7 * 24 && HistoryHours("30d") == 30 * 24
    ensures HistoryHours("24h") < HistoryHours("48h") < HistoryHours("7d") < HistoryHours("30d")
    ensures forall r :: r in Validators.TimeRanges && r != "24h" ==> HistoryHours(r) > HistoryHours("24h")
  {
  }

  function TimestampKey(s: Sample): real { -(s.timestamp as real) }

  /** The game's samples within the range, oldest first. */
  function PlayerCountHistory(samples: seq<Sample>, game: Game, now: int, timeRange: string): (r: seq<Sample>)
    ensures forall s :: s in r <==>
              s in samples && s.game == game.id && s.timestamp >= now - HistoryHours(timeRange) * HourMs
    ensures |r| == Count(samples, SampleOf(game.id, now - HistoryHours(timeRange) * HourMs))
    ensures forall i, j :: 0 <= i < j < |r| ==> r[i].timestamp <= r[j].timestamp
  {
    var r := SortDesc(SamplesSince(samples, game.id, now - HistoryHours(timeRange) * HourMs), TimestampKey);
    assert forall i, j :: 0 <= i < j < |r| ==> TimestampKey(r[i]) >= TimestampKey(r[j]);
    r
  }

  // ---------------------------------------------------------------------
  // getGameStats

  datatype HourAverage = HourAverage(hour: Hour, average: nat)

  function AtHour(h: Hour): Sample -> bool {
    (s: Sample) => s.hour == h
  }

  predicate HasHour(ss: seq<Sample>, h: Hour) {
    exists i :: 0 <= i < |ss| && ss[i].hour == h
  }

  /** The breakdown of the hours from h on: one entry per hour that has
      samples, in ascending order, each the rounded mean of that hour's
      counts. */
  function HourlyFrom(ss: seq<Sample>, h: nat): (r: seq<HourAverage>)
    requires h <= 24
    decreases 24 - h
    ensures forall i :: 0 <= i < |r| ==> h <= r[i].hour
    ensures forall i, j :: 0 <= i < j < |r| ==> r[i].hour < r[j].hour
    ensures forall i :: 0 <= i < |r| ==> r[i].average == RoundedMean(Filter(ss, AtHour(r[i].hour)))
  {
    if h == 24 then []
    else
      var rest := HourlyFrom(ss, h + 1);
      var at := Filter(ss, AtHour(h));
      if |at| == 0 then rest else [HourAverage(h, RoundedMean(at))] + rest
  }

  predicate Lists(r: seq<HourAverage>, h: Hour) {
    exists i :: 0 <= i < |r| && r[i].hour == h
  }

  lemma HourSampled(ss: seq<Sample>, h: Hour)
    ensures HasHour(ss, h) <==> |Filter(ss, AtHour(h))| > 0
  {
    if HasHour(ss, h) {
      var i :| 0 <= i < |ss| && ss[i].hour == h;
      assert ss[i] in Filter(ss, AtHour(h));
    }
    if |Filter(ss, AtHour(h))| > 0 {
      var x := Filter(ss, AtHour(h))[0];
      assert x in ss;
      var i :| 0 <= i < |ss| && ss[i] == x;
    }
  }

  lemma ListsCons(x: HourAverage, rest: seq<HourAverage>, k: Hour)
    ensures Lists([x] + rest, k) <==> x.hour == k || Lists(rest, k)
  {
    var r := [x] + rest;
    if Lists(rest, k) {
      var i :| 0 <= i < |rest| && rest[i].hour == k;
      assert r[i + 1].hour == k;
    }
    if Lists(r, k) && x.hour != k {
      var i :| 0 <= i < |r| && r[i].hour == k;
      assert rest[i - 1].hour == k;
    }
    if x.hour == k {
      assert r[0].hour == k;
    }
  }

  /** The breakdown from h on lists exactly the sampled hours from h on. */
  lemma {:induction false} HourlyFromCovers(ss: seq<Sample>, h: nat, k: Hour)
    requires h <= 24
    decreases 24 - h
    ensures Lists(HourlyFrom(ss, h), k) <==> h <= k && HasHour(ss, k)
  {
    if h < 24 {
      var rest := HourlyFrom(ss, h + 1);
      HourlyFromCovers(ss, h + 1, k);
      HourSampled(ss, h);
      var at := Filter(ss, AtHour(h));
      if |at| == 0 {
        assert HourlyFrom(ss, h) == rest;
      } else {
        var head := HourAverage(h, RoundedMean(at));
        assert HourlyFrom(ss, h) == [head] + rest;
        ListsCons(head, rest, k);
      }
    }
  }

  /** The premium `hourlyAverage`. */
  function HourlyAverage(ss: seq<Sample>): (r: seq<HourAverage>)
    ensures forall i, j :: 0 <= i < j < |r| ==> r[i].hour < r[j].hour
    ensures forall i :: 0 <= i < |r| ==> r[i].average == RoundedMean(Filter(ss, AtHour(r[i].hour)))
  {
    HourlyFrom(ss, 0)
  }

  /** The breakdown has an entry for an hour exactly when that hour was
      sampled, and every entry is a sampled hour's rounded mean. */
  lemma HourlyListsSampledHours(ss: seq<Sample>, h: Hour)
    ensures Lists(HourlyAverage(ss), h) <==> HasHour(ss, h)
    ensures Lists(HourlyAverage(ss), h) ==> |Filter(ss, AtHour(h))| > 0
  {
    HourlyFromCovers(ss, 0, h);
    HourSampled(ss, h);
  }

  datatype GameStats = GameStats(current: nat, peak24h: nat, average24h: nat, allTimePeak: nat,
                                 hourlyAverage: Option<seq<HourAverage>>)

  datatype StatsOutcome = StatsGameNotFound | StatsOf(stats: GameStats)

  /** `getGameStats` at time `now` for the requesting account, if any. */
  function GetGameStats(games: seq<Game>, samples: seq<Sample>, id: string, user: Option<User>, now: int): (r: StatsOutcome)
    ensures r.StatsGameNotFound? <==> FindGame(games, id).None?
    ensures r.StatsOf? ==>
              && r.stats.current == FindGame(games, id).value.currentPlayers
              && r.stats.allTimePeak == FindGame(games, id).value.peakPlayers
              && (r.stats.hourlyAverage.Some? <==> user.Some? && IsPremium(user.value, now))
  {
    match FindGame(games, id)
    case None => StatsGameNotFound
    case Some(g) =>
      var day := SamplesSince(samples, g.id, now - DayMs);
      StatsOf(GameStats(g.currentPlayers, Peak(day), RoundedMean(day), g.peakPlayers,
                        if user.Some? && IsPremium(user.value, now) then Some(HourlyAverage(day)) else None))
  }

  /** The figures summarise the game's samples of the last 24 hours: the
      peak is the largest count (0 without samples), the average is the mean
      rounded to the nearest integer (0 without samples), and the premium
      breakdown is that of the same samples. */
  lemma StatsSummarizeLastDay(games: seq<Game>, samples: seq<Sample>, id: string, user: Option<User>, now: int)
    requires GetGameStats(games, samples, id, user, now).StatsOf?
    ensures var st := GetGameStats(games, samples, id, user, now).stats;
            var day := SamplesSince(samples, FindGame(games, id).value.id, now - DayMs);
            && (forall s :: s in day ==> s.playerCount <= st.peak24h)
            && (st.peak24h == 0 || exists s :: s in day && s.playerCount == st.peak24h)
            && (|day| == 0 ==> st.average24h == 0)
            && NearestMean(day, st.average24h)
            && (st.hourlyAverage.Some? ==> st.hourlyAverage.value == HourlyAverage(day))
  {
    var g := FindGame(games, id).value;
    var day := SamplesSince(samples, g.id, now - DayMs);
    var hourly := if user.Some? && IsPremium(user.value, now) then Some(HourlyAverage(day)) else None;
    var st := GetGameStats(games, samples, id, user, now).stats;
    assert st == GameStats(g.currentPlayers, Peak(day), RoundedMean(day), g.peakPlayers, hourly);
    PeakIsLargest(day);
  }

  /** The 24-hour average never exceeds the 24-hour peak. */
  lemma StatsAverageAtMostPeak(games: seq<Game>, samples: seq<Sample>, id: string, user: Option<User>, now: int)
    requires GetGameStats(games, samples, id, user, now).StatsOf?
    ensures GetGameStats(games, samples, id, user, now).stats.average24h
            <= GetGameStats(games, samples, id, user, now).stats.peak24h
  {
    var g := FindGame(games, id).value;
    RoundedMeanAtMostPeak(SamplesSince(samples, g.id, now - DayMs));
  }

  /** The statistics cover the same samples as the default 24-hour history. */
  lemma StatsWindowIsDayHistory(samples: seq<Sample>, game: Game, now: int, s: Sample)
    ensures s in PlayerCountHistory(samples, game, now, "24h") <==> s in SamplesSince(samples, game.id, now - DayMs)
  {
  }

  // ---------------------------------------------------------------------
  // getTrendingGames, getFeaturedGames

  function ActiveTrending(g: Game): bool { g.isActive && g.trending }
  function ActiveFeatured(g: Game): bool { g.isActive && g.featured }

  /** Active trending games, most current players first: `.limit(n)` with
      the parsed `limit`, where 0 means no limit and a negative n is taken
      as its magnitude. */
  function TrendingGames(games: seq<Game>, limit: int): (r: seq<Game>)
    ensures |r| == if limit == 0 then Count(games, ActiveTrending) else Min(Abs(limit), Count(games, ActiveTrending))
    ensures forall g :: g in r ==> g in games && g.isActive && g.trending
    ensures forall i, j :: 0 <= i < j < |r| ==> r[i].currentPlayers >= r[j].currentPlayers
    ensures forall x, y :: x in games && ActiveTrending(x) && x !in r && y in r ==> y.currentPlayers >= x.currentPlayers
  {
    TopN(games, ActiveTrending, CurrentPlayers, Abs(limit))
  }

  /** Active featured games, best rated first, with the same limit rule. */
  function FeaturedGames(games: seq<Game>, limit: int): (r: seq<Game>)
    ensures |r| == if limit == 0 then Count(games, ActiveFeatured) else Min(Abs(limit), Count(games, ActiveFeatured))
    ensures forall g :: g in r ==> g in games && g.isActive && g.featured
    ensures forall i, j :: 0 <= i < j < |r| ==> r[i].rating >= r[j].rating
    ensures forall x, y :: x in games && ActiveFeatured(x) && x !in r && y in r ==> y.rating >= x.rating
  {
    TopN(games, ActiveFeatured, Rating, Abs(limit))
  }

  // ---------------------------------------------------------------------
  // searchGames

  datatype SearchOutcome = QueryTooShort | SearchThrew(err: JsError) | SearchResults(games: seq<Game>)

  /** A refused query is 400; a query the database throws on reaches the
      error handler with the status still 200, which answers 500. */
  function SearchStatus(o: SearchOutcome, nodeEnv: string): (status: int)
    ensures status == 400 <==> o.QueryTooShort?
    ensures status == 500 <==> o.SearchThrew?
    ensures status == 200 <==> o.SearchResults?
  {
    match o
    case QueryTooShort => 400
    case SearchThrew(err) => HandleError(err, 200, nodeEnv).status
    case SearchResults(_) => 200
  }

  function Matching(text: string, matches: (Game, string) -> bool): Game -> bool {
    (g: Game) => g.isActive && matches(g, text)
  }

  /** `searchGames`: the query must be present and at least 2 characters.
      The query is used as a regular expression: `regexError` is the error
      the database raises for a pattern it cannot compile (None when it
      compiles), and `matches` the case-insensitive name-or-description
      match; both are inputs. */
  function SearchGames(games: seq<Game>, q: Option<string>, limit: int, regexError: string -> Option<JsError>,
                       matches: (Game, string) -> bool): (r: SearchOutcome)
    ensures r.QueryTooShort? <==> !Truthy(q) || |q.value| < 2
    ensures r.SearchThrew? <==> Truthy(q) && |q.value| >= 2 && regexError(q.value).Some?
    ensures r.SearchThrew? ==> r.err == regexError(q.value).value
    ensures r.SearchResults? ==>
              var found := Filter(games, Matching(q.value, matches));
              && r.games <= found
              && |r.games| == (if limit == 0 then |found| else Min(Abs(limit), |found|))
              && (forall g :: g in r.games ==> g in games && g.isActive && matches(g, q.value))
  {
    if !Truthy(q) || |q.value| < 2 then QueryTooShort
    else if regexError(q.value).Some? then SearchThrew(regexError(q.value).value)
    else
      var found := Filter(games, Matching(q.value, matches));
      var r := Limit(found, Abs(limit));
      assert forall g :: g in r ==> g in found;
      SearchResults(r)
  }

  /** The query the controller sees: the validator's sanitizer has trimmed it. */
  function SanitizedQuery(raw: Option<string>): Option<string> {
    if raw.None? then None else Some(Trim(raw.value))
  }

  /** Behind the search validator, the controller's guard refuses exactly
      the requests without a query: the validator lets those through, and
      every query it accepts is long enough. */
  lemma SearchGuardBehindValidator(games: seq<Game>, raw: Option<string>, limit: int,
                                   regexError: string -> Option<JsError>, matches: (Game, string) -> bool)
    requires |Validators.SearchErrors(raw)| == 0
    ensures SearchGames(games, SanitizedQuery(raw), limit, regexError, matches).QueryTooShort? <==> raw.None?
  {
  }
}

=== FILE: jwt.dfy ===
/** The JWT helpers: the bearer-token extraction from the Authorization
    header, the access/refresh token pair, and verification. Signing and
    signature checking are cryptography and enter as two parameters:
    `sign` turns claims into a token string, `decode` returns the claims of
    a token whose signature checks out. */
module Jwt {
  import opened Common
  import opened UserModel

  /** `{ userId, role }`, the payload of both tokens. */
  datatype Payload = Payload(userId: UserId, role: Role)

  /** Which secret a token was signed with. */
  datatype SecretKind = AccessSecret | RefreshSecret

  /** A signed token's contents. `iat` and `exp` are whole seconds, as
      jsonwebtoken writes them. */
  datatype Claims = Claims(payload: Payload, secret: SecretKind, issuedAt: int, expiresAt: int)

  /** The default lifetimes in seconds: '15m' and '7d'. */
  const AccessLifetime := 15 * 60
  const RefreshLifetime := 7 * 24 * 60 * 60

  /** jsonwebtoken's clock, `Math.floor(Date.now() / 1000)`: the whole
      seconds of a time in milliseconds (Dafny's `/` by a positive divisor
      rounds down, as `Math.floor` does). */
  function Seconds(ms: int): (s: int)
    ensures s * 1000 <= ms < s * 1000 + 1000
  {
    ms / 1000
  }

  const BearerPrefix := "Bearer "

  /** `extractToken`: the header after a case-sensitive "Bearer " prefix, or
      null. */
  function ExtractToken(header: Option<string>): (t: Option<string>)
    ensures t.Some? <==> header.Some? && StartsWith(header.value, BearerPrefix)
    ensures t.Some? ==> header.value == BearerPrefix + t.value
  {
    if Truthy(header) && StartsWith(header.value, BearerPrefix) then
      assert header.value == header.value[..7] + header.value[7..];
      Some(header.value[7..])
    else None
  }

  /** The header built from any token gives that token back. */
  lemma ExtractTokenRoundTrip(t: string)
    ensures ExtractToken(Some(BearerPrefix + t)) == Some(t)
  {
    assert (BearerPrefix + t)[..7] == BearerPrefix;
  }

  /** A bare "Bearer " yields the empty token rather than null; another
      capitalisation yields null. */
  lemma ExtractTokenEdges()
    ensures ExtractToken(Some("Bearer ")) == Some("")
    ensures ExtractToken(Some("bearer abc")) == None
    ensures ExtractToken(None) == None
  {
    assert !StartsWith("bearer abc", BearerPrefix) by {
      assert "bearer abc"[0] != BearerPrefix[0];
    }
  }

  datatype TokenPair = TokenPair(accessToken: string, refreshToken: string)

  /** `generateTokenPair` at time `now`. */
  function GenerateTokenPair(userId: UserId, role: Role, now: int, sign: Claims -> string): TokenPair {
    var payload := Payload(userId, role);
    var iat := Seconds(now);
    TokenPair(sign(Claims(payload, AccessSecret, iat, iat + AccessLifetime)),
              sign(Claims(payload, RefreshSecret, iat, iat + RefreshLifetime)))
  }

  datatype Verified = Valid(payload: Payload) | TokenExpired | Invalid

  /** `jwt.verify` with the secret `kind`: a bad signature or a token of the
      other secret is invalid; a token is expired once the current whole
      second reaches its `exp`. */
  function Verify(token: string, kind: SecretKind, now: int, decode: string -> Option<Claims>): (v: Verified)
    ensures v.Valid? <==> decode(token).Some? && decode(token).value.secret == kind && Seconds(now) < decode(token).value.expiresAt
    ensures v.Valid? ==> v.payload == decode(token).value.payload
    ensures v.TokenExpired? <==>
              decode(token).Some? && decode(token).value.secret == kind && decode(token).value.expiresAt <= Seconds(now)
  {
    match decode(token)
    case None => Invalid
    case Some(c) =>
      if c.secret != kind then Invalid
      else if c.expiresAt <= Seconds(now) then TokenExpired
      else Valid(c.payload)
  }

  /** With a signature check that accepts exactly what was signed, both
      tokens of a pair carry the same payload; each verifies under its own
      secret until it expires and never under the other one. */
  lemma TokenPairPayloads(userId: UserId, role: Role, now: int, t: int, sign: Claims -> string,
                          decode: string -> Option<Claims>)
    requires forall c :: decode(sign(c)) == Some(c)
    ensures var pair := GenerateTokenPair(userId, role, now, sign);
            && decode(pair.accessToken).value.payload == decode(pair.refreshToken).value.payload == Payload(userId, role)
            && pair.accessToken != pair.refreshToken
            && (Seconds(t) < Seconds(now) + AccessLifetime <==> Verify(pair.accessToken, AccessSecret, t, decode) == Valid(Payload(userId, role)))
            && (Seconds(t) < Seconds(now) + RefreshLifetime <==> Verify(pair.refreshToken, RefreshSecret, t, decode) == Valid(Payload(userId, role)))
            && Verify(pair.refreshToken, AccessSecret, t, decode) == Invalid
            && Verify(pair.accessToken, RefreshSecret, t, decode) == Invalid
  {
    var payload := Payload(userId, role);
    var iat := Seconds(now);
    assert decode(sign(Claims(payload, AccessSecret, iat, iat + AccessLifetime)))
           == Some(Claims(payload, AccessSecret, iat, iat + AccessLifetime));
    assert decode(sign(Claims(payload, RefreshSecret, iat, iat + RefreshLifetime)))
           == Some(Claims(payload, RefreshSecret, iat, iat + RefreshLifetime));
  }

  /** Expiry is decided in whole seconds: an access token issued at 1,999 ms
      carries `exp` 901 and is expired at 901,500 ms, although fewer than
      15 minutes of milliseconds have passed. */
  lemma ExpiryInWholeSeconds(userId: UserId, role: Role, sign: Claims -> string, decode: string -> Option<Claims>)
    requires forall c :: decode(sign(c)) == Some(c)
    ensures 901500 < 1999 + AccessLifetime * 1000
    ensures Verify(GenerateTokenPair(userId, role, 1999, sign).accessToken, AccessSecret, 901500, decode) == TokenExpired
  {
    assert Seconds(1999) == 1 && Seconds(901500) == 901;
    assert decode(sign(Claims(Payload(userId, role), AccessSecret, 1, 1 + AccessLifetime)))
           == Some(Claims(Payload(userId, role), AccessSecret, 1, 1 + AccessLifetime));
  }
}

=== FILE: leaderboard_entry.dfy ===
/** A leaderboard entry: one player's score for a game, category and season,
    its moderation status, and the anti-cheat heuristics that replace its
    flag list. */
module LeaderboardEntry {
  import opened Common
  import opened UserModel

  type GameId = string
  type EntryId = string

  datatype EntryStatus = Pending | Verified | Rejected | Flagged

  datatype Severity = Low | Medium | High

  datatype FlagKind = SuspiciousScore | ScoreTimeMismatch | SuspiciousAccuracy

  datatype AntiCheatFlag = AntiCheatFlag(flag: FlagKind, severity: Severity, details: string, flaggedAt: int)

  /** Gameplay statistics supplied with a submission; only `timePlayed`
      (seconds) and `accuracy` (percent) feed the heuristics. */
  datatype Metadata = Metadata(
    level: Option<real>,
    timePlayed: Option<real>,
    accuracy: Option<real>,
    kills: Option<real>,
    deaths: Option<real>,
    winRate: Option<real>)

  datatype Proof = Proof(screenshotUrl: Option<string>, videoUrl: Option<string>, replayFile: Option<string>)

  datatype Entry = Entry(
    id: EntryId,
    game: GameId,
    user: UserId,
    playerName: string,
    score: real,
    category: string,
    season: Option<string>,
    metadata: Option<Metadata>,
    proof: Option<Proof>,
    status: EntryStatus,
    verifiedBy: Option<UserId>,
    verifiedAt: Option<int>,
    rejectionReason: Option<string>,
    antiCheatFlags: seq<AntiCheatFlag>,
    submittedAt: int,
    achievedAt: int,
    isActive: bool)

  const DefaultCategory := "general"
  const MaxPlausibleScore: real := 1000000.0
  const MismatchScore: real := 10000.0
  const MinPlausibleSeconds: real := 60.0
  const MaxPlausibleAccuracy: real := 98.0

  /** A new entry before any check: status pending, active, no moderation. */
  function NewEntry(id: EntryId, game: GameId, user: UserId, playerName: string, score: real,
                    category: string, season: Option<string>, metadata: Option<Metadata>,
                    proof: Option<Proof>, achievedAt: int, now: int): (e: Entry)
    ensures e.status == Pending && e.isActive && e.antiCheatFlags == []
    ensures e.verifiedBy.None? && e.verifiedAt.None? && e.rejectionReason.None?
  {
    Entry(id, game, user, playerName, score, category, season, metadata, proof,
          Pending, None, None, None, [], now, achievedAt, true)
  }

  /** JavaScript truthiness of an optional number (present and non-zero). */
  predicate NumTruthy(o: Option<real>) {
    o.Some? && o.value != 0.0
  }

  // The three heuristics, each as the condition it raises its flag on.

  predicate ScoreTooHigh(e: Entry) {
    e.score > MaxPlausibleScore
  }

  predicate ScoreTooFast(e: Entry) {
    && e.metadata.Some?
    && NumTruthy(e.metadata.value.timePlayed)
    && e.metadata.value.timePlayed.value < MinPlausibleSeconds
    && e.score > MismatchScore
  }

  predicate AccuracyTooHigh(e: Entry) {
    && e.metadata.Some?
    && NumTruthy(e.metadata.value.accuracy)
    && e.metadata.value.accuracy.value > MaxPlausibleAccuracy
  }

  /** The severity each kind of flag is raised with. */
  function SeverityOf(k: FlagKind): Severity {
    if k == SuspiciousScore then High else Medium
  }

  /** The position of each kind of flag in the list the check builds. */
  function Order(k: FlagKind): nat {
    match k
    case SuspiciousScore => 0
    case ScoreTimeMismatch => 1
    case SuspiciousAccuracy => 2
  }

  function Kinds(flags: seq<AntiCheatFlag>): (ks: seq<FlagKind>)
    ensures |ks| == |flags|
    ensures forall i :: 0 <= i < |flags| ==> ks[i] == flags[i].flag
  {
    if |flags| == 0 then [] else [flags[0].flag] + Kinds(flags[1..])
  }

  function FlagIf(cond: bool, k: FlagKind, details: string, now: int): (r: seq<AntiCheatFlag>)
    ensures |r| <= 1
    ensures Kinds(r) == if cond then [k] else []
    ensures forall f :: f in r ==> f.flag == k && f.severity == SeverityOf(k) && f.flaggedAt == now
  {
    if cond then [AntiCheatFlag(k, SeverityOf(k), details, now)] else []
  }

  lemma KindsAppend(a: seq<AntiCheatFlag>, b: seq<AntiCheatFlag>)
    ensures Kinds(a + b) == Kinds(a) + Kinds(b)
  {
    assert |Kinds(a + b)| == |Kinds(a) + Kinds(b)|;
    forall i | 0 <= i < |a + b|
      ensures Kinds(a + b)[i] == (Kinds(a) + Kinds(b))[i]
    {
    }
  }

  /** The kinds of flag raised for the three conditions, in check order. */
  function KindsFor(a: bool, b: bool, c: bool): seq<FlagKind> {
    (if a then [SuspiciousScore] else []) + (if b then [ScoreTimeMismatch] else [])
    + (if c then [SuspiciousAccuracy] else [])
  }

  /** Each kind appears exactly when its condition holds, at most once, in
      the fixed order. */
  lemma KindsForShape(a: bool, b: bool, c: bool)
    ensures SuspiciousScore in KindsFor(a, b, c) <==> a
    ensures ScoreTimeMismatch in KindsFor(a, b, c) <==> b
    ensures SuspiciousAccuracy in KindsFor(a, b, c) <==> c
    ensures |KindsFor(a, b, c)| <= 3
    ensures |KindsFor(a, b, c)| > 0 <==> a || b || c
    ensures forall i, j :: 0 <= i < j < |KindsFor(a, b, c)| ==>
              Order(KindsFor(a, b, c)[i]) < Order(KindsFor(a, b, c)[j])
  {
  }

  /** The list the heuristics build, in their fixed order. */
  function BuildFlags(e: Entry, now: int): (flags: seq<AntiCheatFlag>)
    ensures Kinds(flags) == KindsFor(ScoreTooHigh(e), ScoreTooFast(e), AccuracyTooHigh(e))
    ensures forall f :: f in flags ==> f.severity == SeverityOf(f.flag) && f.flaggedAt == now
  {
    var f1 := FlagIf(ScoreTooHigh(e), SuspiciousScore, "Score exceeds typical maximum values", now);
    var f2 := FlagIf(ScoreTooFast(e), ScoreTimeMismatch, "High score achieved in unrealistically short time", now);
    var f3 := FlagIf(AccuracyTooHigh(e), SuspiciousAccuracy, "Accuracy exceeds human capabilities", now);
    KindsAppend(f1, f2);
    KindsAppend(f1 + f2, f3);
    f1 + f2 + f3
  }

  datatype CheckResult = CheckResult(entry: Entry, flagged: bool)

  /** `entry.runAntiCheatCheck()` at time `now`: builds the flag list from the
      score and metadata, replaces `antiCheatFlags` with it, and reports
      whether it is non-empty. */
  function RunAntiCheatCheck(e: Entry, now: int): (r: CheckResult)
    ensures r.entry == e.(antiCheatFlags := r.entry.antiCheatFlags)
    ensures r.flagged <==> |r.entry.antiCheatFlags| > 0
    ensures SuspiciousScore in Kinds(r.entry.antiCheatFlags) <==> ScoreTooHigh(e)
    ensures ScoreTimeMismatch in Kinds(r.entry.antiCheatFlags) <==> ScoreTooFast(e)
    ensures SuspiciousAccuracy in Kinds(r.entry.antiCheatFlags) <==> AccuracyTooHigh(e)
    ensures r.flagged <==> ScoreTooHigh(e) || ScoreTooFast(e) || AccuracyTooHigh(e)
  {
    var flags := BuildFlags(e, now);
    KindsForShape(ScoreTooHigh(e), ScoreTooFast(e), AccuracyTooHigh(e));
    CheckResult(e.(antiCheatFlags := flags), |flags| > 0)
  }

  /** The list holds at most one flag per heuristic, in the order the checks
      run, each with its kind's severity and the time of the check. */
  lemma AntiCheatFlagShape(e: Entry, now: int)
    ensures |RunAntiCheatCheck(e, now).entry.antiCheatFlags| <= 3
    ensures forall i, j :: 0 <= i < j < |RunAntiCheatCheck(e, now).entry.antiCheatFlags| ==>
              Order(RunAntiCheatCheck(e, now).entry.antiCheatFlags[i].flag)
              < Order(RunAntiCheatCheck(e, now).entry.antiCheatFlags[j].flag)
    ensures forall f :: f in RunAntiCheatCheck(e, now).entry.antiCheatFlags ==>
              f.severity == SeverityOf(f.flag) && f.flaggedAt == now
  {
    var flags := BuildFlags(e, now);
    assert RunAntiCheatCheck(e, now).entry.antiCheatFlags == flags;
    KindsForShape(ScoreTooHigh(e), ScoreTooFast(e), AccuracyTooHigh(e));
    forall i, j | 0 <= i < j < |flags|
      ensures Order(flags[i].flag) < Order(flags[j].flag)
    {
      assert Kinds(flags)[i] == flags[i].flag && Kinds(flags)[j] == flags[j].flag;
    }
  }

  /** The flags never accumulate: running the check again on its own output
      yields the same entry. */
  lemma AntiCheatReplacesFlags(e: Entry, now: int)
    ensures RunAntiCheatCheck(RunAntiCheatCheck(e, now).entry, now) == RunAntiCheatCheck(e, now)
  {
  }

  /** The check reads only the score and the metadata: entries that agree on
      those get the same flags, whatever their earlier flags and status. */
  lemma AntiCheatReadsScoreAndMetadata(a: Entry, b: Entry, now: int)
    requires a.score == b.score && a.metadata == b.metadata
    ensures RunAntiCheatCheck(a, now).entry.antiCheatFlags == RunAntiCheatCheck(b, now).entry.antiCheatFlags
  {
  }

  /** A `timePlayed` of 0 is falsy and never raises the score/time flag, and a
      score of exactly 1,000,000 is not suspicious. */
  lemma AntiCheatBoundaries(e: Entry, now: int)
    ensures e.metadata.Some? && e.metadata.value.timePlayed == Some(0.0) ==>
              ScoreTimeMismatch !in Kinds(RunAntiCheatCheck(e, now).entry.antiCheatFlags)
    ensures e.score == 1000000.0 ==> SuspiciousScore !in Kinds(RunAntiCheatCheck(e, now).entry.antiCheatFlags)
  {
  }
}

=== FILE: leaderboards.dfy ===
/** The leaderboard controller: submitting a score (create, improve or
    reject), the public paginated listing with its positional ranks, the
    caller's own tie-aware rank, and deleting an entry. The store is the
    entry collection in natural order; each request is atomic. A game or
    entry id in the path that is not an ObjectId makes the query throw a
    cast error, which the error handler answers with 500. */
module Leaderboards {
  import opened Common
  import opened UserModel
  import opened LeaderboardEntry
  import opened ErrorHandler
  import Validators

  // ---------------------------------------------------------------------
  // The (game, user, category, season) unique index

  /** The compound key of the unique index. The index stores an absent
      season as a value of its own, so one user may hold an unseasoned entry
      and seasoned ones for the same game and category. */
  datatype EntryKey = EntryKey(game: GameId, user: UserId, category: string, season: Option<string>)

  function KeyOf(e: Entry): EntryKey {
    EntryKey(e.game, e.user, e.category, e.season)
  }

  /** The store invariant the unique index maintains. */
  predicate UniqueKeys(entries: seq<Entry>) {
    forall i, j :: 0 <= i < j < |entries| ==> KeyOf(entries[i]) != KeyOf(entries[j])
  }

  predicate HasKey(entries: seq<Entry>, k: EntryKey) {
    exists i :: 0 <= i < |entries| && KeyOf(entries[i]) == k
  }

  // ---------------------------------------------------------------------
  // submitEntry

  /** The validated body of a submission; `category` already defaulted to
      "general" and trimmed, `achievedAt` present only when truthy. */
  datatype SubmitRequest = SubmitRequest(
    game: GameId,
    score: real,
    category: string,
    metadata: Option<Metadata>,
    proof: Option<Proof>,
    achievedAt: Option<int>,
    season: Option<string>)

  function RequestKey(userId: UserId, req: SubmitRequest): EntryKey {
    EntryKey(req.game, userId, req.category, req.season)
  }

  /** The filter `findOne` receives. Mongoose drops a filter key whose value
      is undefined, so a request without a season matches the user's entries
      for that game and category in every season, the unseasoned one
      included. */
  predicate MatchesRequest(e: Entry, userId: UserId, req: SubmitRequest) {
    e.game == req.game && e.user == userId && e.category == req.category
    && (req.season.Some? ==> e.season == req.season)
  }

  function RequestFilter(userId: UserId, req: SubmitRequest): Entry -> bool {
    e => MatchesRequest(e, userId, req)
  }

  predicate HasMatch(entries: seq<Entry>, userId: UserId, req: SubmitRequest) {
    exists i :: 0 <= i < |entries| && MatchesRequest(entries[i], userId, req)
  }

  datatype SubmitOutcome =
    | GameNotFound
    | ScoreNotImproved
    | Submitted(entry: Entry)
    | Failed(err: JsError)

  datatype SubmitResult = SubmitResult(entries: seq<Entry>, user: User, outcome: SubmitOutcome)

  /** The HTTP status of each outcome; a thrown error reaches the error
      handler with the response status still 200. */
  function SubmitStatus(o: SubmitOutcome, nodeEnv: string): (status: int)
    ensures o.GameNotFound? ==> status == 404
    ensures o.ScoreNotImproved? ==> status == 400
    ensures o.Submitted? ==> status == 201
    ensures o.Failed? ==> status == 500
  {
    match o
    case GameNotFound => 404
    case ScoreNotImproved => 400
    case Submitted(_) => 201
    case Failed(err) => HandleError(err, 200, nodeEnv).status
  }

  /** The success message names a flagged entry. */
  function SubmitMessage(e: Entry): (m: string)
    ensures e.status == Flagged ==> m == "Entry submitted but flagged for review"
    ensures e.status != Flagged ==> m == "Entry submitted successfully"
  {
    if e.status == Flagged then "Entry submitted but flagged for review" else "Entry submitted successfully"
  }

  /** The overwrite of an existing entry by a higher score: new score,
      metadata, proof and achievedAt, back to pending, then the check. */
  function Improve(prev: Entry, req: SubmitRequest, now: int): (e: Entry)
    ensures e.id == prev.id && e.game == prev.game && e.user == prev.user && e.playerName == prev.playerName
    ensures e.category == prev.category && e.season == prev.season && e.submittedAt == prev.submittedAt
    ensures e.isActive == prev.isActive && e.verifiedBy == prev.verifiedBy && e.verifiedAt == prev.verifiedAt
    ensures e.rejectionReason == prev.rejectionReason
    ensures e.score == req.score && e.metadata == req.metadata && e.proof == req.proof
    ensures e.achievedAt == (if req.achievedAt.Some? then req.achievedAt.value else now)
    ensures e.status == Pending || e.status == Flagged
    ensures e.status == Flagged <==> |e.antiCheatFlags| > 0
  {
    var updated := prev.(score := req.score, metadata := req.metadata, proof := req.proof,
                        achievedAt := if req.achievedAt.Some? then req.achievedAt.value else now,
                        status := Pending);
    var check := RunAntiCheatCheck(updated, now);
    if check.flagged then check.entry.(status := Flagged) else check.entry
  }

  /** The player name a new entry records: display name, else username,
      trimmed by the schema. */
  function PlayerName(user: User): string {
    Trim(OrElse(user.profile.displayName, user.username))
  }

  const PlayerNameRequired := "Path `playerName` is required."

  /** A first submission for its key: created pending, then verified when the
      check is clean and flagged otherwise. */
  function Create(user: User, req: SubmitRequest, freshId: EntryId, now: int): (e: Entry)
    ensures e.id == freshId && KeyOf(e) == RequestKey(user.id, req)
    ensures e.playerName == PlayerName(user) && e.score == req.score
    ensures e.metadata == req.metadata && e.proof == req.proof && e.isActive
    ensures e.achievedAt == (if req.achievedAt.Some? then req.achievedAt.value else now)
    ensures e.status == Verified || e.status == Flagged
    ensures e.status == Flagged <==> |e.antiCheatFlags| > 0
    ensures e.verifiedBy.None? && e.verifiedAt.None? && e.rejectionReason.None?
  {
    var initial := NewEntry(freshId, req.game, user.id, PlayerName(user), req.score, req.category,
                          req.season, req.metadata, req.proof,
                          if req.achievedAt.Some? then req.achievedAt.value else now, now);
    var check := RunAntiCheatCheck(initial, now);
    check.entry.(status := if check.flagged then Flagged else Verified)
  }

  /** `submitEntry` by `user` at time `now`; `games` are the ids of stored
      games (any game, active or not, is found), `freshId` the id a new
      entry receives. */
  function Submit(entries: seq<Entry>, games: set<GameId>, user: User, req: SubmitRequest,
                  freshId: EntryId, now: int): (r: SubmitResult)
    ensures req.game !in games ==> r == SubmitResult(entries, user, GameNotFound)
    ensures r.outcome.Submitted? ==>
              MatchesRequest(r.outcome.entry, user.id, req) && r.outcome.entry.score == req.score
    ensures !r.outcome.Submitted? ==> r.entries == entries && r.user == user
  {
    if req.game !in games then SubmitResult(entries, user, GameNotFound)
    else
      match FirstIndex(entries, RequestFilter(user.id, req))
      case Some(i) =>
        if req.score > entries[i].score then
          var e := Improve(entries[i], req, now);
          SubmitResult(entries[i := e], user, Submitted(e))
        else SubmitResult(entries, user, ScoreNotImproved)
      case None =>
        if PlayerName(user) == "" then SubmitResult(entries, user, Failed(ValidationFailure([PlayerNameRequired])))
        else
          var e := Create(user, req, freshId, now);
          SubmitResult(entries + [e], user.(stats := user.stats.(leaderboardEntries := user.stats.leaderboardEntries + 1)),
                       Submitted(e))
  }

  /** The user record after a first submission: only the entry counter moves. */
  function CountedEntry(user: User): User {
    user.(stats := user.stats.(leaderboardEntries := user.stats.leaderboardEntries + 1))
  }

  /** A resubmission is rejected unless strictly higher; otherwise only the
      entry the lookup settles on changes, and the user record is untouched.
      Without a season that entry may belong to any season. */
  lemma SubmitExisting(entries: seq<Entry>, games: set<GameId>, user: User, req: SubmitRequest,
                       freshId: EntryId, now: int, i: nat)
    requires req.game in games && FirstAt(entries, RequestFilter(user.id, req), i)
    ensures req.score <= entries[i].score ==>
              Submit(entries, games, user, req, freshId, now) == SubmitResult(entries, user, ScoreNotImproved)
    ensures req.score > entries[i].score ==>
              Submit(entries, games, user, req, freshId, now)
              == SubmitResult(entries[i := Improve(entries[i], req, now)], user, Submitted(Improve(entries[i], req, now)))
  {
    FirstIndexIs(entries, RequestFilter(user.id, req), i);
  }

  /** A first submission (no entry the filter matches) appends exactly one
      entry under the request's key and bumps the author's counter by one,
      unless the player name is empty. */
  lemma SubmitFirst(entries: seq<Entry>, games: set<GameId>, user: User, req: SubmitRequest,
                    freshId: EntryId, now: int)
    requires req.game in games && !HasMatch(entries, user.id, req)
    ensures PlayerName(user) == "" ==>
              Submit(entries, games, user, req, freshId, now).outcome.Failed?
    ensures PlayerName(user) != "" ==>
              Submit(entries, games, user, req, freshId, now)
              == SubmitResult(entries + [Create(user, req, freshId, now)], CountedEntry(user),
                              Submitted(Create(user, req, freshId, now)))
  {
    if FirstIndex(entries, RequestFilter(user.id, req)).Some? {
      assert false;
    }
  }

  lemma ReplaceKeepsUniqueKeys(entries: seq<Entry>, i: nat, e: Entry)
    requires UniqueKeys(entries) && i < |entries| && KeyOf(e) == KeyOf(entries[i])
    ensures UniqueKeys(entries[i := e])
  {
    assert forall j :: 0 <= j < |entries| ==> KeyOf(entries[i := e][j]) == KeyOf(entries[j]);
  }

  lemma AppendKeepsUniqueKeys(entries: seq<Entry>, e: Entry)
    requires UniqueKeys(entries) && !HasKey(entries, KeyOf(e))
    ensures UniqueKeys(entries + [e])
  {
    assert forall j :: 0 <= j < |entries| ==> (entries + [e])[j] == entries[j];
  }

  /** Submitting keeps the store within its unique index: an improvement
      keeps the matched entry's key, and a creation happens only when no
      entry matches, so in particular none holds the request's key. */
  lemma SubmitKeepsUniqueKeys(entries: seq<Entry>, games: set<GameId>, user: User, req: SubmitRequest,
                              freshId: EntryId, now: int)
    requires UniqueKeys(entries)
    ensures UniqueKeys(Submit(entries, games, user, req, freshId, now).entries)
  {
    if req.game in games {
      match FirstIndex(entries, RequestFilter(user.id, req))
      case Some(i) =>
        SubmitExisting(entries, games, user, req, freshId, now, i);
        if req.score > entries[i].score {
          ReplaceKeepsUniqueKeys(entries, i, Improve(entries[i], req, now));
        }
      case None =>
        SubmitFirst(entries, games, user, req, freshId, now);
        if PlayerName(user) != "" {
          AppendKeepsUniqueKeys(entries, Create(user, req, freshId, now));
        }
    }
  }

  /** With a season the filter is exactly the unique key, so in a store that
      satisfies the index the lookup finds the only entry with that key. */
  lemma UniqueKeyLookup(entries: seq<Entry>, userId: UserId, req: SubmitRequest, i: nat)
    requires UniqueKeys(entries) && req.season.Some?
    requires i < |entries| && KeyOf(entries[i]) == RequestKey(userId, req)
    ensures FirstIndex(entries, RequestFilter(userId, req)) == Some(i)
  {
    assert forall j :: 0 <= j < |entries| && MatchesRequest(entries[j], userId, req) ==>
             KeyOf(entries[j]) == RequestKey(userId, req);
    FirstIndexIs(entries, RequestFilter(userId, req), i);
  }

  /** A resubmission never leaves the entry verified: an improved score is
      pending or flagged until a moderator acts, so it drops out of every
      public listing scope. */
  lemma ResubmissionNeverVerified(entries: seq<Entry>, games: set<GameId>, user: User, req: SubmitRequest,
                                  freshId: EntryId, now: int, q: Scope)
    requires req.game in games && HasMatch(entries, user.id, req)
    ensures Submit(entries, games, user, req, freshId, now).outcome.Submitted? ==>
              Submit(entries, games, user, req, freshId, now).outcome.entry.status != Verified
    ensures Submit(entries, games, user, req, freshId, now).outcome.Submitted? ==>
              !InScope(Submit(entries, games, user, req, freshId, now).outcome.entry, q)
  {
    var i :| 0 <= i < |entries| && MatchesRequest(entries[i], user.id, req);
    match FirstIndex(entries, RequestFilter(user.id, req))
    case Some(k) => SubmitExisting(entries, games, user, req, freshId, now, k);
    case None => assert false;
  }

  // ---------------------------------------------------------------------
  // Ranking scope

  /** The filter both public queries share: game, category, verified,
      active, and the season only when a truthy one is given. */
  datatype Scope = Scope(game: GameId, category: string, season: Option<string>)

  predicate InScope(e: Entry, q: Scope) {
    && e.game == q.game && e.category == q.category && e.status == Verified && e.isActive
    && (Truthy(q.season) ==> e.season == q.season)
  }

  function InScopeOf(q: Scope): Entry -> bool {
    e => InScope(e, q)
  }

  /** In scope with a score strictly above `score`. */
  function Above(q: Scope, score: real): Entry -> bool {
    e => InScope(e, q) && e.score > score
  }

  function ScoreAbove(score: real): Entry -> bool {
    (e: Entry) => e.score > score
  }

  /** One plus the number of in-scope entries with a strictly higher score. */
  function TieRank(entries: seq<Entry>, q: Scope, score: real): nat {
    1 + Count(entries, Above(q, score))
  }

  // ---------------------------------------------------------------------
  // getUserRank

  datatype RankResult = NoEntry | Ranked(rank: nat, score: real, entry: Entry) | RankFailed(err: JsError)

  function OwnInScope(q: Scope, userId: UserId): Entry -> bool {
    e => InScope(e, q) && e.user == userId
  }

  /** `getUserRank`: the caller's first in-scope entry, ranked by the number
      of in-scope entries scoring strictly higher. */
  function UserRank(entries: seq<Entry>, q: Scope, userId: UserId): (r: RankResult)
    ensures !Validators.IsObjectId(q.game) <==> r == RankFailed(CastFailure())
    ensures Validators.IsObjectId(q.game) ==>
              (r.NoEntry? <==> forall i :: 0 <= i < |entries| ==> !(InScope(entries[i], q) && entries[i].user == userId))
    ensures r.Ranked? ==> exists i :: FirstAt(entries, OwnInScope(q, userId), i) && r.entry == entries[i]
    ensures r.Ranked? ==> r.entry in entries && InScope(r.entry, q) && r.entry.user == userId
    ensures r.Ranked? ==> r.score == r.entry.score
    ensures r.Ranked? ==> r.rank == 1 + Count(entries, Above(q, r.score))
    ensures r.Ranked? ==> 1 <= r.rank <= Count(entries, InScopeOf(q))
  {
    if !Validators.IsObjectId(q.game) then RankFailed(CastFailure())
    else match FirstIndex(entries, OwnInScope(q, userId))
    case None => NoEntry
    case Some(i) =>
      var e := entries[i];
      CountStrict(entries, Above(q, e.score), InScopeOf(q), i);
      Ranked(TieRank(entries, q, e.score), e.score, e)
  }

  /** With a well-formed game id, the caller's first in-scope entry decides
      the answer: its score, and one plus the in-scope entries above it. */
  lemma RankAt(entries: seq<Entry>, q: Scope, userId: UserId, k: nat)
    requires Validators.IsObjectId(q.game) && FirstAt(entries, OwnInScope(q, userId), k)
    ensures UserRank(entries, q, userId)
            == Ranked(1 + Count(entries, Above(q, entries[k].score)), entries[k].score, entries[k])
  {
    FirstIndexIs(entries, OwnInScope(q, userId), k);
  }

  /** Two players whose found entries score the same get the same rank. */
  lemma TiesShareRank(entries: seq<Entry>, q: Scope, a: UserId, b: UserId)
    ensures UserRank(entries, q, a).Ranked? && UserRank(entries, q, b).Ranked? &&
            UserRank(entries, q, a).score == UserRank(entries, q, b).score
            ==> UserRank(entries, q, a).rank == UserRank(entries, q, b).rank
  {
  }

  /** A strictly higher score gets a strictly better (smaller) rank. */
  lemma HigherScoreBetterRank(entries: seq<Entry>, q: Scope, a: UserId, b: UserId)
    ensures UserRank(entries, q, a).Ranked? && UserRank(entries, q, b).Ranked? &&
            UserRank(entries, q, a).score > UserRank(entries, q, b).score
            ==> UserRank(entries, q, a).rank < UserRank(entries, q, b).rank
  {
    var ra := UserRank(entries, q, a);
    var rb := UserRank(entries, q, b);
    if ra.Ranked? && rb.Ranked? && ra.score > rb.score {
      var k :| 0 <= k < |entries| && entries[k] == ra.entry;
      CountStrict(entries, Above(q, ra.score), Above(q, rb.score), k);
    }
  }

  // ---------------------------------------------------------------------
  // getLeaderboard

  function EntryScore(e: Entry): real {
    e.score
  }

  predicate SortedByScore(s: seq<Entry>) {
    SortedDesc(s, EntryScore)
  }

  /** `.sort('-score')`: descending by score; ties keep the store's order
      here, which the database leaves unspecified. */
  function SortByScore(s: seq<Entry>): (r: seq<Entry>)
    ensures SortedByScore(r)
    ensures forall x :: x in r <==> x in s
    ensures |r| == |s|
  {
    SortDesc(s, EntryScore)
  }

  datatype RankedEntry = RankedEntry(entry: Entry, rank: nat)

  datatype Pagination = Pagination(page: nat, limit: nat, total: nat, pages: nat)

  datatype Listing = Listing(entries: seq<RankedEntry>, pagination: Pagination)

  /** All in-scope entries in listing order. */
  function Ordered(entries: seq<Entry>, q: Scope): seq<Entry> {
    SortByScore(Filter(entries, InScopeOf(q)))
  }

  function Ranks(s: seq<Entry>, startRank: nat): (r: seq<RankedEntry>)
    ensures |r| == |s|
    ensures forall i :: 0 <= i < |s| ==> r[i] == RankedEntry(s[i], startRank + i)
  {
    if |s| == 0 then [] else [RankedEntry(s[0], startRank)] + Ranks(s[1..], startRank + 1)
  }

  /** The page `getLeaderboard` answers for a well-formed game id, a
      validated page (>= 1) and limit (1..100). */
  function LeaderboardPage(entries: seq<Entry>, q: Scope, page: nat, limit: nat): (r: Listing)
    requires page >= 1 && 1 <= limit
    ensures r.pagination == Pagination(page, limit, Count(entries, InScopeOf(q)),
                                       CeilDiv(Count(entries, InScopeOf(q)), limit))
    ensures |r.entries| == if Skip(page, limit) >= Count(entries, InScopeOf(q)) then 0
                           else Min(limit, Count(entries, InScopeOf(q)) - Skip(page, limit))
    ensures forall i :: 0 <= i < |r.entries| ==>
              Skip(page, limit) + i < |Ordered(entries, q)|
              && r.entries[i] == RankedEntry(Ordered(entries, q)[Skip(page, limit) + i], Skip(page, limit) + 1 + i)
  {
    var all := Ordered(entries, q);
    var skip := Skip(page, limit);
    var window := Window(all, page, limit);
    Listing(Ranks(window, skip + 1), Pagination(page, limit, |all|, CeilDiv(|all|, limit)))
  }

  /** `getLeaderboard`: the game id is cast before the query runs. */
  function GetLeaderboard(entries: seq<Entry>, q: Scope, page: nat, limit: nat): (r: Answer<Listing>)
    requires page >= 1 && 1 <= limit
    ensures !Validators.IsObjectId(q.game) <==> r == Thrown(CastFailure())
    ensures r.Answered? ==> r.value.pagination.total == Count(entries, InScopeOf(q))
    ensures r.Answered? ==> r.value == LeaderboardPage(entries, q, page, limit)
  {
    if !Validators.IsObjectId(q.game) then Thrown(CastFailure())
    else Answered(LeaderboardPage(entries, q, page, limit))
  }

  /** Every listed entry is an in-scope entry of the store. */
  lemma ListingInScope(entries: seq<Entry>, q: Scope, page: nat, limit: nat, i: nat)
    requires page >= 1 && 1 <= limit
    ensures i < |LeaderboardPage(entries, q, page, limit).entries| ==>
              LeaderboardPage(entries, q, page, limit).entries[i].entry in entries
    ensures i < |LeaderboardPage(entries, q, page, limit).entries| ==>
              InScope(LeaderboardPage(entries, q, page, limit).entries[i].entry, q)
  {
    if i < |LeaderboardPage(entries, q, page, limit).entries| {
      var all := Ordered(entries, q);
      assert all[Skip(page, limit) + i] in all;
    }
  }

  /** The listing runs from the best score down. */
  lemma ListingSorted(entries: seq<Entry>, q: Scope, page: nat, limit: nat, i: nat, j: nat)
    requires page >= 1 && 1 <= limit && i < j
    ensures j < |LeaderboardPage(entries, q, page, limit).entries| ==>
              LeaderboardPage(entries, q, page, limit).entries[i].entry.score
              >= LeaderboardPage(entries, q, page, limit).entries[j].entry.score
  {
    if j < |LeaderboardPage(entries, q, page, limit).entries| {
      var all := Ordered(entries, q);
      var skip := Skip(page, limit);
      assert EntryScore(all[skip + i]) >= EntryScore(all[skip + j]);
    }
  }

  /** Every entry scoring strictly above position k of a sorted list sits
      before it. */
  lemma {:induction false} AboveBeforePosition(s: seq<Entry>, k: nat)
    requires SortedByScore(s) && k < |s|
    ensures Count(s, ScoreAbove(s[k].score)) <= k
  {
    var above := ScoreAbove(s[k].score);
    var front, back := s[..k], s[k..];
    assert s == front + back;
    FilterAppend(front, back, above);
    assert forall j :: 0 <= j < |back| ==> back[j] == s[k + j] && EntryScore(s[k]) >= EntryScore(s[k + j]);
    CountNone(back, above);
  }

  /** The listing's positional rank is never better than the tie-aware rank
      `getUserRank` would give the same score: tied scores get distinct
      consecutive listing ranks but share one tie rank. */
  lemma ListingRankAtLeastTieRank(entries: seq<Entry>, q: Scope, page: nat, limit: nat, i: nat)
    requires page >= 1 && 1 <= limit
    ensures i < |LeaderboardPage(entries, q, page, limit).entries| ==>
              LeaderboardPage(entries, q, page, limit).entries[i].rank
              >= TieRank(entries, q, LeaderboardPage(entries, q, page, limit).entries[i].entry.score)
  {
    if i >= |LeaderboardPage(entries, q, page, limit).entries| { return; }
    var all := Ordered(entries, q);
    var skip := Skip(page, limit);
    var k := skip + i;
    assert LeaderboardPage(entries, q, page, limit).entries[i].entry == all[k];
    var score := all[k].score;
    AboveBeforePosition(all, k);
    CountSortDesc(Filter(entries, InScopeOf(q)), EntryScore, ScoreAbove(score));
    CountFilter(entries, InScopeOf(q), ScoreAbove(score), Above(q, score));
  }

  // A worked board: scores 100, 90, 90, 50.

  const BoardGame: GameId := "000000000000000000000001"

  lemma BoardGameWellFormed()
    ensures Validators.IsObjectId(BoardGame)
  {
    assert forall i :: 0 <= i < |BoardGame| ==> BoardGame[i] == '0' || BoardGame[i] == '1';
  }

  function Sample(user: UserId, score: real): Entry {
    Entry(user, BoardGame, user, user, score, DefaultCategory, None, None, None, Verified,
          None, None, None, [], 0, 0, true)
  }

  function Board(): seq<Entry> {
    [Sample("a", 100.0), Sample("b", 90.0), Sample("c", 90.0), Sample("d", 50.0)]
  }

  const BoardScope := Scope(BoardGame, DefaultCategory, None)

  /** The dropped season key at work: a user whose only entry is a 100 in
      season "s1" and who submits 50 without a season is compared against
      that entry and refused, not given a second, unseasoned entry. */
  lemma SeasonlessResubmissionMeetsSeasonedEntry(games: set<GameId>, user: User, freshId: EntryId, now: int)
    requires BoardGame in games
    ensures var seasoned := Sample(user.id, 100.0).(season := Some("s1"));
            var req := SubmitRequest(BoardGame, 50.0, DefaultCategory, None, None, None, None);
            Submit([seasoned], games, user, req, freshId, now) == SubmitResult([seasoned], user, ScoreNotImproved)
  {
    var seasoned := Sample(user.id, 100.0).(season := Some("s1"));
    var req := SubmitRequest(BoardGame, 50.0, DefaultCategory, None, None, None, None);
    assert MatchesRequest(seasoned, user.id, req);
    SubmitExisting([seasoned], games, user, req, freshId, now, 0);
  }

  lemma BoardAllInScope()
    ensures Filter(Board(), InScopeOf(BoardScope)) == Board()
  {
    var board := Board();
    assert forall i :: 0 <= i < |board| ==> InScopeOf(BoardScope)(board[i]);
    FilterAll(board, InScopeOf(BoardScope));
  }

  lemma BoardAlreadySorted()
    ensures SortByScore(Board()) == Board()
  {
    var board := Board();
    assert board[3..] == [board[3]];
    assert board[2..] == [board[2]] + board[3..];
    assert board[1..] == [board[1]] + board[2..];
    assert board == [board[0]] + board[1..];
    assert SortDesc(board[3..], EntryScore) == board[3..];
    assert InsertDesc(board[2], board[3..], EntryScore) == board[2..];
    assert SortDesc(board[2..], EntryScore) == board[2..];
    assert InsertDesc(board[1], board[2..], EntryScore) == board[1..];
    assert SortDesc(board[1..], EntryScore) == board[1..];
    assert InsertDesc(board[0], board[1..], EntryScore) == board;
  }

  /** On the board 100, 90, 90, 50 the listing ranks the two 90s 2 and 3... */
  lemma TiedScoresListingExample()
    ensures |LeaderboardPage(Board(), BoardScope, 1, 10).entries| == 4
    ensures LeaderboardPage(Board(), BoardScope, 1, 10).entries[1] == RankedEntry(Board()[1], 2)
    ensures LeaderboardPage(Board(), BoardScope, 1, 10).entries[2] == RankedEntry(Board()[2], 3)
  {
    BoardAllInScope();
    BoardAlreadySorted();
    var board := Board();
    assert Ordered(board, BoardScope) == board;
    assert Count(board, InScopeOf(BoardScope)) == 4;
    assert Skip(1, 10) == 0;
    var r := LeaderboardPage(board, BoardScope, 1, 10);
    assert |r.entries| == 4;
    assert r.entries[1] == RankedEntry(board[1], 2);
    assert r.entries[2] == RankedEntry(board[2], 3);
  }

  /** The count over four entries, one by one. */
  lemma CountFour(s: seq<Entry>, p: Entry -> bool)
    requires |s| == 4
    ensures Count(s, p) == (if p(s[0]) then 1 else 0) + (if p(s[1]) then 1 else 0)
                           + (if p(s[2]) then 1 else 0) + (if p(s[3]) then 1 else 0)
  {
    assert s[3..][1..] == [];
    assert Count(s[3..], p) == (if p(s[3]) then 1 else 0);
    assert s[2..][1..] == s[3..];
    assert Count(s[2..], p) == (if p(s[2]) then 1 else 0) + Count(s[3..], p);
    assert s[1..][1..] == s[2..];
    assert Count(s[1..], p) == (if p(s[1]) then 1 else 0) + Count(s[2..], p);
    assert Count(s, p) == (if p(s[0]) then 1 else 0) + Count(s[1..], p);
  }

  lemma BoardCounts()
    ensures Count(Board(), Above(BoardScope, 90.0)) == 1
    ensures Count(Board(), Above(BoardScope, 50.0)) == 3
  {
    var board := Board();
    assert forall i :: 0 <= i < 4 ==> InScope(board[i], BoardScope);
    CountFour(board, Above(BoardScope, 90.0));
    CountFour(board, Above(BoardScope, 50.0));
  }

  /** On the board, "c" holds the first in-scope entry of its player at
      position 2 and "d" at position 3. */
  lemma BoardOwnEntries()
    ensures FirstAt(Board(), OwnInScope(BoardScope, "c"), 2)
    ensures FirstAt(Board(), OwnInScope(BoardScope, "d"), 3)
  {
    var board := Board();
    assert forall i :: 0 <= i < 4 ==> InScope(board[i], BoardScope);
  }

  /** ... while both 90s share tie rank 2 and the 50 has tie rank 4. */
  lemma TiedScoresRankExample()
    ensures UserRank(Board(), BoardScope, "c") == Ranked(2, 90.0, Board()[2])
    ensures UserRank(Board(), BoardScope, "d") == Ranked(4, 50.0, Board()[3])
  {
    BoardGameWellFormed();
    BoardCounts();
    BoardOwnEntries();
    RankAt(Board(), BoardScope, "c", 2);
    RankAt(Board(), BoardScope, "d", 3);
  }

  // ---------------------------------------------------------------------
  // deleteEntry

  datatype DeleteOutcome = EntryNotFound | NotOwner | Deleted | DeleteFailed(err: JsError)

  function HasId(id: EntryId): Entry -> bool {
    (e: Entry) => e.id == id
  }

  /** The HTTP status of each outcome; a thrown error reaches the error
      handler with the response status still 200. */
  function DeleteStatus(o: DeleteOutcome, nodeEnv: string): (status: int)
    ensures o.EntryNotFound? <==> status == 404
    ensures o.NotOwner? <==> status == 403
    ensures o.Deleted? <==> status == 200
    ensures o.DeleteFailed? <==> status == 500
  {
    match o
    case EntryNotFound => 404
    case NotOwner => 403
    case Deleted => 200
    case DeleteFailed(err) => HandleError(err, 200, nodeEnv).status
  }

  /** `deleteEntry` by a requester with the given id and role: the owner or
      an admin removes the entry; moderators get no exemption. */
  function DeleteEntry(entries: seq<Entry>, id: EntryId, requester: UserId, role: Role): (r: (seq<Entry>, DeleteOutcome))
    ensures !Validators.IsObjectId(id) ==> r == (entries, DeleteFailed(CastFailure()))
    ensures Validators.IsObjectId(id) ==>
              ((forall i :: 0 <= i < |entries| ==> entries[i].id != id) <==> r.1 == EntryNotFound)
    ensures r.1 != Deleted ==> r.0 == entries
    ensures forall i :: Validators.IsObjectId(id) && FirstAt(entries, HasId(id), i) ==>
              && (entries[i].user == requester || role == AdminRole ==> r == (entries[..i] + entries[i + 1..], Deleted))
              && (entries[i].user != requester && role != AdminRole ==> r == (entries, NotOwner))
    ensures r.1 == Deleted ==>
              exists i :: && 0 <= i < |entries| && entries[i].id == id
                          && (entries[i].user == requester || role == AdminRole)
                          && r.0 == entries[..i] + entries[i + 1..]
    ensures r.1 == NotOwner ==> role != AdminRole
    ensures role == AdminRole ==> r.1 != NotOwner
  {
    if !Validators.IsObjectId(id) then (entries, DeleteFailed(CastFailure()))
    else match FirstIndex(entries, HasId(id))
    case None => (entries, EntryNotFound)
    case Some(i) =>
      assert forall k :: FirstAt(entries, HasId(id), k) ==> k == i;
      if entries[i].user != requester && role != AdminRole then (entries, NotOwner)
      else (entries[..i] + entries[i + 1..], Deleted)
  }

  /** A moderator cannot delete someone else's entry: refused with 403
      when the id is well formed, and nothing changes in any case. */
  lemma ModeratorCannotDeleteOthers(entries: seq<Entry>, i: nat, requester: UserId)
    requires i < |entries| && entries[i].user != requester
    requires forall j :: 0 <= j < i ==> entries[j].id != entries[i].id
    ensures Validators.IsObjectId(entries[i].id) ==>
              DeleteEntry(entries, entries[i].id, requester, ModeratorRole).1 == NotOwner
    ensures DeleteEntry(entries, entries[i].id, requester, ModeratorRole).0 == entries
  {
    assert FirstIndex(entries, HasId(entries[i].id)) == Some(i);
  }
}

=== FILE: news.dfy ===
/** The news controller: the article list with its filters and the premium
    visibility rule, single articles behind the premium check, headlines,
    trending and per-game lists, the fixed category list, and the like and
    share counters. The store is the article collection in natural order. */
module News {
  import opened Common
  import opened UserModel
  import opened ErrorHandler
  import Validators

  datatype ArticleStatus = Draft | Published | Archived

  datatype Article = Article(
    id: string,
    title: string,
    slug: string,
    summary: string,
    content: string,
    author: string,
    featuredImage: string,
    category: string,
    tags: seq<string>,
    games: seq<string>,
    sourceType: string,
    sourceUrl: Option<string>,
    sourceName: Option<string>,
    status: ArticleStatus,
    publishedAt: int,
    isPremium: bool,
    views: nat,
    shares: nat,
    likes: nat)

  const WeekMs := 7 * 24 * 60 * 60 * 1000

  function PublishedAt(a: Article): real { a.publishedAt as real }

  // ---------------------------------------------------------------------
  // Premium visibility

  /** The premium condition a list query carries. */
  datatype TierFilter = FreeOnly | PremiumOnly | AnyTier

  /** Whether the requester is a premium subscriber at `now`. */
  predicate PremiumReader(user: Option<User>, now: int) {
    user.Some? && IsPremium(user.value, now)
  }

  /** Anonymous and non-premium readers are held to free articles; a premium
      reader gets premium articles only with `isPremium=true`, and every
      article otherwise. */
  function TierFor(user: Option<User>, now: int, isPremiumParam: Option<string>): (f: TierFilter)
    ensures !PremiumReader(user, now) ==> f == FreeOnly
    ensures PremiumReader(user, now) && isPremiumParam == Some("true") ==> f == PremiumOnly
    ensures PremiumReader(user, now) && isPremiumParam != Some("true") ==> f == AnyTier
  {
    if !PremiumReader(user, now) then FreeOnly
    else if isPremiumParam == Some("true") then PremiumOnly
    else AnyTier
  }

  predicate Admits(f: TierFilter, a: Article) {
    match f
    case FreeOnly => !a.isPremium
    case PremiumOnly => a.isPremium
    case AnyTier => true
  }

  // ---------------------------------------------------------------------
  // getNews

  /** The list's query parameters; `search` is the `$text` filter over the
      title, content and summary index. */
  datatype NewsQuery = NewsQuery(category: Option<string>, tag: Option<string>, gameId: Option<string>,
                                 isPremium: Option<string>, search: Option<TextSearch<Article>>)

  predicate Selected(q: NewsQuery, f: TierFilter, a: Article) {
    && a.status == Published
    && (Truthy(q.category) ==> a.category == q.category.value)
    && (Truthy(q.tag) ==> q.tag.value in a.tags)
    && (Truthy(q.gameId) ==> q.gameId.value in a.games)
    && TextAdmits(q.search, a)
    && Admits(f, a)
  }

  function SelectedBy(q: NewsQuery, f: TierFilter): Article -> bool {
    (a: Article) => Selected(q, f, a)
  }

  datatype NewsList = NewsList(articles: seq<Article>, page: nat, limit: nat, total: nat, pages: nat)

  /** The page `getNews` answers once the query has been cast: newest
      first. */
  function NewsPage(articles: seq<Article>, q: NewsQuery, user: Option<User>, now: int, page: nat, limit: nat): (r: NewsList)
    requires page >= 1 && limit >= 1
    ensures r.total == Count(articles, SelectedBy(q, TierFor(user, now, q.isPremium)))
    ensures r.pages == CeilDiv(r.total, limit) && r.page == page && r.limit == limit
    ensures |r.articles| == if Skip(page, limit) >= r.total then 0 else Min(limit, r.total - Skip(page, limit))
    ensures forall i :: 0 <= i < |r.articles| ==>
              r.articles[i] in articles && Selected(q, TierFor(user, now, q.isPremium), r.articles[i])
    ensures forall i, j :: 0 <= i < j < |r.articles| ==> r.articles[i].publishedAt >= r.articles[j].publishedAt
    ensures forall i :: 0 <= i < |r.articles| ==>
              RanksAt(articles, SelectedBy(q, TierFor(user, now, q.isPremium)), PublishedAt, r.articles[i], Skip(page, limit) + i)
  {
    var selected := SelectedBy(q, TierFor(user, now, q.isPremium));
    var total := Count(articles, selected);
    NewsList(SortedPage(articles, selected, PublishedAt, page, limit), page, limit, total, CeilDiv(total, limit))
  }

  /** `getNews`: a truthy `gameId` is cast to an ObjectId for the query. */
  function GetNews(articles: seq<Article>, q: NewsQuery, user: Option<User>, now: int, page: nat, limit: nat): (r: Answer<NewsList>)
    requires page >= 1 && limit >= 1
    ensures Truthy(q.gameId) && !Validators.IsObjectId(q.gameId.value) <==> r == Thrown(CastFailure())
    ensures r.Answered? ==> r.value.total == Count(articles, SelectedBy(q, TierFor(user, now, q.isPremium)))
    ensures r.Answered? ==> r.value == NewsPage(articles, q, user, now, page, limit)
  {
    if Truthy(q.gameId) && !Validators.IsObjectId(q.gameId.value) then Thrown(CastFailure())
    else Answered(NewsPage(articles, q, user, now, page, limit))
  }

  /** A search only narrows the listing, and an empty search string
      filters nothing. */
  lemma NewsSearchNarrowsListing(articles: seq<Article>, q: NewsQuery, f: TierFilter)
    ensures forall a :: Selected(q, f, a) ==> Selected(q.(search := None), f, a)
    ensures Count(articles, SelectedBy(q, f)) <= Count(articles, SelectedBy(q.(search := None), f))
    ensures q.search.Some? && q.search.value.terms == "" ==>
              forall a :: Selected(q, f, a) <==> Selected(q.(search := None), f, a)
  {
    CountMono(articles, SelectedBy(q, f), SelectedBy(q.(search := None), f));
  }

  /** Only published articles are listed, and a reader who is not premium
      never sees a premium one, whatever the `isPremium` parameter says. */
  lemma ListingHidesPremiumFromOthers(articles: seq<Article>, q: NewsQuery, user: Option<User>, now: int,
                                      page: nat, limit: nat, i: nat)
    requires page >= 1 && limit >= 1
    ensures i < |NewsPage(articles, q, user, now, page, limit).articles| ==>
              && NewsPage(articles, q, user, now, page, limit).articles[i].status == Published
              && (!PremiumReader(user, now) ==> !NewsPage(articles, q, user, now, page, limit).articles[i].isPremium)
  {
  }

  /** A premium reader asking for premium articles gets only those, and
      without the parameter is held to nothing: every published article the
      other filters select is counted. */
  lemma PremiumReaderChoosesTier(articles: seq<Article>, q: NewsQuery, user: Option<User>, now: int,
                                 page: nat, limit: nat)
    requires page >= 1 && limit >= 1
    requires PremiumReader(user, now)
    ensures q.isPremium == Some("true") ==>
              forall a :: a in NewsPage(articles, q, user, now, page, limit).articles ==> a.isPremium
    ensures q.isPremium != Some("true") ==>
              NewsPage(articles, q, user, now, page, limit).total == Count(articles, SelectedBy(q, AnyTier))
  {
    var r := NewsPage(articles, q, user, now, page, limit);
    forall a | a in r.articles && q.isPremium == Some("true") ensures a.isPremium {
      var i :| 0 <= i < |r.articles| && r.articles[i] == a;
    }
  }

  // ---------------------------------------------------------------------
  // getArticle

  predicate Names(id: string, a: Article) {
    ((Validators.IsObjectId(id) && a.id == id) || a.slug == id) && a.status == Published
  }

  function NamedBy(id: string): Article -> bool {
    (a: Article) => Names(id, a)
  }

  datatype ArticleOutcome = ArticleNotFound | PremiumRequired | Shown(article: Article)

  function ArticleStatusCode(o: ArticleOutcome): (status: int)
    ensures status == 404 <==> o.ArticleNotFound?
    ensures status == 403 <==> o.PremiumRequired?
    ensures status == 200 <==> o.Shown?
  {
    match o
    case ArticleNotFound => 404
    case PremiumRequired => 403
    case Shown(_) => 200
  }

  /** `getArticle`: the first published article the parameter names (by id
      when it is 24 hexadecimal characters, by slug always); a premium
      article only for a premium reader. */
  function GetArticle(articles: seq<Article>, id: string, user: Option<User>, now: int): (r: ArticleOutcome)
    ensures r.ArticleNotFound? <==> forall i :: 0 <= i < |articles| ==> !Names(id, articles[i])
    ensures r.Shown? ==> r.article in articles && Names(id, r.article)
  {
    match FirstIndex(articles, NamedBy(id))
    case None => ArticleNotFound
    case Some(i) =>
      if articles[i].isPremium && !PremiumReader(user, now) then PremiumRequired
      else Shown(articles[i])
  }

  /** A premium article reaches only premium readers; any other reader is
      refused with 403 PREMIUM_REQUIRED rather than 404. */
  lemma PremiumArticleNeedsPremiumReader(articles: seq<Article>, id: string, user: Option<User>, now: int, k: nat)
    requires k < |articles| && Names(id, articles[k]) && articles[k].isPremium
    requires forall j :: 0 <= j < k ==> !Names(id, articles[j])
    ensures PremiumReader(user, now) ==> GetArticle(articles, id, user, now) == Shown(articles[k])
    ensures !PremiumReader(user, now) ==> GetArticle(articles, id, user, now) == PremiumRequired
  {
    FirstIndexIs(articles, NamedBy(id), k);
  }

  /** A free published article is shown to everyone, signed in or not. */
  lemma FreeArticleShownToAll(articles: seq<Article>, id: string, user: Option<User>, now: int, k: nat)
    requires k < |articles| && Names(id, articles[k]) && !articles[k].isPremium
    requires forall j :: 0 <= j < k ==> !Names(id, articles[j])
    ensures GetArticle(articles, id, user, now) == Shown(articles[k])
    ensures GetArticle(articles, id, user, now) == GetArticle(articles, id, None, now)
  {
    FirstIndexIs(articles, NamedBy(id), k);
  }

  /** A draft or archived article is never found, even by its own slug. */
  lemma UnpublishedNeverShown(articles: seq<Article>, id: string, user: Option<User>, now: int)
    requires forall i :: 0 <= i < |articles| ==> articles[i].status != Published
    ensures GetArticle(articles, id, user, now) == ArticleNotFound
  {
  }

  // ---------------------------------------------------------------------
  // getHeadlines, getTrendingNews, getGameNews

  function FreePublished(a: Article): bool { a.status == Published && !a.isPremium }

  /** `getHeadlines`: free published articles, newest first, `.limit(n)`
      with the parsed `limit`: 0 means no limit and a negative n is taken as
      its magnitude. */
  function Headlines(articles: seq<Article>, limit: int): (r: seq<Article>)
    ensures |r| == if limit == 0 then Count(articles, FreePublished) else Min(Abs(limit), Count(articles, FreePublished))
    ensures forall a :: a in r ==> a in articles && FreePublished(a)
    ensures forall i, j :: 0 <= i < j < |r| ==> r[i].publishedAt >= r[j].publishedAt
    ensures forall x, y :: x in articles && FreePublished(x) && x !in r && y in r ==> y.publishedAt >= x.publishedAt
  {
    var ordered := SortDesc(Filter(articles, FreePublished), PublishedAt);
    var r := Limit(ordered, Abs(limit));
    assert forall a :: a in r ==> a in ordered;
    TopDominates(articles, FreePublished, PublishedAt, Abs(limit));
    r
  }

  /** The trending order, views first and shares second, as one key: the
      shares contribute a fraction below one, rising with the shares. */
  function Popularity(a: Article): real {
    a.views as real + a.shares as real / (a.shares as real + 1.0)
  }

  /** x / (x + 1) is 1 - 1 / (x + 1) and lies in [0, 1). */
  lemma ShareFraction(x: real)
    requires x >= 0.0
    ensures x / (x + 1.0) == 1.0 - 1.0 / (x + 1.0)
    ensures 0.0 < 1.0 / (x + 1.0) <= 1.0
  {
  }

  /** Taking reciprocals reverses a strict order of positive numbers. */
  lemma ReciprocalReverses(a: real, b: real)
    requires 0.0 < a < b
    ensures 1.0 / b < 1.0 / a
  {
    var ra, rb := 1.0 / a, 1.0 / b;
    assert ra * a == 1.0 && rb * b == 1.0 && ra > 0.0;
    assert ra * b > ra * a;
    assert (ra - rb) * b > 0.0;
  }

  lemma ShareFractionMonotone(s: nat, t: nat)
    ensures 0.0 <= s as real / (s as real + 1.0) < 1.0
    ensures s as real / (s as real + 1.0) >= t as real / (t as real + 1.0) <==> s >= t
  {
    var x, y := s as real, t as real;
    ShareFraction(x);
    ShareFraction(y);
    if s > t {
      ReciprocalReverses(y + 1.0, x + 1.0);
    } else if s < t {
      ReciprocalReverses(x + 1.0, y + 1.0);
    }
  }

  /** Ordering by the key is ordering by views, then by shares. */
  lemma PopularityIsLexicographic(a: Article, b: Article)
    ensures Popularity(a) >= Popularity(b) <==>
              a.views > b.views || (a.views == b.views && a.shares >= b.shares)
  {
    ShareFractionMonotone(a.shares, b.shares);
    ShareFractionMonotone(b.shares, a.shares);
  }

  function InTrendWindow(now: int): Article -> bool {
    (a: Article) => FreePublished(a) && a.publishedAt >= now - WeekMs
  }

  /** `getTrendingNews`: free published articles of the last 7 days, most
      viewed first and, among equal views, most shared first. */
  function TrendingNews(articles: seq<Article>, now: int, limit: int): (r: seq<Article>)
    ensures |r| == if limit == 0 then Count(articles, InTrendWindow(now))
                   else Min(Abs(limit), Count(articles, InTrendWindow(now)))
    ensures forall a :: a in r ==> a in articles && FreePublished(a) && a.publishedAt >= now - WeekMs
    ensures forall i, j :: 0 <= i < j < |r| ==>
              r[i].views > r[j].views || (r[i].views == r[j].views && r[i].shares >= r[j].shares)
    ensures forall x, y :: x in articles && InTrendWindow(now)(x) && x !in r && y in r ==>
              y.views > x.views || (y.views == x.views && y.shares >= x.shares)
  {
    var r := Limit(SortDesc(Filter(articles, InTrendWindow(now)), Popularity), Abs(limit));
    TrendingOrder(articles, now, Abs(limit));
    TrendingDominance(articles, now, Abs(limit));
    r
  }

  /** The trending list, sorted by the popularity key, is ordered by views
      and then shares. */
  lemma TrendingOrder(articles: seq<Article>, now: int, n: nat)
    ensures var r := Limit(SortDesc(Filter(articles, InTrendWindow(now)), Popularity), n);
            forall i, j :: 0 <= i < j < |r| ==>
              r[i].views > r[j].views || (r[i].views == r[j].views && r[i].shares >= r[j].shares)
  {
    var r := Limit(SortDesc(Filter(articles, InTrendWindow(now)), Popularity), n);
    forall i, j | 0 <= i < j < |r|
      ensures r[i].views > r[j].views || (r[i].views == r[j].views && r[i].shares >= r[j].shares)
    {
      PopularityIsLexicographic(r[i], r[j]);
    }
  }

  /** No article of the window left out of the trending list beats a listed
      one on views, then shares. */
  lemma TrendingDominance(articles: seq<Article>, now: int, n: nat)
    ensures var r := Limit(SortDesc(Filter(articles, InTrendWindow(now)), Popularity), n);
            forall x, y :: x in articles && InTrendWindow(now)(x) && x !in r && y in r ==>
              y.views > x.views || (y.views == x.views && y.shares >= x.shares)
  {
    var r := Limit(SortDesc(Filter(articles, InTrendWindow(now)), Popularity), n);
    TopDominates(articles, InTrendWindow(now), Popularity, n);
    forall x, y | x in articles && InTrendWindow(now)(x) && x !in r && y in r
      ensures y.views > x.views || (y.views == x.views && y.shares >= x.shares)
    {
      PopularityIsLexicographic(y, x);
    }
  }

  function AboutGame(gameId: string): Article -> bool {
    (a: Article) => FreePublished(a) && gameId in a.games
  }

  /** `getGameNews`: the game id is cast for the query; then free published
      articles about the game, newest first, with the limit rule of the
      headlines. */
  function GameNews(articles: seq<Article>, gameId: string, limit: int): (r: Answer<seq<Article>>)
    ensures !Validators.IsObjectId(gameId) <==> r == Thrown(CastFailure())
    ensures r.Answered? ==>
              |r.value| == if limit == 0 then Count(articles, AboutGame(gameId))
                           else Min(Abs(limit), Count(articles, AboutGame(gameId)))
    ensures r.Answered? ==> forall a :: a in r.value ==> a in articles && FreePublished(a) && gameId in a.games
    ensures r.Answered? ==> forall i, j :: 0 <= i < j < |r.value| ==> r.value[i].publishedAt >= r.value[j].publishedAt
    ensures r.Answered? ==>
              forall x, y :: x in articles && AboutGame(gameId)(x) && x !in r.value && y in r.value ==>
                y.publishedAt >= x.publishedAt
  {
    if !Validators.IsObjectId(gameId) then Thrown(CastFailure())
    else
      var ordered := SortDesc(Filter(articles, AboutGame(gameId)), PublishedAt);
      var r := Limit(ordered, Abs(limit));
      assert forall a :: a in r ==> a in ordered;
      TopDominates(articles, AboutGame(gameId), PublishedAt, Abs(limit));
      Answered(r)
  }

  // ---------------------------------------------------------------------
  // getCategories

  /** The categories the endpoint lists, in order. */
  const Categories: seq<string> := ["news", "review", "guide", "announcement", "patch-notes", "industry", "esports"]

  /** The list names seven distinct categories, exactly those the article
      validator accepts. */
  lemma CategoriesMatchValidator()
    ensures |Categories| == 7
    ensures forall i, j :: 0 <= i < j < |Categories| ==> Categories[i] != Categories[j]
    ensures forall c :: c in Categories <==> c in Validators.NewsCategories
  {
  }

  // ---------------------------------------------------------------------
  // likeArticle, shareArticle

  datatype Counter = Likes | Shares

  datatype BumpOutcome = BadId(error: ErrorResponse) | ArticleMissing | Bumped(count: nat)

  function BumpStatus(o: BumpOutcome): int {
    match o
    case BadId(e) => e.status
    case ArticleMissing => 404
    case Bumped(_) => 200
  }

  function HasId(id: string): Article -> bool {
    (a: Article) => a.id == id
  }

  function Bump(a: Article, c: Counter): Article {
    match c
    case Likes => a.(likes := a.likes + 1)
    case Shares => a.(shares := a.shares + 1)
  }

  /** `likeArticle` / `shareArticle`: `$inc` by one on the article with that
      id, whatever its status; a malformed id reaches the error handler. */
  function BumpArticle(articles: seq<Article>, id: string, c: Counter, nodeEnv: string): (r: (seq<Article>, BumpOutcome))
    ensures !Validators.IsObjectId(id) ==> r.0 == articles && r.1.BadId? && r.1.error.status == 500
    ensures Validators.IsObjectId(id) && (forall i :: 0 <= i < |articles| ==> articles[i].id != id) ==>
              r == (articles, ArticleMissing)
    ensures |r.0| == |articles|
    ensures r.1.Bumped? ==>
              exists i :: 0 <= i < |articles| && articles[i].id == id
                && r.0 == articles[i := Bump(articles[i], c)]
                && r.1.count == (if c == Likes then articles[i].likes else articles[i].shares) + 1
    ensures Validators.IsObjectId(id) ==>
              forall i :: FirstAt(articles, HasId(id), i) ==>
                r == (articles[i := Bump(articles[i], c)],
                      Bumped((if c == Likes then articles[i].likes else articles[i].shares) + 1))
  {
    if !Validators.IsObjectId(id) then (articles, BadId(HandleError(CastFailure(), 200, nodeEnv)))
    else match FirstIndex(articles, HasId(id))
      case None => (articles, ArticleMissing)
      case Some(i) =>
        assert forall k :: FirstAt(articles, HasId(id), k) ==> k == i;
        var b := Bump(articles[i], c);
        (articles[i := b], Bumped(if c == Likes then b.likes else b.shares))
  }

  /** A like changes only the liked article's like count: its shares and
      every other article stay as they were. */
  lemma LikeTouchesOnlyLikes(articles: seq<Article>, id: string, nodeEnv: string, k: nat)
    requires Validators.IsObjectId(id)
    requires k < |articles| && articles[k].id == id
    requires forall j :: 0 <= j < k ==> articles[j].id != id
    ensures var (after, o) := BumpArticle(articles, id, Likes, nodeEnv);
            && o == Bumped(articles[k].likes + 1)
            && after[k].likes == articles[k].likes + 1
            && after[k].shares == articles[k].shares && after[k].views == articles[k].views
            && after[k].(likes := articles[k].likes) == articles[k]
            && forall j :: 0 <= j < |articles| && j != k ==> after[j] == articles[j]
  {
    FirstIndexIs(articles, HasId(id), k);
  }

  /** A share changes only the shared article's share count: its likes and
      every other article stay as they were. */
  lemma ShareTouchesOnlyShares(articles: seq<Article>, id: string, nodeEnv: string, k: nat)
    requires Validators.IsObjectId(id)
    requires k < |articles| && articles[k].id == id
    requires forall j :: 0 <= j < k ==> articles[j].id != id
    ensures var (after, o) := BumpArticle(articles, id, Shares, nodeEnv);
            && o == Bumped(articles[k].shares + 1)
            && after[k].shares == articles[k].shares + 1
            && after[k].likes == articles[k].likes && after[k].views == articles[k].views
            && after[k].(shares := articles[k].shares) == articles[k]
            && forall j :: 0 <= j < |articles| && j != k ==> after[j] == articles[j]
  {
    FirstIndexIs(articles, HasId(id), k);
  }

  /** Liking twice adds two likes. */
  lemma TwoLikesAddTwo(articles: seq<Article>, id: string, nodeEnv: string, k: nat)
    requires Validators.IsObjectId(id)
    requires k < |articles| && articles[k].id == id
    requires forall j :: 0 <= j < k ==> articles[j].id != id
    ensures var once := BumpArticle(articles, id, Likes, nodeEnv).0;
            BumpArticle(once, id, Likes, nodeEnv).1 == Bumped(articles[k].likes + 2)
  {
    assert FirstAt(articles, HasId(id), k);
    var once := BumpArticle(articles, id, Likes, nodeEnv).0;
    assert once == articles[k := Bump(articles[k], Likes)];
    assert forall j :: 0 <= j < k ==> once[j] == articles[j];
    assert FirstAt(once, HasId(id), k);
  }
}

=== FILE: review_model.dfy ===
/** A player's review of a game: schema bounds, moderation status, the
    helpful-vote and flag lists, the `helpfulRatio` virtual, the one
    review per (game, user) index, and the game statistics recomputed from
    approved reviews. */
module ReviewModel {
  import opened Common
  import opened UserModel

  type ReviewId = string

  datatype ReviewStatus = ReviewPending | Approved | ReviewRejected | ReviewFlagged

  datatype Vote = Vote(user: UserId, isHelpful: bool, votedAt: int)

  datatype ReviewFlag = ReviewFlag(user: UserId, reason: Option<string>, flaggedAt: int)

  datatype Review = Review(
    id: ReviewId,
    game: string,
    user: UserId,
    rating: real,
    title: string,
    content: string,
    tags: seq<string>,
    hoursPlayed: Option<real>,
    recommendGame: bool,
    status: ReviewStatus,
    moderationNotes: Option<string>,
    moderatedBy: Option<UserId>,
    moderatedAt: Option<int>,
    helpfulCount: nat,
    notHelpfulCount: nat,
    helpfulVotes: seq<Vote>,
    flags: seq<ReviewFlag>,
    steamReviewId: Option<string>,
    edited: bool,
    editedAt: Option<int>,
    createdAt: int)

  const MinRating: real := 1.0
  const MaxRating: real := 5.0
  const MaxTitleLength := 100
  const MinContentLength := 50
  const MaxContentLength := 5000

  const TagValues: set<string> :=
    {"gameplay", "graphics", "story", "multiplayer", "performance", "value", "audio", "controls"}

  /** The bounds the schema checks on save: rating 1..5, a non-empty title of
      at most 100 characters, content of 50..5000 characters, tags from the
      fixed list and a non-negative playtime. Title and content are stored
      trimmed, so these are lengths after trimming. */
  predicate ReviewValid(r: Review) {
    && MinRating <= r.rating <= MaxRating
    && 1 <= |r.title| <= MaxTitleLength
    && MinContentLength <= |r.content| <= MaxContentLength
    && (forall i :: 0 <= i < |r.tags| ==> r.tags[i] in TagValues)
    && (r.hoursPlayed.None? || r.hoursPlayed.value >= 0.0)
  }

  /** The `helpfulRatio` virtual: the share of helpful votes, 0 without votes. */
  function HelpfulRatio(helpful: nat, notHelpful: nat): (ratio: real)
    ensures helpful + notHelpful == 0 ==> ratio == 0.0
    ensures helpful + notHelpful > 0 ==> ratio * (helpful + notHelpful) as real == helpful as real
    ensures 0.0 <= ratio <= 1.0
    ensures ratio == 1.0 <==> helpful > 0 && notHelpful == 0
  {
    var total := helpful + notHelpful;
    if total > 0 then helpful as real / total as real else 0.0
  }

  // ---------------------------------------------------------------------
  // The (game, user) unique index

  predicate UniqueAuthors(reviews: seq<Review>) {
    forall i, j :: 0 <= i < j < |reviews| ==>
      (reviews[i].game, reviews[i].user) != (reviews[j].game, reviews[j].user)
  }

  predicate HasReviewBy(reviews: seq<Review>, game: string, user: UserId) {
    exists i :: 0 <= i < |reviews| && reviews[i].game == game && reviews[i].user == user
  }

  // ---------------------------------------------------------------------
  // Review statistics of a game

  function ApprovedFor(game: string): Review -> bool {
    (r: Review) => r.game == game && r.status == Approved
  }

  function RatingSum(rs: seq<Review>): real {
    if |rs| == 0 then 0.0 else rs[0].rating + RatingSum(rs[1..])
  }

  datatype ReviewStats = ReviewStats(reviewCount: nat, averageReviewScore: real)

  /** The game's `reviewCount` and `averageReviewScore` recomputed from its
      approved reviews; the average is 0 when there are none. */
  function RecomputeStats(reviews: seq<Review>, game: string): (st: ReviewStats)
    ensures st.reviewCount == Count(reviews, ApprovedFor(game))
    ensures st.reviewCount == 0 ==> st.averageReviewScore == 0.0
    ensures st.reviewCount > 0 ==>
              st.averageReviewScore == Mean(RatingSum(Filter(reviews, ApprovedFor(game))), st.reviewCount)
  {
    var approved := Filter(reviews, ApprovedFor(game));
    var n := |approved|;
    if n > 0 then
      ReviewStats(n, Mean(RatingSum(approved), n))
    else ReviewStats(0, 0.0)
  }

  lemma {:induction false} RatingSumBounds(rs: seq<Review>)
    requires forall i :: 0 <= i < |rs| ==> MinRating <= rs[i].rating <= MaxRating
    ensures MinRating * |rs| as real <= RatingSum(rs) <= MaxRating * |rs| as real
  {
    if |rs| > 0 {
      RatingSumBounds(rs[1..]);
      var k := (|rs| - 1) as real;
      assert MinRating * |rs| as real == MinRating + MinRating * k;
      assert MaxRating * |rs| as real == MaxRating + MaxRating * k;
    }
  }

  /** When every stored review satisfies the schema, the recomputed average
      is itself a rating between 1 and 5. */
  lemma AverageIsARating(reviews: seq<Review>, game: string)
    requires forall i :: 0 <= i < |reviews| ==> ReviewValid(reviews[i])
    requires Count(reviews, ApprovedFor(game)) > 0
    ensures MinRating <= RecomputeStats(reviews, game).averageReviewScore <= MaxRating
  {
    var approved := Filter(reviews, ApprovedFor(game));
    forall i | 0 <= i < |approved| ensures MinRating <= approved[i].rating <= MaxRating {
      assert approved[i] in reviews;
    }
    RatingSumBounds(approved);
    MeanBounds(RatingSum(approved), |approved|, MinRating, MaxRating);
  }
}

=== FILE: reviews.dfy ===
/** The reviews controller: creating a review (one per game and user,
    auto-approved), owner-only editing that sends the review back to
    moderation, deletion by owner or admin with the game's statistics
    recomputed, helpful votes (one per voter, counts derived from the list)
    and flags (one per reporter, auto-flagging from the third). The store is
    the review collection in natural order; each request is atomic. An id
    in the path that is not an ObjectId makes `findById` throw a cast error,
    which the error handler answers with 500. */
module Reviews {
  import opened Common
  import opened UserModel
  import opened ReviewModel
  import opened ErrorHandler
  import Validators

  datatype ReviewOutcome =
    | GameNotFound
    | AlreadyReviewed
    | ReviewNotFound
    | NotAuthor
    | AlreadyFlagged
    | Done(review: Review)
    | Removed
    | Failed(err: JsError)

  /** The HTTP status of each outcome (`created` for the 201 of a new review). */
  function OutcomeStatus(o: ReviewOutcome, created: bool, nodeEnv: string): (status: int)
    ensures (o.GameNotFound? || o.ReviewNotFound?) ==> status == 404
    ensures (o.AlreadyReviewed? || o.AlreadyFlagged?) ==> status == 409
    ensures o.NotAuthor? ==> status == 403
    ensures o.Failed? ==> status == 500
    ensures (o.Done? || o.Removed?) ==> status == (if created then 201 else 200)
  {
    match o
    case GameNotFound => 404
    case ReviewNotFound => 404
    case AlreadyReviewed => 409
    case AlreadyFlagged => 409
    case NotAuthor => 403
    case Failed(err) => HandleError(err, 200, nodeEnv).status
    case _ => if created then 201 else 200
  }

  /** The enum messages of the tags outside the fixed list; `from` is the
      array index of `tags[0]`. */
  function TagErrors(tags: seq<string>, from: nat): (msgs: seq<string>)
    ensures |msgs| == 0 <==> forall i :: 0 <= i < |tags| ==> tags[i] in TagValues
    ensures |msgs| <= |tags|
    ensures forall i :: 0 <= i < |tags| && tags[i] !in TagValues ==>
              EnumMessage(tags[i], "tags." + NatToString(from + i)) in msgs
    decreases |tags|
  {
    if |tags| == 0 then []
    else
      var rest := TagErrors(tags[1..], from + 1);
      assert forall i :: 1 <= i < |tags| ==> tags[i] == tags[1..][i - 1];
      (if tags[0] in TagValues then [] else [EnumMessage(tags[0], "tags." + NatToString(from))]) + rest
  }

  /** The rating's messages: Mongoose's default min and max wording. */
  function RatingErrors(rating: real): (msgs: seq<string>)
    ensures |msgs| == 0 <==> MinRating <= rating <= MaxRating
    ensures rating < MinRating ==> MinMessage("rating", NumberText(rating), "1") in msgs
    ensures rating > MaxRating ==> MaxMessage("rating", NumberText(rating), "5") in msgs
  {
    (if rating < MinRating then [MinMessage("rating", NumberText(rating), "1")] else [])
    + (if rating > MaxRating then [MaxMessage("rating", NumberText(rating), "5")] else [])
  }

  /** The title's messages: required in Mongoose's words, and the schema's
      own length message. */
  function TitleErrors(title: string): (msgs: seq<string>)
    ensures |msgs| == 0 <==> 1 <= |title| <= MaxTitleLength
    ensures |title| == 0 ==> RequiredMessage("title") in msgs
    ensures |title| > MaxTitleLength ==> "Title must be less than 100 characters" in msgs
  {
    (if |title| == 0 then [RequiredMessage("title")] else [])
    + (if |title| > MaxTitleLength then ["Title must be less than 100 characters"] else [])
  }

  /** The content's messages, both the schema's own. */
  function ContentErrors(content: string): (msgs: seq<string>)
    ensures |msgs| == 0 <==> MinContentLength <= |content| <= MaxContentLength
    ensures |content| < MinContentLength ==> "Review must be at least 50 characters" in msgs
    ensures |content| > MaxContentLength ==> "Review must be less than 5000 characters" in msgs
  {
    (if |content| < MinContentLength then ["Review must be at least 50 characters"] else [])
    + (if |content| > MaxContentLength then ["Review must be less than 5000 characters"] else [])
  }

  /** The playtime's message: Mongoose's default min wording. */
  function HoursErrors(hours: Option<real>): (msgs: seq<string>)
    ensures |msgs| == 0 <==> hours.None? || hours.value >= 0.0
    ensures hours.Some? && hours.value < 0.0 ==> MinMessage("hoursPlayed", NumberText(hours.value), "0") in msgs
  {
    if hours.Some? && hours.value < 0.0 then [MinMessage("hoursPlayed", NumberText(hours.value), "0")] else []
  }

  /** The messages of the schema checks a review fails, in path order: the
      schema's own messages where it gives one, Mongoose's default wording
      otherwise. */
  function ReviewErrors(r: Review): (msgs: seq<string>)
    ensures |msgs| == 0 <==> ReviewValid(r)
    ensures r.rating < MinRating ==> MinMessage("rating", NumberText(r.rating), "1") in msgs
    ensures r.rating > MaxRating ==> MaxMessage("rating", NumberText(r.rating), "5") in msgs
    ensures |r.title| == 0 ==> RequiredMessage("title") in msgs
    ensures |r.title| > MaxTitleLength ==> "Title must be less than 100 characters" in msgs
    ensures |r.content| < MinContentLength ==> "Review must be at least 50 characters" in msgs
    ensures |r.content| > MaxContentLength ==> "Review must be less than 5000 characters" in msgs
    ensures forall i :: 0 <= i < |r.tags| && r.tags[i] !in TagValues ==>
              EnumMessage(r.tags[i], "tags." + NatToString(i)) in msgs
    ensures r.hoursPlayed.Some? && r.hoursPlayed.value < 0.0 ==>
              MinMessage("hoursPlayed", NumberText(r.hoursPlayed.value), "0") in msgs
  {
    var rating := RatingErrors(r.rating);
    var title := TitleErrors(r.title);
    var content := ContentErrors(r.content);
    var tags := TagErrors(r.tags, 0);
    var hours := HoursErrors(r.hoursPlayed);
    var msgs := rating + title + content + tags + hours;
    assert forall m :: m in rating || m in title || m in content || m in tags || m in hours ==> m in msgs;
    msgs
  }

  /** A rating of 0 is reported in Mongoose's words, with the value. */
  lemma ZeroRatingMessage(r: Review)
    requires r.rating == 0.0
    ensures MinMessage("rating", "0", "1") in ReviewErrors(r)
  {
    assert NatToString(0) == "0";
    assert NumberText(0.0) == "0";
  }

  function HasId(id: ReviewId): Review -> bool {
    (r: Review) => r.id == id
  }

  // ---------------------------------------------------------------------
  // createReview

  /** The validated body of a new review (title and content already trimmed
      by the request validators; the schema trims again). */
  datatype CreateRequest = CreateRequest(
    game: string,
    rating: real,
    title: string,
    content: string,
    tags: seq<string>,
    hoursPlayed: Option<real>,
    recommendGame: Option<bool>)

  datatype CreateResult = CreateResult(reviews: seq<Review>, stats: Option<ReviewStats>, user: User, outcome: ReviewOutcome)

  /** The stored form of a new review: approved at once, nothing voted or
      flagged, `recommendGame` defaulting to true. */
  function NewReview(req: CreateRequest, author: UserId, id: ReviewId, now: int): (r: Review)
    ensures r.createdAt == now
    ensures r.id == id && r.game == req.game && r.user == author && r.rating == req.rating
    ensures r.title == Trim(req.title) && r.content == Trim(req.content)
    ensures r.status == Approved && !r.edited
    ensures r.helpfulVotes == [] && r.flags == [] && r.helpfulCount == 0 && r.notHelpfulCount == 0
    ensures r.recommendGame == (req.recommendGame.None? || req.recommendGame.value)
  {
    Review(id, req.game, author, req.rating, Trim(req.title), Trim(req.content), req.tags, req.hoursPlayed,
           if req.recommendGame.Some? then req.recommendGame.value else true,
           Approved, None, None, None, 0, 0, [], [], None, false, None, now)
  }

  function AuthorOf(game: string, user: UserId): Review -> bool {
    (r: Review) => r.game == game && r.user == user
  }

  /** `createReview` by `author`; `games` are the stored game ids. */
  function CreateReview(reviews: seq<Review>, games: set<string>, author: User, req: CreateRequest,
                        freshId: ReviewId, now: int): (r: CreateResult)
    ensures req.game !in games ==> r == CreateResult(reviews, None, author, GameNotFound)
    ensures req.game in games && HasReviewBy(reviews, req.game, author.id) ==>
              r == CreateResult(reviews, None, author, AlreadyReviewed)
    ensures req.game in games && !HasReviewBy(reviews, req.game, author.id) ==>
              var review := NewReview(req, author.id, freshId, now);
              && (r.outcome.Failed? <==> !ReviewValid(review))
              && (r.outcome.Failed? ==> r.reviews == reviews && r.stats.None? && r.user == author)
              && (r.outcome.Done? ==>
                    && r.outcome.review == review
                    && r.reviews == reviews + [review]
                    && r.stats == Some(RecomputeStats(reviews + [review], req.game))
                    && r.user == author.(stats := author.stats.(reviewsWritten := author.stats.reviewsWritten + 1)))
  {
    if req.game !in games then CreateResult(reviews, None, author, GameNotFound)
    else if FirstIndex(reviews, AuthorOf(req.game, author.id)).Some? then
      CreateResult(reviews, None, author, AlreadyReviewed)
    else
      var review := NewReview(req, author.id, freshId, now);
      if !ReviewValid(review) then CreateResult(reviews, None, author, Failed(ValidationFailure(ReviewErrors(review))))
      else
        var stored := reviews + [review];
        CreateResult(stored, Some(RecomputeStats(stored, req.game)),
                     author.(stats := author.stats.(reviewsWritten := author.stats.reviewsWritten + 1)),
                     Done(review))
  }

  /** Creating keeps at most one review per (game, user). */
  lemma CreateKeepsUniqueAuthors(reviews: seq<Review>, games: set<string>, author: User, req: CreateRequest,
                                 freshId: ReviewId, now: int)
    requires UniqueAuthors(reviews)
    ensures UniqueAuthors(CreateReview(reviews, games, author, req, freshId, now).reviews)
  {
    var r := CreateReview(reviews, games, author, req, freshId, now);
    if r.reviews != reviews {
      assert !HasReviewBy(reviews, req.game, author.id);
      assert forall j :: 0 <= j < |reviews| ==> r.reviews[j] == reviews[j];
    }
  }

  /** A created review is counted: the game then has one more approved
      review than before, so at least one, and its average is a true mean. */
  lemma CreateCountsNewReview(reviews: seq<Review>, games: set<string>, author: User, req: CreateRequest,
                              freshId: ReviewId, now: int)
    requires CreateReview(reviews, games, author, req, freshId, now).outcome.Done?
    ensures CreateReview(reviews, games, author, req, freshId, now).stats.Some?
    ensures CreateReview(reviews, games, author, req, freshId, now).stats.value.reviewCount
            == Count(reviews, ApprovedFor(req.game)) + 1
  {
    CountAppendOne(reviews, NewReview(req, author.id, freshId, now), ApprovedFor(req.game));
  }

  /** The request the controller builds from a body that passed
      `reviewValidators.create`: the sanitizers have trimmed title and
      content, and the tag list is passed through. */
  function RequestOf(b: Validators.ReviewBody, tags: seq<string>, recommendGame: Option<bool>): CreateRequest
    requires Validators.ReviewBodyValid(b)
  {
    CreateRequest(b.gameId.value, b.rating.x, Trim(b.title), Trim(b.content), tags,
                  if b.hoursPlayed.Num? then Some(b.hoursPlayed.x) else None, recommendGame)
  }

  /** A body the route validators accept, with tags from the schema's list,
      is stored without a schema error: the validators' bounds sit inside the
      schema's. */
  lemma ValidatedBodyPassesSchema(b: Validators.ReviewBody, tags: seq<string>, recommendGame: Option<bool>,
                                  author: UserId, id: ReviewId, now: int)
    requires Validators.ReviewBodyValid(b)
    requires forall i :: 0 <= i < |tags| ==> tags[i] in TagValues
    ensures ReviewValid(NewReview(RequestOf(b, tags, recommendGame), author, id, now))
  {
    TrimIdempotent(b.title);
    TrimIdempotent(b.content);
  }

  // ---------------------------------------------------------------------
  // updateReview

  /** The fields of an edit; None stands for a field left undefined. */
  datatype ReviewPatch = ReviewPatch(
    rating: Option<real>,
    title: Option<string>,
    content: Option<string>,
    tags: Option<seq<string>>,
    hoursPlayed: Option<real>,
    recommendGame: Option<bool>)

  /** The review after an edit: supplied fields replaced (text trimmed by the
      schema), marked edited, and back to pending. */
  function ApplyPatch(r: Review, p: ReviewPatch, now: int): (e: Review)
    ensures e.rating == (if p.rating.Some? then p.rating.value else r.rating)
    ensures e.title == (if p.title.Some? then Trim(p.title.value) else r.title)
    ensures e.content == (if p.content.Some? then Trim(p.content.value) else r.content)
    ensures e.tags == (if p.tags.Some? then p.tags.value else r.tags)
    ensures e.hoursPlayed == (if p.hoursPlayed.Some? then p.hoursPlayed else r.hoursPlayed)
    ensures e.recommendGame == (if p.recommendGame.Some? then p.recommendGame.value else r.recommendGame)
    ensures e.edited && e.editedAt == Some(now) && e.status == ReviewPending
    ensures e.id == r.id && e.game == r.game && e.user == r.user
    ensures e.helpfulVotes == r.helpfulVotes && e.flags == r.flags
    ensures e.helpfulCount == r.helpfulCount && e.notHelpfulCount == r.notHelpfulCount
    ensures e.moderationNotes == r.moderationNotes && e.moderatedBy == r.moderatedBy
  {
    r.(rating := if p.rating.Some? then p.rating.value else r.rating,
       title := if p.title.Some? then Trim(p.title.value) else r.title,
       content := if p.content.Some? then Trim(p.content.value) else r.content,
       tags := if p.tags.Some? then p.tags.value else r.tags,
       hoursPlayed := if p.hoursPlayed.Some? then p.hoursPlayed else r.hoursPlayed,
       recommendGame := if p.recommendGame.Some? then p.recommendGame.value else r.recommendGame,
       edited := true, editedAt := Some(now), status := ReviewPending)
  }

  /** `updateReview` by `requester` holding `role`; the role plays no part. */
  function UpdateReview(reviews: seq<Review>, id: ReviewId, requester: UserId, role: Role,
                        p: ReviewPatch, now: int): (r: (seq<Review>, ReviewOutcome))
    ensures !Validators.IsObjectId(id) ==> r == (reviews, Failed(CastFailure()))
    ensures Validators.IsObjectId(id) ==>
              ((forall i :: 0 <= i < |reviews| ==> reviews[i].id != id) <==> r.1 == ReviewNotFound)
    ensures !r.1.Done? ==> r.0 == reviews
    ensures forall i :: Validators.IsObjectId(id) && FirstAt(reviews, HasId(id), i) ==>
              var e := ApplyPatch(reviews[i], p, now);
              && (reviews[i].user != requester ==> r == (reviews, NotAuthor))
              && (reviews[i].user == requester && ReviewValid(e) ==> r == (reviews[i := e], Done(e)))
              && (reviews[i].user == requester && !ReviewValid(e) ==>
                    r == (reviews, Failed(ValidationFailure(ReviewErrors(e)))))
    ensures r.1.Done? ==>
              exists i :: && 0 <= i < |reviews| && reviews[i].id == id && reviews[i].user == requester
                          && r.1.review == ApplyPatch(reviews[i], p, now) && ReviewValid(r.1.review)
                          && r.0 == reviews[i := r.1.review]
  {
    if !Validators.IsObjectId(id) then (reviews, Failed(CastFailure()))
    else match FirstIndex(reviews, HasId(id))
    case None => (reviews, ReviewNotFound)
    case Some(i) =>
      assert forall k :: FirstAt(reviews, HasId(id), k) ==> k == i;
      if reviews[i].user != requester then (reviews, NotAuthor)
      else
        var e := ApplyPatch(reviews[i], p, now);
        if !ReviewValid(e) then (reviews, Failed(ValidationFailure(ReviewErrors(e))))
        else (reviews[i := e], Done(e))
  }

  /** Only the author may edit: an admin editing someone else's review is
      refused like anyone else, whatever the role. */
  lemma OnlyAuthorEdits(reviews: seq<Review>, id: ReviewId, requester: UserId, role: Role, p: ReviewPatch, now: int)
    requires UpdateReview(reviews, id, requester, role, p, now).1.Done?
    ensures exists i :: 0 <= i < |reviews| && reviews[i].id == id && reviews[i].user == requester
    ensures UpdateReview(reviews, id, requester, role, p, now) == UpdateReview(reviews, id, requester, UserRole, p, now)
  {
  }

  /** An edit puts an approved review back into moderation. */
  lemma EditLeavesApproval(reviews: seq<Review>, id: ReviewId, requester: UserId, role: Role, p: ReviewPatch, now: int)
    requires UpdateReview(reviews, id, requester, role, p, now).1.Done?
    ensures UpdateReview(reviews, id, requester, role, p, now).1.review.status == ReviewPending
    ensures !ApprovedFor(UpdateReview(reviews, id, requester, role, p, now).1.review.game)(
               UpdateReview(reviews, id, requester, role, p, now).1.review)
  {
  }

  // ---------------------------------------------------------------------
  // deleteReview

  /** `deleteReview`: the owner or an admin removes the review; the game's
      statistics are recomputed from what remains. */
  function DeleteReview(reviews: seq<Review>, id: ReviewId, requester: UserId, role: Role):
    (r: (seq<Review>, Option<ReviewStats>, ReviewOutcome))
    ensures !Validators.IsObjectId(id) ==> r == (reviews, None, Failed(CastFailure()))
    ensures Validators.IsObjectId(id) ==>
              ((forall i :: 0 <= i < |reviews| ==> reviews[i].id != id) <==> r.2 == ReviewNotFound)
    ensures !r.2.Removed? ==> r.0 == reviews && r.1.None?
    ensures r.2.NotAuthor? ==> role != AdminRole
    ensures forall i :: Validators.IsObjectId(id) && FirstAt(reviews, HasId(id), i) ==>
              var rest := reviews[..i] + reviews[i + 1..];
              && (reviews[i].user == requester || role == AdminRole ==>
                    r == (rest, Some(RecomputeStats(rest, reviews[i].game)), Removed))
              && (reviews[i].user != requester && role != AdminRole ==> r == (reviews, None, NotAuthor))
    ensures r.2.Removed? ==>
              exists i :: && 0 <= i < |reviews| && reviews[i].id == id
                          && (reviews[i].user == requester || role == AdminRole)
                          && r.0 == reviews[..i] + reviews[i + 1..]
                          && r.1 == Some(RecomputeStats(r.0, reviews[i].game))
  {
    if !Validators.IsObjectId(id) then (reviews, None, Failed(CastFailure()))
    else match FirstIndex(reviews, HasId(id))
    case None => (reviews, None, ReviewNotFound)
    case Some(i) =>
      assert forall k :: FirstAt(reviews, HasId(id), k) ==> k == i;
      if reviews[i].user != requester && role != AdminRole then (reviews, None, NotAuthor)
      else
        var rest := reviews[..i] + reviews[i + 1..];
        (rest, Some(RecomputeStats(rest, reviews[i].game)), Removed)
  }

  // ---------------------------------------------------------------------
  // voteReview

  predicate UniqueVoters(votes: seq<Vote>) {
    forall i, j :: 0 <= i < j < |votes| ==> votes[i].user != votes[j].user
  }

  function VoterIs(user: UserId): Vote -> bool {
    (v: Vote) => v.user == user
  }

  function IsHelpfulVote(v: Vote): bool { v.isHelpful }

  function IsUnhelpfulVote(v: Vote): bool { !v.isHelpful }

  /** The vote list after `voter` votes: an earlier vote by the same user is
      overwritten in place (keeping its time), otherwise a vote is appended. */
  function CastVote(votes: seq<Vote>, voter: UserId, isHelpful: bool, now: int): (r: seq<Vote>)
    ensures (exists i :: 0 <= i < |votes| && votes[i].user == voter) ==> |r| == |votes|
    ensures (forall i :: 0 <= i < |votes| ==> votes[i].user != voter) ==> r == votes + [Vote(voter, isHelpful, now)]
    ensures forall i :: 0 <= i < |votes| && votes[i].user != voter ==> r[i] == votes[i]
    ensures exists i :: 0 <= i < |r| && r[i].user == voter && r[i].isHelpful == isHelpful
  {
    match FirstIndex(votes, VoterIs(voter))
    case None =>
      var r := votes + [Vote(voter, isHelpful, now)];
      assert r[|votes|].user == voter;
      r
    case Some(i) =>
      var r := votes[i := votes[i].(isHelpful := isHelpful)];
      assert r[i].user == voter;
      r
  }

  /** Voting keeps one vote per user. */
  lemma CastVoteKeepsUniqueVoters(votes: seq<Vote>, voter: UserId, isHelpful: bool, now: int)
    requires UniqueVoters(votes)
    ensures UniqueVoters(CastVote(votes, voter, isHelpful, now))
  {
    var r := CastVote(votes, voter, isHelpful, now);
    match FirstIndex(votes, VoterIs(voter))
    case None =>
      assert forall j :: 0 <= j < |votes| ==> r[j] == votes[j];
    case Some(i) =>
      assert forall j :: 0 <= j < |votes| ==> r[j].user == votes[j].user;
  }

  /** Casting the same vote twice is casting it once, whenever the second
      one comes. */
  lemma CastVoteIdempotent(votes: seq<Vote>, voter: UserId, isHelpful: bool, now: int, later: int)
    ensures CastVote(CastVote(votes, voter, isHelpful, now), voter, isHelpful, later)
            == CastVote(votes, voter, isHelpful, now)
  {
    var once := CastVote(votes, voter, isHelpful, now);
    match FirstIndex(votes, VoterIs(voter))
    case None =>
      assert FirstIndex(once, VoterIs(voter)) == Some(|votes|);
    case Some(i) =>
      FirstIndexIs(once, VoterIs(voter), i);
  }

  /** The counts derived from the vote list split it in two. */
  lemma VoteCountsPartition(votes: seq<Vote>)
    ensures Count(votes, IsHelpfulVote) + Count(votes, IsUnhelpfulVote) == |votes|
  {
    CountComplement(votes, IsHelpfulVote, IsUnhelpfulVote);
  }

  /** The review after a vote: the list updated and both counts recomputed
      from it. */
  function WithVote(r: Review, voter: UserId, isHelpful: bool, now: int): (e: Review)
    ensures e.helpfulVotes == CastVote(r.helpfulVotes, voter, isHelpful, now)
    ensures e.helpfulCount + e.notHelpfulCount == |e.helpfulVotes|
    ensures e.helpfulCount == Count(e.helpfulVotes, IsHelpfulVote)
    ensures e.notHelpfulCount == Count(e.helpfulVotes, IsUnhelpfulVote)
    ensures e == r.(helpfulVotes := e.helpfulVotes, helpfulCount := e.helpfulCount, notHelpfulCount := e.notHelpfulCount)
  {
    var votes := CastVote(r.helpfulVotes, voter, isHelpful, now);
    VoteCountsPartition(votes);
    r.(helpfulVotes := votes, helpfulCount := Count(votes, IsHelpfulVote),
       notHelpfulCount := Count(votes, IsUnhelpfulVote))
  }

  /** `voteReview`. */
  function VoteReview(reviews: seq<Review>, id: ReviewId, voter: UserId, isHelpful: bool, now: int):
    (r: (seq<Review>, ReviewOutcome))
    ensures !Validators.IsObjectId(id) ==> r == (reviews, Failed(CastFailure()))
    ensures Validators.IsObjectId(id) ==>
              ((forall i :: 0 <= i < |reviews| ==> reviews[i].id != id) <==> r.1 == ReviewNotFound)
    ensures r.1 == ReviewNotFound || r.1.Done? || r.1 == Failed(CastFailure())
    ensures !r.1.Done? ==> r.0 == reviews
    ensures forall i :: Validators.IsObjectId(id) && FirstAt(reviews, HasId(id), i) ==>
              r == (reviews[i := WithVote(reviews[i], voter, isHelpful, now)],
                    Done(WithVote(reviews[i], voter, isHelpful, now)))
    ensures r.1.Done? ==>
              exists i :: && 0 <= i < |reviews| && reviews[i].id == id
                          && r.1.review == WithVote(reviews[i], voter, isHelpful, now)
                          && r.0 == reviews[i := r.1.review]
  {
    if !Validators.IsObjectId(id) then (reviews, Failed(CastFailure()))
    else match FirstIndex(reviews, HasId(id))
    case None => (reviews, ReviewNotFound)
    case Some(i) =>
      var e := WithVote(reviews[i], voter, isHelpful, now);
      assert forall k :: FirstAt(reviews, HasId(id), k) ==> k == i;
      (reviews[i := e], Done(e))
  }

  // ---------------------------------------------------------------------
  // flagReview

  const AutoFlagThreshold := 3

  function FlaggedBy(user: UserId): ReviewFlag -> bool {
    (f: ReviewFlag) => f.user == user
  }

  /** The review after a first report by `reporter`: one more flag, and
      flagged for moderation from the third report on. */
  function WithFlag(r: Review, reporter: UserId, reason: Option<string>, now: int): (e: Review)
    ensures e.flags == r.flags + [ReviewFlag(reporter, reason, now)]
    ensures |e.flags| >= AutoFlagThreshold ==> e.status == ReviewFlagged
    ensures |e.flags| < AutoFlagThreshold ==> e.status == r.status
    ensures e == r.(flags := e.flags, status := e.status)
  {
    var flags := r.flags + [ReviewFlag(reporter, reason, now)];
    if |flags| >= AutoFlagThreshold && r.status != ReviewFlagged then r.(flags := flags, status := ReviewFlagged)
    else r.(flags := flags)
  }

  /** `flagReview`: each user reports a review at most once. */
  function FlagReview(reviews: seq<Review>, id: ReviewId, reporter: UserId, reason: Option<string>, now: int):
    (r: (seq<Review>, ReviewOutcome))
    ensures !Validators.IsObjectId(id) ==> r == (reviews, Failed(CastFailure()))
    ensures Validators.IsObjectId(id) ==>
              ((forall i :: 0 <= i < |reviews| ==> reviews[i].id != id) <==> r.1 == ReviewNotFound)
    ensures !r.1.Done? ==> r.0 == reviews
    ensures forall i :: Validators.IsObjectId(id) && FirstAt(reviews, HasId(id), i) ==>
              && ((exists j :: 0 <= j < |reviews[i].flags| && reviews[i].flags[j].user == reporter) ==>
                    r == (reviews, AlreadyFlagged))
              && ((forall j :: 0 <= j < |reviews[i].flags| ==> reviews[i].flags[j].user != reporter) ==>
                    r == (reviews[i := WithFlag(reviews[i], reporter, reason, now)],
                          Done(WithFlag(reviews[i], reporter, reason, now))))
    ensures r.1 == AlreadyFlagged ==>
              exists i :: 0 <= i < |reviews| && reviews[i].id == id
                          && exists j :: 0 <= j < |reviews[i].flags| && reviews[i].flags[j].user == reporter
    ensures r.1.Done? ==>
              exists i :: && 0 <= i < |reviews| && reviews[i].id == id
                          && (forall j :: 0 <= j < |reviews[i].flags| ==> reviews[i].flags[j].user != reporter)
                          && r.1.review == WithFlag(reviews[i], reporter, reason, now)
                          && r.0 == reviews[i := r.1.review]
  {
    if !Validators.IsObjectId(id) then (reviews, Failed(CastFailure()))
    else match FirstIndex(reviews, HasId(id))
    case None => (reviews, ReviewNotFound)
    case Some(i) =>
      assert forall k :: FirstAt(reviews, HasId(id), k) ==> k == i;
      if FirstIndex(reviews[i].flags, FlaggedBy(reporter)).Some? then (reviews, AlreadyFlagged)
      else
        var e := WithFlag(reviews[i], reporter, reason, now);
        (reviews[i := e], Done(e))
  }

  /** Reporting twice is refused the second time, and changes nothing. */
  lemma SecondFlagRefused(reviews: seq<Review>, id: ReviewId, reporter: UserId, reason: Option<string>,
                          now: int, later: int)
    requires forall i, j :: 0 <= i < j < |reviews| ==> reviews[i].id != reviews[j].id
    requires FlagReview(reviews, id, reporter, reason, now).1.Done?
    ensures FlagReview(FlagReview(reviews, id, reporter, reason, now).0, id, reporter, reason, later).1 == AlreadyFlagged
  {
    var r := FlagReview(reviews, id, reporter, reason, now);
    assert Validators.IsObjectId(id);
    var i :| 0 <= i < |reviews| && reviews[i].id == id && r.0 == reviews[i := r.1.review]
             && r.1.review == WithFlag(reviews[i], reporter, reason, now);
    var s := r.0;
    assert forall j :: 0 <= j < i ==> s[j] == reviews[j];
    FlaggedReporterRefused(s, id, reporter, reason, later, i);
  }

  /** A reporter whose flag is the last on the looked-up review is refused. */
  lemma FlaggedReporterRefused(reviews: seq<Review>, id: ReviewId, reporter: UserId, reason: Option<string>,
                               now: int, i: nat)
    requires Validators.IsObjectId(id) && FirstAt(reviews, HasId(id), i)
    requires |reviews[i].flags| > 0 && reviews[i].flags[|reviews[i].flags| - 1].user == reporter
    ensures FlagReview(reviews, id, reporter, reason, now).1 == AlreadyFlagged
  {
    var flags := reviews[i].flags;
    assert flags[|flags| - 1].user == reporter;
  }
}

=== FILE: slugs.dfy ===
/** The two `slugify` helpers of the workers: lower-case, trim, turn each
    whitespace run into '-', drop every character that is neither a word
    character nor '-', and collapse runs of '-'. The news worker's variant
    then keeps the first 100 characters and the stored news slug appends
    '-' and the creation time. Lower-casing is modelled on ASCII letters. */
module Slugs {
  import opened Common
  import Validators

  function LowerChar(c: char): char {
    if 'A' <= c <= 'Z' then (c as int + 32) as char else c
  }

  /** `toLowerCase` on ASCII letters. */
  function Lower(s: string): (r: string)
    ensures |r| == |s|
    ensures forall i :: 0 <= i < |s| ==> r[i] == LowerChar(s[i])
  {
    seq(|s|, i requires 0 <= i < |s| => LowerChar(s[i]))
  }

  /** The two character classes whose runs the helpers replace with '-':
      `\s` in the first replacement, '-' in the last. */
  datatype Run = Spaces | Dashes

  predicate InRun(c: char, k: Run) {
    if k == Spaces then IsSpace(c) else c == '-'
  }

  /** `[\w\-]`: the characters the second replacement keeps. */
  predicate IsSlugChar(c: char) { Validators.IsWordChar(c) || c == '-' }

  /** The characters a slug is made of. */
  predicate SlugAlphabet(c: char) { Validators.IsLower(c) || IsDigit(c) || c == '_' || c == '-' }

  predicate NoDoubleDash(s: string) {
    forall i :: 0 <= i < |s| - 1 ==> !(s[i] == '-' && s[i + 1] == '-')
  }

  /** What a slug looks like: lower-case letters, digits, '_' and '-', and
      never two '-' in a row. */
  predicate SlugShaped(s: string) {
    (forall i :: 0 <= i < |s| ==> SlugAlphabet(s[i])) && NoDoubleDash(s)
  }

  function DropWhile(s: string, k: Run): (r: string)
    ensures |r| <= |s| && r == s[|s| - |r|..]
    ensures |r| > 0 ==> !InRun(r[0], k)
    ensures forall i :: 0 <= i < |s| - |r| ==> InRun(s[i], k)
  {
    if |s| > 0 && InRun(s[0], k) then DropWhile(s[1..], k) else s
  }

  /** A global replacement of runs of the character class k by '-': each maximal run of
      its characters becomes a single '-'. */
  function Squeeze(s: string, k: Run): (r: string)
    decreases |s|
    ensures |r| <= |s|
    ensures |r| > 0 <==> |s| > 0
    ensures |s| > 0 ==> r[0] == (if InRun(s[0], k) then '-' else s[0])
  {
    if |s| == 0 then ""
    else if InRun(s[0], k) then "-" + Squeeze(DropWhile(s[1..], k), k)
    else [s[0]] + Squeeze(s[1..], k)
  }

  /** Every character of a squeezed string is '-' or a character of the
      input outside the class. */
  lemma {:induction false} SqueezeChars(s: string, k: Run, c: char)
    decreases |s|
    requires c in Squeeze(s, k) && c != '-'
    ensures c in s && !InRun(c, k)
  {
    if InRun(s[0], k) {
      var t := DropWhile(s[1..], k);
      assert Squeeze(s, k) == "-" + Squeeze(t, k);
      assert c in Squeeze(t, k);
      SqueezeChars(t, k, c);
      var i :| 0 <= i < |t| && t[i] == c;
      assert s[|s| - |t| + i] == c;
    } else {
      assert Squeeze(s, k) == [s[0]] + Squeeze(s[1..], k);
      if c != s[0] {
        SqueezeChars(s[1..], k, c);
        assert c in s[1..];
      }
    }
  }

  /** `slugify` of the games worker. */
  function Slugify(text: string): (r: string)
    ensures |r| <= |text|
    ensures forall c :: c in r && c != '-' ==> IsSlugChar(c)
  {
    var kept := Filter(Squeeze(Trim(Lower(text)), Spaces), IsSlugChar);
    var r := Squeeze(kept, Dashes);
    forall c | c in r && c != '-' ensures IsSlugChar(c) {
      SqueezeChars(kept, Dashes, c);
    }
    r
  }

  /** `slugify` of the news worker: the same, cut to 100 characters. */
  function SlugifyCapped(text: string): (r: string)
    ensures |r| <= 100 && |r| <= |text|
    ensures r <= Slugify(text)
  {
    Prefix(Slugify(text), 100)
  }

  /** The slug the news worker stores for an article created at `now`. */
  function NewsSlug(title: string, now: int): string {
    SlugifyCapped(title) + "-" + IntToString(now)
  }

  // ---------------------------------------------------------------------
  // The shape of a slug

  lemma {:induction false} SqueezeDashesNoDoubleDash(s: string)
    decreases |s|
    ensures NoDoubleDash(Squeeze(s, Dashes))
  {
    if |s| > 0 {
      if s[0] == '-' {
        var t := DropWhile(s[1..], Dashes);
        SqueezeDashesNoDoubleDash(t);
        assert Squeeze(s, Dashes) == "-" + Squeeze(t, Dashes);
      } else {
        SqueezeDashesNoDoubleDash(s[1..]);
        assert Squeeze(s, Dashes) == [s[0]] + Squeeze(s[1..], Dashes);
      }
    }
  }

  lemma InTrim(s: string, c: char)
    requires c in Trim(s)
    ensures c in s
  {
    var i :| 0 <= i < |Trim(s)| && Trim(s)[i] == c;
    assert s[LeadingSpaces(s) + i] == c;
  }

  /** A character of a lowered text that survives the filter is a slug
      character. */
  lemma LoweredSlugChar(text: string, c: char)
    requires c in Lower(text) && IsSlugChar(c)
    ensures SlugAlphabet(c)
  {
    var lowered := Lower(text);
    var k :| 0 <= k < |lowered| && lowered[k] == c;
    assert c == LowerChar(text[k]);
  }

  /** Every non-dash character of a slug comes from the lowered text and
      passed the filter. */
  lemma SlugCharOrigin(text: string, c: char)
    requires c in Slugify(text) && c != '-'
    ensures SlugAlphabet(c)
  {
    var lowered := Lower(text);
    var trimmed := Trim(lowered);
    var spaced := Squeeze(trimmed, Spaces);
    var kept := Filter(spaced, IsSlugChar);
    SqueezeChars(kept, Dashes, c);
    assert c in spaced && IsSlugChar(c);
    SqueezeChars(trimmed, Spaces, c);
    InTrim(lowered, c);
    LoweredSlugChar(text, c);
  }

  /** Every slug is slug-shaped, whatever the input. */
  lemma SlugifyShape(text: string)
    ensures SlugShaped(Slugify(text))
  {
    var lowered := Lower(text);
    var trimmed := Trim(lowered);
    var spaced := Squeeze(trimmed, Spaces);
    var kept := Filter(spaced, IsSlugChar);
    var r := Slugify(text);
    assert r == Squeeze(kept, Dashes);
    SqueezeDashesNoDoubleDash(kept);
    forall i | 0 <= i < |r| ensures SlugAlphabet(r[i]) {
      if r[i] != '-' {
        SlugCharOrigin(text, r[i]);
      }
    }
  }

  /** The news slug keeps the shape and never exceeds 100 characters. */
  lemma SlugifyCappedShape(text: string)
    ensures SlugShaped(SlugifyCapped(text))
    ensures |SlugifyCapped(text)| <= 100
    ensures SlugifyCapped(text) <= Slugify(text)
  {
    SlugifyShape(text);
    var s := Slugify(text);
    var r := SlugifyCapped(text);
    assert forall i :: 0 <= i < |r| ==> r[i] == s[i];
  }

  /** A stored news slug is a slug body of at most 100 characters, a '-'
      and the creation time. */
  lemma NewsSlugParts(title: string, now: int)
    ensures var r := NewsSlug(title, now);
            var k := |r| - |IntToString(now)| - 1;
            && 0 <= k <= 100 && SlugShaped(r[..k])
            && r[k] == '-' && r[k + 1..] == IntToString(now)
  {
    SlugifyCappedShape(title);
    var body := SlugifyCapped(title);
    var r := NewsSlug(title, now);
    assert r[..|body|] == body;
    assert r[|body| + 1..] == IntToString(now);
  }

  // ---------------------------------------------------------------------
  // Idempotence

  lemma {:induction false} SqueezeWithoutRun(s: string, k: Run)
    requires forall i :: 0 <= i < |s| ==> !InRun(s[i], k)
    ensures Squeeze(s, k) == s
  {
    if |s| > 0 {
      SqueezeWithoutRun(s[1..], k);
    }
  }

  lemma {:induction false} SqueezeDashesWithoutDoubleDash(s: string)
    requires NoDoubleDash(s)
    ensures Squeeze(s, Dashes) == s
  {
    if |s| > 0 {
      assert NoDoubleDash(s[1..]);
      SqueezeDashesWithoutDoubleDash(s[1..]);
      if s[0] == '-' {
        assert DropWhile(s[1..], Dashes) == s[1..];
      }
    }
  }

  /** A slug-shaped string is its own slug. */
  lemma SlugifyFixesSlugs(s: string)
    requires SlugShaped(s)
    ensures Slugify(s) == s
  {
    assert Lower(s) == s;
    assert forall i :: 0 <= i < |s| ==> !IsSpace(s[i]);
    TrimNoSpace(s);
    SqueezeWithoutRun(s, Spaces);
    FilterAll(s, IsSlugChar);
    SqueezeDashesWithoutDoubleDash(s);
  }

  /** `slugify(slugify(x)) == slugify(x)`. */
  lemma SlugifyIdempotent(text: string)
    ensures Slugify(Slugify(text)) == Slugify(text)
  {
    SlugifyShape(text);
    SlugifyFixesSlugs(Slugify(text));
  }

  /** The capped variant is idempotent too: a cut slug is still a slug. */
  lemma SlugifyCappedIdempotent(text: string)
    ensures SlugifyCapped(SlugifyCapped(text)) == SlugifyCapped(text)
  {
    SlugifyCappedShape(text);
    SlugifyFixesSlugs(SlugifyCapped(text));
  }

  // ---------------------------------------------------------------------
  // Whitespace

  /** An interior whitespace run becomes exactly one '-'. */
  lemma {:induction false} SpaceRunBecomesDash(a: string, w: string, b: string)
    requires forall i :: 0 <= i < |a| ==> !IsSpace(a[i])
    requires |w| > 0 && forall i :: 0 <= i < |w| ==> IsSpace(w[i])
    requires |b| > 0 ==> !IsSpace(b[0])
    ensures Squeeze(a + w + b, Spaces) == a + "-" + Squeeze(b, Spaces)
  {
    if |a| == 0 {
      assert a + w + b == w + b;
      assert (w + b)[1..] == w[1..] + b;
      DropSpaceRun(w[1..], b);
    } else {
      assert (a + w + b)[1..] == a[1..] + w + b;
      SpaceRunBecomesDash(a[1..], w, b);
    }
  }

  lemma {:induction false} DropSpaceRun(w: string, b: string)
    requires forall i :: 0 <= i < |w| ==> IsSpace(w[i])
    requires |b| > 0 ==> !IsSpace(b[0])
    ensures DropWhile(w + b, Spaces) == b
  {
    if |w| > 0 {
      assert (w + b)[1..] == w[1..] + b;
      DropSpaceRun(w[1..], b);
    } else {
      assert w + b == b;
    }
  }

  lemma LowerAppend(a: string, b: string)
    ensures Lower(a + b) == Lower(a) + Lower(b)
  {
  }

  lemma LowerKeepsSpaces(w: string)
    requires AllSpace(w)
    ensures Lower(w) == w
  {
  }

  lemma LowerPadded(u: string, text: string, v: string)
    requires AllSpace(u) && AllSpace(v)
    ensures Lower(u + text + v) == u + Lower(text) + v
  {
    LowerAppend(u + text, v);
    LowerAppend(u, text);
    LowerKeepsSpaces(u);
    LowerKeepsSpaces(v);
  }

  lemma TrimLowerPadded(u: string, text: string, v: string)
    requires AllSpace(u) && AllSpace(v)
    ensures Trim(Lower(u + text + v)) == Trim(Lower(text))
  {
    LowerPadded(u, text, v);
    TrimPadded(u, Lower(text), v);
  }

  /** Leading and trailing whitespace make no difference to the slug. */
  lemma SurroundingWhitespaceIgnored(u: string, text: string, v: string)
    requires AllSpace(u) && AllSpace(v)
    ensures Slugify(u + text + v) == Slugify(text)
  {
    TrimLowerPadded(u, text, v);
  }

  // ---------------------------------------------------------------------
  // Examples

  /** A blank title gives the empty slug. */
  lemma BlankTitle(w: string)
    requires AllSpace(w)
    ensures Slugify(w) == ""
  {
    LowerKeepsSpaces(w);
    assert w + "" + "" == w;
    TrimOfPadded(w, "", "");
  }

  /** A slug word: slug characters other than '-'. */
  predicate Word(x: string) {
    |x| > 0 && forall i :: 0 <= i < |x| ==> SlugAlphabet(x[i]) && x[i] != '-'
  }

  lemma JoinedLoweredTrimmed(a: string, w: string, b: string)
    requires Word(Lower(a)) && Word(Lower(b)) && AllSpace(w)
    ensures Trim(Lower(a + w + b)) == Lower(a) + w + Lower(b)
  {
    LowerAppend(a + w, b);
    LowerAppend(a, w);
    LowerKeepsSpaces(w);
    var t := Lower(a) + w + Lower(b);
    assert t[0] == Lower(a)[0] && t[|t| - 1] == Lower(b)[|Lower(b)| - 1];
    TrimNoSpace(t);
  }

  lemma JoinedSqueezed(la: string, w: string, lb: string)
    requires Word(la) && Word(lb) && |w| > 0 && AllSpace(w)
    ensures Squeeze(la + w + lb, Spaces) == la + "-" + lb
  {
    SpaceRunBecomesDash(la, w, lb);
    SqueezeWithoutRun(lb, Spaces);
  }

  lemma JoinedShaped(la: string, lb: string)
    requires Word(la) && Word(lb)
    ensures SlugShaped(la + "-" + lb)
  {
    var d := la + "-" + lb;
    forall i | 0 <= i < |d| ensures SlugAlphabet(d[i]) {
      if i < |la| {
        assert d[i] == la[i];
      } else if i > |la| {
        assert d[i] == lb[i - |la| - 1];
      }
    }
    forall i | 0 <= i < |d| - 1 ensures !(d[i] == '-' && d[i + 1] == '-') {
      if i < |la| {
        assert d[i] == la[i];
      } else {
        assert d[i + 1] == lb[i - |la|];
      }
    }
  }

  /** The last two steps leave a slug-shaped string alone. */
  lemma KeepAndSqueezeFixSlugs(d: string)
    requires SlugShaped(d)
    ensures Squeeze(Filter(d, IsSlugChar), Dashes) == d
  {
    FilterAll(d, IsSlugChar);
    SqueezeDashesWithoutDoubleDash(d);
  }

  /** Two words separated by whitespace become the lowered words joined by
      one '-'. */
  lemma WordsJoinedByDash(a: string, w: string, b: string)
    requires Word(Lower(a)) && Word(Lower(b))
    requires |w| > 0 && AllSpace(w)
    ensures Slugify(a + w + b) == Lower(a) + "-" + Lower(b)
  {
    JoinedLoweredTrimmed(a, w, b);
    JoinedSqueezed(Lower(a), w, Lower(b));
    JoinedShaped(Lower(a), Lower(b));
    KeepAndSqueezeFixSlugs(Lower(a) + "-" + Lower(b));
  }
}

=== FILE: stripe.dfy ===
/** The subscription bookkeeping of the Stripe service: the record updates
    each webhook event makes on the matching account, the webhook log with
    its unique event id, customer reuse at checkout, and cancellation at
    period end. What the calls into Stripe return is an input: the
    signature verdict, the new customer's id or the error its creation
    throws, and the cancellation request's error. The checkout session
    itself is not part of this model. */
module Stripe {
  import opened Common
  import opened UserModel
  import opened ErrorHandler

  /** The fields of `event.data.object` the handlers read. Times from Stripe
      are in seconds. */
  datatype EventObject = EventObject(
    metadataUserId: Option<UserId>,
    customer: string,
    subscription: Option<string>,
    status: string,
    currentPeriodEnd: int,
    cancelAtPeriodEnd: Option<bool>)

  datatype WebhookEvent = WebhookEvent(id: string, eventType: string, data: EventObject)

  /** One stored `StripeWebhookEvent`. */
  datatype WebhookLog = WebhookLog(stripeEventId: string, eventType: string, processed: bool,
                                   processedAt: Option<int>, receivedAt: int)

  /** The subscription statuses the account schema accepts. */
  function SubStatusNamed(name: string): (r: Option<SubStatus>)
    ensures r.Some? <==> name in {"none", "active", "cancelled", "expired"}
    ensures r == Some(Active) <==> name == "active"
  {
    if name == "none" then Some(NoSubscription)
    else if name == "active" then Some(Active)
    else if name == "cancelled" then Some(Cancelled)
    else if name == "expired" then Some(Expired)
    else None
  }

  // ---------------------------------------------------------------------
  // The per-event record updates

  /** `handleCheckoutCompleted` on the account named in the session metadata. */
  function CheckoutCompleted(u: User, customer: string, subscription: Option<string>): (v: User)
    ensures v.subscription.stripeCustomerId == Some(customer)
    ensures v.subscription.stripeSubscriptionId == subscription
    ensures v.subscription.status == Active && v.subscription.tier == Premium
    ensures v.subscription.currentPeriodEnd == u.subscription.currentPeriodEnd
    ensures v.subscription.cancelAtPeriodEnd == u.subscription.cancelAtPeriodEnd
    ensures v == u.(subscription := v.subscription)
  {
    u.(subscription := u.subscription.(stripeCustomerId := Some(customer), stripeSubscriptionId := subscription,
                                      status := Active, tier := Premium))
  }

  /** After checkout the account is premium unless a period end left from an
      earlier subscription has already passed. */
  lemma CheckoutMakesPremium(u: User, customer: string, subscription: Option<string>, now: int)
    ensures IsPremium(CheckoutCompleted(u, customer, subscription), now)
            <==> u.subscription.currentPeriodEnd.None? || u.subscription.currentPeriodEnd.value > now
  {
  }

  /** `handleSubscriptionUpdate` for a status the schema accepts: status,
      period end (seconds to milliseconds) and the cancellation flag are
      copied; the tier becomes premium only on an active status and is
      otherwise left alone. */
  function SubscriptionUpdated(u: User, status: SubStatus, periodEndSeconds: int, cancelAtPeriodEnd: Option<bool>):
    (v: User)
    ensures v.subscription.status == status
    ensures v.subscription.currentPeriodEnd == Some(periodEndSeconds * 1000)
    ensures v.subscription.cancelAtPeriodEnd == cancelAtPeriodEnd
    ensures v.subscription.tier == (if status == Active then Premium else u.subscription.tier)
    ensures v.subscription.stripeCustomerId == u.subscription.stripeCustomerId
    ensures v.subscription.stripeSubscriptionId == u.subscription.stripeSubscriptionId
    ensures v == u.(subscription := v.subscription)
  {
    var s := u.subscription.(status := status, currentPeriodEnd := Some(periodEndSeconds * 1000),
                             cancelAtPeriodEnd := cancelAtPeriodEnd);
    u.(subscription := if status == Active then s.(tier := Premium) else s)
  }

  /** An active update makes the account premium exactly until the new
      period end; any other status ends premium access at once. */
  lemma UpdateDecidesPremium(u: User, status: SubStatus, periodEndSeconds: int, cancelAtPeriodEnd: Option<bool>,
                             now: int)
    ensures IsPremium(SubscriptionUpdated(u, status, periodEndSeconds, cancelAtPeriodEnd), now)
            <==> status == Active && periodEndSeconds * 1000 > now
  {
  }

  /** `handleSubscriptionDeleted`. */
  function SubscriptionDeleted(u: User): (v: User)
    ensures v.subscription.status == Cancelled && v.subscription.tier == Free
    ensures v == u.(subscription := v.subscription)
    ensures v.subscription == u.subscription.(status := Cancelled, tier := Free)
  {
    u.(subscription := u.subscription.(status := Cancelled, tier := Free))
  }

  /** After the subscription is deleted the account is never premium. */
  lemma DeletedIsNeverPremium(u: User, now: int)
    ensures !IsPremium(SubscriptionDeleted(u), now)
  {
  }

  // ---------------------------------------------------------------------
  // Dispatch

  function UserWithId(id: UserId): User -> bool {
    (u: User) => u.id == id
  }

  function CustomerIs(customer: string): User -> bool {
    (u: User) => u.subscription.stripeCustomerId == Some(customer)
  }

  datatype DispatchResult = Dispatched(users: seq<User>) | DispatchFailed(err: JsError)

  /** Replaces the first account satisfying p by f of it; no match changes
      nothing. */
  function UpdateFirst(users: seq<User>, p: User -> bool, f: User -> User): (r: seq<User>)
    ensures |r| == |users|
    ensures (forall i :: 0 <= i < |users| ==> !p(users[i])) ==> r == users
    ensures forall i :: 0 <= i < |users| && !p(users[i]) ==> r[i] == users[i]
  {
    match FirstIndex(users, p)
    case None => users
    case Some(i) => users[i := f(users[i])]
  }

  function StatusMessage(status: string): string {
    "`" + status + "` is not a valid enum value for path `subscription.status`."
  }

  /** The switch of `handleWebhook` on the event type. A status outside the
      account schema's enum makes the account's save throw. */
  function Dispatch(users: seq<User>, event: WebhookEvent): (r: DispatchResult)
    ensures r.Dispatched? ==> |r.users| == |users|
    ensures event.eventType !in {"checkout.session.completed", "customer.subscription.created",
                                 "customer.subscription.updated", "customer.subscription.deleted"}
            ==> r == Dispatched(users)
  {
    var o := event.data;
    if event.eventType == "checkout.session.completed" then
      if o.metadataUserId.None? then Dispatched(users)
      else Dispatched(UpdateFirst(users, UserWithId(o.metadataUserId.value),
                                  (u: User) => CheckoutCompleted(u, o.customer, o.subscription)))
    else if event.eventType == "customer.subscription.created" || event.eventType == "customer.subscription.updated" then
      if FirstIndex(users, CustomerIs(o.customer)).None? then Dispatched(users)
      else match SubStatusNamed(o.status)
        case None => DispatchFailed(ValidationFailure([StatusMessage(o.status)]))
        case Some(st) =>
          Dispatched(UpdateFirst(users, CustomerIs(o.customer),
                                 (u: User) => SubscriptionUpdated(u, st, o.currentPeriodEnd, o.cancelAtPeriodEnd)))
    else if event.eventType == "customer.subscription.deleted" then
      Dispatched(UpdateFirst(users, CustomerIs(o.customer), SubscriptionDeleted))
    else Dispatched(users)
  }

  /** Events for a customer no account carries change nothing. */
  lemma UnknownCustomerChangesNothing(users: seq<User>, event: WebhookEvent)
    requires event.eventType != "checkout.session.completed"
    requires forall i :: 0 <= i < |users| ==> users[i].subscription.stripeCustomerId != Some(event.data.customer)
    ensures Dispatch(users, event) == Dispatched(users)
  {
  }

  /** A deletion event leaves the customer's account without premium access. */
  lemma DeletionEventEndsPremium(users: seq<User>, event: WebhookEvent, i: nat, now: int)
    requires event.eventType == "customer.subscription.deleted"
    requires i < |users| && users[i].subscription.stripeCustomerId == Some(event.data.customer)
    requires forall j :: 0 <= j < i ==> users[j].subscription.stripeCustomerId != Some(event.data.customer)
    ensures Dispatch(users, event).Dispatched?
    ensures !IsPremium(Dispatch(users, event).users[i], now)
  {
    FirstIndexIs(users, CustomerIs(event.data.customer), i);
  }

  /** A created or updated subscription is recorded on the first account
      carrying its customer id, and only there. */
  lemma UpdateEventRecords(users: seq<User>, event: WebhookEvent, i: nat, j: nat)
    requires event.eventType in {"customer.subscription.created", "customer.subscription.updated"}
    requires SubStatusNamed(event.data.status).Some?
    requires i < |users| && users[i].subscription.stripeCustomerId == Some(event.data.customer)
    requires forall k :: 0 <= k < i ==> users[k].subscription.stripeCustomerId != Some(event.data.customer)
    requires j < |users| && j != i
    ensures Dispatch(users, event).Dispatched?
    ensures Dispatch(users, event).users[i]
            == SubscriptionUpdated(users[i], SubStatusNamed(event.data.status).value, event.data.currentPeriodEnd,
                                   event.data.cancelAtPeriodEnd)
    ensures Dispatch(users, event).users[j] == users[j]
  {
    FirstIndexIs(users, CustomerIs(event.data.customer), i);
  }

  /** Stripe's own spelling "canceled" is not in the account schema's enum,
      so an update carrying it fails instead of recording the cancellation. */
  lemma StripeCanceledSpellingFails(users: seq<User>, event: WebhookEvent)
    requires event.eventType == "customer.subscription.updated" && event.data.status == "canceled"
    requires exists i :: 0 <= i < |users| && users[i].subscription.stripeCustomerId == Some(event.data.customer)
    ensures Dispatch(users, event).DispatchFailed?
  {
    var i :| 0 <= i < |users| && users[i].subscription.stripeCustomerId == Some(event.data.customer);
    assert CustomerIs(event.data.customer)(users[i]);
  }

  // ---------------------------------------------------------------------
  // handleWebhook

  datatype WebhookResult = WebhookResult(users: seq<User>, log: seq<WebhookLog>, error: Option<JsError>)

  function LoggedAs(id: string): WebhookLog -> bool {
    (l: WebhookLog) => l.stripeEventId == id
  }

  /** The error `constructEvent` throws on a bad signature. */
  const SignatureError := JsError("Error", "No signatures found matching the expected signature for payload",
                                  NoCode, [], [], Some("StripeSignatureVerificationError"), "")

  /** `handleWebhook` for an event whose signature check came out as
      `signatureValid`: the event is logged first (its id is unique, so a
      replay fails right there), then dispatched, then the log is marked
      processed. */
  function HandleWebhook(users: seq<User>, log: seq<WebhookLog>, event: WebhookEvent, signatureValid: bool, now: int):
    (r: WebhookResult)
    ensures !signatureValid ==> r == WebhookResult(users, log, Some(SignatureError))
    ensures signatureValid && (exists i :: 0 <= i < |log| && log[i].stripeEventId == event.id) ==>
              r == WebhookResult(users, log, Some(DuplicateKey("stripeEventId")))
    ensures r.error.None? ==>
              r.log == log + [WebhookLog(event.id, event.eventType, true, Some(now), now)]
              && Dispatch(users, event) == Dispatched(r.users)
    ensures r.error.Some? ==> r.users == users
    ensures r.error.Some? && |r.log| > |log| ==>
              r.log == log + [WebhookLog(event.id, event.eventType, false, None, now)]
              && Dispatch(users, event).DispatchFailed?
    ensures signatureValid && (forall i :: 0 <= i < |log| ==> log[i].stripeEventId != event.id) ==>
              match Dispatch(users, event)
              case Dispatched(updated) =>
                r == WebhookResult(updated, log + [WebhookLog(event.id, event.eventType, true, Some(now), now)], None)
              case DispatchFailed(err) =>
                r == WebhookResult(users, log + [WebhookLog(event.id, event.eventType, false, None, now)], Some(err))
  {
    if !signatureValid then WebhookResult(users, log, Some(SignatureError))
    else if FirstIndex(log, LoggedAs(event.id)).Some? then WebhookResult(users, log, Some(DuplicateKey("stripeEventId")))
    else
      var entry := WebhookLog(event.id, event.eventType, false, None, now);
      match Dispatch(users, event)
      case DispatchFailed(err) => WebhookResult(users, log + [entry], Some(err))
      case Dispatched(updated) =>
        WebhookResult(updated, log + [entry.(processed := true, processedAt := Some(now))], None)
  }

  /** Replaying a handled event changes no account and logs nothing. */
  lemma ReplayIsRejected(users: seq<User>, log: seq<WebhookLog>, event: WebhookEvent, now: int, later: int)
    requires HandleWebhook(users, log, event, true, now).error.None?
    ensures var first := HandleWebhook(users, log, event, true, now);
            var again := HandleWebhook(first.users, first.log, event, true, later);
            again.users == first.users && again.log == first.log && again.error.Some?
  {
    var first := HandleWebhook(users, log, event, true, now);
    assert first.log[|log|].stripeEventId == event.id;
  }

  /** Payment and unknown events are logged as processed and change no
      account field. */
  lemma PaymentEventsChangeNoAccount(users: seq<User>, log: seq<WebhookLog>, event: WebhookEvent, now: int)
    requires event.eventType in {"invoice.payment_succeeded", "invoice.payment_failed"}
    requires forall i :: 0 <= i < |log| ==> log[i].stripeEventId != event.id
    ensures HandleWebhook(users, log, event, true, now).users == users
    ensures HandleWebhook(users, log, event, true, now).error.None?
  {
  }

  // ---------------------------------------------------------------------
  // createCheckoutSession, createPortalSession, cancelSubscription

  datatype CheckoutResult = CheckoutResult(users: seq<User>, customer: Option<string>, error: Option<JsError>)

  /** The customer part of `createCheckoutSession`: an existing customer id is
      reused; otherwise Stripe creates one, and either `createError` is what
      that call throws or `newCustomer` is the id it hands back, which is
      stored. */
  function CheckoutCustomer(users: seq<User>, id: UserId, newCustomer: string, createError: Option<JsError>):
    (r: CheckoutResult)
    ensures (forall i :: 0 <= i < |users| ==> users[i].id != id) ==>
              r == CheckoutResult(users, None, Some(PlainError("User not found")))
    ensures r.error.None? ==> r.customer.Some? && |r.users| == |users|
    ensures r.error.None? ==>
              exists i :: && 0 <= i < |users| && users[i].id == id
                          && (Truthy(users[i].subscription.stripeCustomerId) ==>
                                r.customer == users[i].subscription.stripeCustomerId && r.users == users)
                          && (!Truthy(users[i].subscription.stripeCustomerId) ==>
                                r.customer == Some(newCustomer)
                                && r.users == users[i := users[i].(subscription :=
                                                          users[i].subscription.(stripeCustomerId := Some(newCustomer)))])
    ensures forall i :: FirstAt(users, UserWithId(id), i) ==>
              && (Truthy(users[i].subscription.stripeCustomerId) ==>
                    r == CheckoutResult(users, users[i].subscription.stripeCustomerId, None))
              && (!Truthy(users[i].subscription.stripeCustomerId) && createError.Some? ==>
                    r == CheckoutResult(users, None, createError))
              && (!Truthy(users[i].subscription.stripeCustomerId) && createError.None? ==>
                    r == CheckoutResult(users[i := users[i].(subscription :=
                                          users[i].subscription.(stripeCustomerId := Some(newCustomer)))],
                                        Some(newCustomer), None))
  {
    match FirstIndex(users, UserWithId(id))
    case None => CheckoutResult(users, None, Some(PlainError("User not found")))
    case Some(i) =>
      assert forall k :: FirstAt(users, UserWithId(id), k) ==> k == i;
      var u := users[i];
      if Truthy(u.subscription.stripeCustomerId) then CheckoutResult(users, u.subscription.stripeCustomerId, None)
      else if createError.Some? then CheckoutResult(users, None, createError)
      else
        var v := u.(subscription := u.subscription.(stripeCustomerId := Some(newCustomer)));
        CheckoutResult(users[i := v], Some(newCustomer), None)
  }

  /** A second checkout by the same account reuses the customer created by
      the first. */
  lemma CheckoutReusesCustomer(users: seq<User>, id: UserId, c1: string, c2: string, e1: Option<JsError>,
                                e2: Option<JsError>)
    requires c1 != ""
    requires CheckoutCustomer(users, id, c1, e1).error.None?
    ensures CheckoutCustomer(CheckoutCustomer(users, id, c1, e1).users, id, c2, e2)
            == CheckoutResult(CheckoutCustomer(users, id, c1, e1).users, CheckoutCustomer(users, id, c1, e1).customer, None)
  {
    var r := CheckoutCustomer(users, id, c1, e1);
    var first := FirstIndex(users, UserWithId(id)).value;
    var u := users[first];
    assert FirstAt(users, UserWithId(id), first);
    if Truthy(u.subscription.stripeCustomerId) {
      assert r == CheckoutResult(users, u.subscription.stripeCustomerId, None);
    } else {
      var v := u.(subscription := u.subscription.(stripeCustomerId := Some(c1)));
      assert r == CheckoutResult(users[first := v], Some(c1), None);
      assert forall j :: 0 <= j < first ==> r.users[j] == users[j];
      assert FirstAt(r.users, UserWithId(id), first) && r.users[first] == v;
    }
  }

  /** `createPortalSession`: needs an account with a customer id, which is
      the customer the portal opens for. */
  function PortalCustomer(users: seq<User>, id: UserId): (r: Result)
    ensures r.Err? <==> (forall i :: 0 <= i < |users| ==> users[i].id != id)
                        || !Truthy(users[FirstIndex(users, UserWithId(id)).value].subscription.stripeCustomerId)
    ensures r.Ok? ==> r.value == users[FirstIndex(users, UserWithId(id)).value].subscription.stripeCustomerId.value
  {
    match FirstIndex(users, UserWithId(id))
    case None => Err(PlainError("No Stripe customer found"))
    case Some(i) =>
      if !Truthy(users[i].subscription.stripeCustomerId) then Err(PlainError("No Stripe customer found"))
      else Ok(users[i].subscription.stripeCustomerId.value)
  }

  datatype Result = Ok(value: string) | Err(err: JsError)

  /** `cancelSubscription`, given the error (if any) of Stripe's update call:
      only the cancellation flag changes; status and tier wait for the
      webhook. */
  function CancelSubscription(users: seq<User>, id: UserId, stripeError: Option<JsError>):
    (r: (seq<User>, Option<JsError>))
    ensures r.1.Some? ==> r.0 == users
    ensures (forall i :: 0 <= i < |users| ==> users[i].id != id) ==> r.1 == Some(PlainError("No active subscription found"))
    ensures r.1.None? ==>
              exists i :: && 0 <= i < |users| && users[i].id == id
                          && Truthy(users[i].subscription.stripeSubscriptionId)
                          && r.0 == users[i := users[i].(subscription := users[i].subscription.(cancelAtPeriodEnd := Some(true)))]
    ensures forall i :: FirstAt(users, UserWithId(id), i) ==>
              && (!Truthy(users[i].subscription.stripeSubscriptionId) ==>
                    r == (users, Some(PlainError("No active subscription found"))))
              && (Truthy(users[i].subscription.stripeSubscriptionId) && stripeError.Some? ==> r == (users, stripeError))
              && (Truthy(users[i].subscription.stripeSubscriptionId) && stripeError.None? ==>
                    r == (users[i := users[i].(subscription := users[i].subscription.(cancelAtPeriodEnd := Some(true)))], None))
  {
    match FirstIndex(users, UserWithId(id))
    case None => (users, Some(PlainError("No active subscription found")))
    case Some(i) =>
      assert forall k :: FirstAt(users, UserWithId(id), k) ==> k == i;
      if !Truthy(users[i].subscription.stripeSubscriptionId) then (users, Some(PlainError("No active subscription found")))
      else if stripeError.Some? then (users, stripeError)
      else (users[i := users[i].(subscription := users[i].subscription.(cancelAtPeriodEnd := Some(true)))], None)
  }

  /** Scheduling the cancellation keeps a premium account premium for now. */
  lemma CancelKeepsPremium(u: User, now: int)
    requires IsPremium(u, now)
    ensures IsPremium(u.(subscription := u.subscription.(cancelAtPeriodEnd := Some(true))), now)
  {
  }
}

=== FILE: update_games.dfy ===
/** The daily metadata worker: for each trending RAWG game it derives the
    stored record, updates the game already holding that RAWG id or creates
    one, counts created/updated/failed, and finally clears the trending flag
    of games whose metadata is older than a day. The RAWG calls are inputs:
    one `Fetch` per trending game, in the order the worker visits them. */
module GamesWorker {
  import opened Common
  import opened GameModel
  import Slugs

  /** The details RAWG returned for one game. */
  datatype RawgGame = RawgGame(
    id: int,
    name: string,
    description: Option<string>,
    backgroundImage: Option<string>,
    backgroundImageAdditional: Option<string>,
    released: Option<string>,
    genres: seq<string>,
    tags: seq<string>,
    platforms: seq<string>,
    developers: seq<string>,
    publishers: seq<string>,
    rating: Option<real>,
    metacritic: Option<int>)

  /** One trending game: no details, a thrown error, or the details and
      screenshots. */
  datatype Fetch = NoDetails | FetchError | Fetched(details: RawgGame, screenshots: seq<string>)

  const ShortDescriptionLength := 300
  const MaxTags := 10

  /** The record written for a game, before it is merged into the store. */
  datatype GameData = GameData(
    rawgId: int,
    name: string,
    slug: string,
    description: Option<string>,
    shortDescription: string,
    headerImage: Option<string>,
    backgroundImage: Option<string>,
    screenshots: seq<string>,
    releaseDate: Option<string>,
    genres: seq<string>,
    tags: seq<string>,
    platforms: seq<string>,
    developers: seq<string>,
    publishers: seq<string>,
    rating: real,
    metacriticScore: Option<int>,
    lastMetadataUpdate: int)

  function OrNone(a: Option<string>, b: Option<string>): (r: Option<string>)
    ensures Truthy(a) ==> r == a
    ensures !Truthy(a) ==> r == b
  {
    if Truthy(a) then a else b
  }

  /** `gameData`: the slug of the name, at most 300 characters of the
      description ('' without one), the additional background image when
      there is one, at most ten tags, rating 0 when RAWG gives none. */
  function GameDataOf(d: RawgGame, screenshots: seq<string>, now: int): (data: GameData)
    ensures data.rawgId == d.id && data.slug == Slugs.Slugify(d.name)
    ensures Slugs.SlugShaped(data.slug)
    ensures Truthy(d.description) ==>
              data.shortDescription <= d.description.value &&
              |data.shortDescription| == Min(|d.description.value|, ShortDescriptionLength)
    ensures !Truthy(d.description) ==> data.shortDescription == ""
    ensures data.tags <= d.tags && |data.tags| == Min(|d.tags|, MaxTags)
    ensures data.backgroundImage == (if Truthy(d.backgroundImageAdditional) then d.backgroundImageAdditional else d.backgroundImage)
    ensures data.headerImage == d.backgroundImage
    ensures data.rating == (if d.rating.Some? then d.rating.value else 0.0)
    ensures data.lastMetadataUpdate == now
  {
    Slugs.SlugifyShape(d.name);
    GameData(
      d.id, Trim(d.name), Slugs.Slugify(d.name), d.description,
      if Truthy(d.description) then Prefix(d.description.value, ShortDescriptionLength) else "",
      d.backgroundImage, OrNone(d.backgroundImageAdditional, d.backgroundImage),
      screenshots, if Truthy(d.released) then d.released else None,
      d.genres, Prefix(d.tags, MaxTags), d.platforms, d.developers, d.publishers,
      if d.rating.Some? then d.rating.value else 0.0, d.metacritic, now)
  }

  /** `findByIdAndUpdate(game._id, gameData)`: the metadata fields are
      overwritten and the game becomes trending; identity, tracking flags,
      player counts and review statistics stay as they were. */
  function Refresh(g: Game, data: GameData): (e: Game)
    ensures e.id == g.id && e.steamAppId == g.steamAppId
    ensures e.featured == g.featured && e.isActive == g.isActive
    ensures e.currentPlayers == g.currentPlayers && e.peakPlayers == g.peakPlayers
    ensures e.averagePlayers == g.averagePlayers && e.lastPlayerCountUpdate == g.lastPlayerCountUpdate
    ensures e.reviewCount == g.reviewCount && e.averageReviewScore == g.averageReviewScore
    ensures e.trending && e.lastMetadataUpdate == Some(data.lastMetadataUpdate)
    ensures e.rawgId == Some(data.rawgId) && e.slug == data.slug
  {
    g.(rawgId := Some(data.rawgId), name := data.name, slug := data.slug,
       description := data.description, shortDescription := data.shortDescription,
       headerImage := data.headerImage, backgroundImage := data.backgroundImage,
       screenshots := data.screenshots, releaseDate := data.releaseDate,
       genres := data.genres, tags := data.tags, platforms := data.platforms,
       developers := data.developers, publishers := data.publishers,
       rating := data.rating, metacriticScore := data.metacriticScore,
       trending := true, lastMetadataUpdate := Some(data.lastMetadataUpdate))
  }

  /** `Game.create(gameData)`: every field not in the data takes its schema
      default, so the new game is active, not featured, and has no player
      or review statistics yet. */
  function Fresh(id: GameId, data: GameData): (g: Game)
    ensures g.id == id && g.rawgId == Some(data.rawgId) && g.slug == data.slug
    ensures g.isActive && !g.featured && g.trending
    ensures g.currentPlayers == 0 && g.peakPlayers == 0 && g.averagePlayers == 0 && g.reviewCount == 0
    ensures g.lastMetadataUpdate == Some(data.lastMetadataUpdate)
  {
    Game(id, Some(data.rawgId), None, data.name, data.slug, data.description,
         data.shortDescription, data.headerImage, data.backgroundImage, data.screenshots,
         data.releaseDate, data.genres, data.tags, data.platforms, data.developers,
         data.publishers, data.rating, data.metacriticScore, false, true, true,
         0, 0, 0, 0, 0.0, None, Some(data.lastMetadataUpdate))
  }

  /** The save validators a new game must pass: a non-blank name, a
      non-empty slug and a rating within 0..5. Updates run no validators. */
  predicate CreateValid(data: GameData) {
    data.name != "" && data.slug != "" && 0.0 <= data.rating <= 5.0
  }

  /** The unique index on `slug`. */
  predicate UniqueSlugs(games: seq<Game>) {
    forall i, j :: 0 <= i < j < |games| ==> games[i].slug != games[j].slug
  }

  /** Whether a game other than the one at `except` already has the slug. */
  predicate SlugTaken(games: seq<Game>, slug: string, except: int) {
    exists j :: 0 <= j < |games| && j != except && games[j].slug == slug
  }

  function HasRawgId(id: int): Game -> bool {
    (g: Game) => g.rawgId == Some(id)
  }

  datatype Step = Created | Updated | Failed

  /** Writing the refreshed record over the game at k, unless another game
      holds its slug. */
  function UpdateAt(games: seq<Game>, k: nat, data: GameData): (r: (seq<Game>, Step))
    requires k < |games|
    ensures r.1 != Created && |r.0| == |games|
    ensures r.1 == Failed <==> SlugTaken(games, data.slug, k)
    ensures r.1 == Failed ==> r.0 == games
    ensures r.1 == Updated ==> r.0 == games[k := r.0[k]] && r.0[k] == Refresh(games[k], data)
    ensures UniqueSlugs(games) ==> UniqueSlugs(r.0)
  {
    if SlugTaken(games, data.slug, k) then (games, Failed)
    else
      var e := Refresh(games[k], data);
      assert games[k := e][k] == e;
      (games[k := e], Updated)
  }

  /** Appending a new game, unless the validators refuse it or its slug is
      taken. */
  function CreateWith(games: seq<Game>, newId: GameId, data: GameData): (r: (seq<Game>, Step))
    ensures r.1 != Updated
    ensures r.1 == Failed ==> r.0 == games
    ensures r.1 == Created ==>
              |r.0| == |games| + 1 && r.0[..|games|] == games && r.0[|games|] == Fresh(newId, data)
    ensures UniqueSlugs(games) ==> UniqueSlugs(r.0)
  {
    if !CreateValid(data) || SlugTaken(games, data.slug, -1) then (games, Failed)
    else
      var g := Fresh(newId, data);
      assert (games + [g])[|games|] == g && (games + [g])[..|games|] == games;
      (games + [g], Created)
  }

  /** One iteration of the loop. A missing result or an exception fails; a
      write the unique slug index or the save validators refuse throws and
      fails too, leaving the store as it was. */
  function ProcessOne(games: seq<Game>, f: Fetch, newId: GameId, now: int): (r: (seq<Game>, Step))
    ensures r.1 == Failed ==> r.0 == games
    ensures !f.Fetched? ==> r.1 == Failed
    ensures r.1 == Created ==> |r.0| == |games| + 1 && r.0[..|games|] == games
    ensures r.1 == Updated ==> |r.0| == |games|
    ensures UniqueSlugs(games) ==> UniqueSlugs(r.0)
  {
    match f
    case NoDetails => (games, Failed)
    case FetchError => (games, Failed)
    case Fetched(d, shots) =>
      var data := GameDataOf(d, shots, now);
      match FirstIndex(games, HasRawgId(d.id))
      case Some(k) => UpdateAt(games, k, data)
      case None => CreateWith(games, newId, data)
  }

  /** A game already stored under the RAWG id is refreshed in place (the
      first one, as `findOne` picks it); the step fails exactly when another
      game holds the new slug, and the game is never duplicated. */
  lemma KnownGameRefreshed(games: seq<Game>, d: RawgGame, shots: seq<string>, newId: GameId, now: int, k: nat)
    requires k < |games| && games[k].rawgId == Some(d.id)
    requires forall j :: 0 <= j < k ==> games[j].rawgId != Some(d.id)
    ensures var r := ProcessOne(games, Fetched(d, shots), newId, now);
      && r.1 != Created
      && (r.1 == Updated ==> r.0 == games[k := Refresh(games[k], GameDataOf(d, shots, now))])
      && (r.1 == Failed <==> SlugTaken(games, Slugs.Slugify(d.name), k))
  {
    FirstIndexIs(games, HasRawgId(d.id), k);
  }

  /** A game not yet stored is created, with the schema defaults, or the
      step fails. */
  lemma UnknownGameCreated(games: seq<Game>, d: RawgGame, shots: seq<string>, newId: GameId, now: int)
    requires forall j :: 0 <= j < |games| ==> games[j].rawgId != Some(d.id)
    ensures var r := ProcessOne(games, Fetched(d, shots), newId, now);
      && r.1 != Updated
      && (r.1 == Created ==> r.0 == games + [Fresh(newId, GameDataOf(d, shots, now))])
      && (r.1 == Failed <==> !CreateValid(GameDataOf(d, shots, now)) || SlugTaken(games, Slugs.Slugify(d.name), -1))
  {
    var data := GameDataOf(d, shots, now);
    assert FirstIndex(games, HasRawgId(d.id)).None?;
    var r := CreateWith(games, newId, data);
    assert ProcessOne(games, Fetched(d, shots), newId, now) == r;
    if r.1 == Created {
      assert r.0 == r.0[..|games|] + [r.0[|games|]];
    }
  }

  /** The create/update/failed counters. */
  datatype Tally = Tally(created: nat, updated: nat, failed: nat)

  function Bump(t: Tally, s: Step): Tally {
    match s
    case Created => t.(created := t.created + 1)
    case Updated => t.(updated := t.updated + 1)
    case Failed => t.(failed := t.failed + 1)
  }

  function Processed(t: Tally): nat { t.created + t.updated + t.failed }

  /** The loop over the trending games; `ids[i]` is the id a game created
      at step i receives. */
  function RunFetches(games: seq<Game>, fetches: seq<Fetch>, ids: seq<GameId>, now: int, t: Tally): (r: (seq<Game>, Tally))
    requires |ids| == |fetches|
    decreases |fetches|
    ensures Processed(r.1) == Processed(t) + |fetches|
    ensures r.1.created >= t.created && r.1.updated >= t.updated && r.1.failed >= t.failed
    ensures |r.0| == |games| + (r.1.created - t.created)
    ensures UniqueSlugs(games) ==> UniqueSlugs(r.0)
  {
    if |fetches| == 0 then (games, t)
    else
      var step := ProcessOne(games, fetches[0], ids[0], now);
      RunFetches(step.0, fetches[1..], ids[1..], now, Bump(t, step.1))
  }

  /** The metadata of the game is more than a day old at `now`. */
  predicate Stale(g: Game, now: int) {
    g.lastMetadataUpdate.Some? && g.lastMetadataUpdate.value < now - DayMs
  }

  /** A stale trending game loses the flag; any other game is unchanged. */
  function Unflag(g: Game, now: int): (e: Game)
    ensures e.trending <==> g.trending && !Stale(g, now)
    ensures e.(trending := g.trending) == g
    ensures e.lastMetadataUpdate == g.lastMetadataUpdate
  {
    if g.trending && Stale(g, now) then g.(trending := false) else g
  }

  /** `updateMany({trending: true, lastMetadataUpdate: {$lt: now - 24h}},
      {trending: false})`. */
  function ExpireTrending(games: seq<Game>, now: int): (r: seq<Game>)
    ensures |r| == |games|
    ensures forall i :: 0 <= i < |r| ==> r[i] == Unflag(games[i], now)
  {
    seq(|games|, i requires 0 <= i < |games| => Unflag(games[i], now))
  }

  /** The whole run: the loop, then the trending expiry. */
  function UpdateGames(games: seq<Game>, fetches: seq<Fetch>, ids: seq<GameId>, now: int): (r: (seq<Game>, Tally))
    requires |ids| == |fetches|
  {
    var run := RunFetches(games, fetches, ids, now, Tally(0, 0, 0));
    (ExpireTrending(run.0, now), run.1)
  }

  // ---------------------------------------------------------------------
  // Properties of the whole run

  /** Every trending game visited counts exactly once, as created, updated
      or failed, and only creations grow the collection. */
  lemma EveryGameCountedOnce(games: seq<Game>, fetches: seq<Fetch>, ids: seq<GameId>, now: int)
    requires |ids| == |fetches|
    ensures var r := UpdateGames(games, fetches, ids, now);
      && r.1.created + r.1.updated + r.1.failed == |fetches|
      && |r.0| == |games| + r.1.created
  {
  }

  lemma ExpiryKeepsSlugs(games: seq<Game>, now: int)
    requires UniqueSlugs(games)
    ensures UniqueSlugs(ExpireTrending(games, now))
  {
    var r := ExpireTrending(games, now);
    forall i, j | 0 <= i < j < |r| ensures r[i].slug != r[j].slug {
      assert r[i].slug == games[i].slug && r[j].slug == games[j].slug;
    }
  }

  /** After a run no game is still trending on metadata older than a day,
      and the slug index still holds. */
  lemma NoStaleTrendingAfterRun(games: seq<Game>, fetches: seq<Fetch>, ids: seq<GameId>, now: int)
    requires |ids| == |fetches|
    requires UniqueSlugs(games)
    ensures var r := UpdateGames(games, fetches, ids, now);
      && UniqueSlugs(r.0)
      && forall i :: 0 <= i < |r.0| ==> !(r.0[i].trending && Stale(r.0[i], now))
  {
    var run := RunFetches(games, fetches, ids, now, Tally(0, 0, 0));
    ExpiryKeepsSlugs(run.0, now);
  }

  /** Expiring twice is expiring once. */
  lemma ExpireTrendingIdempotent(games: seq<Game>, now: int)
    ensures ExpireTrending(ExpireTrending(games, now), now) == ExpireTrending(games, now)
  {
  }

  /** A game refreshed by this run is never un-flagged by its own expiry. */
  lemma RefreshedGameStaysTrending(g: Game, data: GameData, now: int)
    requires data.lastMetadataUpdate == now
    ensures Unflag(Refresh(g, data), now).trending
  {
  }
}

=== FILE: update_news.dfy ===
/** The news worker: it imports the latest NewsAPI articles, skipping those
    without an image, title or description and those whose URL was already
    imported, and stores the rest as published, free articles in the 'news'
    category. `created` and `skipped` count the outcomes; an article whose
    save throws is logged and counted in neither. The NewsAPI call is an
    input, and so is the clock reading taken for each article's slug. */
module NewsWorker {
  import opened Common
  import opened News
  import Slugs

  /** One article as the news service returns it. */
  datatype ApiArticle = ApiArticle(
    title: Option<string>,
    description: Option<string>,
    content: Option<string>,
    author: Option<string>,
    url: string,
    urlToImage: Option<string>,
    source: Option<string>,
    publishedAt: int)

  const DefaultAuthor := "KnightGaming Staff"
  const MaxTitleLength := 200
  const MaxSummaryLength := 500

  /** The article has an image, a title and a description. */
  predicate Complete(a: ApiArticle) {
    Truthy(a.urlToImage) && Truthy(a.title) && Truthy(a.description)
  }

  /** The stored article came from NewsAPI with this URL. */
  predicate ImportedFrom(x: Article, url: string) {
    x.sourceType == "newsapi" && x.sourceUrl == Some(url)
  }

  predicate AlreadyImported(store: seq<Article>, url: string) {
    exists i :: 0 <= i < |store| && ImportedFrom(store[i], url)
  }

  /** No two NewsAPI articles share a URL. */
  predicate UniqueImports(store: seq<Article>) {
    forall i, j :: 0 <= i < j < |store| && store[i].sourceType == "newsapi" && store[j].sourceType == "newsapi"
      ==> store[i].sourceUrl != store[j].sourceUrl
  }

  /** The unique index on `slug`. */
  predicate UniqueSlugs(store: seq<Article>) {
    forall i, j :: 0 <= i < j < |store| ==> store[i].slug != store[j].slug
  }

  /** The record `NewsArticle.create` receives for a complete article
      created at `now`; the title is stored trimmed. Without an author the
      source name is used, and without either the schema default. */
  function NewArticle(a: ApiArticle, id: string, now: int): (n: Article)
    requires Complete(a)
    ensures n.title == Trim(a.title.value) && n.summary == a.description.value
    ensures n.slug == Slugs.NewsSlug(a.title.value, now)
    ensures n.content == (if Truthy(a.content) then a.content.value else a.description.value)
    ensures n.author == (if Truthy(a.author) then a.author.value
                         else if a.source.Some? then a.source.value else DefaultAuthor)
    ensures n.category == "news" && n.tags == ["gaming", "news"]
    ensures n.status == Published && !n.isPremium
    ensures ImportedFrom(n, a.url) && n.sourceName == a.source
    ensures n.views == 0 && n.shares == 0 && n.likes == 0
  {
    Article(id, Trim(a.title.value), Slugs.NewsSlug(a.title.value, now), a.description.value,
            OrElse(a.content, a.description.value),
            if Truthy(a.author) then a.author.value else if a.source.Some? then a.source.value else DefaultAuthor,
            a.urlToImage.value, "news", ["gaming", "news"], [], "newsapi", Some(a.url), a.source,
            Published, a.publishedAt, false, 0, 0, 0)
  }

  /** The save validators: a non-blank title of at most 200 characters and
      a summary of at most 500. */
  predicate SaveValid(n: Article) {
    n.title != "" && |n.title| <= MaxTitleLength && |n.summary| <= MaxSummaryLength
  }

  /** Whether an article in the store already has the slug. */
  predicate SlugHeld(store: seq<Article>, slug: string) {
    exists i :: 0 <= i < |store| && store[i].slug == slug
  }

  datatype Outcome = Skipped | Created | Errored

  /** One iteration of the loop. */
  function ImportOne(store: seq<Article>, a: ApiArticle, id: string, now: int): (r: (seq<Article>, Outcome))
    ensures r.1 != Created ==> r.0 == store
    ensures r.1 == Created ==> Complete(a) && r.0 == store + [NewArticle(a, id, now)]
    ensures r.1 == Skipped <==> !Complete(a) || AlreadyImported(store, a.url)
    ensures r.1 == Errored <==>
              Complete(a) && !AlreadyImported(store, a.url)
              && (!SaveValid(NewArticle(a, id, now)) || SlugHeld(store, NewArticle(a, id, now).slug))
    ensures UniqueImports(store) ==> UniqueImports(r.0)
    ensures UniqueSlugs(store) ==> UniqueSlugs(r.0)
  {
    if !Complete(a) || AlreadyImported(store, a.url) then (store, Skipped)
    else
      var n := NewArticle(a, id, now);
      if !SaveValid(n) || SlugHeld(store, n.slug) then (store, Errored)
      else
        var r := store + [n];
        assert r[|store|] == n;
        (r, Created)
  }

  datatype Tally = Tally(created: nat, skipped: nat, errored: nat)

  function Count1(t: Tally, o: Outcome): Tally {
    match o
    case Created => t.(created := t.created + 1)
    case Skipped => t.(skipped := t.skipped + 1)
    case Errored => t.(errored := t.errored + 1)
  }

  /** The loop; `ids[i]` and `clock[i]` are the id and the time of the
      article created at step i. */
  function ImportAll(store: seq<Article>, articles: seq<ApiArticle>, ids: seq<string>, clock: seq<int>, t: Tally):
    (r: (seq<Article>, Tally))
    requires |ids| == |articles| == |clock|
    decreases |articles|
    ensures r.1.created >= t.created && r.1.skipped >= t.skipped && r.1.errored >= t.errored
    ensures r.1.created + r.1.skipped + r.1.errored == t.created + t.skipped + t.errored + |articles|
    ensures |r.0| == |store| + (r.1.created - t.created) && r.0[..|store|] == store
    ensures UniqueImports(store) ==> UniqueImports(r.0)
    ensures UniqueSlugs(store) ==> UniqueSlugs(r.0)
  {
    if |articles| == 0 then (store, t)
    else
      var step := ImportOne(store, articles[0], ids[0], clock[0]);
      var rest := ImportAll(step.0, articles[1..], ids[1..], clock[1..], Count1(t, step.1));
      assert rest.0[..|store|] == store by {
        assert rest.0[..|step.0|] == step.0;
        assert step.0[..|store|] == store;
      }
      rest
  }

  /** `updateNews`: the counters it reports are `created` and `skipped`;
      errored articles count in neither, so those two never exceed the
      articles fetched. The store only grows, by the creations. */
  function UpdateNews(store: seq<Article>, articles: seq<ApiArticle>, ids: seq<string>, clock: seq<int>):
    (r: (seq<Article>, Tally))
    requires |ids| == |articles| == |clock|
    ensures r.1.created + r.1.skipped + r.1.errored == |articles|
    ensures r.1.created + r.1.skipped <= |articles|
    ensures |r.0| == |store| + r.1.created && r.0[..|store|] == store
    ensures UniqueImports(store) ==> UniqueImports(r.0)
    ensures UniqueSlugs(store) ==> UniqueSlugs(r.0)
  {
    ImportAll(store, articles, ids, clock, Tally(0, 0, 0))
  }

  // ---------------------------------------------------------------------
  // Properties of a run

  /** After the step an article is either incomplete or imported. */
  predicate Covered(store: seq<Article>, a: ApiArticle) {
    !Complete(a) || AlreadyImported(store, a.url)
  }

  lemma CoveredStays(store: seq<Article>, extra: seq<Article>, a: ApiArticle)
    requires Covered(store, a)
    ensures Covered(store + extra, a)
  {
    if Complete(a) {
      var i :| 0 <= i < |store| && ImportedFrom(store[i], a.url);
      assert (store + extra)[i] == store[i];
    }
  }

  /** A step that does not error leaves its article covered. */
  lemma StepCovers(store: seq<Article>, a: ApiArticle, id: string, now: int)
    ensures ImportOne(store, a, id, now).1 != Errored ==> Covered(ImportOne(store, a, id, now).0, a)
  {
    var r := ImportOne(store, a, id, now);
    if r.1 == Created {
      assert r.0[|store|] == NewArticle(a, id, now);
    }
  }

  /** A run without save errors leaves every fetched article covered. */
  lemma {:induction false} CleanRunCoversAll(store: seq<Article>, articles: seq<ApiArticle>, ids: seq<string>,
                                             clock: seq<int>, t: Tally)
    requires |ids| == |articles| == |clock|
    requires ImportAll(store, articles, ids, clock, t).1.errored == t.errored
    decreases |articles|
    ensures forall a :: a in articles ==> Covered(ImportAll(store, articles, ids, clock, t).0, a)
  {
    if |articles| > 0 {
      var step := ImportOne(store, articles[0], ids[0], clock[0]);
      var t1 := Count1(t, step.1);
      var r := ImportAll(step.0, articles[1..], ids[1..], clock[1..], t1);
      assert ImportAll(store, articles, ids, clock, t) == r;
      assert step.1 != Errored by {
        assert r.1.errored >= t1.errored;
      }
      CleanRunCoversAll(step.0, articles[1..], ids[1..], clock[1..], t1);
      StepCovers(store, articles[0], ids[0], clock[0]);
      assert r.0 == step.0 + r.0[|step.0|..];
      CoveredStays(step.0, r.0[|step.0|..], articles[0]);
      assert forall a :: a in articles ==> a == articles[0] || a in articles[1..];
    }
  }

  /** A run over articles that are all covered skips them all and changes
      nothing. */
  lemma {:induction false} CoveredRunIsNoOp(store: seq<Article>, articles: seq<ApiArticle>, ids: seq<string>,
                                            clock: seq<int>, t: Tally)
    requires |ids| == |articles| == |clock|
    requires forall a :: a in articles ==> Covered(store, a)
    decreases |articles|
    ensures ImportAll(store, articles, ids, clock, t) == (store, t.(skipped := t.skipped + |articles|))
  {
    if |articles| > 0 {
      assert articles[0] in articles;
      forall a | a in articles[1..] ensures Covered(store, a) {
        assert a in articles;
      }
      CoveredRunIsNoOp(store, articles[1..], ids[1..], clock[1..], Count1(t, Skipped));
    }
  }

  /** Re-running the import after a run without save errors creates no
      article: everything fetched before is skipped. */
  lemma RerunCreatesNothing(store: seq<Article>, articles: seq<ApiArticle>, ids: seq<string>, clock: seq<int>,
                            ids2: seq<string>, clock2: seq<int>)
    requires |ids| == |articles| == |clock| && |ids2| == |articles| == |clock2|
    requires UpdateNews(store, articles, ids, clock).1.errored == 0
    ensures var first := UpdateNews(store, articles, ids, clock).0;
            UpdateNews(first, articles, ids2, clock2) == (first, Tally(0, |articles|, 0))
  {
    CleanRunCoversAll(store, articles, ids, clock, Tally(0, 0, 0));
    CoveredRunIsNoOp(UpdateNews(store, articles, ids, clock).0, articles, ids2, clock2, Tally(0, 0, 0));
  }
}

=== FILE: update_player_counts.dfy ===
/** The player-count worker: for every active game with a Steam app id it
    reads the current player count, stores it as a sample, and refreshes
    the game's current, peak and 24-hour average counts. A game whose count
    is unavailable, or whose update throws, is counted as failed and left
    as it was. The Steam call, the clock and the sample's local hour are
    inputs. */
module PlayerCountsWorker {
  import opened Common
  import opened GameModel

  /** The games the worker visits. */
  predicate Tracked(g: Game) {
    g.isActive && g.steamAppId.Some?
  }

  function TrackedFn(): Game -> bool {
    (g: Game) => Tracked(g)
  }

  /** The game after a successful reading of `count` at `now`; `samples`
      already holds the new sample. The peak only ever rises, and the
      average is that of the samples of the last 24 hours. */
  function Record(g: Game, count: nat, samples: seq<Sample>, now: int): (r: Game)
    ensures r.currentPlayers == count && r.lastPlayerCountUpdate == Some(now)
    ensures r.peakPlayers >= g.peakPlayers && r.peakPlayers >= count
    ensures r.peakPlayers == g.peakPlayers || r.peakPlayers == count
    ensures r.(currentPlayers := g.currentPlayers, peakPlayers := g.peakPlayers, averagePlayers := g.averagePlayers,
               lastPlayerCountUpdate := g.lastPlayerCountUpdate) == g
  {
    var peak := if count > g.peakPlayers then count else g.peakPlayers;
    var recent := SamplesSince(samples, g.id, now - DayMs);
    var updated := g.(currentPlayers := count, lastPlayerCountUpdate := Some(now), peakPlayers := peak);
    if |recent| > 0 then updated.(averagePlayers := RoundedMean(recent)) else updated
  }

  /** The state the worker works on. */
  datatype Tracker = Tracker(games: seq<Game>, samples: seq<Sample>)

  datatype Tally = Tally(updated: nat, failed: nat)

  /** One game. `reading` is what the Steam call gave: None for a null
      count or for a call (or a save) that threw. */
  function UpdateOne(st: Tracker, k: nat, reading: Option<nat>, now: int, hour: Hour, t: Tally): (r: (Tracker, Tally))
    requires k < |st.games|
    ensures reading.None? ==> r == (st, t.(failed := t.failed + 1))
    ensures reading.Some? ==>
              && r.1 == t.(updated := t.updated + 1)
              && r.0.samples == st.samples + [Sample(st.games[k].id, reading.value, now, hour)]
              && r.0.games == st.games[k := Record(st.games[k], reading.value, r.0.samples, now)]
  {
    match reading
    case None => (st, t.(failed := t.failed + 1))
    case Some(count) =>
      var g := st.games[k];
      var samples := st.samples + [Sample(g.id, count, now, hour)];
      (Tracker(st.games[k := Record(g, count, samples, now)], samples), t.(updated := t.updated + 1))
  }

  /** The loop over the games from position `i` on; untracked games are
      passed over. Readings are keyed by game id; a missing id stands for a
      Steam call that threw. */
  function UpdateFrom(st: Tracker, i: nat, readings: map<GameId, Option<nat>>, now: int, hour: Hour, t: Tally):
    (r: (Tracker, Tally))
    requires i <= |st.games|
    decreases |st.games| - i
    ensures |r.0.games| == |st.games| && r.0.games[..i] == st.games[..i]
    ensures r.1.updated >= t.updated && r.1.failed >= t.failed
    ensures |r.0.samples| == |st.samples| + (r.1.updated - t.updated)
    ensures st.samples <= r.0.samples
  {
    if i == |st.games| then (st, t)
    else if !Tracked(st.games[i]) then UpdateFrom(st, i + 1, readings, now, hour, t)
    else
      var reading := if st.games[i].id in readings then readings[st.games[i].id] else None;
      var step := UpdateOne(st, i, reading, now, hour, t);
      var rest := UpdateFrom(step.0, i + 1, readings, now, hour, step.1);
      assert rest.0.games[..i] == st.games[..i] by {
        assert rest.0.games[..i] == rest.0.games[..i + 1][..i];
        assert step.0.games[..i] == st.games[..i];
      }
      rest
  }

  /** The whole run: samples are stored and every visited game updated. */
  function UpdatePlayerCounts(st: Tracker, readings: map<GameId, Option<nat>>, now: int, hour: Hour): (r: (Tracker, Tally))
    ensures |r.0.games| == |st.games| && st.samples <= r.0.samples
  {
    UpdateFrom(st, 0, readings, now, hour, Tally(0, 0))
  }

  // ---------------------------------------------------------------------
  // Properties

  lemma TrackedKept(g: Game, count: nat, samples: seq<Sample>, now: int)
    ensures Tracked(Record(g, count, samples, now)) == Tracked(g)
    ensures Record(g, count, samples, now).id == g.id
  {
  }

  /** Counting the tracked games of a sequence one game at a time. */
  lemma CountTrackedCons(s: seq<Game>)
    requires |s| > 0
    ensures Count(s, TrackedFn()) == (if Tracked(s[0]) then 1 else 0) + Count(s[1..], TrackedFn())
  {
    assert s == [s[0]] + s[1..];
    FilterAppend([s[0]], s[1..], TrackedFn());
  }

  /** Every tracked game from position `i` on is counted exactly once,
      as updated or as failed. */
  lemma {:induction false} EveryTrackedGameCounted(st: Tracker, i: nat, readings: map<GameId, Option<nat>>, now: int,
                                                   hour: Hour, t: Tally)
    requires i <= |st.games|
    decreases |st.games| - i
    ensures var r := UpdateFrom(st, i, readings, now, hour, t).1;
            r.updated + r.failed == t.updated + t.failed + Count(st.games[i..], TrackedFn())
  {
    if i == |st.games| {
      assert st.games[i..] == [];
    } else {
      CountTrackedCons(st.games[i..]);
      assert st.games[i..][1..] == st.games[i + 1..];
      if !Tracked(st.games[i]) {
        EveryTrackedGameCounted(st, i + 1, readings, now, hour, t);
      } else {
        var reading := if st.games[i].id in readings then readings[st.games[i].id] else None;
        var step := UpdateOne(st, i, reading, now, hour, t);
        assert step.0.games[i + 1..] == st.games[i + 1..];
        EveryTrackedGameCounted(step.0, i + 1, readings, now, hour, step.1);
        assert UpdateFrom(st, i, readings, now, hour, t) == UpdateFrom(step.0, i + 1, readings, now, hour, step.1);
      }
    }
  }

  /** Over a whole run, the updated and failed counts add up to the number
      of tracked games. */
  lemma RunCountsTrackedGames(st: Tracker, readings: map<GameId, Option<nat>>, now: int, hour: Hour)
    ensures var r := UpdatePlayerCounts(st, readings, now, hour).1;
            r.updated + r.failed == Count(st.games, TrackedFn())
  {
    EveryTrackedGameCounted(st, 0, readings, now, hour, Tally(0, 0));
    assert st.games[0..] == st.games;
  }

  /** The stored sample is part of the window the average is taken over,
      so the average is always recomputed and never exceeds the highest
      count of the last 24 hours. */
  lemma AverageOverWindow(g: Game, count: nat, samples: seq<Sample>, now: int, hour: Hour)
    requires Sample(g.id, count, now, hour) in samples
    ensures var window := SamplesSince(samples, g.id, now - DayMs);
            && |window| > 0
            && Record(g, count, samples, now).averagePlayers == RoundedMean(window)
            && Record(g, count, samples, now).averagePlayers <= Peak(window)
  {
    var window := SamplesSince(samples, g.id, now - DayMs);
    assert Sample(g.id, count, now, hour) in window;
    RoundedMeanAtMostPeak(window);
  }

  /** A game read at the same count every time in the window averages
      exactly that count. */
  lemma SteadyCountAverage(g: Game, count: nat, samples: seq<Sample>, now: int, hour: Hour)
    requires Sample(g.id, count, now, hour) in samples
    requires forall s :: s in samples && s.game == g.id ==> s.playerCount == count
    ensures Record(g, count, samples, now).averagePlayers == count
  {
    var window := SamplesSince(samples, g.id, now - DayMs);
    assert Sample(g.id, count, now, hour) in window;
    forall i | 0 <= i < |window| ensures window[i].playerCount == count {
      assert window[i] in window;
    }
    ConstantSamplesAverage(window, count);
  }

  /** Untracked games are never touched. */
  lemma {:induction false} UntrackedUntouched(st: Tracker, i: nat, readings: map<GameId, Option<nat>>, now: int,
                                              hour: Hour, t: Tally, j: nat)
    requires i <= |st.games| && j < |st.games| && !Tracked(st.games[j])
    decreases |st.games| - i
    ensures UpdateFrom(st, i, readings, now, hour, t).0.games[j] == st.games[j]
  {
    if i < |st.games| {
      if !Tracked(st.games[i]) {
        UntrackedUntouched(st, i + 1, readings, now, hour, t, j);
      } else {
        var reading := if st.games[i].id in readings then readings[st.games[i].id] else None;
        var step := UpdateOne(st, i, reading, now, hour, t);
        assert step.0.games[j] == st.games[j];
        UntrackedUntouched(step.0, i + 1, readings, now, hour, step.1, j);
      }
    }
  }

  /** Games are told apart by id. */
  predicate UniqueIds(games: seq<Game>) {
    forall a, b :: 0 <= a < b < |games| ==> games[a].id != games[b].id
  }

  lemma UpdateOneKeepsIds(st: Tracker, k: nat, reading: Option<nat>, now: int, hour: Hour, t: Tally, j: nat)
    requires k < |st.games| && j < |st.games| && UniqueIds(st.games)
    ensures var g := UpdateOne(st, k, reading, now, hour, t).0.games;
            |g| == |st.games| && UniqueIds(g) && g[j].id == st.games[j].id
  {
    var g := UpdateOne(st, k, reading, now, hour, t).0.games;
    if reading.Some? {
      TrackedKept(st.games[k], reading.value, UpdateOne(st, k, reading, now, hour, t).0.samples, now);
      assert forall a :: 0 <= a < |g| ==> g[a].id == st.games[a].id;
    }
  }

  /** A game whose reading failed keeps its counts. */
  lemma {:induction false} FailedReadingUntouched(st: Tracker, i: nat, readings: map<GameId, Option<nat>>, now: int,
                                                  hour: Hour, t: Tally, j: nat)
    requires i <= |st.games| && j < |st.games| && UniqueIds(st.games)
    requires st.games[j].id !in readings || readings[st.games[j].id].None?
    decreases |st.games| - i
    ensures UpdateFrom(st, i, readings, now, hour, t).0.games[j] == st.games[j]
  {
    if i < |st.games| {
      if !Tracked(st.games[i]) {
        FailedReadingUntouched(st, i + 1, readings, now, hour, t, j);
      } else {
        var reading := if st.games[i].id in readings then readings[st.games[i].id] else None;
        var step := UpdateOne(st, i, reading, now, hour, t);
        assert step.0.games[j] == st.games[j] by {
          if i != j {
            assert st.games[i].id != st.games[j].id;
          }
        }
        UpdateOneKeepsIds(st, i, reading, now, hour, t, j);
        FailedReadingUntouched(step.0, i + 1, readings, now, hour, step.1, j);
      }
    }
  }

  /** Over a run no game's peak falls, and every game keeps its id. */
  lemma {:induction false} PeaksNeverFall(st: Tracker, i: nat, readings: map<GameId, Option<nat>>, now: int,
                                          hour: Hour, t: Tally, j: nat)
    requires i <= |st.games| && j < |st.games|
    decreases |st.games| - i
    ensures UpdateFrom(st, i, readings, now, hour, t).0.games[j].peakPlayers >= st.games[j].peakPlayers
    ensures UpdateFrom(st, i, readings, now, hour, t).0.games[j].id == st.games[j].id
  {
    if i < |st.games| {
      if !Tracked(st.games[i]) {
        PeaksNeverFall(st, i + 1, readings, now, hour, t, j);
      } else {
        var reading := if st.games[i].id in readings then readings[st.games[i].id] else None;
        var step := UpdateOne(st, i, reading, now, hour, t);
        assert step.0.games[j].peakPlayers >= st.games[j].peakPlayers && step.0.games[j].id == st.games[j].id;
        PeaksNeverFall(step.0, i + 1, readings, now, hour, step.1, j);
      }
    }
  }
}

=== FILE: update_reviews.dfy ===
/** The Steam review importer: for up to twenty active Steam games with
    fewer than ten reviews it imports Steam reviews under one system
    account, deriving a star rating from the recommendation and playtime,
    skipping authors already imported for the game, and then recomputes the
    game's review statistics. Every imported review belongs to the same
    system account, so the (game, user) unique index admits at most one
    imported review per game; a second insert throws and is counted in
    neither counter. The Steam calls are inputs. */
module ReviewsWorker {
  import opened Common
  import opened UserModel
  import opened ReviewModel
  import opened GameModel

  /** One review as the Steam service returns it; playtime in minutes. */
  datatype SteamReview = SteamReview(author: string, recommend: bool, playtime: nat, review: string)

  const SystemEmail := "system@knightgaming.internal"
  const SystemUsername := "steamimport"
  const MinPasswordLength := 8
  const ReviewThreshold := 10
  const GameBatch := 20

  // ---------------------------------------------------------------------
  // Derived fields

  /** The star rating of a Steam review: 2 when not recommended; when
      recommended, 5 above 1000 minutes of playtime and 4 otherwise (the
      branch for more than 500 minutes also gives 4). */
  function DerivedRating(recommend: bool, playtime: nat): (rating: nat)
    ensures !recommend ==> rating == 2
    ensures recommend ==> (rating == 5 <==> playtime > 1000)
    ensures recommend ==> (rating == 4 <==> playtime <= 1000)
  {
    var base := if recommend then 4 else 2;
    if playtime > 1000 && recommend then 5
    else if playtime > 500 && recommend then 4
    else base
  }

  /** Derived ratings are 2, 4 or 5, inside the schema's 1..5. */
  lemma DerivedRatingValues(recommend: bool, playtime: nat)
    ensures DerivedRating(recommend, playtime) in {2, 4, 5}
    ensures MinRating <= DerivedRating(recommend, playtime) as real <= MaxRating
  {
  }

  /** `Math.round(playtime / 60)`: the hours nearest the playtime, halves
      rounded up. */
  function HoursPlayed(playtime: nat): (h: nat)
    ensures 120 * h <= 2 * playtime + 60 < 120 * (h + 1)
  {
    RoundDiv(playtime, 60)
  }

  /** Whole hours are reported exactly. */
  lemma WholeHoursExact(hours: nat)
    ensures HoursPlayed(60 * hours) == hours
  {
    RoundDivAtMost(60 * hours, 60, hours);
    RoundDivAtLeast(60 * hours, 60, hours);
  }

  /** The review stored for a Steam review: approved, titled after the
      recommendation, owned by the system account and remembering the
      Steam author. Title and content are stored trimmed. */
  function SteamToReview(game: GameId, user: UserId, s: SteamReview, now: int): (r: Review)
    ensures r.game == game && r.user == user && r.steamReviewId == Some(s.author)
    ensures r.rating == DerivedRating(s.recommend, s.playtime) as real
    ensures r.title == (if s.recommend then "Recommended" else "Not Recommended")
    ensures r.content == Trim(s.review)
    ensures r.hoursPlayed == Some(HoursPlayed(s.playtime) as real)
    ensures r.recommendGame == s.recommend && r.status == Approved
    ensures r.helpfulVotes == [] && r.flags == []
  {
    var title := if s.recommend then "Recommended" else "Not Recommended";
    assert Trim(title) == title by {
      TrimNoSpace(title);
    }
    Review("steam:" + game + ":" + s.author, game, user, DerivedRating(s.recommend, s.playtime) as real,
           title, Trim(s.review), [], Some(HoursPlayed(s.playtime) as real), s.recommend,
           Approved, None, None, None, 0, 0, [], [], Some(s.author), false, None, now)
  }

  // ---------------------------------------------------------------------
  // Importing the reviews of one game

  /** The review was imported for the game from this Steam author. */
  predicate ImportedFor(r: Review, game: GameId, author: string) {
    r.game == game && r.steamReviewId == Some(author)
  }

  predicate AlreadyImported(reviews: seq<Review>, game: GameId, author: string) {
    exists i :: 0 <= i < |reviews| && ImportedFor(reviews[i], game, author)
  }

  /** No Steam author is imported twice for the same game. */
  predicate UniqueImports(reviews: seq<Review>) {
    forall i, j :: 0 <= i < j < |reviews| && reviews[i].steamReviewId.Some? ==>
      !ImportedFor(reviews[j], reviews[i].game, reviews[i].steamReviewId.value)
  }

  datatype Outcome = Imported | Skipped | Failed

  /** One Steam review: skipped when its author is already imported for the
      game, otherwise inserted unless the save validators or the (game,
      user) unique index refuse it. */
  function ImportOne(reviews: seq<Review>, game: GameId, user: UserId, s: SteamReview, now: int): (r: (seq<Review>, Outcome))
    ensures r.1 != Imported ==> r.0 == reviews
    ensures r.1 == Skipped <==> AlreadyImported(reviews, game, s.author)
    ensures r.1 == Failed <==>
              !AlreadyImported(reviews, game, s.author)
              && (!ReviewValid(SteamToReview(game, user, s, now)) || HasReviewBy(reviews, game, user))
    ensures r.1 == Imported ==> r.0 == reviews + [SteamToReview(game, user, s, now)]
    ensures r.1 == Imported ==> !HasReviewBy(reviews, game, user)
    ensures UniqueImports(reviews) ==> UniqueImports(r.0)
    ensures UniqueAuthors(reviews) ==> UniqueAuthors(r.0)
  {
    if AlreadyImported(reviews, game, s.author) then (reviews, Skipped)
    else
      var n := SteamToReview(game, user, s, now);
      if !ReviewValid(n) || HasReviewBy(reviews, game, user) then (reviews, Failed)
      else
        var r := reviews + [n];
        assert r[|reviews|] == n;
        (r, Imported)
  }

  datatype Tally = Tally(imported: nat, skipped: nat)

  function Note(t: Tally, o: Outcome): Tally {
    match o
    case Imported => t.(imported := t.imported + 1)
    case Skipped => t.(skipped := t.skipped + 1)
    case Failed => t
  }

  /** The inner loop over the Steam reviews of one game. */
  function ImportAll(reviews: seq<Review>, game: GameId, user: UserId, ss: seq<SteamReview>, now: int, t: Tally):
    (r: (seq<Review>, Tally))
    decreases |ss|
    ensures r.1.imported >= t.imported && r.1.skipped >= t.skipped
    ensures r.1.imported + r.1.skipped <= t.imported + t.skipped + |ss|
    ensures |r.0| == |reviews| + (r.1.imported - t.imported) && r.0[..|reviews|] == reviews
    ensures UniqueImports(reviews) ==> UniqueImports(r.0)
    ensures UniqueAuthors(reviews) ==> UniqueAuthors(r.0)
  {
    if |ss| == 0 then (reviews, t)
    else
      var step := ImportOne(reviews, game, user, ss[0], now);
      var rest := ImportAll(step.0, game, user, ss[1..], now, Note(t, step.1));
      assert rest.0[..|reviews|] == reviews by {
        assert rest.0[..|step.0|] == step.0;
        assert step.0[..|reviews|] == reviews;
      }
      rest
  }

  /** Because every imported review belongs to the system account, once
      the account has a review of the game no further one is imported. */
  lemma {:induction false} OneImportPerGame(reviews: seq<Review>, game: GameId, user: UserId, ss: seq<SteamReview>,
                                            now: int, t: Tally)
    requires HasReviewBy(reviews, game, user)
    decreases |ss|
    ensures ImportAll(reviews, game, user, ss, now, t).0 == reviews
    ensures ImportAll(reviews, game, user, ss, now, t).1.imported == t.imported
  {
    if |ss| > 0 {
      var step := ImportOne(reviews, game, user, ss[0], now);
      assert step.1 != Imported;
      OneImportPerGame(reviews, game, user, ss[1..], now, Note(t, step.1));
    }
  }

  // ---------------------------------------------------------------------
  // Statistics and the outer loop

  function HasGameId(id: GameId): Game -> bool {
    (g: Game) => g.id == id
  }

  /** `findByIdAndUpdate(game._id, {reviewCount, averageReviewScore})` with
      the statistics recomputed from the game's approved reviews. */
  function StoreStats(games: seq<Game>, id: GameId, reviews: seq<Review>): (r: seq<Game>)
    ensures |r| == |games|
    ensures forall i :: 0 <= i < |games| && games[i].id != id ==> r[i] == games[i]
    ensures forall i :: 0 <= i < |games| && games[i].id == id ==>
              r[i].reviewCount == RecomputeStats(reviews, id).reviewCount
              && r[i].averageReviewScore == RecomputeStats(reviews, id).averageReviewScore
              && r[i].(reviewCount := games[i].reviewCount, averageReviewScore := games[i].averageReviewScore) == games[i]
  {
    var st := RecomputeStats(reviews, id);
    seq(|games|, i requires 0 <= i < |games| =>
      if games[i].id == id then games[i].(reviewCount := st.reviewCount, averageReviewScore := st.averageReviewScore)
      else games[i])
  }

  /** The games the importer visits: active, with a Steam app id and fewer
      than ten reviews, at most twenty of them in natural order. */
  predicate NeedsReviews(g: Game) {
    g.isActive && g.steamAppId.Some? && g.reviewCount < ReviewThreshold
  }

  function NeedsReviewsFn(): Game -> bool {
    (g: Game) => NeedsReviews(g)
  }

  function Candidates(games: seq<Game>): (r: seq<Game>)
    ensures |r| <= GameBatch
    ensures forall i :: 0 <= i < |r| ==> r[i] in games && NeedsReviews(r[i])
    ensures Count(games, NeedsReviewsFn()) <= GameBatch ==> forall g :: g in games && NeedsReviews(g) ==> g in r
  {
    Prefix(Filter(games, NeedsReviewsFn()), GameBatch)
  }

  /** The state the importer works on. */
  datatype Store = Store(games: seq<Game>, reviews: seq<Review>)

  /** One game of the outer loop. `steam` holds what the Steam call
      returned per game id; a missing id stands for a call that threw, and
      then the statistics are not touched. */
  function ProcessGame(st: Store, id: GameId, user: UserId, steam: map<GameId, seq<SteamReview>>, now: int, t: Tally):
    (r: (Store, Tally))
    ensures id !in steam ==> r == (st, t)
    ensures r.1.imported >= t.imported
    ensures |r.0.reviews| == |st.reviews| + (r.1.imported - t.imported)
    ensures r.0.reviews[..|st.reviews|] == st.reviews
    ensures id in steam ==> r.0.games == StoreStats(st.games, id, r.0.reviews)
    ensures UniqueImports(st.reviews) ==> UniqueImports(r.0.reviews)
    ensures UniqueAuthors(st.reviews) ==> UniqueAuthors(r.0.reviews)
  {
    if id !in steam then (st, t)
    else
      var imported := ImportAll(st.reviews, id, user, steam[id], now, t);
      (Store(StoreStats(st.games, id, imported.0), imported.0), imported.1)
  }

  function ProcessGames(st: Store, ids: seq<GameId>, user: UserId, steam: map<GameId, seq<SteamReview>>, now: int, t: Tally):
    (r: (Store, Tally))
    decreases |ids|
    ensures r.1.imported >= t.imported
    ensures |r.0.games| == |st.games|
    ensures |r.0.reviews| == |st.reviews| + (r.1.imported - t.imported)
    ensures r.0.reviews[..|st.reviews|] == st.reviews
    ensures UniqueImports(st.reviews) ==> UniqueImports(r.0.reviews)
    ensures UniqueAuthors(st.reviews) ==> UniqueAuthors(r.0.reviews)
  {
    if |ids| == 0 then (st, t)
    else
      var step := ProcessGame(st, ids[0], user, steam, now, t);
      var rest := ProcessGames(step.0, ids[1..], user, steam, now, step.1);
      assert rest.0.reviews[..|st.reviews|] == st.reviews by {
        assert rest.0.reviews[..|step.0.reviews|] == step.0.reviews;
        assert step.0.reviews[..|st.reviews|] == st.reviews;
      }
      rest
  }

  // ---------------------------------------------------------------------
  // The system account

  function HasEmail(email: string): User -> bool {
    (u: User) => u.email == email
  }

  function HasUsername(name: string): User -> bool {
    (u: User) => u.username == name
  }

  /** The system account is looked up by e-mail and created only when
      absent; creation throws, ending the run, when the username is taken or
      the random password is shorter than the schema's eight characters. */
  function SystemAccount(users: seq<User>, id: UserId, password: string, now: int): (r: Option<(seq<User>, User)>)
    ensures FirstIndex(users, HasEmail(SystemEmail)).Some? ==>
              r == Some((users, users[FirstIndex(users, HasEmail(SystemEmail)).value]))
    ensures FirstIndex(users, HasEmail(SystemEmail)).None? && r.Some? ==>
              && r.value.0 == users + [r.value.1]
              && r.value.1.email == SystemEmail && r.value.1.username == SystemUsername
              && r.value.1.verified && r.value.1.role == UserRole
    ensures r.Some? ==> r.value.1.email == SystemEmail && r.value.1 in r.value.0
    ensures r.None? <==> FirstIndex(users, HasEmail(SystemEmail)).None?
                          && (FirstIndex(users, HasUsername(SystemUsername)).Some? || |password| < MinPasswordLength)
  {
    match FirstIndex(users, HasEmail(SystemEmail))
    case Some(k) => Some((users, users[k]))
    case None =>
      if FirstIndex(users, HasUsername(SystemUsername)).Some? || |password| < MinPasswordLength then None
      else
        var u := NewUser(id, SystemUsername, SystemEmail, password, None, now).(verified := true);
        Some((users + [u], u))
  }

  /** The whole run: None when creating the system account throws.
      Otherwise the games keep their number, the reviews only grow, by the
      imports, and both uniqueness rules of the reviews are kept. */
  function UpdateReviews(users: seq<User>, st: Store, steam: map<GameId, seq<SteamReview>>,
                         systemId: UserId, password: string, now: int): (r: Option<(seq<User>, Store, Tally)>)
    ensures r.None? <==> FirstIndex(users, HasEmail(SystemEmail)).None?
                         && (FirstIndex(users, HasUsername(SystemUsername)).Some? || |password| < MinPasswordLength)
    ensures r.Some? ==> exists i :: 0 <= i < |r.value.0| && r.value.0[i].email == SystemEmail
    ensures r.Some? ==> |r.value.1.games| == |st.games|
    ensures r.Some? ==> |r.value.1.reviews| == |st.reviews| + r.value.2.imported
                        && r.value.1.reviews[..|st.reviews|] == st.reviews
    ensures r.Some? && UniqueImports(st.reviews) ==> UniqueImports(r.value.1.reviews)
    ensures r.Some? && UniqueAuthors(st.reviews) ==> UniqueAuthors(r.value.1.reviews)
  {
    match SystemAccount(users, systemId, password, now)
    case None => None
    case Some(acct) =>
      var candidates := Candidates(st.games);
      var ids := seq(|candidates|, i requires 0 <= i < |candidates| => candidates[i].id);
      var run := ProcessGames(st, ids, acct.1.id, steam, now, Tally(0, 0));
      var k :| 0 <= k < |acct.0| && acct.0[k] == acct.1;
      assert acct.0[k].email == SystemEmail;
      Some((acct.0, run.0, run.1))
  }

  /** A second run never creates a second system account. */
  lemma SystemAccountCreatedOnce(users: seq<User>, id: UserId, password: string, now: int,
                                 id2: UserId, password2: string, later: int)
    requires SystemAccount(users, id, password, now).Some?
    ensures var first := SystemAccount(users, id, password, now).value;
            SystemAccount(first.0, id2, password2, later) == Some((first.0, first.1))
  {
    var first := SystemAccount(users, id, password, now).value;
    match FirstIndex(users, HasEmail(SystemEmail))
    case Some(k) =>
    case None =>
      var n := |users|;
      assert first.0[n] == first.1;
      FirstIndexIs(first.0, HasEmail(SystemEmail), n);
  }

  /** After a game's turn its statistics are those of its approved
      reviews: the count, and the mean rating or 0 without any. */
  lemma StoredStatsMatchReviews(games: seq<Game>, id: GameId, reviews: seq<Review>, k: nat)
    requires k < |games| && games[k].id == id
    ensures var g := StoreStats(games, id, reviews)[k];
      && g.reviewCount == Count(reviews, ApprovedFor(id))
      && (g.reviewCount == 0 ==> g.averageReviewScore == 0.0)
      && (g.reviewCount > 0 ==> g.averageReviewScore == Mean(RatingSum(Filter(reviews, ApprovedFor(id))), g.reviewCount))
  {
    var g := StoreStats(games, id, reviews)[k];
    var stats := RecomputeStats(reviews, id);
    assert g.reviewCount == stats.reviewCount && g.averageReviewScore == stats.averageReviewScore;
  }
}

=== FILE: user_model.dfy ===
/** The account record: roles, subscription state, profile, preferences,
    counters and stored refresh tokens, with the `isPremium` predicate, the
    field defaults of a fresh account and the `toJSON` field stripping. */
module UserModel {
  import opened Common

  type UserId = string

  datatype Role = UserRole | AdminRole | ModeratorRole

  datatype SubStatus = NoSubscription | Active | Cancelled | Expired
  datatype Tier = Free | Premium

  /** `subscription.*`; times are milliseconds since the epoch. */
  datatype Subscription = Subscription(
    status: SubStatus,
    tier: Tier,
    stripeCustomerId: Option<string>,
    stripeSubscriptionId: Option<string>,
    currentPeriodEnd: Option<int>,
    cancelAtPeriodEnd: Option<bool>)

  datatype Profile = Profile(
    displayName: Option<string>,
    avatar: Option<string>,
    bio: Option<string>,
    favoriteGames: seq<string>)

  datatype Theme = Dark | Light

  datatype Preferences = Preferences(
    theme: Theme,
    emailNotifications: bool,
    newsAlerts: bool,
    pollingInterval: int)

  datatype Stats = Stats(reviewsWritten: nat, leaderboardEntries: nat, lastActive: Option<int>)

  datatype RefreshToken = RefreshToken(token: string, createdAt: int, expiresAt: int)

  /** `password` holds the stored bcrypt hash; hashing itself is a parameter
      wherever it matters. */
  datatype User = User(
    id: UserId,
    username: string,
    email: string,
    password: string,
    role: Role,
    subscription: Subscription,
    profile: Profile,
    preferences: Preferences,
    stats: Stats,
    verified: bool,
    verificationToken: Option<string>,
    resetPasswordToken: Option<string>,
    resetPasswordExpires: Option<int>,
    refreshTokens: seq<RefreshToken>,
    lastLogin: Option<int>,
    createdAt: int)

  const MinPollingInterval := 30000
  const MaxPollingInterval := 300000
  const DefaultPollingInterval := 60000
  const MaxBioLength := 500

  predicate PollingIntervalInBounds(ms: int) {
    MinPollingInterval <= ms <= MaxPollingInterval
  }

  /** `user.isPremium()` at time `now`: premium tier, active status, and a
      period end that is either unset or strictly in the future. */
  predicate IsPremium(u: User, now: int) {
    && u.subscription.tier == Premium
    && u.subscription.status == Active
    && (u.subscription.currentPeriodEnd.None? || u.subscription.currentPeriodEnd.value > now)
  }

  /** A premium user stays premium at every earlier instant. */
  lemma PremiumEarlier(u: User, earlier: int, now: int)
    requires earlier <= now && IsPremium(u, now)
    ensures IsPremium(u, earlier)
  {
  }

  /** Once the period end is reached the account is no longer premium. */
  lemma PremiumEndsAtPeriodEnd(u: User, now: int)
    requires u.subscription.currentPeriodEnd == Some(now)
    ensures !IsPremium(u, now)
  {
  }

  const DefaultSubscription := Subscription(NoSubscription, Free, None, None, None, None)
  const DefaultPreferences := Preferences(Dark, true, false, DefaultPollingInterval)

  /** A freshly created account: every field not given takes its schema default. */
  function NewUser(id: UserId, username: string, email: string, passwordHash: string,
                   verificationToken: Option<string>, now: int): (u: User)
    ensures u.id == id && u.username == username && u.email == email
    ensures u.refreshTokens == [] && u.stats.reviewsWritten == 0 && u.stats.leaderboardEntries == 0
    ensures forall t :: !IsPremium(u, t)
    ensures PollingIntervalInBounds(u.preferences.pollingInterval)
    ensures u.role == UserRole && !u.verified && u.verificationToken == verificationToken
    ensures u.subscription.status == NoSubscription && u.subscription.tier == Free
            && u.subscription.stripeCustomerId.None? && u.subscription.stripeSubscriptionId.None?
    ensures u.preferences.theme == Dark && u.preferences.emailNotifications && !u.preferences.newsAlerts
            && u.preferences.pollingInterval == 60000
    ensures u.createdAt == now && u.lastLogin.None?
  {
    User(id, username, email, passwordHash, UserRole, DefaultSubscription,
         Profile(None, None, None, []), DefaultPreferences, Stats(0, 0, None),
         false, verificationToken, None, None, [], None, now)
  }

  // ---------------------------------------------------------------------
  // toJSON

  /** A JSON value, enough to describe a serialized account. */
  datatype Json = JStr(s: string) | JNum(n: int) | JBool(b: bool) | JArr(items: seq<Json>) | JObj(fields: map<string, Json>)

  /** The fields `toJSON` deletes from the serialized account. */
  const SensitiveFields: set<string> :=
    {"password", "refreshTokens", "verificationToken", "resetPasswordToken", "resetPasswordExpires"}

  function OptStr(m: map<string, Json>, k: string, o: Option<string>): map<string, Json> {
    if o.Some? then m[k := JStr(o.value)] else m
  }

  function OptNum(m: map<string, Json>, k: string, o: Option<int>): map<string, Json> {
    if o.Some? then m[k := JNum(o.value)] else m
  }

  function RoleName(r: Role): string {
    match r
    case UserRole => "user"
    case AdminRole => "admin"
    case ModeratorRole => "moderator"
  }

  function TokenJson(t: RefreshToken): Json {
    JObj(map["token" := JStr(t.token), "createdAt" := JNum(t.createdAt), "expiresAt" := JNum(t.expiresAt)])
  }

  function TokensJson(ts: seq<RefreshToken>): (r: seq<Json>)
    ensures |r| == |ts|
  {
    if |ts| == 0 then [] else [TokenJson(ts[0])] + TokensJson(ts[1..])
  }

  /** `user.toObject()`: the stored document; unset optional fields are absent. */
  function ToObject(u: User): map<string, Json> {
    var base := map[
      "_id" := JStr(u.id),
      "username" := JStr(u.username),
      "email" := JStr(u.email),
      "password" := JStr(u.password),
      "role" := JStr(RoleName(u.role)),
      "verified" := JBool(u.verified),
      "refreshTokens" := JArr(TokensJson(u.refreshTokens)),
      "createdAt" := JNum(u.createdAt),
      "stats" := JObj(map["reviewsWritten" := JNum(u.stats.reviewsWritten),
                          "leaderboardEntries" := JNum(u.stats.leaderboardEntries)]),
      "preferences" := JObj(map["theme" := JStr(if u.preferences.theme == Dark then "dark" else "light"),
                                "emailNotifications" := JBool(u.preferences.emailNotifications),
                                "newsAlerts" := JBool(u.preferences.newsAlerts),
                                "pollingInterval" := JNum(u.preferences.pollingInterval)])];
    var m1 := OptStr(base, "verificationToken", u.verificationToken);
    var m2 := OptStr(m1, "resetPasswordToken", u.resetPasswordToken);
    var m3 := OptNum(m2, "resetPasswordExpires", u.resetPasswordExpires);
    OptNum(m3, "lastLogin", u.lastLogin)
  }

  /** `toJSON`: the document with exactly the sensitive fields deleted. */
  function ToJson(doc: map<string, Json>): (r: map<string, Json>)
    ensures r.Keys == doc.Keys - SensitiveFields
    ensures forall k :: k in r ==> r[k] == doc[k]
  {
    map k | k in doc && k !in SensitiveFields :: doc[k]
  }

  /** The serialized account never carries a secret, and keeps everything else. */
  lemma ToJsonHidesSecrets(u: User)
    ensures forall k :: k in SensitiveFields ==> k !in ToJson(ToObject(u))
    ensures "username" in ToJson(ToObject(u)) && ToJson(ToObject(u))["username"] == JStr(u.username)
    ensures "password" in ToObject(u)
  {
  }

  /** Stripping twice is stripping once. */
  lemma ToJsonIdempotent(doc: map<string, Json>)
    ensures ToJson(ToJson(doc)) == ToJson(doc)
  {
  }

  // ---------------------------------------------------------------------
  // Save-time validation of the account schema

  /** The schema bounds Mongoose checks when an account is saved with validators. */
  predicate SchemaValid(u: User) {
    && 3 <= |u.username| <= 30
    && PollingIntervalInBounds(u.preferences.pollingInterval)
    && (u.profile.bio.None? || |u.profile.bio.value| <= MaxBioLength)
  }
}

=== FILE: validators.dfy ===
/** The request validator chains and the `validate` middleware. Each chain is
    the list of field errors it reports, one per failing check, in chain
    order; a request passes when the list is empty. The checks the
    validation library implements itself (isEmail, normalizeEmail, isURL)
    enter as the library's verdict. */
module Validators {
  import opened Common

  datatype FieldError = FieldError(field: string, message: string)

  /** A JSON body field read by a numeric check. */
  datatype NumField = NoNumber | Num(x: real) | NotANumber

  /** A JSON body field read by an object or array check. */
  datatype Shape = NoValue | IsObject | IsArray | OtherShape

  function Check(ok: bool, field: string, message: string): (r: seq<FieldError>)
    ensures |r| == 0 <==> ok
  {
    if ok then [] else [FieldError(field, message)]
  }

  /** `validate`: 400 with every collected error, or on to the controller. */
  datatype Gate = Next | BadRequest(status: int, errors: seq<FieldError>)

  function Validate(errors: seq<FieldError>): (g: Gate)
    ensures g.Next? <==> |errors| == 0
    ensures g.BadRequest? ==> g.status == 400 && g.errors == errors
  {
    if |errors| == 0 then Next else BadRequest(400, errors)
  }

  // ---------------------------------------------------------------------
  // Character classes

  predicate IsLower(c: char) { 'a' <= c <= 'z' }
  predicate IsUpper(c: char) { 'A' <= c <= 'Z' }
  predicate IsWordChar(c: char) { IsLower(c) || IsUpper(c) || IsDigit(c) || c == '_' }
  predicate IsHexDigit(c: char) { IsDigit(c) || 'a' <= c <= 'f' || 'A' <= c <= 'F' }

  /** The characters a regular expression's `.` does not match. */
  predicate IsLineTerminator(c: char) {
    c == '\n' || c == '\r' || c == '\U{2028}' || c == '\U{2029}'
  }

  /** The text before the first line terminator: what `^(?=.*x)` can see. */
  function FirstLine(s: string): (r: string)
    ensures r <= s
    ensures forall i :: 0 <= i < |r| ==> !IsLineTerminator(r[i])
    ensures |r| < |s| ==> IsLineTerminator(s[|r|])
  {
    if |s| == 0 || IsLineTerminator(s[0]) then [] else [s[0]] + FirstLine(s[1..])
  }

  /** `isMongoId`, and the `/^[0-9a-fA-F]{24}$/` test of the games
      controller: exactly 24 hexadecimal characters. */
  predicate IsObjectId(s: string) {
    |s| == 24 && forall i :: 0 <= i < |s| ==> IsHexDigit(s[i])
  }

  predicate AllObjectIds(ids: seq<string>) {
    forall k :: 0 <= k < |ids| ==> IsObjectId(ids[k])
  }

  function LowerHex(c: char): char {
    if 'A' <= c <= 'F' then (c as int + 32) as char else c
  }

  /** The id a well-formed ObjectId text casts to, spelled back in the
      lower-case hexadecimal Mongo prints. */
  function CanonicalId(s: string): (r: string)
    requires IsObjectId(s)
    ensures IsObjectId(r)
    ensures forall i :: 0 <= i < |r| ==> !('A' <= r[i] <= 'F')
    ensures (forall i :: 0 <= i < |s| ==> !('A' <= s[i] <= 'F')) ==> r == s
  {
    seq(|s|, i requires 0 <= i < |s| => LowerHex(s[i]))
  }

  /** Two spellings name the same ObjectId exactly when they agree up to
      the case of their letters, and casting is idempotent. */
  lemma CanonicalIdSameObject(s: string, t: string)
    requires IsObjectId(s) && IsObjectId(t)
    ensures CanonicalId(CanonicalId(s)) == CanonicalId(s)
    ensures CanonicalId(s) == CanonicalId(t) <==> forall i :: 0 <= i < 24 ==> LowerHex(s[i]) == LowerHex(t[i])
  {
    var cs, ct := CanonicalId(s), CanonicalId(t);
    assert |cs| == 24 && forall i :: 0 <= i < 24 ==> cs[i] == LowerHex(s[i]);
    assert |ct| == 24 && forall i :: 0 <= i < 24 ==> ct[i] == LowerHex(t[i]);
    if forall i :: 0 <= i < 24 ==> LowerHex(s[i]) == LowerHex(t[i]) {
      assert forall i :: 0 <= i < 24 ==> cs[i] == ct[i];
    }
  }

  /** Casting each element of an id array. */
  function CanonicalIds(ids: seq<string>): (r: seq<string>)
    requires AllObjectIds(ids)
    ensures |r| == |ids| && AllObjectIds(r)
    ensures forall k :: 0 <= k < |ids| ==> r[k] == CanonicalId(ids[k])
  {
    seq(|ids|, k requires 0 <= k < |ids| => CanonicalId(ids[k]))
  }

  /** `isInt` on query text: an optional sign and at least one digit. */
  predicate IsIntText(s: string) {
    if |s| > 0 && (s[0] == '-' || s[0] == '+') then |s| > 1 && forall i :: 1 <= i < |s| ==> IsDigit(s[i])
    else |s| > 0 && forall i :: 0 <= i < |s| ==> IsDigit(s[i])
  }

  /** `parseInt` of integer text. */
  function IntTextValue(s: string): int
    requires IsIntText(s)
  {
    if s[0] == '-' then -(DigitsValue(s[1..]) as int)
    else if s[0] == '+' then DigitsValue(s[1..])
    else DigitsValue(s)
  }

  /** `isInt({min, max})` on a JSON number: integral and within bounds. */
  predicate IntInRange(v: NumField, lo: int, hi: int) {
    v.Num? && v.x.Floor as real == v.x && lo as real <= v.x <= hi as real
  }

  // ---------------------------------------------------------------------
  // Accounts

  /** A username: trimmed length 3..30, letters, digits and underscores. */
  predicate UsernameValid(s: string) {
    var t := Trim(s);
    3 <= |t| <= 30 && forall i :: 0 <= i < |t| ==> IsWordChar(t[i])
  }

  function UsernameErrors(s: string): (errs: seq<FieldError>)
    ensures |errs| == 0 <==> UsernameValid(s)
    ensures |errs| <= 2
  {
    var t := Trim(s);
    Check(3 <= |t| <= 30, "username", "Username must be between 3 and 30 characters")
    + Check(|t| > 0 && forall i :: 0 <= i < |t| ==> IsWordChar(t[i]), "username",
            "Username can only contain letters, numbers, and underscores")
  }

  /** A password: at least 8 characters, with a lowercase letter, an
      uppercase letter and a digit all on its first line. */
  predicate PasswordValid(s: string) {
    |s| >= 8 && HasCharClasses(FirstLine(s))
  }

  /** The pattern's three lookaheads: a lowercase letter, an uppercase
      letter and a digit. */
  predicate HasCharClasses(line: string) {
    && (exists i :: 0 <= i < |line| && IsLower(line[i]))
    && (exists i :: 0 <= i < |line| && IsUpper(line[i]))
    && (exists i :: 0 <= i < |line| && IsDigit(line[i]))
  }

  function PasswordErrors(s: string): (errs: seq<FieldError>)
    ensures |errs| == 0 <==> PasswordValid(s)
  {
    Check(|s| >= 8, "password", "Password must be at least 8 characters")
    + Check(HasCharClasses(FirstLine(s)), "password",
            "Password must contain at least one uppercase letter, one lowercase letter, and one number")
  }

  /** A password whose letters and digits all follow a line break is
      refused, however strong. */
  lemma PasswordClassesMustPrecedeNewline(rest: string)
    ensures !PasswordValid("\n" + rest)
  {
    assert FirstLine("\n" + rest) == [];
  }

  lemma StrongPasswordAccepted()
    ensures PasswordValid("Passw0rd")
  {
    var s := "Passw0rd";
    assert forall i :: 0 <= i < |s| ==> !IsLineTerminator(s[i]);
    FirstLineWhole(s);
    assert IsUpper(s[0]) && IsLower(s[1]) && IsDigit(s[5]);
  }

  /** A text without a line break is its own first line. */
  lemma {:induction false} FirstLineWhole(s: string)
    requires forall i :: 0 <= i < |s| ==> !IsLineTerminator(s[i])
    ensures FirstLine(s) == s
  {
    if |s| > 0 {
      FirstLineWhole(s[1..]);
    }
  }

  /** `userValidators.register`; `emailValid` is the library's isEmail. */
  function RegisterErrors(username: string, emailValid: bool, password: string): (errs: seq<FieldError>)
    ensures |errs| == 0 <==> UsernameValid(username) && emailValid && PasswordValid(password)
  {
    UsernameErrors(username) + Check(emailValid, "email", "Must be a valid email address") + PasswordErrors(password)
  }

  /** `userValidators.login`: a valid email and a non-empty password. */
  function LoginErrors(emailValid: bool, password: Option<string>): (errs: seq<FieldError>)
    ensures |errs| == 0 <==> emailValid && Truthy(password)
  {
    Check(emailValid, "email", "Must be a valid email address")
    + Check(Truthy(password), "password", "Password is required")
  }

  /** `userValidators.updateProfile`: optional display name (at most 50) and
      bio (at most 500), both trimmed. */
  function ProfileErrors(displayName: Option<string>, bio: Option<string>): (errs: seq<FieldError>)
    ensures |errs| == 0 <==>
              (displayName.None? || |Trim(displayName.value)| <= 50) && (bio.None? || |Trim(bio.value)| <= 500)
  {
    Check(displayName.None? || |Trim(displayName.value)| <= 50, "displayName", "Display name must be less than 50 characters")
    + Check(bio.None? || |Trim(bio.value)| <= 500, "bio", "Bio must be less than 500 characters")
  }

  // ---------------------------------------------------------------------
  // Reviews, leaderboard, news, AI

  datatype ReviewBody = ReviewBody(gameId: Option<string>, rating: NumField, title: string, content: string,
                                   tags: Shape, hoursPlayed: NumField)

  /** `reviewValidators.create`. */
  predicate ReviewBodyValid(b: ReviewBody) {
    && Truthy(b.gameId) && IsObjectId(b.gameId.value)
    && IntInRange(b.rating, 1, 5)
    && 5 <= |Trim(b.title)| <= 100
    && 50 <= |Trim(b.content)| <= 5000
    && (b.tags.NoValue? || b.tags.IsArray?)
    && (b.hoursPlayed.NoNumber? || (b.hoursPlayed.Num? && b.hoursPlayed.x >= 0.0))
  }

  function ReviewBodyErrors(b: ReviewBody): (errs: seq<FieldError>)
    ensures |errs| == 0 <==> ReviewBodyValid(b)
  {
    Check(Truthy(b.gameId), "gameId", "Game ID is required")
    + Check(b.gameId.Some? && IsObjectId(b.gameId.value), "gameId", "Invalid game ID")
    + Check(IntInRange(b.rating, 1, 5), "rating", "Rating must be between 1 and 5")
    + Check(5 <= |Trim(b.title)| <= 100, "title", "Title must be between 5 and 100 characters")
    + Check(50 <= |Trim(b.content)| <= 5000, "content", "Review content must be between 50 and 5000 characters")
    + Check(b.tags.NoValue? || b.tags.IsArray?, "tags", "Tags must be an array")
    + Check(b.hoursPlayed.NoNumber? || (b.hoursPlayed.Num? && b.hoursPlayed.x >= 0.0), "hoursPlayed",
            "Hours played must be a positive number")
  }

  datatype SubmitBody = SubmitBody(gameId: Option<string>, score: NumField, category: Option<string>, metadata: Shape)

  /** `leaderboardValidators.submit`: a numeric score, an optional category of
      at most 50 trimmed characters, optional object metadata. */
  predicate SubmitBodyValid(b: SubmitBody) {
    && Truthy(b.gameId) && IsObjectId(b.gameId.value)
    && b.score.Num?
    && (b.category.None? || |Trim(b.category.value)| <= 50)
    && (b.metadata.NoValue? || b.metadata.IsObject?)
  }

  function SubmitBodyErrors(b: SubmitBody): (errs: seq<FieldError>)
    ensures |errs| == 0 <==> SubmitBodyValid(b)
  {
    Check(Truthy(b.gameId), "gameId", "Game ID is required")
    + Check(b.gameId.Some? && IsObjectId(b.gameId.value), "gameId", "Invalid game ID")
    + Check(b.score.Num?, "score", "Score must be a number")
    + Check(b.category.None? || |Trim(b.category.value)| <= 50, "category", "Category must be less than 50 characters")
    + Check(b.metadata.NoValue? || b.metadata.IsObject?, "metadata", "Metadata must be an object")
  }

  const NewsCategories: set<string> := {"news", "review", "guide", "announcement", "patch-notes", "industry", "esports"}

  datatype NewsBody = NewsBody(title: string, summary: string, content: string, category: string, featuredImageIsUrl: bool)

  /** `newsValidators.create`; `featuredImageIsUrl` is the library's isURL. */
  function NewsBodyErrors(b: NewsBody): (errs: seq<FieldError>)
    ensures |errs| == 0 <==>
              && 5 <= |Trim(b.title)| <= 200 && 10 <= |Trim(b.summary)| <= 500 && |Trim(b.content)| >= 50
              && b.category in NewsCategories && b.featuredImageIsUrl
  {
    Check(5 <= |Trim(b.title)| <= 200, "title", "Title must be between 5 and 200 characters")
    + Check(10 <= |Trim(b.summary)| <= 500, "summary", "Summary must be between 10 and 500 characters")
    + Check(|Trim(b.content)| >= 50, "content", "Content must be at least 50 characters")
    + Check(b.category in NewsCategories, "category", "Invalid category")
    + Check(b.featuredImageIsUrl, "featuredImage", "Featured image must be a valid URL")
  }

  const TimeRanges: set<string> := {"24h", "48h", "7d", "30d"}

  /** `aiValidators.summarize`: trimmed text of 50..10000, optional maxWords
      20..200. */
  function SummarizeErrors(text: string, maxWords: NumField): (errs: seq<FieldError>)
    ensures |errs| == 0 <==> 50 <= |Trim(text)| <= 10000 && (maxWords.NoNumber? || IntInRange(maxWords, 20, 200))
  {
    Check(50 <= |Trim(text)| <= 10000, "text", "Text must be between 50 and 10000 characters")
    + Check(maxWords.NoNumber? || IntInRange(maxWords, 20, 200), "maxWords", "Max words must be between 20 and 200")
  }

  /** `aiValidators.trendHighlight`: a game id and an optional known range. */
  function TrendErrors(gameId: Option<string>, timeRange: Option<string>): (errs: seq<FieldError>)
    ensures |errs| == 0 <==>
              Truthy(gameId) && IsObjectId(gameId.value) && (timeRange.None? || timeRange.value in TimeRanges)
  {
    Check(Truthy(gameId), "gameId", "Game ID is required")
    + Check(gameId.Some? && IsObjectId(gameId.value), "gameId", "Invalid game ID")
    + Check(timeRange.None? || timeRange.value in TimeRanges, "timeRange", "Invalid time range")
  }

  // ---------------------------------------------------------------------
  // Query strings

  /** `queryValidators.pagination` on the raw query text. */
  predicate PaginationValid(page: Option<string>, limit: Option<string>) {
    && (page.None? || (IsIntText(page.value) && IntTextValue(page.value) >= 1))
    && (limit.None? || (IsIntText(limit.value) && 1 <= IntTextValue(limit.value) <= 100))
  }

  function PaginationErrors(page: Option<string>, limit: Option<string>): (errs: seq<FieldError>)
    ensures |errs| == 0 <==> PaginationValid(page, limit)
  {
    Check(page.None? || (IsIntText(page.value) && IntTextValue(page.value) >= 1), "page", "Page must be a positive integer")
    + Check(limit.None? || (IsIntText(limit.value) && 1 <= IntTextValue(limit.value) <= 100), "limit",
            "Limit must be between 1 and 100")
  }

  datatype PageParams = PageParams(page: nat, limit: nat)

  /** `parseInt` of the validated parameters, with the controller's defaults
      for absent ones. */
  function ResolvePage(page: Option<string>, limit: Option<string>, defaultLimit: nat): (p: PageParams)
    requires PaginationValid(page, limit)
    requires 1 <= defaultLimit <= 100
    ensures p.page >= 1 && 1 <= p.limit <= 100
    ensures page.None? ==> p.page == 1
    ensures limit.None? ==> p.limit == defaultLimit
    ensures page.Some? ==> p.page == IntTextValue(page.value)
    ensures limit.Some? ==> p.limit == IntTextValue(limit.value)
  {
    PageParams(if page.None? then 1 else IntTextValue(page.value),
               if limit.None? then defaultLimit else IntTextValue(limit.value))
  }

  /** Text made of a number's canonical digits passes as that number. */
  lemma CanonicalPageAccepted(n: nat)
    requires n >= 1
    ensures IsIntText(NatToString(n)) && IntTextValue(NatToString(n)) == n
  {
    NatToStringRoundTrip(n);
  }

  /** A query that spells page and limit canonically resolves to exactly
      those numbers. */
  lemma CanonicalQueryResolves(n: nat, m: nat, defaultLimit: nat)
    requires n >= 1 && 1 <= m <= 100 && 1 <= defaultLimit <= 100
    ensures PaginationValid(Some(NatToString(n)), Some(NatToString(m)))
    ensures ResolvePage(Some(NatToString(n)), Some(NatToString(m)), defaultLimit) == PageParams(n, m)
  {
    CanonicalPageAccepted(n);
    CanonicalPageAccepted(m);
  }

  /** `queryValidators.search`: an optional query of 2..100 trimmed characters. */
  function SearchErrors(q: Option<string>): (errs: seq<FieldError>)
    ensures |errs| == 0 <==> q.None? || 2 <= |Trim(q.value)| <= 100
  {
    Check(q.None? || 2 <= |Trim(q.value)| <= 100, "q", "Search query must be between 2 and 100 characters")
  }
}
